=== FILE: README.md ===
# aderite core in Dafny

A functional model of the core of **aderite**, a small game engine. Its
runtime keeps serializable objects and assets in handle-indexed tables,
loads them through a prioritised loader pool and decodes raw files
(shaders, meshes, textures). It packs material properties into a uniform
buffer, and keeps scenes of game objects and tagged entities with their
components. It also drives per-frame updates by engine state and
dispatches script events. The editor adds a material-type layout and a
shader-header generator, a virtual file system of directories and files,
and the node graphs of the pipeline and material editors.

Every component is one module in one file. State is an immutable
datatype. Every operation is a function, or a method when it has a loop,
that returns the new state. Pointers become identities (`nat`) or
`Option`s. Containers become `seq`, `map` and `set`. Calls into code that
is not modelled (YAML, file handles, Mono, PhysX, FMOD, bgfx) become
parameters, or are left out. `ADERITE_DYNAMIC_ASSERT` conditions become
`requires` clauses.

| file | models |
|---|---|
| Wrappers.dfy | `Option` and `Result` |
| Serializer.dfy | `io::Serializer` object table |
| AssetManager.dfy | `asset::AssetManager` registry |
| Reflector.dfy | `reflection::Reflector` type map |
| LoaderPool.dfy | `io::LoaderPool` queue |
| Loader.dfy | `io::Loader` decoders |
| TextureSource.dfy | `asset::TextureSource` |
| MaterialProperty.dfy | editor `Property` |
| MaterialLayout.dfy | `MaterialTypeAsset::recalculate` and `EditorMaterialType` layout |
| Compiler.dfy, Numerals.dfy | material header generation in the editor `Compiler` |
| MaterialAsset.dfy | `asset::MaterialAsset` |
| ColliderList.dfy | `asset::ColliderListAsset` |
| GameObject.dfy, Scene.dfy | `scene::GameObject`, `scene::Scene` |
| Entity.dfy, TagSelector.dfy | `scene::Entity` tags, `TagSelector` |
| RefCounts.dfy | reference counts used by the component data |
| AudioSourceData.dfy, RenderableData.dfy, PhysicsProperties.dfy | component data |
| InputManager.dfy | `input::InputManager` |
| Engine.dfy | `Engine` init and the per-state update loop |
| ScriptEventMap.dfy, ScriptSystem.dfy | scripting event map and system |
| Vfs.dfy | editor `vfs::Directory` and `vfs::VFS` |
| NodeGraph.dfy, NodeEval.dfy | editor `node::Graph` and `node::Node` evaluation |
| ConvertNode.dfy | editor `node::ConvertNode` |
| GraphX.dfy | editor `node::GraphX` |

## Model

| member | source | states |
|---|---|---|
| Serializer.NextAvailableHandle | runtime/src/aderite/io/Serializer.cpp:206-227 | the returned slot is null; with the flag clear a null slot is appended; otherwise the lowest null slot is returned, or on a false positive the flag is cleared and a slot appended |
| Serializer.Add | runtime/src/aderite/io/Serializer.cpp:132-138 | an object without a handle gets a valid one whose slot was free, is stored there, every other slot is unchanged and the table stays well formed |
| Serializer.Remove | runtime/src/aderite/io/Serializer.cpp:140-152 | for an existing slot: that slot becomes null, the flag is set, nothing else changes; the warning fires iff the slot was already null |
| Serializer.Get | runtime/src/aderite/io/Serializer.cpp:125-130 | an object found in slot h carries handle h |
| Serializer.GetAfterParseType | runtime/src/aderite/io/Serializer.cpp:51-130 | after `parseType`, `get` of the object's handle returns it and every other existing handle reads as before |
| Serializer.GetAfterRemove | runtime/src/aderite/io/Serializer.cpp:125-152 | after `remove(h)`, `get(h)` is null and every other handle reads as before |
| Serializer.GetAfterAdd | runtime/src/aderite/io/Serializer.cpp:125-138 | after `add`, `get` of the new handle returns the object with that handle, and any other existing handle reads as before unless it was the free slot the object took |
| Serializer.GetGuardInverted | runtime/src/aderite/io/Serializer.cpp:128 | the `get` guard as written holds exactly for handles with no slot |
| Serializer.RemoveGuardOffByOne | runtime/src/aderite/io/Serializer.cpp:142 | the `remove` guard as written admits handle 0 on an empty table |
| Serializer.ParseType | runtime/src/aderite/io/Serializer.cpp:51-59 | a handle past the end grows the table to h+1 with null padding and sets the flag; the object lands at its handle; other slots are unchanged |
| Serializer.ParseTypePreserves | runtime/src/aderite/io/Serializer.cpp:51-59 | storing a parsed object keeps the table well formed |
| Serializer.CachedLookup | runtime/src/aderite/io/Serializer.cpp:154-157 | a hit happens iff the slot exists and is populated, and returns what `get` returns |
| Serializer.AddThenGet | runtime/src/aderite/io/Serializer.cpp:125-138 | looking up the handle an added object received finds that object |
| Serializer.RemoveThenMiss | runtime/src/aderite/io/Serializer.cpp:140-157 | after `remove(h)` the cached lookup of h misses |
| Serializer.RemoveThenReuse | runtime/src/aderite/io/Serializer.cpp:140-220 | after a removal the next handle handed out is at most the removed one |
| AssetManager.FindAsset | runtime/src/aderite/asset/AssetManager.cpp:187-189 | the index of the first entry holding the asset, or None iff no entry holds it |
| AssetManager.FindHandle | runtime/src/aderite/asset/AssetManager.cpp:138-140 | the index of the first entry with the handle, or None iff none has it |
| AssetManager.Track | runtime/src/aderite/asset/AssetManager.cpp:175-178 | the asset is appended under the counter's handle, stamped with it, and the counter steps by one |
| AssetManager.Untrack | runtime/src/aderite/asset/AssetManager.cpp:183-195 | the first entry holding the asset (which must have no references) is erased, others keep their order; an unknown asset changes nothing; the counter never moves |
| AssetManager.Has | runtime/src/aderite/asset/AssetManager.cpp:123-132 | for a valid handle, true iff some entry carries it |
| AssetManager.GetCached | runtime/src/aderite/asset/AssetManager.cpp:134-153 | for a tracked handle, the asset currently loaded in an entry carrying the handle |
| AssetManager.Update | runtime/src/aderite/asset/AssetManager.cpp:49-69 | entries and handles stay; referenced assets stay, unreferenced ones become null; exactly the referenced assets that need loading are enqueued |
| AssetManager.LoadRegistry | runtime/src/aderite/asset/AssetManager.cpp:71-92 | only an empty registry loads; the stored handles come back unloaded in file order with the stored counter |
| AssetManager.TrackPreservesFresh | runtime/src/aderite/asset/AssetManager.cpp:175-178 | tracking keeps handles distinct and below the counter, and the new handle is unused |
| AssetManager.UntrackPreservesFresh | runtime/src/aderite/asset/AssetManager.cpp:183-195 | untracking keeps handles distinct and below the counter |
| AssetManager.NoHandleReuse | runtime/src/aderite/asset/AssetManager.cpp:175-195 | after an untrack, the next track hands out a handle no earlier entry ever had |
| AssetManager.TrackThenGet | runtime/src/aderite/asset/AssetManager.cpp:134-178 | after tracking, the new handle is known and its cached lookup finds an asset |
| Reflector.LinkInstancer | runtime/src/aderite/reflection/Reflector.cpp:83-97 | the instancer of the type is set; a type already known keeps its recorded name, a new type records the given name |
| Reflector.LinkPreservesConsistent | runtime/src/aderite/reflection/Reflector.cpp:83-97 | linking keeps the types with an instancer and the types with a name the same set |
| Reflector.LinkNewThenResolve | runtime/src/aderite/reflection/Reflector.cpp:95-107 | after linking a new type, resolving it gives the instancer and reflecting its name gives the name |
| Reflector.LinkExistingKeepsName | runtime/src/aderite/reflection/Reflector.cpp:84-107 | re-linking a known type replaces the instancer but keeps the first name |
| Reflector.LinkIsLocal | runtime/src/aderite/reflection/Reflector.cpp:83-97 | linking A never changes the instancer or the name of any B other than A |
| Reflector.ExposeAll | runtime/src/aderite/reflection/Reflector.cpp:38-69 | exposing a list registers every type in it and unregisters none |
| Reflector.ExposureIndexCorrect | runtime/src/aderite/reflection/Reflector.cpp:38-69 | every runtime type appears in the exposure list, at its own position |
| Reflector.Init | runtime/src/aderite/reflection/Reflector.cpp:33-75 | after `init` every runtime type is registered |
| Reflector.ExposeAllRuntimeTypes | runtime/src/aderite/reflection/Reflector.cpp:38-69 | exposing the runtime list registers each of the 20 runtime types |
| Reflector.InitRegistersClasses | runtime/src/aderite/reflection/Reflector.cpp:33-75 | on a fresh reflector, `init` links each runtime type to its class's instancer under that class's name |
| Reflector.ExposeFreshTypes | runtime/src/aderite/reflection/Reflector.cpp:83-97 | exposing distinct, unregistered types registers each with its own instancer and name |
| Reflector.ExposeKeepsUntouched | runtime/src/aderite/reflection/Reflector.cpp:83-97 | exposing a list never changes a type outside it |
| LoaderPool.IsLoading | runtime/src/aderite/io/LoaderPool.cpp:111-126 | true iff the loadable is queued or some loader is currently working on it, both compared by identity |
| LoaderPool.HeldNotEnqueued | runtime/src/aderite/io/LoaderPool.cpp:53-59 | a loadable some loader is working on is never queued again: enqueue leaves the pool unchanged |
| LoaderPool.EnqueueAddsOne | runtime/src/aderite/io/LoaderPool.cpp:53-88 | enqueue changes the pool iff the loadable needs loading and is neither queued nor held, and then adds exactly that one item |
| LoaderPool.Enqueue | runtime/src/aderite/io/LoaderPool.cpp:54-88 | no change if the loadable is already loading or needs no loading; otherwise LOW goes to the back, NORMAL to index highEnd, HIGH to the front with highEnd stepped |
| LoaderPool.GetNextLoadable | runtime/src/aderite/io/LoaderPool.cpp:90-109 | a terminated pool yields null and does not change; otherwise the front is removed and returned and a positive highEnd is stepped down |
| LoaderPool.EnqueuePreservesValid | runtime/src/aderite/io/LoaderPool.cpp:54-126 | enqueue keeps highEnd within the queue, keeps exactly the HIGH items in front of it, and never queues a loadable twice |
| LoaderPool.GetNextPreservesValid | runtime/src/aderite/io/LoaderPool.cpp:96-104 | taking the next loadable keeps that queue shape |
| LoaderPool.EnqueueOrder | runtime/src/aderite/io/LoaderPool.cpp:69-85 | a new HIGH or NORMAL item is served before every waiting item of its priority; a new LOW item is served after every waiting item |
| Loader.DecodeLE | runtime/src/aderite/io/Loader.cpp:267-268 | the little-endian value of k bytes lies below 256^k |
| Loader.EncodeLE | runtime/src/aderite/io/Loader.cpp:267-268 | the encoding of a value in k bytes is k bytes long |
| Loader.DecodeEncodeLE | runtime/src/aderite/io/Loader.cpp:267-268 | decoding the k-byte encoding of a value below 256^k gives the value back |
| Loader.LoadShader | runtime/src/aderite/io/Loader.cpp:258-279 | the error is the missing-file one iff the chunk is empty; it succeeds iff the chunk holds its 8-byte prefix and the n bytes it claims; then vertex = bytes [8, 8+n) and fragment = the rest |
| Loader.FragmentSizeAsWritten | runtime/src/aderite/io/Loader.cpp:271 | the fragment size the source computes, as a 64-bit unsigned value |
| Loader.FragmentSizeWraps | runtime/src/aderite/io/Loader.cpp:271 | an 8-byte chunk claiming a 1-byte vertex source gives a fragment size of 2^64 - 1 |
| Loader.LoadEncodedShader | runtime/src/aderite/io/Loader.cpp:266-277 | loading a length-prefixed blob gives back both sources unchanged |
| Loader.LoadBinary | runtime/src/aderite/io/Loader.cpp:281-293 | an empty chunk is the missing-file error; otherwise the content is the chunk itself |
| Loader.Interleave | runtime/src/aderite/io/Loader.cpp:150-164 | 8 floats per vertex, in vertex order: position, normal, first UV channel |
| Loader.GatherIndices | runtime/src/aderite/io/Loader.cpp:167-175 | the indices of every face concatenated in face order |
| Loader.LoadMesh | runtime/src/aderite/io/Loader.cpp:94-178 | the missing-file error, the importer's error, "more than 1 mesh", "no meshes", or the interleaved vertices and the flattened indices of the one mesh |
| Loader.FlattenLength | runtime/src/aderite/io/Loader.cpp:167-175 | the index count is the sum of the faces' index counts |
| Loader.LdrFormat | runtime/src/aderite/io/Loader.cpp:196-213 | 1 to 4 channels map to R8, RG8, RGB8, RGBA8; any other count leaves the format unset |
| Loader.HdrFormat | runtime/src/aderite/io/Loader.cpp:235-252 | 1, 2 and 4 channels map to R32F, RG32F, RGBA32F; 3 and other counts leave the format unset |
| Loader.FormatKeepsChannels | runtime/src/aderite/io/Loader.cpp:196-252 | a chosen format has exactly the decoded channel count |
| Loader.LoadTexture | runtime/src/aderite/io/Loader.cpp:180-256 | the missing-file error, the decoder's failure reason, or the decoded size with the format for its channel count |
| Loader.EmptyChunkFails | runtime/src/aderite/io/Loader.cpp:95-287 | on an empty chunk every loader returns the one message "File doesn't exist" (ShaderFileMissing for the shader loader), whatever the decoder gives |
| TextureSource.Create | runtime/src/aderite/asset/TextureSource.cpp:10-18 | the error is BAD_FILE iff the file is missing; nothing is decoded and the source is not HDR |
| TextureSource.Load | runtime/src/aderite/asset/TextureSource.cpp:24-41 | `loadHdr` sets the HDR flag; a failed decode sets BAD_FORMAT and keeps the size; a successful one takes the decoder's size |
| TextureSource.GetSize | runtime/src/aderite/asset/TextureSource.cpp:59-61 | width × height × channels, times 4 for HDR |
| TextureSource.GetFormat | runtime/src/aderite/asset/TextureSource.cpp:63-88 | for 1 to 4 channels: the 8-bit format map, or the float map with 3 channels falling through to RGBA32F |
| TextureSource.FormatAgreesWithLoader | runtime/src/aderite/asset/TextureSource.cpp:63-88 | the source and the loader pick the same format except for 3-channel HDR, where only the source picks RGBA32F |
| TextureSource.LoadedSize | runtime/src/aderite/asset/TextureSource.cpp:10-61 | a source decoded from an existing file has no error and the decoder's size times the bytes per channel |
| MaterialProperty.Wrap16IsMod | editor/src/aderiteeditor/asset/property/Property.cpp:70-76 | storing into the 16-bit offset field keeps the value modulo 2^16 |
| MaterialProperty.ElementCount | editor/src/aderiteeditor/asset/property/Property.cpp:8-24 | a type occupies 1 to 4 floats iff it is numeric (FLOAT 1, VEC2 2, VEC3 3, VEC4 4), and none otherwise |
| MaterialProperty.TypeName | editor/src/aderiteeditor/asset/property/Property.cpp:26-42 | the property-type name is empty exactly for the sampler types |
| MaterialProperty.SamplerName | editor/src/aderiteeditor/asset/property/Property.cpp:44-54 | the sampler-type name is non-empty exactly for the sampler types |
| MaterialProperty.NamesIdentifyTypes | editor/src/aderiteeditor/asset/property/Property.cpp:26-54 | distinct types have distinct names ("float", "vec2", "vec3", "vec4", "None", "Texture 2D", "Texture Cube") |
| MaterialProperty.SetOffset | editor/src/aderiteeditor/asset/property/Property.cpp:70-76 | the stored offset is below 2^16, equals the argument when it fits, and nothing else changes |
| MaterialProperty.SetOffsetWrap | editor/src/aderiteeditor/asset/property/Property.cpp:74-76 | setting an offset or its 16-bit truncation has the same effect |
| MaterialProperty.SetName | editor/src/aderiteeditor/asset/property/Property.cpp:78-84 | only the name changes, to the given one |
| MaterialProperty.GetValue | editor/src/aderiteeditor/asset/property/Property.cpp:62-64 | the buffer suffix from the offset on |
| MaterialProperty.SetValue | editor/src/aderiteeditor/asset/property/Property.cpp:66-68 | exactly the type's element count of floats is copied to [offset, offset+count); every other float is unchanged |
| MaterialProperty.SetThenGet | editor/src/aderiteeditor/asset/property/Property.cpp:62-68 | reading back after a write yields the written floats |
| MaterialProperty.DisjointWritesCommute | editor/src/aderiteeditor/asset/property/Property.cpp:62-68 | a write through a property whose slots do not overlap leaves the other's value intact |
| MaterialLayout.PackedInside | runtime/src/aderite/asset/MaterialTypeAsset.cpp:132-199 | each numeric property lies inside the packed element count |
| MaterialLayout.PackedAligned | runtime/src/aderite/asset/MaterialTypeAsset.cpp:132-199 | vec4 and vec3 start a vec4, a vec2 starts an even element, so nothing straddles a vec4 |
| MaterialLayout.PackedDisjoint | runtime/src/aderite/asset/MaterialTypeAsset.cpp:132-199 | no two numeric properties share an element |
| MaterialLayout.CollectFloats | runtime/src/aderite/asset/MaterialTypeAsset.cpp:151-154 | the float list holds the floats in declaration order |
| MaterialLayout.PlaceVec4 | runtime/src/aderite/asset/MaterialTypeAsset.cpp:151-163 | VEC4 offsets are 0, 4, 8, … in order; nothing else moves; the count is 4 per vec4 |
| MaterialLayout.PlaceVec3 | runtime/src/aderite/asset/MaterialTypeAsset.cpp:165-183 | each VEC3 takes the next 4 elements; its pad goes to the last collected float still in the list; nothing else moves |
| MaterialLayout.PlaceVec2 | runtime/src/aderite/asset/MaterialTypeAsset.cpp:185-192 | VEC2s follow one after another, 2 elements each; nothing else moves |
| MaterialLayout.PlaceFloats | runtime/src/aderite/asset/MaterialTypeAsset.cpp:194-199 | the floats left in the list follow one after another in list order |
| MaterialLayout.PlaceVectors | runtime/src/aderite/asset/MaterialTypeAsset.cpp:150-192 | the first three loops put every vector and padding float at its packed offset and leave the leftover floats in the list |
| MaterialLayout.Vec4Slots | runtime/src/aderite/asset/MaterialTypeAsset.cpp:201-206 | the vec4 count is the element count divided by 4, rounded up |
| MaterialLayout.Recalculate | runtime/src/aderite/asset/MaterialTypeAsset.cpp:132-207 | every numeric property gets its packed offset as a 16-bit value and every other property is untouched; the element count is the packed count and v4Count is its ceiling over 4 |
| MaterialLayout.SizeInBytes | runtime/src/aderite/asset/MaterialTypeAsset.cpp:209-211 | four bytes per element |
| MaterialLayout.RecalculatedLayout | runtime/src/aderite/asset/MaterialTypeAsset.cpp:132-140 | when the packed count fits 16 bits, recalculated offsets are inside the buffer, aligned and pairwise disjoint |
| MaterialLayout.CountSamplers | editor/src/aderiteeditor/asset/EditorMaterialType.cpp:93-113 | the count is reset and then counts the sampler-typed properties |
| MaterialLayout.EditorFinalLoopAsWritten | editor/src/aderiteeditor/asset/EditorMaterialType.cpp:147-152 | as written, every property is moved to the end of the vector block plus the elements of all properties before it |
| MaterialLayout.EditorRecalculateAsWritten | editor/src/aderiteeditor/asset/EditorMaterialType.cpp:81-160 | as written, the final offsets are those running sums and the size is the ceiling of the 16-bit counter over 4 |
| MaterialLayout.EditorFinalLoopMisaligns | editor/src/aderiteeditor/asset/EditorMaterialType.cpp:147-152 | for [float, vec4] the vec4 ends up at element 5 and the size is 3, where the packed layout puts it at 0 with size 2 |
| MaterialLayout.EditorRecalculate | editor/src/aderiteeditor/asset/EditorMaterialType.cpp:81-160 | with the final loop over the leftover floats: the runtime's packed offsets, the size in vec4 slots, and the sampler count |
| MaterialLayout.AddProperty | editor/src/aderiteeditor/asset/EditorMaterialType.cpp:166-172 | the property is appended and the earlier ones keep their order |
| MaterialLayout.AddPropertyCounts | editor/src/aderiteeditor/asset/EditorMaterialType.cpp:170-172 | adding counts the property among its own type only and leaves every earlier property's rank unchanged |
| Compiler.Sanitize | editor/src/aderiteeditor/compiler/Compiler.cpp:146-149 | the type name has the same length as the asset name, with every '.' replaced by '_' and every other character kept |
| Compiler.SanitizeNoDots | editor/src/aderiteeditor/compiler/Compiler.cpp:146-149 | no '.' is left, a name without '.' is unchanged, and sanitising is idempotent |
| Compiler.ArraySizeIsCeiling | editor/src/aderiteeditor/compiler/Compiler.cpp:170-179 | the uniform array size is the element count rounded up to whole vec4s |
| Compiler.Swizzle | editor/src/aderiteeditor/compiler/Compiler.cpp:200-248 | consecutive components; vec4 and vec3 start at x, a vec2 at x for remainder 0 and at z otherwise, a float at its remainder's component |
| Compiler.AccessorOf | editor/src/aderiteeditor/compiler/Compiler.cpp:195-198 | arrayIdx × 4 + remainder is the offset, and a numeric property's swizzle has its element count of letters |
| Compiler.SwizzleExact | editor/src/aderiteeditor/compiler/Compiler.cpp:200-248 | the swizzle names components rem … rem+n-1 iff the property starts its vec4 (or half, for a vec2) and does not run past it |
| Compiler.AccessorExact | editor/src/aderiteeditor/compiler/Compiler.cpp:187-248 | a numeric property's accessor reads exactly its own elements iff it is aligned and does not straddle a vec4 |
| Compiler.MisalignedVec4Accessor | editor/src/aderiteeditor/compiler/Compiler.cpp:195-205 | a vec4 at element 5 is read from elements 4 to 7 |
| Compiler.RecalculatedAccessors | editor/src/aderiteeditor/compiler/Compiler.cpp:156-248 | after `recalculate`, every numeric property's accessor reads exactly its own elements, inside the uniform array |
| Compiler.SamplersTo | editor/src/aderiteeditor/compiler/Compiler.cpp:261-268 | the texture properties in order, as many as there are 2D and cube textures |
| Compiler.SamplerPosition | editor/src/aderiteeditor/compiler/Compiler.cpp:261-268 | texture property k gets sampler index = the number of texture properties before it |
| Compiler.BlocksAppend | editor/src/aderiteeditor/compiler/Compiler.cpp:250-268 | appending a property appends exactly its `#define` or its sampler line with the next index |
| Compiler.PropertyIteration | editor/src/aderiteeditor/compiler/Compiler.cpp:186-271 | one loop pass adds the property's `#define`, or its sampler line with the next sampler index, or nothing |
| Compiler.PropertyLines | editor/src/aderiteeditor/compiler/Compiler.cpp:184-272 | the `#define`s of the numeric properties and the sampler lines of the texture properties, each in property order; the index ends at the sampler count |
| Compiler.GenerateMaterialHeader | editor/src/aderiteeditor/compiler/Compiler.cpp:145-281 | the layout is recalculated, and the header for the sanitised name has the array sized to the packed count, the defines and the samplers |
| Numerals.Digit | editor/src/aderiteeditor/compiler/Compiler.cpp:262 | a digit character for each value below 10 |
| Numerals.Decimal | editor/src/aderiteeditor/compiler/Compiler.cpp:179-262 | decimal text: non-empty, digits only, no leading zero |
| Numerals.DecimalRoundTrip | editor/src/aderiteeditor/compiler/Compiler.cpp:179-262 | the decimal text reads back as its number |
| Numerals.DecimalInjective | runtime/src/aderite/scene/Scene.cpp:68-73 | distinct numbers have distinct decimal texts, so generated names differ |
| MaterialAsset.IsValid | runtime/src/aderite/asset/MaterialAsset.cpp:21-33 | false iff the type is missing or invalid or some sampler is null or invalid |
| MaterialAsset.NeedsLoading | runtime/src/aderite/asset/MaterialAsset.cpp:59-61 | exactly when the material is not valid |
| MaterialAsset.SetType | runtime/src/aderite/asset/MaterialAsset.cpp:139-161 | the type is set and the samplers cleared; when reallocation succeeds the buffer is Size × 4 zeros and there are NumSamplers null samplers, otherwise the old buffer stays |
| MaterialAsset.SetTypeNeedsTextures | runtime/src/aderite/asset/MaterialAsset.cpp:21-161 | a freshly typed material is valid iff its type is valid and has no samplers |
| MaterialAsset.ResolveSamplers | runtime/src/aderite/asset/MaterialAsset.cpp:125-134 | one slot per stored entry, in order; a null entry stays null |
| MaterialAsset.Deserialize | runtime/src/aderite/asset/MaterialAsset.cpp:97-137 | without a MaterialType key nothing changes and loading succeeds; otherwise the type is set, and loading fails on a failed allocation or a data length other than Size × 4, else the data is copied and the samplers appended in order |
| MaterialAsset.DeserializeRestores | runtime/src/aderite/asset/MaterialAsset.cpp:97-137 | loading a stored material restores its data and every sampler handle, in order |
| MaterialAsset.Serialize | runtime/src/aderite/asset/MaterialAsset.cpp:67-95 | nothing is stored iff there is no type; otherwise the type handle, the first Size × 4 floats and every sampler slot with null kept |
| MaterialAsset.SerializeRoundTrip | runtime/src/aderite/asset/MaterialAsset.cpp:67-137 | storing a typed material and loading it into one without samplers gives the same material back, with any type table in which the stored handle resolves to the material's type |
| MaterialAsset.LoadRequests | runtime/src/aderite/asset/MaterialAsset.cpp:35-49 | the type is requested first, whatever it is |
| MaterialAsset.PendingTextures | runtime/src/aderite/asset/MaterialAsset.cpp:42-46 | only set samplers whose texture is not valid are requested |
| MaterialAsset.PendingTexturesComplete | runtime/src/aderite/asset/MaterialAsset.cpp:42-46 | a texture is requested iff some sampler holds it and it is not valid |
| MaterialAsset.UsableLoadsOnlyType | runtime/src/aderite/asset/MaterialAsset.cpp:35-49 | a valid material requests only its type |
| MaterialAsset.GetSamplerData | runtime/src/aderite/asset/MaterialAsset.cpp:175-187 | one pair per sampler of the type, in slot order, with the slot's uniform; the invalid texture handle exactly where the sampler is null, and the texture's handle elsewhere |
| MaterialAsset.ValidBindsAll | runtime/src/aderite/asset/MaterialAsset.cpp:21-187 | a valid material binds a real texture to every sampler |
| ColliderList.Empty | runtime/src/aderite/asset/ColliderListAsset.hpp:73 | a fresh list is empty at iteration 1 |
| ColliderList.IncrementIteration | runtime/src/aderite/asset/ColliderListAsset.cpp:37-43 | the counter steps by one and the list is kept |
| ColliderList.Add | runtime/src/aderite/asset/ColliderListAsset.cpp:21-24 | the collider is appended and the counter steps by one |
| ColliderList.Find | runtime/src/aderite/asset/ColliderListAsset.cpp:27 | the first index holding the collider, or None iff it is absent |
| ColliderList.Remove | runtime/src/aderite/asset/ColliderListAsset.cpp:26-35 | an absent collider changes nothing; a present one loses its first occurrence, the others keep their order, and the counter steps by one |
| ColliderList.AddThenRemove | runtime/src/aderite/asset/ColliderListAsset.cpp:21-35 | removing a collider just added restores the list, two iterations later |
| ColliderList.AddAll | runtime/src/aderite/asset/ColliderListAsset.cpp:61-69 | deserialising k colliders appends them in order and raises the iteration by k |
| GameObject.New | runtime/src/aderite/scene/GameObject.cpp:20-22 | a named object with no components, no behaviours, not marked |
| GameObject.Get | runtime/src/aderite/scene/GameObject.cpp:128-228 | the component in the slot, None iff the slot is empty |
| GameObject.AddTransform | runtime/src/aderite/scene/GameObject.cpp:116-120 | the empty transform slot receives the new transform and nothing else changes |
| GameObject.AddComponent | runtime/src/aderite/scene/GameObject.cpp:132-218 | the empty slot receives the component; a transform is created iff there was none, an existing one is kept; other slots are unchanged |
| GameObject.Remove | runtime/src/aderite/scene/GameObject.cpp:122-224 | the filled slot becomes empty and every other slot is unchanged |
| GameObject.AddThenRemove | runtime/src/aderite/scene/GameObject.cpp:132-145 | adding and removing a component restores the object, except for a transform created on the way |
| GameObject.TransformInvariant | runtime/src/aderite/scene/GameObject.cpp:116-224 | every add, and every removal except the transform's, keeps "has a transform whenever it has any component" |
| GameObject.MarkForDeletion | runtime/src/aderite/scene/GameObject.cpp:104-110 | the mark is set and nothing else changes |
| GameObject.AddBehavior | runtime/src/aderite/scene/GameObject.cpp:230-232 | the behaviour is appended |
| GameObject.FirstIndex | runtime/src/aderite/scene/GameObject.cpp:235 | the position of the first equal behaviour |
| GameObject.RemoveBehavior | runtime/src/aderite/scene/GameObject.cpp:234-236 | a present behaviour loses its first occurrence, and the rest keep their order |
| GameObject.AddThenRemoveBehavior | runtime/src/aderite/scene/GameObject.cpp:230-236 | removing a behaviour just added, and absent before, restores the list |
| Scene.AddObject | runtime/src/aderite/scene/Scene.cpp:17-33 | refused with the list unchanged iff an object has the same name; otherwise appended |
| Scene.AddObjectKeepsUnique | runtime/src/aderite/scene/Scene.cpp:21-31 | adding keeps object names pairwise distinct |
| Scene.FindName | runtime/src/aderite/scene/Scene.cpp:38-40 | the first position of an object with the name |
| Scene.RemoveObject | runtime/src/aderite/scene/Scene.cpp:35-83 | an object with the name must exist, and the first one is erased, so the count drops by one |
| Scene.RemoveObjectShifts | runtime/src/aderite/scene/Scene.cpp:35-43 | the objects after the erased one move up by one, and the others stay |
| Scene.RemoveObjectExact | runtime/src/aderite/scene/Scene.cpp:35-43 | with unique names, the name is gone, names stay unique and every other object stays |
| Scene.Sweep | runtime/src/aderite/scene/Scene.cpp:55-60 | exactly the objects not marked for deletion survive |
| Scene.SweepAppend | runtime/src/aderite/scene/Scene.cpp:55-60 | the sweep works element by element, so survivors keep their relative order |
| Scene.SweepKeepsUnique | runtime/src/aderite/scene/Scene.cpp:55-60 | sweeping keeps names unique |
| Scene.CreatedName | runtime/src/aderite/scene/Scene.cpp:70 | names have the form "New object (n)" |
| Scene.CreatedNameInjective | runtime/src/aderite/scene/Scene.cpp:69-70 | different counters give different names |
| Scene.CreateGameObject | runtime/src/aderite/scene/Scene.cpp:68-73 | the counter steps by one and a new object is appended unless its name is taken |
| Scene.CreateAlwaysAdds | runtime/src/aderite/scene/Scene.cpp:68-73 | while the counter is ahead of every name in the scene, creating adds exactly one object and the counter stays ahead |
| Entity.WithTags | runtime/src/aderite/scene/Entity.cpp:27 | the result holds every old bit, and outside the old bits exactly the added bits |
| Entity.WithTagsExact | runtime/src/aderite/scene/Entity.cpp:27 | every added bit is set and no bit is set that was neither old nor added |
| Entity.WithoutTags | runtime/src/aderite/scene/Entity.cpp:35 | the result holds none of the cleared bits and keeps every other bit |
| Entity.New | runtime/src/aderite/scene/Entity.cpp:15 | a new entity has no tags, no prefab link, no actor, no renderable and no scene |
| Entity.AddTag | runtime/src/aderite/scene/Entity.cpp:25-31 | the tag bits are added and the prefab link is cleared; name, components and scene are unchanged |
| Entity.RemoveTag | runtime/src/aderite/scene/Entity.cpp:33-39 | the tag bits are cleared and the prefab link with them; name, components and scene are unchanged |
| Entity.AddTwice | runtime/src/aderite/scene/Entity.cpp:27 | adding the same bits twice is adding them once |
| Entity.AddedOverlaps | runtime/src/aderite/scene/Entity.cpp:27-43 | a tag set with non-zero bits added has those bits |
| Entity.RemovedDisjoint | runtime/src/aderite/scene/Entity.cpp:35-43 | a tag set with bits cleared has none of them |
| Entity.TagLaws | runtime/src/aderite/scene/Entity.cpp:25-43 | tagging is idempotent; after adding a non-zero tag `hasTag` holds; after removing it `hasTag` fails |
| Entity.HasTagIsOverlap | runtime/src/aderite/scene/Entity.cpp:41-43 | `hasTag` asks for any shared bit: one bit of a two-bit query is enough |
| Entity.SetActor | runtime/src/aderite/scene/Entity.cpp:61-91 | the actor is set and the prefab link cleared; name, tags, renderable and scene are unchanged |
| Entity.SetRenderable | runtime/src/aderite/scene/Entity.cpp:93-96 | the renderable is replaced, null allowed, and the prefab link cleared; nothing else changes |
| Entity.SetName | runtime/src/aderite/scene/Entity.cpp:98-101 | only the name changes; a rename keeps the prefab link |
| Entity.Clone | runtime/src/aderite/scene/Entity.cpp:127-152 | the clone has the original's tags, name, scene and prefab link; it has a renderable or actor iff the original does, and then the fresh copy |
| Entity.CloneKeepsTags | runtime/src/aderite/scene/Entity.cpp:127-152 | a clone answers every tag query as the original does |
| TagSelector.AddTag | runtime/src/aderite/scene/selectors/TagSelector.cpp:10-13 | the selector's tag bits are added; the selected list is unchanged |
| TagSelector.RemoveTag | runtime/src/aderite/scene/selectors/TagSelector.cpp:15-18 | the selector's tag bits are cleared; the selected list is unchanged |
| TagSelector.SameTagSemantics | runtime/src/aderite/scene/selectors/TagSelector.cpp:10-22 | on the same tag set, the selector's add, remove and query agree with the entity's |
| TagSelector.NoTagsSelectNothing | runtime/src/aderite/scene/selectors/TagSelector.cpp:58-60 | a selector without tags selects no entity |
| TagSelector.OnEntityAdded | runtime/src/aderite/scene/selectors/TagSelector.cpp:52-56 | the entity is appended iff it shares a tag with the selector; otherwise the list is unchanged |
| TagSelector.Selected | runtime/src/aderite/scene/selectors/TagSelector.cpp:70-77 | the filtered list holds exactly the entities that share a tag, and is no longer than the input |
| TagSelector.Regenerate | runtime/src/aderite/scene/selectors/TagSelector.cpp:70-77 | the list is rebuilt from scratch: empty without a scene, otherwise the scene's selected entities in scene order; an entity is listed iff it is in the scene and selected |
| RefCounts.Acquire | runtime/src/aderite/audio/AudioSourceData.cpp:21-23 | the asset's count rises by one; every other count is unchanged |
| RefCounts.Release | runtime/src/aderite/audio/AudioSourceData.cpp:17-19 | the asset's count falls by one; every other count is unchanged |
| RefCounts.Transfer | runtime/src/aderite/audio/AudioSourceData.cpp:16-26 | each count changes by what the new pointer holds minus what the old one held |
| RefCounts.TransferSame | runtime/src/aderite/audio/AudioSourceData.cpp:16-26 | re-pointing at the same asset leaves every count as it was |
| RefCounts.TransferCompose | runtime/src/aderite/rendering/RenderableData.cpp:32-48 | two transfers in a row net out to one transfer from the first source to the last target |
| AudioSourceData.SetAudioClip | runtime/src/aderite/audio/AudioSourceData.cpp:16-26 | the new clip is held, the old clip is released and the new one acquired; volume and mute are unchanged |
| AudioSourceData.SetAudioClipCases | runtime/src/aderite/audio/AudioSourceData.cpp:16-26 | setting the held clip again changes no count; setting null holds nothing and releases the held clip |
| AudioSourceData.Mute | runtime/src/aderite/audio/AudioSourceData.cpp:32-34 | the source is muted; clip and volume are unchanged |
| AudioSourceData.Unmute | runtime/src/aderite/audio/AudioSourceData.cpp:36-38 | the source is not muted; clip and volume are unchanged |
| AudioSourceData.SetVolume | runtime/src/aderite/audio/AudioSourceData.cpp:48-50 | the volume is set; clip and mute are unchanged |
| AudioSourceData.MuteRoundTrip | runtime/src/aderite/audio/AudioSourceData.cpp:32-38 | muting then unmuting, or the reverse, restores the source exactly |
| AudioSourceData.Assign | runtime/src/aderite/audio/AudioSourceData.cpp:78-83 | the source equals the other afterwards, and the counts move from its clip to the other's |
| AudioSourceData.Destroy | runtime/src/aderite/audio/AudioSourceData.cpp:10-14 | the held clip, if any, is released once |
| AudioSourceData.SetThenDestroyBalanced | runtime/src/aderite/audio/AudioSourceData.cpp:10-26 | setting a clip on an empty source and destroying it leaves every count where it started |
| RenderableData.SetMesh | runtime/src/aderite/rendering/RenderableData.cpp:32-39 | the mesh is held, the old mesh released and the new one acquired; the material is unchanged |
| RenderableData.SetMaterial | runtime/src/aderite/rendering/RenderableData.cpp:41-48 | the material is held, the old one released and the new one acquired; the mesh is unchanged |
| RenderableData.ResetSameUnchanged | runtime/src/aderite/rendering/RenderableData.cpp:32-48 | setting the held mesh or material again changes no count |
| RenderableData.Hash | runtime/src/aderite/rendering/RenderableData.cpp:27-30 | defined only for a valid renderable; the combination of the mesh and material handles |
| RenderableData.Assign | runtime/src/aderite/rendering/RenderableData.cpp:91-95 | the renderable equals the other afterwards; its own mesh and material are released and the other's acquired |
| RenderableData.Destroy | runtime/src/aderite/rendering/RenderableData.cpp:13-21 | whatever mesh and material are held are released once each |
| RenderableData.BuildThenDestroyBalanced | runtime/src/aderite/rendering/RenderableData.cpp:13-48 | building a renderable from nothing and destroying it leaves every count where it started |
| PhysicsProperties.AddGeometry | runtime/src/aderite/physics/PhysicsProperties.cpp:18-21 | the geometry is appended and the change flagged; the switches and the mass are unchanged |
| PhysicsProperties.Without | runtime/src/aderite/physics/PhysicsProperties.cpp:25 | the erase-remove result: no occurrence of the geometry is left and every other element stays |
| PhysicsProperties.WithoutAppended | runtime/src/aderite/physics/PhysicsProperties.cpp:25 | erasing a new element from the end of a list just grown by it gives back the list |
| PhysicsProperties.RemoveGeometry | runtime/src/aderite/physics/PhysicsProperties.cpp:23-27 | every occurrence is erased and the change flagged; the switches and the mass are unchanged |
| PhysicsProperties.AddThenRemoveGeometry | runtime/src/aderite/physics/PhysicsProperties.cpp:18-27 | adding a new geometry and then removing it restores the list |
| PhysicsProperties.ResetChanged | runtime/src/aderite/physics/PhysicsProperties.cpp:37-39 | the change flag is cleared; nothing else changes |
| PhysicsProperties.SetDynamic | runtime/src/aderite/physics/PhysicsProperties.cpp:45-51 | only the dynamic switch changes |
| PhysicsProperties.SetGravity | runtime/src/aderite/physics/PhysicsProperties.cpp:57-63 | only the gravity switch changes |
| PhysicsProperties.SetMass | runtime/src/aderite/physics/PhysicsProperties.cpp:69-71 | only the mass changes |
| PhysicsProperties.SettersCommute | runtime/src/aderite/physics/PhysicsProperties.cpp:45-71 | the three setters touch disjoint fields and so commute |
| PhysicsProperties.Assign | runtime/src/aderite/physics/PhysicsProperties.cpp:112-125 | the switches and mass are copied and the change flagged; the clones are appended after the existing geometry, which is kept |
| PhysicsProperties.AssignTwiceAccumulates | runtime/src/aderite/physics/PhysicsProperties.cpp:112-125 | assigning the same properties twice leaves two copies of the geometry, not one |
| InputManager.Update | runtime/src/aderite/input/InputManager.cpp:82-85 | the current frame becomes the previous one and the current scroll is reset; nothing else in the current frame changes |
| InputManager.OnKey | runtime/src/aderite/input/InputManager.cpp:98-109 | only that key changes, to down for press and repeat and to up otherwise |
| InputManager.OnMouseKey | runtime/src/aderite/input/InputManager.cpp:111-122 | only that mouse button changes, by the same rule |
| InputManager.OnMouseMove | runtime/src/aderite/input/InputManager.cpp:124-127 | only the current cursor position changes |
| InputManager.OnMouseScrolled | runtime/src/aderite/input/InputManager.cpp:129-131 | only the current scroll offset changes |
| InputManager.MouseDelta | runtime/src/aderite/input/InputManager.cpp:155-160 | the previous position plus the delta is the current one, with the y axis inverted |
| InputManager.KeyEventThenQuery | runtime/src/aderite/input/InputManager.cpp:98-140 | after a key event, `isKeyPressed` on that key holds iff the action was press or repeat; every other key reads as before |
| InputManager.ReleaseEdge | runtime/src/aderite/input/InputManager.cpp:82-144 | right after `update` no key counts as released; a key down at the update and then let go counts as released |
| InputManager.MouseAfterUpdate | runtime/src/aderite/input/InputManager.cpp:82-164 | right after `update` the delta and the scroll are zero; a move by (dx, dy) then reports (dx, -dy) |
| Engine.Init | runtime/src/aderite/Aderite.cpp:58-136 | success iff every subsystem starts, in the fixed order, and then the state is `SYSTEM_UPDATE`; on failure the started prefix ends at the first failure and the state is unchanged |
| Engine.Updates | runtime/src/aderite/Aderite.cpp:194-228 | `INIT` and `AWAITING_SHUTDOWN` run no update step |
| Engine.Tick | runtime/src/aderite/Aderite.cpp:183-236 | every tick ends with the five render steps, whatever the state |
| Engine.UpdatesUnfold | runtime/src/aderite/Aderite.cpp:194-228 | the update steps of each state, written out |
| Engine.UpdatesByLevel | runtime/src/aderite/Aderite.cpp:194-228 | an update step runs iff the state's level in the fall-through reaches the step's level, and the scene update also needs a scene |
| Engine.UpdatesDistinct | runtime/src/aderite/Aderite.cpp:194-228 | no update step runs twice in a tick |
| Engine.CascadeNests | runtime/src/aderite/Aderite.cpp:194-228 | each state's steps end with those of the state below it, and only `FULL` updates physics |
| Engine.Loop | runtime/src/aderite/Aderite.cpp:173-178 | the loop stops at the first shutdown request and never before; otherwise it runs every given tick |
| ScriptEventMap.Add | runtime/src/aderite/scripting/ScriptEventMap.cpp:63-65 | the event is appended behind the others |
| ScriptEventMap.First | runtime/src/aderite/scripting/ScriptEventMap.cpp:67-73 | the index holds the event and no earlier index does |
| ScriptEventMap.Remove | runtime/src/aderite/scripting/ScriptEventMap.cpp:67-73 | the first occurrence of the event is removed and every other entry is kept in order |
| ScriptEventMap.AddThenRemove | runtime/src/aderite/scripting/ScriptEventMap.cpp:63-73 | mapping a new event and removing it gives back the old map |
| ScriptEventMap.OfType | runtime/src/aderite/scripting/ScriptEventMap.cpp:79-89 | every event returned has the type, and there are no more than mapped |
| ScriptEventMap.OfTypeMembers | runtime/src/aderite/scripting/ScriptEventMap.cpp:79-89 | the events of a type are exactly the mapped events of that type |
| ScriptEventMap.OfTypeAppend | runtime/src/aderite/scripting/ScriptEventMap.cpp:79-89 | filtering works element by element, so relative order is kept |
| ScriptEventMap.Partition | runtime/src/aderite/scripting/ScriptEventMap.cpp:12-22 | every mapped event goes to exactly one of the two dispatchers, as often as it is mapped |
| ScriptEventMap.CallEvents | runtime/src/aderite/scripting/ScriptEventMap.cpp:12-22 | the calls are the mapped events of the type, in map order |
| ScriptEventMap.Serialize | runtime/src/aderite/scripting/ScriptEventMap.cpp:24-39 | one entry per event, in order, with its type and full name |
| ScriptEventMap.Resolve | runtime/src/aderite/scripting/ScriptEventMap.cpp:41-61 | every event resolved comes from a stored name the script manager knows |
| ScriptEventMap.Deserialize | runtime/src/aderite/scripting/ScriptEventMap.cpp:41-61 | without the map node the result is false and nothing changes; otherwise the result is true and resolved events are appended behind the existing ones |
| ScriptEventMap.ResolveSerialized | runtime/src/aderite/scripting/ScriptEventMap.cpp:24-61 | events known by their own names resolve back unchanged and in order |
| ScriptEventMap.SerializeRoundTrip | runtime/src/aderite/scripting/ScriptEventMap.cpp:24-61 | loading what was saved into an empty map restores the map |
| ScriptSystem.New | runtime/src/aderite/scripting/ScriptSystem.cpp:20 | a new system has no class, instance, hooks, fields, selector or array |
| ScriptSystem.Dispatch | runtime/src/aderite/scripting/ScriptSystem.cpp:33-69 | the hook is called once, with the event unchanged, iff the class defines it |
| ScriptSystem.Load | runtime/src/aderite/scripting/ScriptSystem.cpp:71-104 | an unknown class only clears the class pointer; a known one gives a new instance and the class's hooks, fields and name; the selector and array are kept |
| ScriptSystem.LoadThenDispatch | runtime/src/aderite/scripting/ScriptSystem.cpp:33-104 | after a load exactly the hooks the class defines are called; a fresh system whose class is unknown calls none |
| ScriptSystem.FailedLoadKeepsInstance | runtime/src/aderite/scripting/ScriptSystem.cpp:71-104 | a failed load after a successful one keeps the old instance and hooks |
| ScriptSystem.FieldIndex | runtime/src/aderite/scripting/ScriptSystem.cpp:111-121 | the index of the first field with the name |
| ScriptSystem.FieldIndexUnique | runtime/src/aderite/scripting/ScriptSystem.cpp:111-121 | with unique names, looking up a field's name finds that field |
| ScriptSystem.ApplyEntry | runtime/src/aderite/scripting/ScriptSystem.cpp:238-289 | an unknown name, a null value, or a field whose type has no case (int, prefab, geometry, untyped) changes nothing; otherwise only the first field of that name takes the value; names and types never change |
| ScriptSystem.ApplyEntries | runtime/src/aderite/scripting/ScriptSystem.cpp:238-289 | applying stored fields never changes field names, types or positions, and never changes a field whose type has no case |
| ScriptSystem.Entries | runtime/src/aderite/scripting/ScriptSystem.cpp:145-209 | one stored entry per field, in order, with its name; the value for a float, bool, mesh, material, audio or audio-source field, null for any other type |
| ScriptSystem.Serialize | runtime/src/aderite/scripting/ScriptSystem.cpp:127-213 | refused iff no class is loaded; otherwise the name, whether there is a selector, and an entry per field, null where the field type has no case |
| ScriptSystem.Deserialize | runtime/src/aderite/scripting/ScriptSystem.cpp:215-292 | false without a name; the class is loaded; success iff a name is stored and an instance exists after the load; a stored selector is looked up by name; the loaded fields keep names and types, and a field whose type has no case keeps its loaded value |
| ScriptSystem.ApplyStep | runtime/src/aderite/scripting/ScriptSystem.cpp:238-289 | applying the stored entry of field j changes only position j: it takes the saved field when a value was written for it, and keeps the class default for a null or an unhandled type |
| ScriptSystem.ApplyPrefix | runtime/src/aderite/scripting/ScriptSystem.cpp:238-289 | applying the first k stored entries to the class defaults gives, in those positions, the saved fields that were written and the defaults for the rest, and leaves the defaults after |
| ScriptSystem.SerializeRoundTrip | runtime/src/aderite/scripting/ScriptSystem.cpp:127-292 | saving a loaded system and loading it into a fresh one restores its name, hooks and selector; a handled non-null field comes back, and every other field (null, int, prefab, geometry, untyped) comes back as the class default; all fields come back when all are handled and the defaults are null where the saved values are |
| ScriptSystem.IntegerFieldResets | runtime/src/aderite/scripting/ScriptSystem.cpp:205-207 | an int field saved as 7 is written as null and reloads as the class default 0 |
| ScriptSystem.WantedLength | runtime/src/aderite/scripting/ScriptSystem.cpp:295 | the selector's size, or 0 without a selector |
| ScriptSystem.Refs | runtime/src/aderite/scripting/ScriptSystem.cpp:316-319 | one reference per entity, in order |
| ScriptSystem.Expected | runtime/src/aderite/scripting/ScriptSystem.cpp:294-320 | the array after a refresh has the wanted length |
| ScriptSystem.UpdateEntitiesArray | runtime/src/aderite/scripting/ScriptSystem.cpp:294-320 | a new array is made iff there was none or its length was wrong; the array then holds the selector's entities in order; nothing else changes |
| ScriptSystem.RefreshTwice | runtime/src/aderite/scripting/ScriptSystem.cpp:294-320 | a second refresh reuses the array and leaves it holding the same entities in the same order; wrappers are modelled by entity ids, while the source allocates fresh wrapper objects each time |
| ScriptSystem.UpdateSystem | runtime/src/aderite/scripting/ScriptSystem.cpp:26-31 | without the hook nothing happens; with it the array is refreshed and the hook is called once with the delta and the array |
| Vfs.New | editor/src/aderiteeditor/vfs/VFS.cpp:63-65 | a new file system is a lone, parentless, empty root named "/" |
| Vfs.NewDirectory | editor/src/aderiteeditor/vfs/Directory.cpp:8-14 | the new directory exists, empty, and is appended to its parent's list; no other directory changes |
| Vfs.CreateDirectory | editor/src/aderiteeditor/vfs/Directory.cpp:82-85 | a new, empty child is appended to the directory's list, with no check on its name |
| Vfs.First | editor/src/aderiteeditor/vfs/Directory.cpp:34-68 | the first position holding the name, none iff the name is absent |
| Vfs.GetFile | editor/src/aderiteeditor/vfs/Directory.cpp:34-44 | a file found is listed by the directory and has the name |
| Vfs.HasFileIffGetFile | editor/src/aderiteeditor/vfs/Directory.cpp:34-56 | `hasFile` holds iff `getFile` finds a file, and the one found is the first of that name |
| Vfs.GetDirectory | editor/src/aderiteeditor/vfs/Directory.cpp:58-68 | a directory found is listed by the directory and has the name |
| Vfs.HasDirectoryIffGetDirectory | editor/src/aderiteeditor/vfs/Directory.cpp:58-80 | `hasDirectory` holds iff `getDirectory` finds one, and the one found is the first of that name |
| Vfs.CreateThenGet | editor/src/aderiteeditor/vfs/Directory.cpp:58-85 | a directory just created under a new name is what a lookup of that name finds |
| Vfs.GetPath | editor/src/aderiteeditor/vfs/Directory.cpp:94-100 | a path found starts with "/" |
| Vfs.PathOfChild | editor/src/aderiteeditor/vfs/Directory.cpp:94-100 | a child's path is its parent's path, "/" and its name, so children of the root get "//" |
| Vfs.SearchFile | editor/src/aderiteeditor/vfs/VFS.cpp:47-61 | a file found has the handle and lies in the directory's subtree |
| Vfs.SearchDirs | editor/src/aderiteeditor/vfs/VFS.cpp:55-60 | a file found in the sibling directories has the handle and lies in one of their subtrees |
| Vfs.SearchFindsWithinDepth | editor/src/aderiteeditor/vfs/VFS.cpp:47-61 | completeness: when some file of the subtree has the handle and the fuel exceeds its depth, the search finds a file |
| Vfs.SearchDirsFinds | editor/src/aderiteeditor/vfs/VFS.cpp:55-60 | completeness over a list of sibling directories |
| Vfs.FirstWithHandle | editor/src/aderiteeditor/vfs/VFS.cpp:48-52 | the first listed file with the handle; none iff no listed file has it |
| Vfs.SearchPrefersOwnFiles | editor/src/aderiteeditor/vfs/VFS.cpp:47-61 | a file held directly is found before anything in a sub-directory |
| Vfs.SearchDescends | editor/src/aderiteeditor/vfs/VFS.cpp:47-61 | with no matching file held directly, the search goes into the sub-directories in order |
| Vfs.Walk | editor/src/aderiteeditor/vfs/VFS.cpp:90-103 | a directory reached exists |
| Vfs.WalkAppend | editor/src/aderiteeditor/vfs/VFS.cpp:90-103 | walking a joined path is walking the first part, then the rest from where it ended |
| Vfs.GetDirectoryByPath | editor/src/aderiteeditor/vfs/VFS.cpp:90-103 | the component-by-component walk from the root; the empty path gives the root |
| Vfs.GetFileByPath | editor/src/aderiteeditor/vfs/VFS.cpp:75-84 | none when the parent path does not resolve; otherwise the file lookup there, and a file found has the name |
| Vfs.RenameFile | editor/src/aderiteeditor/vfs/VFS.cpp:152-158 | refused when a file in the same directory has the new name; otherwise only that file's name changes |
| Vfs.RenameDirectory | editor/src/aderiteeditor/vfs/VFS.cpp:160-166 | the same rule among sibling directories |
| Vfs.RenameFileKeepsUnique | editor/src/aderiteeditor/vfs/VFS.cpp:152-158 | renaming keeps file names unique in every directory |
| Vfs.RenameDirectoryKeepsUnique | editor/src/aderiteeditor/vfs/VFS.cpp:160-166 | renaming a directory keeps sub-directory names unique in every directory |
| Vfs.Erase | editor/src/aderiteeditor/vfs/VFS.cpp:127-150 | one occurrence is removed and every other entry is kept |
| Vfs.EraseKeepsOthers | editor/src/aderiteeditor/vfs/VFS.cpp:127-150 | erasing one element keeps every other |
| Vfs.EraseNoDup | editor/src/aderiteeditor/vfs/VFS.cpp:127-150 | in a list without duplicates, erasing removes exactly that element |
| Vfs.AppendNoDup | editor/src/aderiteeditor/vfs/VFS.cpp:109-125 | appending an unlisted element keeps the list free of duplicates |
| Vfs.DirsOwnedFrame | editor/src/aderiteeditor/vfs/VFS.cpp:117-150 | directory ownership depends only on directory lists and parent pointers |
| Vfs.FilesOwnedFrame | editor/src/aderiteeditor/vfs/VFS.cpp:109-137 | file ownership depends only on file lists and parent pointers |
| Vfs.RemoveFile | editor/src/aderiteeditor/vfs/VFS.cpp:127-137 | the file leaves its parent's list and loses its parent; nothing else changes |
| Vfs.RemoveDirectory | editor/src/aderiteeditor/vfs/VFS.cpp:139-150 | the directory leaves its parent's list and loses its parent; nothing else changes |
| Vfs.RemoveFileKeepsOwned | editor/src/aderiteeditor/vfs/VFS.cpp:127-137 | removing a file keeps ownership exact, and the file is then listed nowhere |
| Vfs.RemoveFileKeepsFilesOwned | editor/src/aderiteeditor/vfs/VFS.cpp:127-137 | removing a file keeps every directory's file list exact |
| Vfs.RemoveDirectoryKeepsOwned | editor/src/aderiteeditor/vfs/VFS.cpp:139-150 | removing a directory keeps ownership exact |
| Vfs.RemoveDirectoryKeepsDirsOwned | editor/src/aderiteeditor/vfs/VFS.cpp:139-150 | removing a directory keeps every directory's sub-directory list exact |
| Vfs.RemoveFileKeepsAttached | editor/src/aderiteeditor/vfs/VFS.cpp:127-137 | removing one file leaves every other attached file attached |
| Vfs.RemoveDirectoryKeepsAttached | editor/src/aderiteeditor/vfs/VFS.cpp:139-150 | removing one directory leaves every other attached directory attached |
| Vfs.AttachFile | editor/src/aderiteeditor/vfs/VFS.cpp:109-115 | the file is appended to the target's list and takes it as parent |
| Vfs.AttachFileKeepsOwned | editor/src/aderiteeditor/vfs/VFS.cpp:109-115 | attaching a parentless file keeps ownership exact |
| Vfs.AttachDirectory | editor/src/aderiteeditor/vfs/VFS.cpp:117-125 | the directory is appended to the target's list and takes it as parent |
| Vfs.AttachDirectoryKeepsOwned | editor/src/aderiteeditor/vfs/VFS.cpp:117-125 | attaching a parentless directory keeps ownership exact |
| Vfs.AttachDirectoryKeepsDirsOwned | editor/src/aderiteeditor/vfs/VFS.cpp:117-125 | attaching a parentless directory keeps the sub-directory lists exact |
| Vfs.ReplaceFile | editor/src/aderiteeditor/vfs/VFS.cpp:109-112 | a same-named file in the target is removed and ownership is kept; another moved file is untouched, while a moved file that is itself that same-named file is the one removed |
| Vfs.MoveFile | editor/src/aderiteeditor/vfs/VFS.cpp:109-115 | as written: the file ends the target's list but keeps its old parent; when the target already listed it, it has no parent any more |
| Vfs.MoveFileLeavesOldListing | editor/src/aderiteeditor/vfs/VFS.cpp:109-115 | a file moved to another directory is listed by both, so ownership is broken |
| Vfs.MoveFileIntoOwnDirectoryDangles | editor/src/aderiteeditor/vfs/VFS.cpp:109-115 | a file moved into the directory that lists it is removed (deleted) and then listed again with no parent, so ownership is broken |
| Vfs.MoveFileDetached | editor/src/aderiteeditor/vfs/VFS.cpp:109-125 | the corrected move: a file the target already lists stays put; any other file ends the target's list and takes the target as parent |
| Vfs.MoveFileDetachedKeepsOwned | editor/src/aderiteeditor/vfs/VFS.cpp:109-125 | the corrected move keeps ownership exact, the file has the target as parent and only the target lists it |
| Vfs.ReplaceDirectory | editor/src/aderiteeditor/vfs/VFS.cpp:117-120 | a same-named directory in the target is removed and ownership is kept; another moved directory keeps its name and parent, while a moved directory that is itself that one is the one removed |
| Vfs.SelfMoveDeletes | editor/src/aderiteeditor/vfs/VFS.cpp:117-120 | a directory the target already lists under its name is deleted by its own move |
| Vfs.MoveUnderNamesakeDeletes | editor/src/aderiteeditor/vfs/Directory.cpp:16-24 | a directory whose parent is the target's same-named directory is deleted with that directory's subtree by the move, as in R/x/x moving the inner x into R |
| Vfs.MoveDirectory | editor/src/aderiteeditor/vfs/VFS.cpp:117-125 | as written: fails (use of the deleted directory) exactly when the target's same-named directory is the moved one or an ancestor of it, so that removing it deletes the moved one; otherwise the directory ends the target's list and takes the target as parent |
| Vfs.MoveDirectoryChecked | editor/src/aderiteeditor/vfs/VFS.cpp:117-125 | the corrected move: a move that would delete the directory changes nothing, so a directory the target already lists stays listed; otherwise it is the as-written move and the target lists the directory |
| Vfs.MoveDirectoryKeepsOwned | editor/src/aderiteeditor/vfs/VFS.cpp:117-125 | the corrected directory move keeps ownership exact; the directory has the target as parent unless the move was refused because it lies under the target's same-named directory |
| NodeGraph.New | editor/src/aderiteeditor/node/Graph.cpp:19 | a fresh graph has no nodes, no links, no free ids, the counter at 0 and no last node |
| NodeGraph.FindOut | editor/src/aderiteeditor/node/Graph.cpp:197-206 | an output pin found has the id and belongs to a node; none is found iff no node has an output pin with the id |
| NodeGraph.FindIn | editor/src/aderiteeditor/node/Graph.cpp:208-217 | the same for input pins |
| NodeGraph.FindNode | editor/src/aderiteeditor/node/Graph.cpp:219-229 | the position of the first node with the id; none iff no node has it |
| NodeGraph.Connect | editor/src/aderiteeditor/node/Graph.cpp:31-81 | with the hooks' verdicts given and their side effects left to NodeGraph.ConnectHooked: a rejected request changes nothing; an accepted one reuses the top free id, or takes a fresh one from the counter, for a link from the output to the input |
| NodeGraph.DetachRetyped | editor/src/aderiteeditor/node/InputPin.hpp:38-42 | every valid link of a pin the hooks retyped is destroyed, every other entry of the link table stays |
| NodeGraph.DetachRetypedConnections | editor/src/aderiteeditor/node/OutputPin.hpp:38-42 | after retyping, exactly the connections no retyped pin takes part in remain |
| NodeGraph.DetachRetypedKeepsGood | editor/src/aderiteeditor/node/InputPin.hpp:38-42 | destroying the retyped pins' links keeps the bookkeeping invariant |
| NodeGraph.ConnectHooked | editor/src/aderiteeditor/node/Graph.cpp:31-81 | missing pins change nothing; otherwise the nodes are as the hooks left them, accepted or not; a rejected request loses exactly the valid links of pins the hooks retyped and changes no other link, the free stack or the counter |
| NodeGraph.ConnectHookedConnections | editor/src/aderiteeditor/node/Graph.cpp:31-81 | with both pins present, the connections no retyped pin took part in remain; whatever the pins' types before the hooks, a request the hooks accept and leave well-typed then replaces the input's old connection by the new one |
| NodeGraph.ConnectHookedWithoutSideEffects | editor/src/aderiteeditor/node/Graph.cpp:31-81 | hooks that leave the nodes as they are make the hooked connect the core one with their verdict |
| NodeGraph.ConnectClosesCycle | editor/src/aderiteeditor/node/Graph.cpp:31-81 | with node 0 feeding node 3, connecting node 3's output to node 0's input is accepted and both connections stand: a cycle |
| NodeGraph.ConnectHookedKeepsGood | editor/src/aderiteeditor/node/Graph.cpp:31-81 | connecting with hooks keeps the bookkeeping invariant |
| NodeGraph.RetypingHookConnects | editor/src/aderiteeditor/node/Graph.cpp:43-62 | a float output and a fresh convert node's "None" input are refused on the original pins, but connected once the convert node's hook has adopted "float" |
| NodeGraph.ConnectConnections | editor/src/aderiteeditor/node/Graph.cpp:31-81 | an accepted connection replaces the input's old connection and keeps every other input's |
| NodeGraph.ConnectKeepsGood | editor/src/aderiteeditor/node/Graph.cpp:31-81 | link ids stay below the counter, the free stack stays a duplicate-free list of destroyed links, and no input gets two links |
| NodeGraph.DisconnectLink | editor/src/aderiteeditor/node/Graph.cpp:83-94 | as written: an unknown id changes nothing, a live link is destroyed, and a destroyed link's id is pushed on the free stack even when already there |
| NodeGraph.DisconnectTwiceDuplicates | editor/src/aderiteeditor/node/Graph.cpp:83-94 | reporting one destroyed link twice puts its id on the free stack twice and breaks the invariant |
| NodeGraph.FirstConnectTakesLink | editor/src/aderiteeditor/node/Graph.cpp:31-94 | after the double report the next connection takes the link and leaves its id on the stack |
| NodeGraph.DisconnectTwiceLosesConnection | editor/src/aderiteeditor/node/Graph.cpp:31-94 | after the double report two connections share one link object, so the second silently drops the first |
| NodeGraph.DisconnectLinkOnce | editor/src/aderiteeditor/node/Graph.cpp:83-94 | corrected: the same, except that an id already on the free stack is not pushed again |
| NodeGraph.DisconnectLinkOnceKeepsGood | editor/src/aderiteeditor/node/Graph.cpp:83-94 | the corrected disconnect keeps the invariant, and destroying a live link removes exactly its connection |
| NodeGraph.AddNode | editor/src/aderiteeditor/node/Graph.hpp:47-53 | the node is appended with the counter's id and the counter advances; links are unchanged |
| NodeGraph.DeleteNode | editor/src/aderiteeditor/node/Graph.cpp:96-119 | an unknown id changes nothing; otherwise the first node with the id is erased, every link of its pins destroyed, and no other node or link changes |
| NodeGraph.DeleteNodeKeepsGood | editor/src/aderiteeditor/node/Graph.cpp:96-119 | deleting a node keeps the invariant |
| NodeGraph.AddThenDelete | editor/src/aderiteeditor/node/Graph.cpp:96-119 | deleting the node just added gives back the old node list |
| NodeGraph.ResetEvaluateFlag | editor/src/aderiteeditor/node/Graph.cpp:129-133 | every node's evaluated flag is cleared and nothing else changes |
| NodeGraph.ResetLaws | editor/src/aderiteeditor/node/Graph.cpp:129-133 | after a reset no node is evaluated, lookups by id are unchanged, and a second reset changes nothing |
| NodeGraph.SerializeNodeData | editor/src/aderiteeditor/node/Node.cpp:72-92 | the node's id and its pins' ids, inputs then outputs, each in order |
| NodeGraph.DeserializeNodeData | editor/src/aderiteeditor/node/Node.cpp:94-112 | the id is read back and the pin counts are kept |
| NodeGraph.NodeDataRoundTrip | editor/src/aderiteeditor/node/Node.cpp:72-112 | loading a node's saved data into a new node of the same kind restores its id and every pin id |
| NodeGraph.ValidKeys | editor/src/aderiteeditor/node/Graph.cpp:251-262 | exactly the ids of the live links, in iteration order, without duplicates when the order has none |
| NodeGraph.LinkPairs | editor/src/aderiteeditor/node/Graph.cpp:251-262 | one (output, input) pair per live link, in iteration order |
| NodeGraph.Serialize | editor/src/aderiteeditor/node/Graph.cpp:235-265 | the counter, the last node and the nodes are stored; the stored links are exactly the graph's connections |
| NodeGraph.ConnectAll | editor/src/aderiteeditor/node/Graph.cpp:275-279 | connecting pairs in turn never changes the nodes or the last node |
| NodeGraph.Deserialize | editor/src/aderiteeditor/node/Graph.cpp:267-289 | the stored nodes are appended and the counter overwritten; a stored last node is kept iff a node with that id exists |
| NodeGraph.ConnectAllConnections | editor/src/aderiteeditor/node/Graph.cpp:275-279 | connecting accepted pairs with distinct inputs gives those pairs plus every other input's old connection |
| NodeGraph.ConnectAllKeepsGood | editor/src/aderiteeditor/node/Graph.cpp:275-279 | connecting any list of pairs keeps the invariant |
| NodeGraph.LinkPairsDistinct | editor/src/aderiteeditor/node/Graph.cpp:251-262 | the stored links have distinct inputs |
| NodeGraph.SerializeRoundTrip | editor/src/aderiteeditor/node/Graph.cpp:235-289 | loading a saved, well-typed graph into a fresh one restores its nodes, counter, last node and exactly its connections |
| NodeEval.Reach | editor/src/aderiteeditor/node/Node.cpp:51-66 | a node depends on itself, and on nothing outside the graph or of higher rank |
| NodeEval.Evaluate | editor/src/aderiteeditor/node/AddNode.cpp:56-66 | on a graph ranked acyclic: the node is evaluated after its dependencies and marked; nothing is unmarked; each error names a non-optional input without a connection |
| NodeEval.EvaluateDependencies | editor/src/aderiteeditor/node/Node.cpp:51-66 | nothing is unmarked; each error names a non-optional input without a connection |
| NodeEval.ReachTrans | editor/src/aderiteeditor/node/Node.cpp:51-66 | a node's dependencies' dependencies are its own |
| NodeEval.EvaluateExact | editor/src/aderiteeditor/node/Node.cpp:47-66 | from a closed marked set, evaluation marks exactly the node's dependencies and evaluates each unmarked one exactly once |
| NodeEval.DependenciesExact | editor/src/aderiteeditor/node/Node.cpp:51-66 | the same for the inputs from a position on |
| NodeEval.EvaluateAfterReset | editor/src/aderiteeditor/node/Node.cpp:47-70 | after the reset, evaluating a node evaluates exactly its dependencies, each once |
| NodeEval.EvaluateAsWritten | editor/src/aderiteeditor/node/AddNode.cpp:56-66 | as written, on any wired graph: a run that finishes has marked the node, evaluated it last and unmarked nothing |
| NodeEval.DependenciesAsWritten | editor/src/aderiteeditor/node/Node.cpp:51-66 | as written: a run over the inputs that finishes unmarks nothing |
| NodeEval.AsWrittenAgreesWhenRanked | editor/src/aderiteeditor/node/AddNode.cpp:56-66 | on a ranked graph the run as written finishes once the fuel exceeds the node's rank and equals the ranked evaluation |
| NodeEval.DependenciesAgreeWhenRanked | editor/src/aderiteeditor/node/Node.cpp:51-66 | the same for the inputs from a position on |
| NodeEval.CycleUnranked | editor/src/aderiteeditor/node/Node.cpp:51-66 | two nodes feeding each other admit no rank |
| NodeEval.CycleNeverFinishes | editor/src/aderiteeditor/node/Node.cpp:51-66 | on two nodes feeding each other, evaluating either never finishes, whatever the fuel |
| ConvertNode.New | editor/src/aderiteeditor/node/shared/ConvertNode.cpp:18-22 | both pins start as "None", which is not an array type |
| ConvertNode.Follow | editor/src/aderiteeditor/node/shared/ConvertNode.cpp:24-47 | the other type is kept when the array-ness agrees, gains "[]" when only the new type is an array, and loses it when only the other one is |
| ConvertNode.SetFromType | editor/src/aderiteeditor/node/shared/ConvertNode.cpp:24-35 | the input takes the type exactly; the output becomes an array when the input is one and is kept when they already agree |
| ConvertNode.SetToType | editor/src/aderiteeditor/node/shared/ConvertNode.cpp:37-47 | the output takes the type exactly; the input follows by the same rule |
| ConvertNode.SettersSymmetric | editor/src/aderiteeditor/node/shared/ConvertNode.cpp:24-47 | the two setters are one rule applied to either side |
| ConvertNode.ArraynessAgrees | editor/src/aderiteeditor/node/shared/ConvertNode.cpp:24-47 | after either setter the other pin's array-ness matches the new type, for types that are not arrays of arrays |
| ConvertNode.NestedArrayStaysArray | editor/src/aderiteeditor/node/shared/ConvertNode.cpp:24-35 | stripping one "[]" from an array of arrays leaves an array, so the pins then disagree |
| ConvertNode.OnConnectToInput | editor/src/aderiteeditor/node/shared/ConvertNode.cpp:66-72 | the connection is always accepted and the input takes the output's type; an equal type changes nothing |
| ConvertNode.OnConnectToOutput | editor/src/aderiteeditor/node/shared/ConvertNode.cpp:74-80 | the same for the output side |
| ConvertNode.HooksSettle | editor/src/aderiteeditor/node/shared/ConvertNode.cpp:66-80 | a second connection of the same type changes nothing, and adopting a type is what setting it does |
| ConvertNode.Serialize | editor/src/aderiteeditor/node/shared/ConvertNode.cpp:86-91 | both types are stored |
| ConvertNode.Deserialize | editor/src/aderiteeditor/node/shared/ConvertNode.cpp:93-98 | what is loaded saves back to the stored types |
| ConvertNode.SerializeRoundTrip | editor/src/aderiteeditor/node/shared/ConvertNode.cpp:86-98 | saving and loading restores the node |
| ConvertNode.MapOps | editor/src/aderiteeditor/node/shared/ConvertNode.cpp:117-127 | one result per element, each the function applied to it |
| ConvertNode.ApplyArray | editor/src/aderiteeditor/node/shared/ConvertNode.cpp:117-127 | a new array named after the two types, holding every element converted in order; the elements and then the array are registered |
| ConvertNode.ConvertValue | editor/src/aderiteeditor/node/shared/ConvertNode.cpp:106-115 | an array input is converted element-wise, a scalar once; the result is registered last |
| ConvertNode.MapOpsCompose | editor/src/aderiteeditor/node/shared/ConvertNode.cpp:117-127 | converting element-wise with a composed function is converting twice |
| GraphX.GetId | editor/src/aderiteeditor/node/new/GraphX.cpp:87-97 | a known name keeps its id and changes nothing; a new name takes the counter's id; every earlier name keeps its id |
| GraphX.GetIdKeepsInterned | editor/src/aderiteeditor/node/new/GraphX.cpp:87-97 | interning keeps ids distinct and below the counter |
| GraphX.GetIdStable | editor/src/aderiteeditor/node/new/GraphX.cpp:87-97 | asking again for a name gives the same id and changes nothing |
| GraphX.DistinctNamesDistinctIds | editor/src/aderiteeditor/node/new/GraphX.cpp:87-97 | two different names never get one id |
| GraphX.FullName | editor/src/aderiteeditor/node/new/GraphX.cpp:105-107 | the node name, "_" and the pin name |
| GraphX.FullNameInjective | editor/src/aderiteeditor/node/new/GraphX.cpp:105-125 | with pin names of one length, the full name determines the node and the pin |
| GraphX.OutSetType | editor/src/aderiteeditor/node/new/GraphX.cpp:109-111 | the output pin takes the type and keeps its name |
| GraphX.InSetType | editor/src/aderiteeditor/node/new/GraphX.cpp:127 | as written: the input pin is unchanged, whatever the type |
| GraphX.InSetTypeFixed | editor/src/aderiteeditor/node/new/GraphX.cpp:127 | corrected: the input pin takes the type and keeps its name and connection |
| GraphX.SetAllPins | editor/src/aderiteeditor/node/new/GraphX.cpp:109-127 | every output pin gets the type; the input pins get it only with the corrected setter |
| GraphX.AddNode | editor/src/aderiteeditor/node/new/GraphX.cpp:14-16 | the node is appended |
| GraphX.RemoveNode | editor/src/aderiteeditor/node/new/GraphX.cpp:18-20 | the first occurrence of the node is removed and the other nodes keep their order |
| GraphX.AddThenRemove | editor/src/aderiteeditor/node/new/GraphX.cpp:14-20 | removing a node just added gives back the old list |
| GraphX.OutTypeOf | editor/src/aderiteeditor/node/new/GraphX.cpp:67-84 | the type of an output pin with the full name; none iff no output pin has it |
| GraphX.RenderLinks | editor/src/aderiteeditor/node/new/GraphX.cpp:67-84 | an input whose output has another type is disconnected and every other connection is kept; names and output pins are unchanged |
| GraphX.RenderLinksSettles | editor/src/aderiteeditor/node/new/GraphX.cpp:67-84 | after the link pass every connection joins pins of one type and a second pass changes nothing |
| GraphX.RetypeDropsConnection | editor/src/aderiteeditor/node/new/GraphX.cpp:67-127 | with the setter as written, retyping two connected nodes to a type the label table covers loses their connection at the next render |
| GraphX.RetypeKeepsConnectionFixed | editor/src/aderiteeditor/node/new/GraphX.cpp:67-127 | with the corrected setter the same retyping keeps the connection |
| GraphX.TypeLabel | editor/src/aderiteeditor/node/new/GraphX.cpp:12-59 | as written: the node pass finds a label only for "None" and "Float"; every later pin type reads past the two-entry table |
| GraphX.TypeLabelFixed | editor/src/aderiteeditor/node/new/GraphX.cpp:12 | corrected: every pin type has a non-empty label, agreeing with the two-entry table where that has one |
| GraphX.FixedLabelsDistinct | editor/src/aderiteeditor/node/new/GraphX.cpp:12 | the full table gives distinct types distinct labels |
| GraphX.Vec2PinReadsPastLabels | editor/src/aderiteeditor/node/new/GraphX.cpp:41-61 | a float node retyped to vec2 already makes the node pass read past the table |
| GraphX.RenderIds | editor/src/aderiteeditor/node/new/GraphX.cpp:28-64 | every node name and pin full name gets an id, earlier ids are kept, and ids stay distinct |
| GraphX.RenderNodeIds | editor/src/aderiteeditor/node/new/GraphX.cpp:28-64 | the same for one node |

## Left out

- Rendering (bgfx), physics simulation (PhysX), audio playback (FMOD), script execution (Mono), the ImGui and ImNodes panels, YAML emitting and parsing, and file I/O are foreign code. Their results are parameters (decoded meshes and images, script class registries, connect-hook verdicts, stored records) or they are not modelled.
- The threads, mutexes and condition variables of the loader pool are left out; only the sequential queue operations are modelled.
- Frame timing and delta computation are left out; the delta is a parameter.
- Floats and doubles (volume, mass, cursor, scroll, property values) are modelled as reals. Integer widths are modelled only where they matter: the 16-bit property offset and the 64-bit shader length prefix.
- The numeric value of the invalid handle is not in the modelled sources, so handles are `Option`s or a separate `Invalid` constructor.
- RefCounts: `acquire` and `release` live in asset code that is not part of this model. The count is an unbounded integer, and a release at zero is not guarded.
- `Entity::setScene` (scene and physics bookkeeping) is not modelled. Only the scene field is carried, so that `clone` can copy it.
- `Scene::deserialize`, the prefab variant of `createGameObject`, and the per-object `update` calls are left out.
- Pointers are modelled as ids, and deleting an object is not modelled. A removed VFS entry stays in the arena, detached. `Graph::deleteNode` leaves `m_lastNode` pointing at a deleted node when it was the last node; the model keeps the id.
- Vfs.GetPath and Vfs.SearchFile recurse over parent and child ids and take a fuel bound. With too little fuel they answer `None`, a case a well-formed tree does not reach with fuel at least its depth; for the search, Vfs.SearchFindsWithinDepth proves that fuel one more than the file's depth suffices.
- `VFS::getDirectory(path)` walks a filesystem path whose first component for an absolute path is the root name "/". The model takes the components as given, so the root component is not looked up as a child.
- File.cpp, Link.cpp, the pin classes and the other concrete node kinds are not part of this model. Pins and links are records inside the graph. Whether a node accepts a connection, and what its hook does to the nodes, are parameters.
- NodeGraph.ConnectAll: the stored links are connected with hooks that accept and leave the nodes as they are; a node kind whose hook refuses or retypes during loading is not modelled there.
- `ConvertNode` relies on `isArray`, which is not part of this model. It is taken to test for a trailing "[]".
- ConvertNode.ArraynessAgrees: stated only for types that are not arrays of arrays, because stripping one "[]" from such a type leaves an array. NestedArrayStaysArray shows the case.
- NodeEval.Evaluate and NodeEval.EvaluateDependencies require a rank that every connection decreases, so they exclude cyclic graphs. `Graph::connect` builds such graphs without a check, and the source then recurses without end; NodeEval.EvaluateAsWritten models any graph with a fuel bound, and the Findings record the cycle.
- NodeGraph.ConnectHooked: a hook is taken to change a pin only through `setType`, whose declaration says it disconnects the pin; the pin sources are not part of this model, so every link of a pin whose record the hooks changed is destroyed, as `disconnect` destroys links elsewhere in the model.
- Vfs.SearchFile: `searchFile` falls off its end without a `return` when nothing is found, which is undefined behaviour, also for every recursive call at VFS.cpp:56 that finds nothing; the model answers `None`, the null the caller tests for.
- Vfs.MoveDirectoryChecked refuses a move that would delete the directory. When the target's same-named directory is a proper ancestor of the moved one, the directory stays where it is and the target does not list it.
- GraphX.RenderIds and GraphX.RenderNodeIds intern ids only; the labels the node pass prints are left out of them. GraphX.TypeLabel models the label table, and the Findings record that any pin type after Float reads past it.
- ScriptSystem.RefreshTwice: entity wrappers are modelled by entity ids. The source allocates new wrapper objects on every refresh, so a second refresh leaves the same entities in the same order, not the same objects.
- ScriptSystem.SerializeRoundTrip restores a field only when its type is float, bool, mesh, material, audio or audio source and its value is not null. `serialize` writes null for an int, prefab, geometry or untyped field (ScriptSystem.cpp:205-207) and `deserialize` has no case for those types, so such a field reloads as the class default, as ScriptSystem.IntegerFieldResets shows.
- FieldType.hpp is not part of this model; the field types are the enumerators its users name. Float and bool values are opaque ids like object references, so the model allows a null in such a field, which the source never holds.
- ScriptSystem.LoadThenDispatch: the claim that a failed load leaves no instance holds only for a fresh system. A failed load after a successful one keeps the old instance, which FailedLoadKeepsInstance states.
- ScriptEventMap.Deserialize ignores the stored event type. The type comes from the resolved event, as in the source.
- RenderableData.Assign requires both of the other renderable's mesh and material to be set, because the source dereferences both.
- Loader.LoadMesh requires the imported mesh to have as many normals and texture coordinates as positions. The source reads `mNormals` and `mTextureCoords[0]` for every vertex without checking that they exist, so a mesh without them is undefined behaviour there and is excluded here.
- Loader.LoadShader reports a chunk too short for its own length prefix as `Truncated`. The source does not check this and computes a wrapped fragment size, which the Findings below record.
- MaterialAsset.Deserialize resolves a stored sampler handle the asset manager does not know to null.
- GraphX.hpp and GraphX.cpp disagree: the header's pin constructors take a name, and it stores a connection as an output-node name. The model follows GraphX.cpp, where an input pin points at its output pin. That pointer is modelled as the output pin's full name.
- GraphX node and pin names come from `generateString(12)`, which is random, so names are inputs to the model. GraphX.FullNameInjective assumes pin names of one length, as generated names are.
- The link pass of GraphX `render` also interns ids. The node pass has interned all of them already, so the model leaves that out; GraphX.GetIdStable shows that asking again changes nothing.
- AssetManager.GetCached models only the cached path of `get`; reading an asset from disk is I/O.
- The legacy `aderite_editor` sources and `lib/ObjectPool.hpp` are not part of this model.

## Findings

| source | as written | input that shows it | evidently intended | confidence | as-written member | corrected member |
|---|---|---|---|---|---|---|
| runtime/src/aderite/io/Serializer.cpp:128 | `get` asserts `m_objects.size() <= handle` | any handle of an existing slot fails the assert; a handle past the end passes it | `handle < m_objects.size()` | not executed | Serializer.GetGuardInverted | Serializer.Get |
| runtime/src/aderite/io/Serializer.cpp:142 | `remove` asserts `m_objects.size() >= handle` | handle 0 on an empty table passes and then indexes past the end | `handle < m_objects.size()` | not executed | Serializer.RemoveGuardOffByOne | Serializer.Remove |
| editor/src/aderiteeditor/asset/EditorMaterialType.cpp:147-152 | the final loop re-offsets every property, not only the leftover floats | a float declared before a vec4: the vec4 lands at element 5 and the size is 3 vec4s | the leftover floats placed after the vectors, as the runtime does: the vec4 at 0 and size 2 | not executed | MaterialLayout.EditorFinalLoopMisaligns | MaterialLayout.EditorRecalculate |
| runtime/src/aderite/io/Loader.cpp:271 | the fragment size `size - 8 - vertexSize` in unsigned arithmetic, unchecked | an 8-byte chunk whose prefix claims 1 vertex byte gives 2^64 - 1 | reject a chunk shorter than 8 plus its vertex length | not executed | Loader.FragmentSizeWraps | Loader.LoadShader |
| editor/src/aderiteeditor/vfs/VFS.cpp:109-115 | moving a file appends it to the target but neither removes it from its old directory nor re-parents it | a file moved between two directories is listed by both | detach the file from its old parent and re-parent it, as the directory move does | not executed | Vfs.MoveFileLeavesOldListing | Vfs.MoveFileDetachedKeepsOwned |
| editor/src/aderiteeditor/vfs/VFS.cpp:109-115 | when the target already holds a file of the moved file's name, that file is removed and deleted before the moved one is appended, even when it is the moved file itself | moving a file into the directory that already lists it: it is deleted and a dangling pointer is appended | leave a file the target already lists where it is | not executed | Vfs.MoveFileIntoOwnDirectoryDangles | Vfs.MoveFileDetachedKeepsOwned |
| editor/src/aderiteeditor/vfs/VFS.cpp:117-125 | the same-named directory in the target is removed and deleted with its whole subtree before the moved one is detached, even when the moved directory is that directory or lies inside it | moving a directory into its own parent, or with R/x/x moving the inner x into R: the moved directory is deleted and then read | leave the directory where it is when its move would delete it | not executed | Vfs.MoveDirectory | Vfs.MoveDirectoryKeepsOwned |
| editor/src/aderiteeditor/node/Graph.cpp:83-94 | `disconnectLink` pushes a destroyed link's id on the free stack even when it is already there | a destroyed link reported twice, then two connections: both take that link and the second drops the first | push each destroyed id once | not executed | NodeGraph.DisconnectTwiceLosesConnection | NodeGraph.DisconnectLinkOnceKeepsGood |
| editor/src/aderiteeditor/node/new/GraphX.cpp:127 | `InNodePin::setType` has an empty body | two connected float nodes retyped to None, a type the label table covers (a vector type would first make the node pass read past that table, the row below): the output changes, the input stays float, and the next render drops the connection | set the type, as `OutNodePin::setType` does | not executed | GraphX.RetypeDropsConnection | GraphX.RetypeKeepsConnectionFixed |
| editor/src/aderiteeditor/node/Node.cpp:51-66 | `connect` accepts a link that closes a cycle (NodeGraph.ConnectClosesCycle), and a node is marked evaluated only after `evaluateDependencies` has followed every connection to an unmarked node | two nodes each feeding the other: evaluating either recurses without end | evaluation only on acyclic graphs, where it finishes and evaluates each dependency once | not executed | NodeEval.CycleNeverFinishes | NodeEval.EvaluateExact |
| editor/src/aderiteeditor/node/new/GraphX.cpp:12 | `c_PinTypeMap` has two entries, but the node pass indexes it at :48 and :59 with every pin's type, of seven | a node with a vec2 pin: its label is read past the end of the table | one label per pin type | not executed | GraphX.Vec2PinReadsPastLabels | GraphX.TypeLabelFixed |

=== FILE: AssetManager.dfy ===
/** The asset registry (runtime `asset::AssetManager`).

    The registry is an ordered list of entries, each a handle and the asset
    loaded for it (null when unloaded). Handles come from a counter that only
    grows, so a handle is never handed out twice. */
module AssetManager {
  import opened Wrappers
  import opened Serializer

  /** A tracked asset: identity (its address), the handle it carries, its
      outstanding reference count and whether it still needs loading. */
  datatype Asset = Asset(id: nat, handle: Handle, refCount: nat, needsLoading: bool)

  datatype Entry = Entry(asset: Option<Asset>, handle: nat)

  datatype Manager = Manager(registry: seq<Entry>, nextFreeHandle: nat)

  /** A fresh manager: empty registry, counter at 0. */
  const Fresh := Manager([], 0)

  /** Every registered handle is below the counter and no two entries share one. */
  predicate HandlesFresh(m: Manager) {
    (forall i :: 0 <= i < |m.registry| ==> m.registry[i].handle < m.nextFreeHandle) &&
    (forall i, j :: 0 <= i < j < |m.registry| ==> m.registry[i].handle != m.registry[j].handle)
  }

  /** The index of the first entry whose (non-null) asset is `id`. */
  function FindAsset(reg: seq<Entry>, id: nat): (r: Option<nat>)
    ensures r.Some? ==> r.value < |reg| && reg[r.value].asset.Some? && reg[r.value].asset.value.id == id
    ensures r.Some? ==> forall j :: 0 <= j < r.value ==> !(reg[j].asset.Some? && reg[j].asset.value.id == id)
    ensures r.None? ==> forall j :: 0 <= j < |reg| ==> !(reg[j].asset.Some? && reg[j].asset.value.id == id)
  {
    if |reg| == 0 then None
    else if reg[0].asset.Some? && reg[0].asset.value.id == id then Some(0)
    else match FindAsset(reg[1..], id)
      case None => None
      case Some(k) => Some(k + 1)
  }

  /** The index of the first entry with handle `h`. */
  function FindHandle(reg: seq<Entry>, h: nat): (r: Option<nat>)
    ensures r.Some? ==> r.value < |reg| && reg[r.value].handle == h
    ensures r.Some? ==> forall j :: 0 <= j < r.value ==> reg[j].handle != h
    ensures r.None? ==> forall j :: 0 <= j < |reg| ==> reg[j].handle != h
  {
    if |reg| == 0 then None
    else if reg[0].handle == h then Some(0)
    else match FindHandle(reg[1..], h)
      case None => None
      case Some(k) => Some(k + 1)
  }

  /** `track`: append the asset under the next handle, stamp the handle on the
      asset and step the counter by one. */
  function Track(m: Manager, a: Asset): (r: (Manager, Asset))
    ensures r.1 == a.(handle := Valid(m.nextFreeHandle))
    ensures r.0.registry == m.registry + [Entry(Some(r.1), m.nextFreeHandle)]
    ensures r.0.nextFreeHandle == m.nextFreeHandle + 1
  {
    var a' := a.(handle := Valid(m.nextFreeHandle));
    (Manager(m.registry + [Entry(Some(a'), m.nextFreeHandle)], m.nextFreeHandle + 1), a')
  }

  /** `untrack`: the first entry holding the asset is erased; an asset that
      is found must have no outstanding references. An asset that is not
      registered leaves the manager unchanged. Neither the counter nor the
      asset's handle moves. */
  function Untrack(m: Manager, a: Asset): (r: Manager)
    requires FindAsset(m.registry, a.id).Some? ==> m.registry[FindAsset(m.registry, a.id).value].asset.value.refCount == 0
    ensures r.nextFreeHandle == m.nextFreeHandle
    ensures FindAsset(m.registry, a.id).None? ==> r == m
    ensures FindAsset(m.registry, a.id).Some? ==>
              var k := FindAsset(m.registry, a.id).value;
              r.registry == m.registry[..k] + m.registry[k + 1..]
  {
    match FindAsset(m.registry, a.id)
    case None => m
    case Some(k) => m.(registry := m.registry[..k] + m.registry[k + 1..])
  }

  /** `has`: the handle must not be the invalid one; true iff some entry
      carries it. */
  function Has(m: Manager, h: Handle): (r: bool)
    requires h.Valid?
    ensures r <==> exists i :: 0 <= i < |m.registry| && m.registry[i].handle == h.index
  {
    FindHandle(m.registry, h.index).Some?
  }

  /** The cached path of `get`: the handle must be valid and tracked; the
      result is the asset already loaded for it, or `None` when it has to be
      read from disk first. */
  function GetCached(m: Manager, h: Handle): (r: Option<Asset>)
    requires h.Valid? && Has(m, h)
    ensures exists i :: 0 <= i < |m.registry| && m.registry[i].handle == h.index && m.registry[i].asset == r
  {
    m.registry[FindHandle(m.registry, h.index).value].asset
  }

  /** What the sweep in `update` does to one entry: a referenced asset stays,
      an unreferenced one is unloaded and its slot becomes null; the entry
      itself remains. */
  function SweepEntry(e: Entry): Entry {
    if e.asset.Some? && e.asset.value.refCount == 0 then e.(asset := None) else e
  }

  /** Whether `update` hands the entry's asset to the loader pool. */
  predicate WantsLoad(e: Entry) {
    e.asset.Some? && e.asset.value.refCount > 0 && e.asset.value.needsLoading
  }

  /** `update`: sweep every entry and collect, in registry order, the assets
      that are referenced but still need loading. */
  method Update(m: Manager) returns (m': Manager, enqueued: seq<Asset>)
    ensures m'.nextFreeHandle == m.nextFreeHandle
    ensures |m'.registry| == |m.registry|
    ensures forall i :: 0 <= i < |m.registry| ==> m'.registry[i].handle == m.registry[i].handle
    ensures forall i :: 0 <= i < |m.registry| && m.registry[i].asset.Some? && m.registry[i].asset.value.refCount > 0 ==>
              m'.registry[i] == m.registry[i]
    ensures forall i :: 0 <= i < |m.registry| && !(m.registry[i].asset.Some? && m.registry[i].asset.value.refCount > 0) ==>
              m'.registry[i].asset.None?
    ensures forall a :: a in enqueued <==> exists i :: 0 <= i < |m.registry| && WantsLoad(m.registry[i]) && m.registry[i].asset.value == a
  {
    var reg: seq<Entry> := [];
    enqueued := [];
    var i := 0;
    while i < |m.registry|
      invariant 0 <= i <= |m.registry|
      invariant |reg| == i
      invariant forall j :: 0 <= j < i ==> reg[j] == SweepEntry(m.registry[j])
      invariant forall a :: a in enqueued <==> exists j :: 0 <= j < i && WantsLoad(m.registry[j]) && m.registry[j].asset.value == a
    {
      var e := m.registry[i];
      if WantsLoad(e) {
        enqueued := enqueued + [e.asset.value];
      }
      reg := reg + [SweepEntry(e)];
      i := i + 1;
    }
    m' := m.(registry := reg);
  }

  /** `loadRegistry`: only an untouched manager may load; the stored entries
      come back unloaded in file order together with the stored counter. */
  function LoadRegistry(m: Manager, nextHandle: nat, handles: seq<nat>): (r: Manager)
    requires |m.registry| == 0
    ensures r.nextFreeHandle == nextHandle
    ensures |r.registry| == |handles|
    ensures forall i :: 0 <= i < |handles| ==> r.registry[i] == Entry(None, handles[i])
  {
    Manager(seq(|handles|, i requires 0 <= i < |handles| => Entry(None, handles[i])), nextHandle)
  }

  /** Tracking keeps handles fresh: the new handle is unused, and the counter
      stays ahead of every registered handle. */
  lemma TrackPreservesFresh(m: Manager, a: Asset)
    requires HandlesFresh(m)
    ensures HandlesFresh(Track(m, a).0)
    ensures forall i :: 0 <= i < |m.registry| ==> m.registry[i].handle != Track(m, a).1.handle.index
  {
  }

  /** Untracking keeps handles fresh. */
  lemma UntrackPreservesFresh(m: Manager, a: Asset)
    requires HandlesFresh(m)
    requires FindAsset(m.registry, a.id).Some? ==> m.registry[FindAsset(m.registry, a.id).value].asset.value.refCount == 0
    ensures HandlesFresh(Untrack(m, a))
  {
    match FindAsset(m.registry, a.id)
    case None =>
    case Some(k) => RemoveAtKeepsFresh(m, k);
  }

  /** Dropping one entry from a registry whose handles are fresh keeps them so. */
  lemma RemoveAtKeepsFresh(m: Manager, k: nat)
    requires HandlesFresh(m) && k < |m.registry|
    ensures HandlesFresh(m.(registry := m.registry[..k] + m.registry[k + 1..]))
  {
    var reg := m.registry[..k] + m.registry[k + 1..];
    forall i | 0 <= i < |reg|
      ensures reg[i] == m.registry[if i < k then i else i + 1]
    {
    }
  }

  /** Handles are never reused: after an asset is untracked, tracking
      another asset hands out a handle that no entry of the registry before
      the untrack ever had, the untracked one included. */
  lemma NoHandleReuse(m: Manager, a: Asset, b: Asset)
    requires HandlesFresh(m)
    requires FindAsset(m.registry, a.id).Some? ==> m.registry[FindAsset(m.registry, a.id).value].asset.value.refCount == 0
    ensures forall i :: 0 <= i < |m.registry| ==> Track(Untrack(m, a), b).1.handle != Valid(m.registry[i].handle)
  {
  }

  /** Tracking then querying the new handle finds the tracked asset cached. */
  lemma TrackThenGet(m: Manager, a: Asset)
    requires HandlesFresh(m)
    ensures var (m1, a1) := Track(m, a);
            Has(m1, a1.handle) && GetCached(m1, a1.handle).Some?
  {
    var (m1, a1) := Track(m, a);
    assert m1.registry[|m.registry|].handle == a1.handle.index;
  }
}

=== FILE: AudioSourceData.dfy ===
/** An audio source component's data (runtime `audio::AudioSourceData`): an
    optional clip it holds a reference on, a volume and a mute flag. The
    volume is a `float`, modelled as a real. */
module AudioSourceData {
  import opened Wrappers
  import opened RefCounts

  datatype AudioSource = AudioSource(clip: Option<nat>, volume: real, muted: bool)

  /** `setAudioClip`: release the old clip, acquire the new one (null
      allowed) and hold it. */
  function SetAudioClip(s: AudioSource, rc: Counts, clip: Option<nat>): (r: (AudioSource, Counts))
    ensures r.0.clip == clip && r.0.volume == s.volume && r.0.muted == s.muted
    ensures forall a :: Count(r.1, a) == Count(rc, a) - Held(s.clip, a) + Held(clip, a)
  {
    (s.(clip := clip), Transfer(rc, s.clip, clip))
  }

  /** Setting the held clip again changes no count; setting null releases
      the held clip and holds nothing. */
  lemma SetAudioClipCases(s: AudioSource, rc: Counts)
    ensures forall a :: Count(SetAudioClip(s, rc, s.clip).1, a) == Count(rc, a)
    ensures SetAudioClip(s, rc, None).0.clip.None?
    ensures s.clip.Some? ==> Count(SetAudioClip(s, rc, None).1, s.clip.value) == Count(rc, s.clip.value) - 1
  {
  }

  function Mute(s: AudioSource): (s': AudioSource)
    ensures s'.muted && s'.volume == s.volume && s'.clip == s.clip
  {
    s.(muted := true)
  }

  function Unmute(s: AudioSource): (s': AudioSource)
    ensures !s'.muted && s'.volume == s.volume && s'.clip == s.clip
  {
    s.(muted := false)
  }

  function SetVolume(s: AudioSource, v: real): (s': AudioSource)
    ensures s'.volume == v && s'.muted == s.muted && s'.clip == s.clip
  {
    s.(volume := v)
  }

  /** Muting and unmuting restore the source exactly. */
  lemma MuteRoundTrip(s: AudioSource)
    ensures !s.muted ==> Unmute(Mute(s)) == s
    ensures s.muted ==> Mute(Unmute(s)) == s
  {
  }

  /** `operator=`: take the other's clip through `setAudioClip`, then its
      volume and mute flag. */
  function Assign(s: AudioSource, rc: Counts, other: AudioSource): (r: (AudioSource, Counts))
    ensures r.0 == other
    ensures forall a :: Count(r.1, a) == Count(rc, a) - Held(s.clip, a) + Held(other.clip, a)
  {
    var (s1, rc1) := SetAudioClip(s, rc, other.clip);
    (s1.(volume := other.volume, muted := other.muted), rc1)
  }

  /** The destructor: release the held clip. */
  function Destroy(s: AudioSource, rc: Counts): (rc': Counts)
    ensures forall a :: Count(rc', a) == Count(rc, a) - Held(s.clip, a)
  {
    if s.clip.Some? then Release(rc, s.clip.value) else rc
  }

  /** References stay balanced: a source that is set to a clip and later
      destroyed leaves every count where it started. */
  lemma SetThenDestroyBalanced(s: AudioSource, rc: Counts, clip: Option<nat>)
    requires s.clip.None?
    ensures var (s1, rc1) := SetAudioClip(s, rc, clip);
            forall a :: Count(Destroy(s1, rc1), a) == Count(rc, a)
  {
  }
}

=== FILE: ColliderList.dfy ===
/** A collider list asset (runtime `asset::ColliderListAsset`): colliders,
    as opaque ids, in insertion order, with an iteration counter that every
    change steps so that actors using the list can tell it changed. */
module ColliderList {
  import opened Wrappers

  datatype ColliderList = ColliderList(colliders: seq<nat>, iteration: nat)

  /** A fresh list is empty at iteration 1. */
  function Empty(): (l: ColliderList)
    ensures l.colliders == [] && l.iteration == 1
  {
    ColliderList([], 1)
  }

  /** `incrementIteration`: the counter steps by one, the list is kept. */
  function IncrementIteration(l: ColliderList): (l': ColliderList)
    ensures l'.iteration == l.iteration + 1 && l'.colliders == l.colliders
  {
    l.(iteration := l.iteration + 1)
  }

  /** `add`: append at the end and step the counter. */
  function Add(l: ColliderList, c: nat): (l': ColliderList)
    ensures l'.colliders == l.colliders + [c]
    ensures l'.iteration == l.iteration + 1
  {
    IncrementIteration(l.(colliders := l.colliders + [c]))
  }

  /** The index of the first occurrence of `c`, if any. */
  function Find(s: seq<nat>, c: nat): (r: Option<nat>)
    ensures r.Some? ==> r.value < |s| && s[r.value] == c && forall j :: 0 <= j < r.value ==> s[j] != c
    ensures r.None? <==> c !in s
  {
    if s == [] then None
    else if s[0] == c then Some(0)
    else
      var r := Find(s[1..], c);
      if r.None? then (assert forall j :: 1 <= j < |s| ==> s[j] == s[1..][j - 1]; None)
      else Some(r.value + 1)
  }

  /** `remove`: erase the first occurrence of `c` and step the counter; an
      absent collider changes nothing. */
  function Remove(l: ColliderList, c: nat): (l': ColliderList)
    ensures c !in l.colliders ==> l' == l
    ensures c in l.colliders ==> l'.iteration == l.iteration + 1 && |l'.colliders| == |l.colliders| - 1
    ensures c in l.colliders ==> multiset(l'.colliders) == multiset(l.colliders) - multiset{c}
    ensures c in l.colliders ==>
              exists i :: 0 <= i < |l.colliders| && l.colliders[i] == c && c !in l.colliders[..i] &&
                          l'.colliders == l.colliders[..i] + l.colliders[i + 1..]
  {
    match Find(l.colliders, c)
    case None => l
    case Some(i) =>
      assert l.colliders == l.colliders[..i] + [c] + l.colliders[i + 1..];
      assert c !in l.colliders[..i];
      IncrementIteration(l.(colliders := l.colliders[..i] + l.colliders[i + 1..]))
  }

  /** Removing what was just added restores the list, one iteration later
      per change. */
  lemma AddThenRemove(l: ColliderList, c: nat)
    requires c !in l.colliders
    ensures Remove(Add(l, c), c) == ColliderList(l.colliders, l.iteration + 2)
  {
    var s := l.colliders + [c];
    assert forall j :: 0 <= j < |l.colliders| ==> s[j] != c;
    assert Find(s, c) == Some(|l.colliders|);
    assert s[..|l.colliders|] == l.colliders;
  }

  /** The deserialize loop: each parsed collider is added in turn. */
  method AddAll(l: ColliderList, cs: seq<nat>) returns (l': ColliderList)
    ensures l'.colliders == l.colliders + cs
    ensures l'.iteration == l.iteration + |cs|
  {
    l' := l;
    var i := 0;
    while i < |cs|
      invariant 0 <= i <= |cs|
      invariant l'.colliders == l.colliders + cs[..i]
      invariant l'.iteration == l.iteration + i
    {
      l' := Add(l', cs[i]);
      assert cs[..i + 1] == cs[..i] + [cs[i]];
      i := i + 1;
    }
    assert cs[..i] == cs;
  }
}

=== FILE: Compiler.dfy ===
/** The material header the editor's shader compiler generates for a
    material type (`Compiler::generateMaterialHeader`): a uniform vec4 array
    holding the packed property buffer, one `#define` per numeric property
    naming the vec4 and the components it occupies, and one sampler line per
    texture property. The timestamp of the header comment is a parameter. */
module Compiler {
  import opened MaterialProperty
  import opened MaterialLayout
  import opened Numerals

  /** Header names replace every '.' of the asset name by '_'. */
  function Sanitize(name: string): (t: string)
    ensures |t| == |name|
    ensures forall i :: 0 <= i < |t| ==> t[i] == if name[i] == '.' then '_' else name[i]
    decreases |name|
  {
    if |name| == 0 then ""
    else [if name[0] == '.' then '_' else name[0]] + Sanitize(name[1..])
  }

  /** A sanitised name holds no '.', a name without '.' is its own
      sanitised form, and so sanitising twice changes nothing. */
  lemma SanitizeNoDots(name: string)
    ensures '.' !in Sanitize(name)
    ensures '.' !in name ==> Sanitize(name) == name
    ensures Sanitize(Sanitize(name)) == Sanitize(name)
  {
    var t := Sanitize(name);
    assert forall i :: 0 <= i < |t| ==> t[i] != '.';
    if '.' !in name {
      assert forall i :: 0 <= i < |name| ==> name[i] != '.';
    }
  }

  /** The uniform array size: the element count rounded up to whole vec4s. */
  lemma ArraySizeIsCeiling(elementCount: nat)
    ensures Vec4Slots(elementCount) == (elementCount + 3) / 4
  {
  }

  /** The vec4 component a swizzle letter selects (4 for any other
      character). */
  function Component(c: char): (i: nat)
    ensures i <= 4
  {
    if c == 'x' then 0 else if c == 'y' then 1 else if c == 'z' then 2 else if c == 'w' then 3 else 4
  }

  /** The swizzle for a property of `elementCount` elements whose offset has
      remainder `rem` modulo 4: vec4 and vec3 always start at x, a vec2 at x
      or (for any non-zero remainder) at z, and a float at its remainder's
      component. Anything else gets no swizzle. */
  function Swizzle(elementCount: nat, rem: nat): (access: string)
    ensures 1 <= elementCount <= 4 && (elementCount != 1 || rem < 4) ==> |access| == elementCount
    ensures forall j :: 0 <= j < |access| ==> Component(access[j]) == Component(access[0]) + j
    ensures elementCount >= 3 && |access| > 0 ==> Component(access[0]) == 0
    ensures elementCount == 2 && |access| > 0 ==> Component(access[0]) == if rem == 0 then 0 else 2
    ensures elementCount == 1 && |access| > 0 ==> Component(access[0]) == rem
  {
    match elementCount
    case 4 => "xyzw"
    case 3 => "xyz"
    case 2 => if rem == 0 then "xy" else "zw"
    case 1 =>
      if rem == 0 then "x" else if rem == 1 then "y" else if rem == 2 then "z" else if rem == 3 then "w" else ""
    case _ => ""
  }

  /** What a `#define` names: an index into the uniform array and a
      swizzle. */
  datatype Accessor = Accessor(index: nat, access: string)

  /** The accessor for a property: the vec4 holding its offset and the
      swizzle for its type and remainder. */
  function AccessorOf(p: Property): (a: Accessor)
    ensures 4 * a.index + p.offset % 4 == p.offset
    ensures IsNumeric(p.ptype) ==> |a.access| == ElementCount(p.ptype)
  {
    var rem := p.offset % 4;
    Accessor((p.offset - rem) / 4, Swizzle(ElementCount(p.ptype), rem))
  }

  /** The buffer elements an accessor reads, in swizzle order. */
  function Slots(a: Accessor): (s: seq<nat>)
    ensures |s| == |a.access|
  {
    seq(|a.access|, j requires 0 <= j < |a.access| => 4 * a.index + Component(a.access[j]))
  }

  /** The elements `offset` to `offset + n - 1`. */
  function Span(offset: nat, n: nat): (s: seq<nat>)
    ensures |s| == n && forall j :: 0 <= j < n ==> s[j] == offset + j
  {
    seq(n, j requires 0 <= j < n => offset + j)
  }

  /** A swizzle names the components from the remainder on exactly when
      the property starts a vec4 (vec4, vec3) or one of its halves (vec2)
      and does not run past its end. */
  lemma SwizzleExact(n: nat, rem: nat)
    requires 1 <= n <= 4 && rem < 4
    ensures (forall j :: 0 <= j < n ==> Component(Swizzle(n, rem)[j]) == rem + j) <==>
            (n >= 3 ==> rem == 0) && (n == 2 ==> rem == 0 || rem == 2) && rem + n <= 4
  {
    var s := Swizzle(n, rem);
    if !((n >= 3 ==> rem == 0) && (n == 2 ==> rem == 0 || rem == 2) && rem + n <= 4) {
      assert Component(s[0]) != rem + 0;
    }
  }

  /** A numeric property's accessor reads exactly its own elements if and
      only if the property is aligned and does not straddle a vec4. */
  lemma AccessorExact(p: Property)
    requires IsNumeric(p.ptype)
    ensures Slots(AccessorOf(p)) == Span(p.offset, ElementCount(p.ptype)) <==>
            Aligned(p.ptype, p.offset) && p.offset % 4 + ElementCount(p.ptype) <= 4
  {
    var a := AccessorOf(p);
    var n := ElementCount(p.ptype);
    var rem := p.offset % 4;
    SwizzleExact(n, rem);
    var s, span := Slots(a), Span(p.offset, n);
    assert a.access == Swizzle(n, rem);
    if forall j :: 0 <= j < n ==> Component(a.access[j]) == rem + j {
      assert forall j :: 0 <= j < n ==> s[j] == span[j];
    } else {
      var j :| 0 <= j < n && Component(a.access[j]) != rem + j;
      assert s[j] != span[j];
    }
  }

  /** The editor's as-written layout puts a vec4 at element 5 (see
      `EditorFinalLoopMisaligns`); its accessor then reads elements 4 to 7
      instead of 5 to 8. */
  lemma MisalignedVec4Accessor()
    ensures Slots(AccessorOf(Property("v", VEC4, 5))) == [4, 5, 6, 7]
    ensures Span(5, ElementCount(VEC4)) == [5, 6, 7, 8]
  {
    var s := Slots(AccessorOf(Property("v", VEC4, 5)));
    assert s[0] == 4 && s[1] == 5 && s[2] == 6 && s[3] == 7;
  }

  /** After `recalculate`, as long as the element count fits the 16-bit
      offsets, every numeric property's accessor reads exactly its own
      elements, and they lie inside the uniform array. */
  lemma RecalculatedAccessors(props: seq<Property>, ps: seq<Property>, k: nat)
    requires PackedAll(props, ps)
    requires PackedCount(props) <= OffsetBound
    requires k < |ps| && IsNumeric(ps[k].ptype)
    ensures Slots(AccessorOf(ps[k])) == Span(ps[k].offset, ElementCount(ps[k].ptype))
    ensures forall j :: 0 <= j < ElementCount(ps[k].ptype) ==>
              Slots(AccessorOf(ps[k]))[j] < 4 * Vec4Slots(PackedCount(props))
  {
    RecalculatedLayout(props, ps, k, k);
    PackedInside(props, k);
    PackedAligned(props, k);
    assert ps[k].offset == PackedOffset(props, k);
    AccessorExact(ps[k]);
  }

  /** `#define T_name u_mat_buffer_T[index].access` */
  function DefineLine(typeName: string, p: Property): string {
    var a := AccessorOf(p);
    "#define " + typeName + "_" + p.name + " u_mat_buffer_" + typeName + "[" + Decimal(a.index) + "]." + a.access + "\n"
  }

  /** `SAMPLER2D(T_name, i);` or `SAMPLERCUBE(T_name, i);` */
  function SamplerLine(typeName: string, p: Property, i: nat): string {
    (if p.ptype == TEXTURE_2D then "SAMPLER2D(" else "SAMPLERCUBE(") +
    typeName + "_" + p.name + ", " + Decimal(i) + ");\n"
  }

  /** The numeric properties among the first `n`, in order. */
  function NumericTo(ps: seq<Property>, n: nat): (r: seq<Property>)
    requires n <= |ps|
    ensures forall j :: 0 <= j < |r| ==> IsNumeric(r[j].ptype)
    decreases n
  {
    if n == 0 then [] else NumericTo(ps, n - 1) + (if IsNumeric(ps[n - 1].ptype) then [ps[n - 1]] else [])
  }

  /** The texture properties among the first `n`, in order. */
  function SamplersTo(ps: seq<Property>, n: nat): (r: seq<Property>)
    requires n <= |ps|
    ensures |r| == CountTo(ps, n, TEXTURE_2D) + CountTo(ps, n, TEXTURE_CUBE)
    ensures forall j :: 0 <= j < |r| ==> IsSampler(r[j].ptype)
    decreases n
  {
    if n == 0 then [] else SamplersTo(ps, n - 1) + (if IsSampler(ps[n - 1].ptype) then [ps[n - 1]] else [])
  }

  /** The texture property `k` appears in the sampler list at the number of
      texture properties before it. */
  lemma {:induction false} SamplerPosition(ps: seq<Property>, n: nat, k: nat)
    requires k < n <= |ps| && IsSampler(ps[k].ptype)
    ensures var r := SamplersTo(ps, n);
            var i := CountTo(ps, k, TEXTURE_2D) + CountTo(ps, k, TEXTURE_CUBE);
            i < |r| && r[i] == ps[k]
    decreases n
  {
    if k < n - 1 {
      SamplerPosition(ps, n - 1, k);
    }
  }

  /** One `#define` line per property in `ns`, in order. */
  function DefineBlock(typeName: string, ns: seq<Property>): string
    decreases |ns|
  {
    if |ns| == 0 then "" else DefineBlock(typeName, ns[..|ns| - 1]) + DefineLine(typeName, ns[|ns| - 1])
  }

  /** One sampler line per texture property in `ss`; the line of the `r`th
      carries index `r`. */
  function SamplerBlock(typeName: string, ss: seq<Property>): string
    decreases |ss|
  {
    if |ss| == 0 then "" else SamplerBlock(typeName, ss[..|ss| - 1]) + SamplerLine(typeName, ss[|ss| - 1], |ss| - 1)
  }

  /** Appending a property appends its line. */
  lemma BlocksAppend(typeName: string, ss: seq<Property>, p: Property)
    ensures DefineBlock(typeName, ss + [p]) == DefineBlock(typeName, ss) + DefineLine(typeName, p)
    ensures SamplerBlock(typeName, ss + [p]) == SamplerBlock(typeName, ss) + SamplerLine(typeName, p, |ss|)
  {
    assert (ss + [p])[..|ss|] == ss;
  }

  /** The property loop's accumulated text after `i` properties. */
  datatype Lines = Lines(defines: string, samplers: string, samplerIdx: nat)

  /** One pass of the property loop over property `i`: a numeric property
      adds its `#define`, a texture property its sampler line with the next
      sampler index, any other property nothing. */
  method PropertyIteration(typeName: string, ps: seq<Property>, i: nat, acc: Lines) returns (acc': Lines)
    requires i < |ps|
    requires acc == Lines(DefineBlock(typeName, NumericTo(ps, i)), SamplerBlock(typeName, SamplersTo(ps, i)),
                          |SamplersTo(ps, i)|)
    ensures acc' == Lines(DefineBlock(typeName, NumericTo(ps, i + 1)), SamplerBlock(typeName, SamplersTo(ps, i + 1)),
                          |SamplersTo(ps, i + 1)|)
  {
    var p := ps[i];
    acc' := acc;
    BlocksAppend(typeName, NumericTo(ps, i), p);
    BlocksAppend(typeName, SamplersTo(ps, i), p);
    if IsNumeric(p.ptype) {
      acc' := acc'.(defines := acc'.defines + DefineLine(typeName, p));
    } else if IsSampler(p.ptype) {
      acc' := acc'.(samplers := acc'.samplers + SamplerLine(typeName, p, acc'.samplerIdx),
                    samplerIdx := acc'.samplerIdx + 1);
    }
    assert !IsNumeric(p.ptype) ==> NumericTo(ps, i + 1) == NumericTo(ps, i);
    assert !IsSampler(p.ptype) ==> SamplersTo(ps, i + 1) == SamplersTo(ps, i);
  }

  /** The property loop: the `#define`s of the numeric properties and the
      sampler lines of the texture properties, each in property order; the
      sampler index ends at the number of samplers. */
  method PropertyLines(typeName: string, ps: seq<Property>) returns (defines: string, samplers: string, samplerIdx: nat)
    ensures defines == DefineBlock(typeName, NumericTo(ps, |ps|))
    ensures samplers == SamplerBlock(typeName, SamplersTo(ps, |ps|))
    ensures samplerIdx == SamplerCount(ps)
  {
    var acc := Lines("", "", 0);
    var i := 0;
    while i < |ps|
      invariant 0 <= i <= |ps|
      invariant acc == Lines(DefineBlock(typeName, NumericTo(ps, i)), SamplerBlock(typeName, SamplersTo(ps, i)),
                             |SamplersTo(ps, i)|)
    {
      acc := PropertyIteration(typeName, ps, i, acc);
      i := i + 1;
    }
    defines, samplers, samplerIdx := acc.defines, acc.samplers, acc.samplerIdx;
  }

  /** The header text around the property lines. */
  function HeaderText(typeName: string, stamp: string, arraySize: nat, defines: string, samplers: string): string {
    "/*\n" +
    " * DON'T CHANGE DIRECTLY\n" +
    " * This is a shader header file generated by aderite for material " + typeName + "\n" +
    " * Generated at " + stamp + "\n" +
    " */\n\n" +
    "uniform vec4 u_mat_buffer_" + typeName + "[" + Decimal(arraySize) + "];\n" +
    "\n// Properties\n" +
    defines +
    "\n// Samplers\n" +
    samplers + "\n"
  }

  /** `generateMaterialHeader`: recalculates the layout, then writes the
      header for the sanitised type name with the uniform array sized to the
      packed element count. */
  method GenerateMaterialHeader(name: string, stamp: string, props: seq<Property>)
    returns (ps: seq<Property>, text: string)
    ensures PackedAll(props, ps)
    ensures var t := Sanitize(name);
            text == HeaderText(t, stamp, (PackedCount(props) + 3) / 4,
                               DefineBlock(t, NumericTo(ps, |ps|)), SamplerBlock(t, SamplersTo(ps, |ps|)))
  {
    var typeName := Sanitize(name);
    var elementCount, v4Count;
    ps, elementCount, v4Count := Recalculate(props);
    var arraySize := Vec4Slots(elementCount);
    var defines, samplers, _ := PropertyLines(typeName, ps);
    text := HeaderText(typeName, stamp, arraySize, defines, samplers);
  }
}

=== FILE: ConvertNode.dfy ===
/** The convert node (`node::ConvertNode`): one input pin "From" and one
    output pin "To", whose types are kept in step as far as array-ness
    goes; a type is an array type when it ends in "[]". */
module ConvertNode {
  const ArraySuffix: string := "[]"

  predicate IsArray(t: string) {
    |t| >= 2 && t[|t| - 2..] == ArraySuffix
  }

  /** The types of the input and the output pin. */
  datatype Convert = Convert(from: string, to: string)

  /** The constructor: both pins start with type "None". */
  function New(): (c: Convert)
    ensures c.from == "None" && c.to == "None" && !IsArray(c.from) && !IsArray(c.to)
  {
    Convert("None", "None")
  }

  /** The other pin's type after one pin's type became `t`: "[]" appended
      when `t` is an array and it is not, the last two characters removed
      when it is an array and `t` is not, untouched otherwise. */
  function Follow(t: string, other: string): (r: string)
    ensures IsArray(t) == IsArray(other) ==> r == other
    ensures IsArray(t) && !IsArray(other) ==> r == other + ArraySuffix
    ensures !IsArray(t) && IsArray(other) ==> r + ArraySuffix == other
  {
    if IsArray(t) && !IsArray(other) then other + ArraySuffix
    else if !IsArray(t) && IsArray(other) then other[..|other| - 2]
    else other
  }

  /** `setFromType`: the input takes the type exactly; the output follows. */
  function SetFromType(c: Convert, f: string): (r: Convert)
    ensures r.from == f
    ensures IsArray(f) ==> IsArray(r.to)
    ensures IsArray(f) == IsArray(c.to) ==> r.to == c.to
  {
    var r := Convert(f, Follow(f, c.to));
    assert IsArray(f) && !IsArray(c.to) ==> (c.to + ArraySuffix)[|c.to| + 2 - 2..] == ArraySuffix;
    r
  }

  /** `setToType`: the output takes the type exactly; the input follows. */
  function SetToType(c: Convert, t: string): (r: Convert)
    ensures r.to == t
    ensures IsArray(t) ==> IsArray(r.from)
    ensures IsArray(t) == IsArray(c.from) ==> r.from == c.from
  {
    var r := Convert(Follow(t, c.from), t);
    assert IsArray(t) && !IsArray(c.from) ==> (c.from + ArraySuffix)[|c.from| + 2 - 2..] == ArraySuffix;
    r
  }

  function Swap(c: Convert): Convert {
    Convert(c.to, c.from)
  }

  /** The two setters are one rule applied to either side. */
  lemma SettersSymmetric(c: Convert, t: string)
    ensures SetToType(c, t) == Swap(SetFromType(Swap(c), t))
  {
  }

  /** After either setter the two pins agree on array-ness, unless the
      type that was stripped was an array of arrays. */
  lemma ArraynessAgrees(c: Convert, t: string)
    requires !(IsArray(c.to) && IsArray(c.to[..|c.to| - 2]))
    requires !(IsArray(c.from) && IsArray(c.from[..|c.from| - 2]))
    ensures IsArray(SetFromType(c, t).to) == IsArray(t)
    ensures IsArray(SetToType(c, t).from) == IsArray(t)
  {
  }

  /** Stripping one "[]" off an array of arrays leaves an array: the
      output of `setFromType("float")` is then still an array. */
  lemma NestedArrayStaysArray()
    ensures SetFromType(Convert("float", "float[][]"), "float").to == "float[]"
    ensures IsArray("float[]") && !IsArray("float")
  {
    assert "float[][]"[..7] == "float[]";
  }

  /** `onConnectToInput`: the node adopts the type of the output being
      connected when it differs, and always accepts. */
  function OnConnectToInput(c: Convert, sourceType: string): (r: (bool, Convert))
    ensures r.0 && r.1.from == sourceType
    ensures sourceType == c.from ==> r.1 == c
  {
    if sourceType != c.from then (true, SetFromType(c, sourceType)) else (true, c)
  }

  /** `onConnectToOutput`: the same with the input being connected. */
  function OnConnectToOutput(c: Convert, targetType: string): (r: (bool, Convert))
    ensures r.0 && r.1.to == targetType
    ensures targetType == c.to ==> r.1 == c
  {
    if targetType != c.to then (true, SetToType(c, targetType)) else (true, c)
  }

  /** A hook that has adopted a type accepts the same connection again
      without change; adopting is what setting the type would do. */
  lemma HooksSettle(c: Convert, s: string)
    ensures OnConnectToInput(OnConnectToInput(c, s).1, s) == OnConnectToInput(c, s)
    ensures OnConnectToOutput(OnConnectToOutput(c, s).1, s) == OnConnectToOutput(c, s)
    ensures OnConnectToInput(c, s).1 == (if s == c.from then c else SetFromType(c, s))
  {
  }

  /** `serialize` stores both types; `deserialize` sets them back with the
      pins' own setters, which do not propagate array-ness. */
  function Serialize(c: Convert): (r: (string, string))
    ensures r.0 == c.from && r.1 == c.to
  {
    (c.from, c.to)
  }

  function Deserialize(stored: (string, string)): (c: Convert)
    ensures Serialize(c) == stored
  {
    Convert(stored.0, stored.1)
  }

  lemma SerializeRoundTrip(c: Convert)
    ensures Deserialize(Serialize(c)) == c
  {
  }

  // ---- Conversion ----------------------------------------------------

  /** A render operation; an operation array holds others in order. */
  datatype Op = Op(name: string) | OpArray(name: string, items: seq<Op>)

  function MapOps(f: Op -> Op, xs: seq<Op>): (r: seq<Op>)
    ensures |r| == |xs| && forall i :: 0 <= i < |xs| ==> r[i] == f(xs[i])
  {
    if xs == [] then [] else [f(xs[0])] + MapOps(f, xs[1..])
  }

  /** The name `applyArray` gives the result array. */
  function ArrayName(c: Convert): string {
    "Convert (" + c.from + "->" + c.to + ")"
  }

  /** `applyArray`: every element of the input array is converted in order
      and registered with the evaluator, then the new array is registered.
      The source casts the input to an array without a check, so it must
      be one. */
  method ApplyArray(c: Convert, input: Op, cfn: Op -> Op, registered: seq<Op>) returns (out: Op, registered': seq<Op>)
    requires input.OpArray?
    ensures out.OpArray? && out.name == ArrayName(c)
    ensures |out.items| == |input.items| && forall i :: 0 <= i < |input.items| ==> out.items[i] == cfn(input.items[i])
    ensures registered' == registered + out.items + [out]
  {
    var items: seq<Op> := [];
    registered' := registered;
    var i := 0;
    while i < |input.items|
      invariant 0 <= i <= |input.items|
      invariant |items| == i && forall j :: 0 <= j < i ==> items[j] == cfn(input.items[j])
      invariant registered' == registered + items
    {
      var converted := cfn(input.items[i]);
      registered' := registered' + [converted];
      items := items + [converted];
      i := i + 1;
    }
    out := OpArray(ArrayName(c), items);
    registered' := registered' + [out];
  }

  /** `convert`: an array input is converted element-wise, a scalar input
      once, and the result is registered and becomes the output value. */
  method ConvertValue(c: Convert, input: Op, cfn: Op -> Op, registered: seq<Op>) returns (out: Op, registered': seq<Op>)
    requires IsArray(c.from) ==> input.OpArray?
    ensures IsArray(c.from) ==> out == OpArray(ArrayName(c), MapOps(cfn, input.items))
    ensures !IsArray(c.from) ==> out == cfn(input)
    ensures |registered'| > |registered| && registered'[..|registered|] == registered && registered'[|registered'| - 1] == out
  {
    if IsArray(c.from) {
      out, registered' := ApplyArray(c, input, cfn, registered);
    } else {
      out := cfn(input);
      registered' := registered + [out];
    }
  }

  /** Converting an array with a function composed of two steps is
      converting it twice. */
  lemma {:induction false} MapOpsCompose(f: Op -> Op, g: Op -> Op, xs: seq<Op>)
    ensures MapOps(f, MapOps(g, xs)) == MapOps(x => f(g(x)), xs)
    decreases |xs|
  {
    if xs != [] {
      MapOpsCompose(f, g, xs[1..]);
    }
  }
}

=== FILE: Engine.dfy ===
/** The engine's life cycle (runtime `Engine` in Aderite.cpp): subsystem
    start-up in a fixed order, the per-tick update cascade chosen by the
    engine state, and the main loop. Subsystem calls are recorded as the
    sequence of steps a tick performs; the middleware hooks are included, as
    when middleware is enabled. */
module Engine {

  datatype State = INIT | AWAITING_SHUTDOWN | RENDER_ONLY | SYSTEM_UPDATE | LOGIC | FULL

  /** The subsystems `init` starts, in its order. */
  datatype Subsystem = AssetManager | SceneManager | WindowManager | InputManager | PhysicsController
                     | AudioController | Renderer | Serializer | Reflector | ScriptManager

  const InitOrder: seq<Subsystem> := [AssetManager, SceneManager, WindowManager, InputManager, PhysicsController,
                                      AudioController, Renderer, Serializer, Reflector, ScriptManager]

  datatype InitResult = InitResult(ok: bool, started: seq<Subsystem>, state: State)

  /** `init`: start each subsystem in order, stopping at the first whose
      start-up fails (`succeeds` tells which do); only when all succeed does
      the engine move to `SYSTEM_UPDATE`. */
  method Init(state: State, succeeds: Subsystem -> bool) returns (r: InitResult)
    ensures r.ok <==> forall i :: 0 <= i < |InitOrder| ==> succeeds(InitOrder[i])
    ensures r.ok ==> r.started == InitOrder && r.state == SYSTEM_UPDATE
    ensures !r.ok ==> r.state == state && 0 < |r.started| <= |InitOrder| && r.started == InitOrder[..|r.started|]
    ensures !r.ok ==> !succeeds(r.started[|r.started| - 1]) &&
                      forall i :: 0 <= i < |r.started| - 1 ==> succeeds(r.started[i])
  {
    var i := 0;
    while i < |InitOrder|
      invariant 0 <= i <= |InitOrder|
      invariant forall j :: 0 <= j < i ==> succeeds(InitOrder[j])
    {
      if !succeeds(InitOrder[i]) {
        return InitResult(false, InitOrder[..i + 1], state);
      }
      i := i + 1;
    }
    return InitResult(true, InitOrder, SYSTEM_UPDATE);
  }

  /** What a tick does. */
  datatype Step = PhysicsUpdate | OnPhysicsUpdate | OnScriptUpdate | InputUpdate | AudioUpdate | AssetUpdate
                | OnSystemUpdate | SceneUpdate | OnStartRender | Render | OnPreRenderCommit | Commit | OnEndRender

  /** The update steps of a tick: the switch in `tick` falls through from
      `FULL` to `LOGIC` to `SYSTEM_UPDATE` to `RENDER_ONLY`; the scene update
      runs only when there is a current scene. */
  function Updates(s: State, hasScene: bool): (steps: seq<Step>)
    ensures s == INIT || s == AWAITING_SHUTDOWN ==> steps == []
    decreases Level(s) + 1
  {
    var scene := if hasScene then [SceneUpdate] else [];
    match s
    case FULL => [PhysicsUpdate, OnPhysicsUpdate] + Updates(LOGIC, hasScene)
    case LOGIC => [OnScriptUpdate] + Updates(SYSTEM_UPDATE, hasScene)
    case SYSTEM_UPDATE => [InputUpdate, AudioUpdate, AssetUpdate, OnSystemUpdate] + Updates(RENDER_ONLY, hasScene)
    case RENDER_ONLY => scene
    case _ => []
  }

  /** The render steps every tick ends with, whatever the state. */
  const RenderSteps: seq<Step> := [OnStartRender, Render, OnPreRenderCommit, Commit, OnEndRender]

  /** `tick`: the update cascade, then rendering. */
  function Tick(s: State, hasScene: bool): (steps: seq<Step>)
    ensures |steps| >= 5 && steps[|steps| - 5..] == RenderSteps
  {
    Updates(s, hasScene) + RenderSteps
  }

  /** How far down the cascade a state starts: 3 for `FULL` down to 0 for
      `RENDER_ONLY`; the other states run no updates. */
  function Level(s: State): int {
    match s
    case FULL => 3
    case LOGIC => 2
    case SYSTEM_UPDATE => 1
    case RENDER_ONLY => 0
    case _ => -1
  }

  /** The level a step needs. */
  function Needs(step: Step): int {
    match step
    case PhysicsUpdate => 3
    case OnPhysicsUpdate => 3
    case OnScriptUpdate => 2
    case InputUpdate => 1
    case AudioUpdate => 1
    case AssetUpdate => 1
    case OnSystemUpdate => 1
    case SceneUpdate => 0
    case _ => 4
  }

  /** The update steps of each state, written out. */
  lemma UpdatesUnfold(hasScene: bool)
    ensures var scene := if hasScene then [SceneUpdate] else [];
            var sys := [InputUpdate, AudioUpdate, AssetUpdate, OnSystemUpdate] + scene;
            Updates(RENDER_ONLY, hasScene) == scene && Updates(SYSTEM_UPDATE, hasScene) == sys &&
            Updates(LOGIC, hasScene) == [OnScriptUpdate] + sys &&
            Updates(FULL, hasScene) == [PhysicsUpdate, OnPhysicsUpdate, OnScriptUpdate] + sys
  {
  }

  /** The cascade as a rule: an update step runs exactly when the state's
      level reaches what it needs (and, for the scene update, when there is
      a scene). */
  lemma UpdatesByLevel(s: State, hasScene: bool, step: Step)
    ensures step in Updates(s, hasScene) <==> Level(s) >= Needs(step) && (step == SceneUpdate ==> hasScene)
  {
    UpdatesUnfold(hasScene);
  }

  /** No update step runs twice in a tick. */
  lemma UpdatesDistinct(s: State, hasScene: bool)
    ensures forall i, j :: 0 <= i < j < |Updates(s, hasScene)| ==> Updates(s, hasScene)[i] != Updates(s, hasScene)[j]
  {
    UpdatesUnfold(hasScene);
  }

  /** Each state does everything the state below it does: FULL ⊇ LOGIC ⊇
      SYSTEM_UPDATE ⊇ RENDER_ONLY, as suffixes of the step sequence. */
  lemma CascadeNests(hasScene: bool)
    ensures Updates(FULL, hasScene)[2..] == Updates(LOGIC, hasScene)
    ensures Updates(LOGIC, hasScene)[1..] == Updates(SYSTEM_UPDATE, hasScene)
    ensures Updates(SYSTEM_UPDATE, hasScene)[4..] == Updates(RENDER_ONLY, hasScene)
    ensures PhysicsUpdate !in Updates(LOGIC, hasScene)
  {
  }

  /** `setState`. */
  function SetState(s: State, to: State): (s': State)
    ensures s' == to
  {
    to
  }

  /** `loop`: tick until the state is `AWAITING_SHUTDOWN`. The state is
      changed only by what runs during a tick (a window close requests the
      exit); `after[i]` is the state after tick i. Within the given ticks the
      loop either stops at the first shutdown request or runs them all. */
  method Loop(state: State, after: seq<State>) returns (ticks: nat, stopped: bool)
    ensures ticks <= |after|
    ensures forall j :: 0 <= j < ticks - 1 ==> after[j] != AWAITING_SHUTDOWN
    ensures stopped ==> (state == AWAITING_SHUTDOWN && ticks == 0) ||
                        (state != AWAITING_SHUTDOWN && 0 < ticks && after[ticks - 1] == AWAITING_SHUTDOWN)
    ensures !stopped ==> state != AWAITING_SHUTDOWN && ticks == |after| && AWAITING_SHUTDOWN !in after
  {
    var s := state;
    ticks := 0;
    while s != AWAITING_SHUTDOWN && ticks < |after|
      invariant ticks <= |after|
      invariant forall j :: 0 <= j < ticks - 1 ==> after[j] != AWAITING_SHUTDOWN
      invariant s == if ticks == 0 then state else after[ticks - 1]
      invariant state == AWAITING_SHUTDOWN ==> ticks == 0
    {
      s := after[ticks];
      ticks := ticks + 1;
    }
    stopped := s == AWAITING_SHUTDOWN;
  }
}

=== FILE: Entity.dfy ===
/** An entity (runtime `scene::Entity`): a name, a 64-bit tag set, an
    optional prefab it was instantiated from, and optional actor and
    renderable components, all as opaque ids. */
module Entity {
  import opened Wrappers

  /** A `size_t` tag set: bit i set means tag i is present. */
  type Tags = bv64

  /** Add the tag bits: every old bit stays, and outside the old bits the
      result holds exactly the added bits. */
  function WithTags(tags: Tags, t: Tags): (r: Tags)
    ensures r & tags == tags
    ensures r & !tags == t & !tags
  {
    tags | t
  }

  /** Every added bit is set, and no bit is set that was neither old nor
      added. */
  lemma WithTagsExact(tags: Tags, t: Tags)
    ensures WithTags(tags, t) & t == t
    ensures WithTags(tags, t) & !tags & !t == 0
  {
  }

  /** Clear the tag bits. */
  function WithoutTags(tags: Tags, t: Tags): (r: Tags)
    ensures r & t == 0
    ensures r & !t == tags & !t
  {
    tags & !t
  }

  /** Any bit in common, not every bit. */
  predicate Overlaps(tags: Tags, t: Tags) {
    tags & t != 0
  }

  datatype Entity = Entity(name: string, tags: Tags, prefab: Option<nat>, actor: Option<nat>,
                           renderable: Option<nat>, scene: Option<nat>)

  /** The constructor: no name, no tags, no prefab link, no components. */
  function New(): (e: Entity)
    ensures e.tags == 0 && e.prefab.None? && e.actor.None? && e.renderable.None? && e.scene.None?
  {
    Entity("", 0, None, None, None, None)
  }

  /** `addTag`: the bits are added; an entity whose tags change is no longer
      what its prefab describes, so the prefab link is cleared. */
  function AddTag(e: Entity, t: Tags): (e': Entity)
    ensures e'.tags == WithTags(e.tags, t) && e'.prefab.None?
    ensures e'.name == e.name && e'.actor == e.actor && e'.renderable == e.renderable && e'.scene == e.scene
  {
    e.(tags := WithTags(e.tags, t), prefab := None)
  }

  /** `removeTag`: the bits are cleared and the prefab link with them. */
  function RemoveTag(e: Entity, t: Tags): (e': Entity)
    ensures e'.tags == WithoutTags(e.tags, t) && e'.prefab.None?
    ensures e'.name == e.name && e'.actor == e.actor && e'.renderable == e.renderable && e'.scene == e.scene
  {
    e.(tags := WithoutTags(e.tags, t), prefab := None)
  }

  /** `hasTag`: true when the entity has any of the bits. */
  predicate HasTag(e: Entity, t: Tags) {
    Overlaps(e.tags, t)
  }

  /** Tagging twice is tagging once; after adding a non-empty tag the entity
      has it, and after removing a tag it does not, whatever came before. */
  lemma TagLaws(e: Entity, t: Tags)
    ensures AddTag(AddTag(e, t), t) == AddTag(e, t)
    ensures t != 0 ==> HasTag(AddTag(e, t), t)
    ensures !HasTag(RemoveTag(AddTag(e, t), t), t)
    ensures !HasTag(RemoveTag(e, t), t)
  {
    AddTwice(e.tags, t);
    AddedOverlaps(e.tags, t);
    RemovedDisjoint(WithTags(e.tags, t), t);
    RemovedDisjoint(e.tags, t);
  }

  /** Adding the same bits a second time changes nothing. */
  lemma AddTwice(x: Tags, t: Tags)
    ensures WithTags(WithTags(x, t), t) == WithTags(x, t)
  {
    assert (x | t) | t == x | t;
  }

  /** A set with non-empty bits added overlaps them. */
  lemma AddedOverlaps(x: Tags, t: Tags)
    ensures t != 0 ==> Overlaps(WithTags(x, t), t)
  {
    assert (x | t) & t == t;
  }

  /** A set with bits cleared has none of them. */
  lemma RemovedDisjoint(x: Tags, t: Tags)
    ensures !Overlaps(WithoutTags(x, t), t)
  {
    assert (x & !t) & t == 0;
  }

  /** `hasTag` asks for overlap: an entity tagged with one bit of a two-bit
      query already has the query. */
  lemma HasTagIsOverlap()
    ensures HasTag(AddTag(New(), 1), 3)
    ensures AddTag(New(), 1).tags & 3 != 3
  {
  }

  /** `setActor`: the source dereferences the new actor, so it must not be
      null; the prefab link is cleared. */
  function SetActor(e: Entity, actor: nat): (e': Entity)
    ensures e'.actor == Some(actor) && e'.prefab.None?
    ensures e'.name == e.name && e'.tags == e.tags && e'.renderable == e.renderable && e'.scene == e.scene
  {
    e.(actor := Some(actor), prefab := None)
  }

  /** `setRenderable`: the renderable is replaced (null allowed) and the
      prefab link is cleared. */
  function SetRenderable(e: Entity, r: Option<nat>): (e': Entity)
    ensures e'.renderable == r && e'.prefab.None?
    ensures e'.name == e.name && e'.tags == e.tags && e'.actor == e.actor && e'.scene == e.scene
  {
    e.(renderable := r, prefab := None)
  }

  /** `setName`: only the name changes; renaming keeps the prefab link. */
  function SetName(e: Entity, name: string): (e': Entity)
    ensures e'.name == name
    ensures e'.tags == e.tags && e'.prefab == e.prefab && e'.actor == e.actor && e'.renderable == e.renderable && e'.scene == e.scene
  {
    e.(name := name)
  }

  /** `clone`: a new entity with the same tags, name, scene and prefab link;
      the renderable and actor, when present, are fresh copies whose ids are
      `renderableCopy` and `actorCopy`. The link is restored after the
      setters clear it. */
  function Clone(e: Entity, renderableCopy: nat, actorCopy: nat): (c: Entity)
    ensures c.tags == e.tags && c.name == e.name && c.prefab == e.prefab && c.scene == e.scene
    ensures c.renderable.Some? <==> e.renderable.Some?
    ensures c.renderable.Some? ==> c.renderable == Some(renderableCopy)
    ensures c.actor.Some? <==> e.actor.Some?
    ensures c.actor.Some? ==> c.actor == Some(actorCopy)
  {
    var c0 := New().(tags := e.tags, name := e.name);
    var c1 := if e.renderable.Some? then SetRenderable(c0, Some(renderableCopy)) else c0;
    var c2 := if e.actor.Some? then SetActor(c1, actorCopy) else c1;
    var c3 := if e.scene.Some? then c2.(scene := e.scene) else c2;
    c3.(prefab := e.prefab)
  }

  /** A clone answers every tag query as the original does. */
  lemma CloneKeepsTags(e: Entity, renderableCopy: nat, actorCopy: nat, t: Tags)
    ensures HasTag(Clone(e, renderableCopy, actorCopy), t) == HasTag(e, t)
  {
  }
}

=== FILE: GameObject.dfy ===
/** A game object (runtime `scene::GameObject`): a name, one optional slot
    per component kind, a deletion mark and a list of scripted behaviours.
    Components and behaviours are opaque ids; a freshly allocated component
    is an id supplied by the caller. */
module GameObject {
  import opened Wrappers

  datatype Component = Transform | Renderable | Actor | Camera | AudioSource | AudioListener

  datatype GameObject = GameObject(name: string, components: map<Component, nat>, marked: bool, behaviors: seq<nat>)

  /** The constructor: a named object with no components, not marked. */
  function New(name: string): (o: GameObject)
    ensures o.name == name && o.components == map[] && !o.marked && o.behaviors == []
  {
    GameObject(name, map[], false, [])
  }

  /** `getTransform`, `getRenderable`, …: the component in the slot, `None`
      when it is empty. */
  function Get(o: GameObject, c: Component): (r: Option<nat>)
    ensures r.Some? <==> c in o.components
    ensures r.Some? ==> r.value == o.components[c]
  {
    if c in o.components then Some(o.components[c]) else None
  }

  /** `addTransform`: the transform slot must be empty and receives `id`. */
  function AddTransform(o: GameObject, id: nat): (o': GameObject)
    requires Transform !in o.components
    ensures Get(o', Transform) == Some(id)
    ensures forall c :: c != Transform ==> Get(o', c) == Get(o, c)
    ensures o'.name == o.name && o'.marked == o.marked && o'.behaviors == o.behaviors
  {
    o.(components := o.components[Transform := id])
  }

  /** `addRenderable`, `addActor`, `addCamera`, `addAudioSource` and
      `addAudioListener`: the slot must be empty; a transform `transformId`
      is created first when the object has none, and an existing transform
      is kept. */
  function AddComponent(o: GameObject, c: Component, id: nat, transformId: nat): (o': GameObject)
    requires c != Transform && c !in o.components
    ensures Get(o', c) == Some(id)
    ensures Transform in o.components ==> Get(o', Transform) == Get(o, Transform)
    ensures Transform !in o.components ==> Get(o', Transform) == Some(transformId)
    ensures forall d :: d != c && d != Transform ==> Get(o', d) == Get(o, d)
    ensures o'.name == o.name && o'.marked == o.marked && o'.behaviors == o.behaviors
  {
    var o1 := if Transform in o.components then o else AddTransform(o, transformId);
    o1.(components := o1.components[c := id])
  }

  /** `removeTransform`, `removeRenderable`, …: the slot must be filled and
      becomes empty; every other slot is kept. */
  function Remove(o: GameObject, c: Component): (o': GameObject)
    requires c in o.components
    ensures Get(o', c).None?
    ensures forall d :: d != c ==> Get(o', d) == Get(o, d)
    ensures o'.name == o.name && o'.marked == o.marked && o'.behaviors == o.behaviors
  {
    o.(components := o.components - {c})
  }

  /** Adding a component and removing it again leaves the object as it was,
      except for the transform created on the way. */
  lemma AddThenRemove(o: GameObject, c: Component, id: nat, transformId: nat)
    requires c != Transform && c !in o.components
    ensures Transform in o.components ==> Remove(AddComponent(o, c, id, transformId), c) == o
    ensures Transform !in o.components ==> Remove(AddComponent(o, c, id, transformId), c) == AddTransform(o, transformId)
  {
    var o' := Remove(AddComponent(o, c, id, transformId), c);
    if Transform in o.components {
      assert o'.components == o.components;
    } else {
      assert o'.components == AddTransform(o, transformId).components;
    }
  }

  /** An object whose transform was never removed has one whenever it has
      any component. */
  predicate HasTransformIfAny(o: GameObject) {
    o.components != map[] ==> Transform in o.components
  }

  /** Every add, and removing anything but the transform, keeps that
      property. */
  lemma TransformInvariant(o: GameObject, c: Component, id: nat, transformId: nat)
    requires HasTransformIfAny(o)
    ensures Transform !in o.components ==> HasTransformIfAny(AddTransform(o, id))
    ensures c != Transform && c !in o.components ==> HasTransformIfAny(AddComponent(o, c, id, transformId))
    ensures c != Transform && c in o.components ==> HasTransformIfAny(Remove(o, c))
  {
    if c != Transform && c !in o.components {
      assert Transform in AddComponent(o, c, id, transformId).components;
    }
    if c != Transform && c in o.components {
      assert Transform in o.components;
      assert Transform in Remove(o, c).components;
    }
  }

  /** `markForDeletion`: the mark is set and stays set. */
  function MarkForDeletion(o: GameObject): (o': GameObject)
    ensures o'.marked
    ensures o'.name == o.name && o'.components == o.components && o'.behaviors == o.behaviors
  {
    o.(marked := true)
  }

  /** `addBehavior`: append. */
  function AddBehavior(o: GameObject, b: nat): (o': GameObject)
    ensures o'.behaviors == o.behaviors + [b]
    ensures o'.name == o.name && o'.components == o.components && o'.marked == o.marked
  {
    o.(behaviors := o.behaviors + [b])
  }

  /** The position of the first `b` in `s`. */
  function FirstIndex(s: seq<nat>, b: nat): (i: nat)
    requires b in s
    ensures i < |s| && s[i] == b && b !in s[..i]
  {
    if s[0] == b then 0
    else
      var j := FirstIndex(s[1..], b);
      assert s[..j + 1] == [s[0]] + s[1..][..j];
      j + 1
  }

  /** `removeBehavior`: the behaviour must be present (erasing at the end
      iterator is undefined); its first occurrence is erased. */
  function RemoveBehavior(o: GameObject, b: nat): (o': GameObject)
    requires b in o.behaviors
    ensures var i := FirstIndex(o.behaviors, b);
            o'.behaviors == o.behaviors[..i] + o.behaviors[i + 1..]
    ensures |o'.behaviors| == |o.behaviors| - 1
    ensures o'.name == o.name && o'.components == o.components && o'.marked == o.marked
  {
    var i := FirstIndex(o.behaviors, b);
    o.(behaviors := o.behaviors[..i] + o.behaviors[i + 1..])
  }

  /** Removing a behaviour that was just added, and was not there before,
      gives back the old list. */
  lemma AddThenRemoveBehavior(o: GameObject, b: nat)
    requires b !in o.behaviors
    ensures RemoveBehavior(AddBehavior(o, b), b) == o
  {
    var s := o.behaviors + [b];
    var i := FirstIndex(s, b);
    assert s[..|o.behaviors|] == o.behaviors;
    assert i == |o.behaviors|;
  }
}

=== FILE: GraphX.dfy ===
/** The rewritten shader graph (`node::Graph` of the new graph code):
    nodes and pins are named, names are interned to ImNodes ids on first
    sight, and an input pin remembers the output pin it is connected to. */
module GraphX {
  import Wrappers

  datatype PinType = None | Float | Vec2 | Vec3 | Vec4 | Texture2D | TextureCube

  // ---- Name interning ------------------------------------------------

  /** The name-to-id table and the next id to hand out. */
  datatype Ids = Ids(idMap: map<string, int>, nextId: int)

  /** Every id handed out is distinct, non-negative and below the counter. */
  predicate Interned(s: Ids) {
    && 0 <= s.nextId
    && (forall n :: n in s.idMap ==> 0 <= s.idMap[n] < s.nextId)
    && (forall a, b :: a in s.idMap && b in s.idMap && a != b ==> s.idMap[a] != s.idMap[b])
  }

  /** `getId`: a name seen before keeps its id; a new name takes the next
      id. The source asserts that the name is not empty. */
  function GetId(s: Ids, name: string): (r: (int, Ids))
    requires name != ""
    ensures name in r.1.idMap && r.1.idMap[name] == r.0
    ensures name in s.idMap ==> r.0 == s.idMap[name] && r.1 == s
    ensures name !in s.idMap ==> r.0 == s.nextId && r.1.nextId == s.nextId + 1
    ensures forall n :: n in s.idMap ==> n in r.1.idMap && r.1.idMap[n] == s.idMap[n]
    ensures r.1.idMap.Keys == s.idMap.Keys + {name}
  {
    if name in s.idMap then (s.idMap[name], s)
    else (s.nextId, Ids(s.idMap[name := s.nextId], s.nextId + 1))
  }

  /** Interning keeps the table injective. */
  lemma GetIdKeepsInterned(s: Ids, name: string)
    requires name != "" && Interned(s)
    ensures Interned(GetId(s, name).1)
  {
  }

  /** Asking again for the same name gives the same id and changes
      nothing. */
  lemma GetIdStable(s: Ids, name: string)
    requires name != ""
    ensures var (id, s1) := GetId(s, name); GetId(s1, name) == (id, s1)
  {
  }

  /** Distinct names never share an id. */
  lemma DistinctNamesDistinctIds(s: Ids, a: string, b: string)
    requires a != "" && b != "" && a != b && Interned(s)
    ensures var (ia, s1) := GetId(s, a); GetId(s1, b).0 != ia
  {
    GetIdKeepsInterned(s, a);
  }

  // ---- Nodes and pins ------------------------------------------------

  /** An input pin: its own name, its type and the full name of the output
      pin it is connected to, if any. */
  datatype InNodePin = InNodePin(name: string, ptype: PinType, connected: Wrappers.Option<string>)

  datatype OutNodePin = OutNodePin(name: string, ptype: PinType)

  datatype XNode = XNode(name: string, inPins: seq<InNodePin>, outPins: seq<OutNodePin>)

  /** `getFullName`: the node's name, "_" and the pin's name. */
  function FullName(nodeName: string, pinName: string): (r: string)
    ensures |r| == |nodeName| + 1 + |pinName|
    ensures r[..|nodeName|] == nodeName && r[|nodeName|] == '_' && r[|nodeName| + 1..] == pinName
  {
    nodeName + "_" + pinName
  }

  /** Pin names are all generated with one length, and then full names
      identify the node and the pin. */
  lemma FullNameInjective(a: string, p: string, b: string, q: string)
    requires |p| == |q| && FullName(a, p) == FullName(b, q)
    ensures a == b && p == q
  {
    var x := FullName(a, p);
    assert |a| == |b|;
    assert a == x[..|a|] == b;
    assert p == x[|a| + 1..] == q;
  }

  /** `OutNodePin::setType`. */
  function OutSetType(p: OutNodePin, t: PinType): (r: OutNodePin)
    ensures r.ptype == t && r.name == p.name
  {
    p.(ptype := t)
  }

  /** `InNodePin::setType` as written: the argument is ignored. */
  function InSetType(p: InNodePin, t: PinType): (r: InNodePin)
    ensures r == p
  {
    p
  }

  /** `InNodePin::setType` as its output counterpart does it. */
  function InSetTypeFixed(p: InNodePin, t: PinType): (r: InNodePin)
    ensures r.ptype == t && r.name == p.name && r.connected == p.connected
  {
    p.(ptype := t)
  }

  /** A node setting every one of its pins to one type, as nodes with a
      selectable element type do, using the given input-pin setter. */
  function SetAllPins(n: XNode, t: PinType, fixed: bool): (r: XNode)
    ensures r.name == n.name && |r.inPins| == |n.inPins| && |r.outPins| == |n.outPins|
    ensures forall j :: 0 <= j < |n.outPins| ==> r.outPins[j].ptype == t
    ensures fixed ==> forall j :: 0 <= j < |n.inPins| ==> r.inPins[j].ptype == t
    ensures !fixed ==> r.inPins == n.inPins
  {
    XNode(n.name,
          seq(|n.inPins|, j requires 0 <= j < |n.inPins| => if fixed then InSetTypeFixed(n.inPins[j], t) else InSetType(n.inPins[j], t)),
          seq(|n.outPins|, j requires 0 <= j < |n.outPins| => OutSetType(n.outPins[j], t)))
  }

  // ---- Node list -----------------------------------------------------

  /** `addNode`: append. */
  function AddNode(ns: seq<XNode>, n: XNode): (r: seq<XNode>)
    ensures |r| == |ns| + 1 && r[..|ns|] == ns && r[|ns|] == n
  {
    ns + [n]
  }

  function FirstIndex(ns: seq<XNode>, n: XNode): (i: nat)
    requires n in ns
    ensures i < |ns| && ns[i] == n && n !in ns[..i]
  {
    if ns[0] == n then 0
    else
      var j := FirstIndex(ns[1..], n);
      assert ns[..j + 1] == [ns[0]] + ns[1..][..j];
      j + 1
  }

  /** `removeNode`: erases the first occurrence. The source erases the
      position `find` returns, which must not be the end, so the node must
      be present. */
  function RemoveNode(ns: seq<XNode>, n: XNode): (r: seq<XNode>)
    requires n in ns
    ensures |r| == |ns| - 1
    ensures multiset(r) == multiset(ns) - multiset{n}
    ensures exists i :: 0 <= i < |ns| && ns[i] == n && n !in ns[..i] && r == ns[..i] + ns[i + 1..]
  {
    var i := FirstIndex(ns, n);
    assert ns == ns[..i] + [n] + ns[i + 1..];
    assert ns[i] == n && n !in ns[..i];
    ns[..i] + ns[i + 1..]
  }

  /** Removing a node that was just added gives back the old list. */
  lemma AddThenRemove(ns: seq<XNode>, n: XNode)
    requires n !in ns
    ensures RemoveNode(AddNode(ns, n), n) == ns
  {
    var s := ns + [n];
    assert s[..|ns|] == ns;
    assert FirstIndex(s, n) == |ns|;
  }

  // ---- Rendering -----------------------------------------------------

  /** The type of the first output pin with the full name. */
  function OutTypeOf(ns: seq<XNode>, full: string): (r: Wrappers.Option<PinType>)
    ensures r.Some? ==> exists i, j :: 0 <= i < |ns| && 0 <= j < |ns[i].outPins| &&
                          FullName(ns[i].name, ns[i].outPins[j].name) == full && ns[i].outPins[j].ptype == r.value
    ensures r.None? ==> forall i, j :: 0 <= i < |ns| && 0 <= j < |ns[i].outPins| ==>
                          FullName(ns[i].name, ns[i].outPins[j].name) != full
  {
    if ns == [] then Wrappers.None
    else
      var here := OutTypeIn(ns[0].name, ns[0].outPins, full);
      if here.Some? then here
      else
        var r := OutTypeOf(ns[1..], full);
        assert forall i :: 1 <= i < |ns| ==> ns[i] == ns[1..][i - 1];
        assert r.Some? ==> exists i, j :: 1 <= i < |ns| && 0 <= j < |ns[i].outPins| &&
                              FullName(ns[i].name, ns[i].outPins[j].name) == full && ns[i].outPins[j].ptype == r.value by {
          if r.Some? {
            var i, j :| 0 <= i < |ns[1..]| && 0 <= j < |ns[1..][i].outPins| &&
                        FullName(ns[1..][i].name, ns[1..][i].outPins[j].name) == full && ns[1..][i].outPins[j].ptype == r.value;
            assert ns[i + 1] == ns[1..][i];
          }
        }
        r
  }

  function OutTypeIn(nodeName: string, ps: seq<OutNodePin>, full: string): (r: Wrappers.Option<PinType>)
    ensures r.Some? ==> exists j :: 0 <= j < |ps| && FullName(nodeName, ps[j].name) == full && ps[j].ptype == r.value
    ensures r.None? ==> forall j :: 0 <= j < |ps| ==> FullName(nodeName, ps[j].name) != full
  {
    if ps == [] then Wrappers.None
    else if FullName(nodeName, ps[0].name) == full then Wrappers.Some(ps[0].ptype)
    else
      var r := OutTypeIn(nodeName, ps[1..], full);
      assert forall j :: 1 <= j < |ps| ==> ps[j] == ps[1..][j - 1];
      r
  }

  /** Every remembered connection names an existing output pin: the source
      dereferences it. */
  predicate Resolvable(ns: seq<XNode>) {
    forall i, j :: 0 <= i < |ns| && 0 <= j < |ns[i].inPins| && ns[i].inPins[j].connected.Some? ==>
      OutTypeOf(ns, ns[i].inPins[j].connected.value).Some?
  }

  /** One input pin in the link pass of `render`. */
  function CheckPin(ns: seq<XNode>, p: InNodePin): InNodePin
    requires p.connected.Some? ==> OutTypeOf(ns, p.connected.value).Some?
  {
    if p.connected.Some? && OutTypeOf(ns, p.connected.value).value != p.ptype then p.(connected := Wrappers.None)
    else p
  }

  /** The link pass of `render`: an input whose connected output has a
      different type is disconnected; every other connection is kept and
      drawn. Nothing but the connections changes. */
  function RenderLinks(ns: seq<XNode>): (r: seq<XNode>)
    requires Resolvable(ns)
    ensures |r| == |ns|
    ensures forall i :: 0 <= i < |ns| ==> r[i].name == ns[i].name && r[i].outPins == ns[i].outPins && |r[i].inPins| == |ns[i].inPins|
    ensures forall i, j :: 0 <= i < |ns| && 0 <= j < |ns[i].inPins| ==>
              r[i].inPins[j].name == ns[i].inPins[j].name && r[i].inPins[j].ptype == ns[i].inPins[j].ptype
    ensures forall i, j :: 0 <= i < |ns| && 0 <= j < |ns[i].inPins| && ns[i].inPins[j].connected.Some? ==>
              var c := ns[i].inPins[j].connected.value;
              (r[i].inPins[j].connected.Some? <==> OutTypeOf(ns, c).value == ns[i].inPins[j].ptype)
    ensures forall i, j :: 0 <= i < |ns| && 0 <= j < |ns[i].inPins| && r[i].inPins[j].connected.Some? ==>
              r[i].inPins[j].connected == ns[i].inPins[j].connected
  {
    seq(|ns|, i requires 0 <= i < |ns| =>
      XNode(ns[i].name,
            seq(|ns[i].inPins|, j requires 0 <= j < |ns[i].inPins| => CheckPin(ns, ns[i].inPins[j])),
            ns[i].outPins))
  }

  /** Output types depend only on node names and output pins. */
  lemma {:induction false} SameOutputsSameTypes(a: seq<XNode>, b: seq<XNode>, full: string)
    requires |a| == |b| && forall i :: 0 <= i < |a| ==> a[i].name == b[i].name && a[i].outPins == b[i].outPins
    ensures OutTypeOf(a, full) == OutTypeOf(b, full)
    decreases |a|
  {
    if a != [] {
      SameOutputsSameTypes(a[1..], b[1..], full);
    }
  }

  /** After the link pass every remaining connection joins pins of one
      type, and a second pass changes nothing. */
  lemma RenderLinksSettles(ns: seq<XNode>)
    requires Resolvable(ns)
    ensures var r := RenderLinks(ns);
            && (forall i, j :: 0 <= i < |r| && 0 <= j < |r[i].inPins| && r[i].inPins[j].connected.Some? ==>
                  OutTypeOf(r, r[i].inPins[j].connected.value) == Wrappers.Some(r[i].inPins[j].ptype))
            && Resolvable(r)
            && RenderLinks(r) == r
  {
    var r := RenderLinks(ns);
    forall full: string
      ensures OutTypeOf(r, full) == OutTypeOf(ns, full)
    {
      SameOutputsSameTypes(r, ns, full);
    }
    assert Resolvable(r);
    var r2 := RenderLinks(r);
    forall i | 0 <= i < |r|
      ensures r2[i] == r[i]
    {
      assert r2[i].inPins == r[i].inPins;
    }
  }

  /** With `InNodePin::setType` as written, retyping two chained nodes of
      one kind breaks their connection at the next render: the output
      takes the new type and the input keeps the old one. The new type is
      one the label table covers, so the node pass of that render reads
      within it. */
  lemma RetypeDropsConnection()
    ensures var a := XNode("a", [], [OutNodePin("o", Float)]);
            var b := XNode("b", [InNodePin("i", Float, Wrappers.Some("a_o"))], []);
            && Resolvable([SetAllPins(a, None, false), SetAllPins(b, None, false)])
            && Labelled([SetAllPins(a, None, false), SetAllPins(b, None, false)])
            && RenderLinks([SetAllPins(a, None, false), SetAllPins(b, None, false)])[1].inPins[0].connected.None?
  {
    var a := XNode("a", [], [OutNodePin("o", Float)]);
    var b := XNode("b", [InNodePin("i", Float, Wrappers.Some("a_o"))], []);
    assert FullName("a", "o") == "a_o";
    var w := [SetAllPins(a, None, false), SetAllPins(b, None, false)];
    assert w[0].outPins == [OutNodePin("o", None)];
    assert OutTypeIn("a", w[0].outPins, "a_o") == Wrappers.Some(None);
    assert OutTypeOf(w, "a_o") == Wrappers.Some(None);
    assert w[1].inPins == [InNodePin("i", Float, Wrappers.Some("a_o"))];
  }

  /** With the fixed setter the same retyping keeps the connection. */
  lemma RetypeKeepsConnectionFixed()
    ensures var a := XNode("a", [], [OutNodePin("o", Float)]);
            var b := XNode("b", [InNodePin("i", Float, Wrappers.Some("a_o"))], []);
            && Resolvable([SetAllPins(a, None, true), SetAllPins(b, None, true)])
            && Labelled([SetAllPins(a, None, true), SetAllPins(b, None, true)])
            && RenderLinks([SetAllPins(a, None, true), SetAllPins(b, None, true)])[1].inPins[0].connected == Wrappers.Some("a_o")
  {
    var a := XNode("a", [], [OutNodePin("o", Float)]);
    var b := XNode("b", [InNodePin("i", Float, Wrappers.Some("a_o"))], []);
    assert FullName("a", "o") == "a_o";
    var f := [SetAllPins(a, None, true), SetAllPins(b, None, true)];
    assert f[0].outPins == [OutNodePin("o", None)];
    assert OutTypeIn("a", f[0].outPins, "a_o") == Wrappers.Some(None);
    assert OutTypeOf(f, "a_o") == Wrappers.Some(None);
    assert f[1].inPins == [InNodePin("i", None, Wrappers.Some("a_o"))];
  }

  /** The label the node pass prints for a pin type, read from the
      two-entry `c_PinTypeMap`: any later type reads past its end, which is
      undefined, `None` here. */
  function TypeLabel(t: PinType): (r: Wrappers.Option<string>)
    ensures r.Some? <==> t.None? || t.Float?
    ensures r.Some? ==> r.value == TypeLabelFixed(t)
  {
    match t
    case None => Wrappers.Some("None")
    case Float => Wrappers.Some("Float")
    case _ => Wrappers.None
  }

  /** A label table with an entry for every pin type, in enum order. */
  function TypeLabelFixed(t: PinType): (r: string)
    ensures r != ""
  {
    match t
    case None => "None"
    case Float => "Float"
    case Vec2 => "Vec2"
    case Vec3 => "Vec3"
    case Vec4 => "Vec4"
    case Texture2D => "Texture2D"
    case TextureCube => "TextureCube"
  }

  /** The full table tells every pin type apart. */
  lemma FixedLabelsDistinct(a: PinType, b: PinType)
    requires TypeLabelFixed(a) == TypeLabelFixed(b)
    ensures a == b
  {
  }

  /** The node pass reads the label table within bounds for every pin. */
  predicate Labelled(ns: seq<XNode>) {
    && (forall i, j :: 0 <= i < |ns| && 0 <= j < |ns[i].inPins| ==> TypeLabel(ns[i].inPins[j].ptype).Some?)
    && (forall i, j :: 0 <= i < |ns| && 0 <= j < |ns[i].outPins| ==> TypeLabel(ns[i].outPins[j].ptype).Some?)
  }

  /** A node with a vector pin already makes the node pass read past the
      two-entry table: retyping a float node to vec2 is enough. */
  lemma Vec2PinReadsPastLabels()
    ensures !Labelled([SetAllPins(XNode("a", [], [OutNodePin("o", Float)]), Vec2, false)])
  {
    var w := [SetAllPins(XNode("a", [], [OutNodePin("o", Float)]), Vec2, false)];
    assert w[0].outPins[0].ptype == Vec2;
  }

  /** Every node yields a non-empty name: the node name and each pin's
      full name. */
  predicate Named(ns: seq<XNode>) {
    forall i :: 0 <= i < |ns| ==> ns[i].name != ""
  }

  /** The node pass of `render`: the node's name, then the full name of
      each input pin, then of each output pin, are interned in order. */
  method RenderIds(s: Ids, ns: seq<XNode>) returns (s': Ids)
    requires Named(ns)
    ensures forall n :: n in s.idMap ==> n in s'.idMap && s'.idMap[n] == s.idMap[n]
    ensures forall i :: 0 <= i < |ns| ==> ns[i].name in s'.idMap
    ensures forall i, j :: 0 <= i < |ns| && 0 <= j < |ns[i].inPins| ==> FullName(ns[i].name, ns[i].inPins[j].name) in s'.idMap
    ensures forall i, j :: 0 <= i < |ns| && 0 <= j < |ns[i].outPins| ==> FullName(ns[i].name, ns[i].outPins[j].name) in s'.idMap
    ensures Interned(s) ==> Interned(s')
  {
    s' := s;
    var i := 0;
    while i < |ns|
      invariant 0 <= i <= |ns|
      invariant forall n :: n in s.idMap ==> n in s'.idMap && s'.idMap[n] == s.idMap[n]
      invariant forall k :: 0 <= k < i ==> ns[k].name in s'.idMap
      invariant forall k, j :: 0 <= k < i && 0 <= j < |ns[k].inPins| ==> FullName(ns[k].name, ns[k].inPins[j].name) in s'.idMap
      invariant forall k, j :: 0 <= k < i && 0 <= j < |ns[k].outPins| ==> FullName(ns[k].name, ns[k].outPins[j].name) in s'.idMap
      invariant Interned(s) ==> Interned(s')
    {
      s' := RenderNodeIds(s', ns[i]);
      i := i + 1;
    }
  }

  /** One node of the node pass: its name, its input pins' full names,
      then its output pins' full names. */
  method RenderNodeIds(s: Ids, n: XNode) returns (s': Ids)
    requires n.name != ""
    ensures forall x :: x in s.idMap ==> x in s'.idMap && s'.idMap[x] == s.idMap[x]
    ensures n.name in s'.idMap
    ensures forall j :: 0 <= j < |n.inPins| ==> FullName(n.name, n.inPins[j].name) in s'.idMap
    ensures forall j :: 0 <= j < |n.outPins| ==> FullName(n.name, n.outPins[j].name) in s'.idMap
    ensures Interned(s) ==> Interned(s')
  {
    s' := GetId(s, n.name).1;
    if Interned(s) { GetIdKeepsInterned(s, n.name); }
    var named := s';
    s' := InternPins(s', n.name, InNames(n));
    var inDone := s';
    s' := InternPins(s', n.name, OutNames(n));
    assert forall x :: x in named.idMap ==> x in s'.idMap && s'.idMap[x] == named.idMap[x] by {
      assert forall x :: x in inDone.idMap ==> x in s'.idMap && s'.idMap[x] == inDone.idMap[x];
    }
  }

  /** The names of a node's input pins and of its output pins, in order. */
  function InNames(n: XNode): (r: seq<string>)
    ensures |r| == |n.inPins| && forall j :: 0 <= j < |r| ==> r[j] == n.inPins[j].name
  {
    seq(|n.inPins|, j requires 0 <= j < |n.inPins| => n.inPins[j].name)
  }

  function OutNames(n: XNode): (r: seq<string>)
    ensures |r| == |n.outPins| && forall j :: 0 <= j < |r| ==> r[j] == n.outPins[j].name
  {
    seq(|n.outPins|, j requires 0 <= j < |n.outPins| => n.outPins[j].name)
  }

  /** The full names of a node's pins, given by pin name, interned in order. */
  method InternPins(s: Ids, nodeName: string, names: seq<string>) returns (s': Ids)
    ensures forall x :: x in s.idMap ==> x in s'.idMap && s'.idMap[x] == s.idMap[x]
    ensures forall j :: 0 <= j < |names| ==> FullName(nodeName, names[j]) in s'.idMap
    ensures Interned(s) ==> Interned(s')
  {
    s' := s;
    var j := 0;
    while j < |names|
      invariant 0 <= j <= |names|
      invariant forall x :: x in s.idMap ==> x in s'.idMap && s'.idMap[x] == s.idMap[x]
      invariant forall m :: 0 <= m < j ==> FullName(nodeName, names[m]) in s'.idMap
      invariant Interned(s) ==> Interned(s')
    {
      var full := FullName(nodeName, names[j]);
      if Interned(s') { GetIdKeepsInterned(s', full); }
      s' := GetId(s', full).1;
      j := j + 1;
    }
  }
}

=== FILE: InputManager.dfy ===
/** The input manager (runtime `input::InputManager`): the key, mouse button,
    cursor and scroll state of the current frame and of the previous one.
    Key codes index the state tables; cursor and scroll values are `double`s,
    modelled as reals. */
module InputManager {

  /** The window system's key actions. */
  datatype KeyAction = RELEASE | PRESS | REPEAT

  datatype Frame = Frame(keys: seq<bool>, mouseKeys: seq<bool>, mouseX: real, mouseY: real, scroll: real)

  datatype Input = Input(current: Frame, previous: Frame)

  /** Both frames have tables of the same sizes. */
  predicate SameShape(im: Input) {
    |im.current.keys| == |im.previous.keys| && |im.current.mouseKeys| == |im.previous.mouseKeys|
  }

  /** `update`: the current frame becomes the previous one and the current
      scroll is reset; nothing else in the current frame changes. */
  function Update(im: Input): (im': Input)
    ensures im'.previous == im.current
    ensures im'.current == im.current.(scroll := 0.0)
    ensures SameShape(im')
  {
    Input(im.current.(scroll := 0.0), im.current)
  }

  /** Press and repeat hold a key down; any other action lets it up. */
  predicate IsDown(action: KeyAction) {
    action == PRESS || action == REPEAT
  }

  /** `onKeyStateChange`: the key's state follows the action. The source
      does not check the key code against the table. */
  function OnKey(im: Input, key: nat, action: KeyAction): (im': Input)
    requires key < |im.current.keys|
    ensures im'.current.keys == im.current.keys[key := IsDown(action)]
    ensures im'.current.mouseKeys == im.current.mouseKeys && im'.previous == im.previous
    ensures im'.current.mouseX == im.current.mouseX && im'.current.mouseY == im.current.mouseY
    ensures im'.current.scroll == im.current.scroll
  {
    im.(current := im.current.(keys := im.current.keys[key := IsDown(action)]))
  }

  /** `onMouseKeyStateChange`: the same rule for mouse buttons. */
  function OnMouseKey(im: Input, key: nat, action: KeyAction): (im': Input)
    requires key < |im.current.mouseKeys|
    ensures im'.current.mouseKeys == im.current.mouseKeys[key := IsDown(action)]
    ensures im'.current.keys == im.current.keys && im'.previous == im.previous
    ensures im'.current.mouseX == im.current.mouseX && im'.current.mouseY == im.current.mouseY
    ensures im'.current.scroll == im.current.scroll
  {
    im.(current := im.current.(mouseKeys := im.current.mouseKeys[key := IsDown(action)]))
  }

  /** `onMouseMove`: the cursor position is set. */
  function OnMouseMove(im: Input, x: real, y: real): (im': Input)
    ensures im'.current == im.current.(mouseX := x, mouseY := y) && im'.previous == im.previous
  {
    im.(current := im.current.(mouseX := x, mouseY := y))
  }

  /** `onMouseScrolled`: the scroll offset is set. */
  function OnMouseScrolled(im: Input, y: real): (im': Input)
    ensures im'.current == im.current.(scroll := y) && im'.previous == im.previous
  {
    im.(current := im.current.(scroll := y))
  }

  /** `isKeyPressed` and `isMouseKeyPressed` read the current frame; the
      code must be in range (the source leaves the bound check to do). */
  function IsKeyPressed(im: Input, key: nat): bool
    requires key < |im.current.keys|
  {
    im.current.keys[key]
  }

  function IsMouseKeyPressed(im: Input, key: nat): bool
    requires key < |im.current.mouseKeys|
  {
    im.current.mouseKeys[key]
  }

  /** `wasKeyReleased`: down in the previous frame and up in this one. */
  function WasKeyReleased(im: Input, key: nat): bool
    requires key < |im.current.keys| && key < |im.previous.keys|
  {
    im.previous.keys[key] && !im.current.keys[key]
  }

  /** `getMouseDelta`: the cursor movement since the previous frame, with
      the y axis inverted. */
  function MouseDelta(im: Input): (d: (real, real))
    ensures d.0 + im.previous.mouseX == im.current.mouseX
    ensures im.previous.mouseY - d.1 == im.current.mouseY
  {
    (im.current.mouseX - im.previous.mouseX, -(im.current.mouseY - im.previous.mouseY))
  }

  /** Key events set exactly what `isKeyPressed` reads, and leave every
      other key alone. */
  lemma KeyEventThenQuery(im: Input, key: nat, other: nat, action: KeyAction)
    requires key < |im.current.keys| && other < |im.current.keys| && other != key
    ensures IsKeyPressed(OnKey(im, key, action), key) <==> action == PRESS || action == REPEAT
    ensures IsKeyPressed(OnKey(im, key, action), other) == IsKeyPressed(im, other)
  {
  }

  /** Right after `update` no key counts as released, and a key that was
      down at the update and is then let go counts as released. */
  lemma ReleaseEdge(im: Input, key: nat)
    requires key < |im.current.keys|
    ensures !WasKeyReleased(Update(im), key)
    ensures IsKeyPressed(im, key) ==> WasKeyReleased(OnKey(Update(im), key, RELEASE), key)
    ensures !IsKeyPressed(im, key) ==> forall a :: !WasKeyReleased(OnKey(Update(im), key, a), key)
  {
  }

  /** Right after `update` the mouse has not moved and nothing scrolled;
      moving it by (dx, dy) then reports (dx, -dy). */
  lemma MouseAfterUpdate(im: Input, dx: real, dy: real)
    ensures MouseDelta(Update(im)) == (0.0, 0.0)
    ensures Update(im).current.scroll == 0.0
    ensures var u := Update(im);
            MouseDelta(OnMouseMove(u, u.current.mouseX + dx, u.current.mouseY + dy)) == (dx, -dy)
  {
  }
}

=== FILE: Loader.dfy ===
/** The loader's decoders (runtime `io::Loader`), from the bytes of a data
    chunk to mesh, texture, shader and binary load results.

    The file handler, the mesh importer and the image decoder are external:
    their outputs are parameters here. */
module Loader {
  import opened Wrappers

  newtype byte = x: int | 0 <= x < 256

  /** The error every loader reports for an empty chunk. */
  const FileMissing := "File doesn't exist"

  // ---------------------------------------------------------------------
  // Shader blobs: an 8-byte vertex length, the vertex source, then the
  // fragment source up to the end of the chunk.
  // ---------------------------------------------------------------------

  const U64Bound: nat := 0x1_0000_0000_0000_0000

  /** Little-endian value of a byte string (the host order of the `memcpy`
      into a 64-bit integer). */
  function DecodeLE(bs: seq<byte>): (n: nat)
    ensures n < Pow256(|bs|)
  {
    if |bs| == 0 then 0 else bs[0] as nat + 256 * DecodeLE(bs[1..])
  }

  function Pow256(k: nat): (p: nat)
    ensures p > 0
  {
    if k == 0 then 1 else 256 * Pow256(k - 1)
  }

  /** The `k` little-endian bytes of `n`. */
  function EncodeLE(n: nat, k: nat): (bs: seq<byte>)
    ensures |bs| == k
  {
    if k == 0 then [] else [(n % 256) as byte] + EncodeLE(n / 256, k - 1)
  }

  /** Encoding `n` in `k` bytes and decoding gives `n` back when it fits. */
  lemma {:induction false} DecodeEncodeLE(n: nat, k: nat)
    requires n < Pow256(k)
    ensures DecodeLE(EncodeLE(n, k)) == n
  {
    if k > 0 {
      var bs := EncodeLE(n, k);
      assert bs[1..] == EncodeLE(n / 256, k - 1);
      DecodeEncodeLE(n / 256, k - 1);
    }
  }

  lemma Pow256Of8()
    ensures Pow256(8) == U64Bound
  {
  }

  datatype ShaderSource = ShaderSource(vertex: seq<byte>, fragment: seq<byte>)

  /** The shader loader's failures: `ShaderFileMissing` stands for the same
      "File doesn't exist" message the other loaders return. */
  datatype ShaderError = ShaderFileMissing | Truncated

  /** `loadShader` on a chunk that holds a whole blob: the first 8 bytes give
      the vertex length `n`; vertex = bytes [8, 8+n), fragment = the rest.
      An empty chunk is the missing-file error. A chunk too short for its own
      length prefix is reported as `Truncated`; the source does not check
      this case (see `FragmentSizeAsWritten`). */
  function LoadShader(chunk: seq<byte>): (r: Result<ShaderSource, ShaderError>)
    ensures |chunk| == 0 <==> r == Err(ShaderFileMissing)
    ensures r.Ok? <==> |chunk| >= 8 && 8 + DecodeLE(chunk[..8]) <= |chunk|
    ensures r.Ok? ==> var n := DecodeLE(chunk[..8]);
              r.value.vertex == chunk[8..8 + n] && r.value.fragment == chunk[8 + n..] &&
              (|chunk| < U64Bound ==> |r.value.fragment| == FragmentSizeAsWritten(chunk))
  {
    if |chunk| == 0 then Err(ShaderFileMissing)
    else if |chunk| < 8 then Err(Truncated)
    else
      var n := DecodeLE(chunk[..8]);
      if 8 + n > |chunk| then Err(Truncated)
      else Ok(ShaderSource(chunk[8..8 + n], chunk[8 + n..]))
  }

  /** The fragment size as the source computes it: `size - 8 - n` in 64-bit
      unsigned arithmetic, which wraps when the prefix claims more bytes
      than the chunk holds. */
  function FragmentSizeAsWritten(chunk: seq<byte>): (s: nat)
    requires |chunk| >= 8
    ensures s < U64Bound
  {
    (|chunk| - 8 - DecodeLE(chunk[..8])) % U64Bound
  }

  /** An 8-byte chunk whose prefix claims a 1-byte vertex source makes the
      fragment size wrap to 2^64 - 1. */
  lemma FragmentSizeWraps()
    ensures var chunk: seq<byte> := [1, 0, 0, 0, 0, 0, 0, 0];
            FragmentSizeAsWritten(chunk) == U64Bound - 1 && LoadShader(chunk) == Err(Truncated)
  {
    var chunk: seq<byte> := [1, 0, 0, 0, 0, 0, 0, 0];
    assert chunk[..8] == chunk;
    assert DecodeLE(chunk[..8]) == 1 by {
      assert DecodeLE(chunk[7..]) == 0;
      assert chunk[1..][1..][1..][1..][1..][1..][1..] == chunk[7..];
    }
  }

  /** The blob layout the shader compiler writes: length prefix, vertex
      source, fragment source. */
  function EncodeShader(s: ShaderSource): seq<byte>
    requires |s.vertex| < U64Bound
  {
    EncodeLE(|s.vertex|, 8) + s.vertex + s.fragment
  }

  /** Loading an encoded blob gives back both sources unchanged. */
  lemma LoadEncodedShader(s: ShaderSource)
    requires |s.vertex| < U64Bound
    ensures LoadShader(EncodeShader(s)) == Ok(s)
  {
    var chunk := EncodeShader(s);
    Pow256Of8();
    assert chunk[..8] == EncodeLE(|s.vertex|, 8);
    DecodeEncodeLE(|s.vertex|, 8);
    assert chunk[8..8 + |s.vertex|] == s.vertex;
    assert chunk[8 + |s.vertex|..] == s.fragment;
  }

  // ---------------------------------------------------------------------
  // Binary blobs.
  // ---------------------------------------------------------------------

  /** `loadBinary`: the chunk itself, or the missing-file error. */
  function LoadBinary(chunk: seq<byte>): (r: Result<seq<byte>, string>)
    ensures |chunk| == 0 ==> r == Err(FileMissing)
    ensures |chunk| > 0 ==> r == Ok(chunk)
  {
    if |chunk| == 0 then Err(FileMissing) else Ok(chunk)
  }

  // ---------------------------------------------------------------------
  // Meshes.
  // ---------------------------------------------------------------------

  datatype Vec3 = Vec3(x: real, y: real, z: real)
  datatype Vec2 = Vec2(x: real, y: real)

  /** An imported mesh: per-vertex position, normal and first UV channel,
      and faces as index lists. */
  datatype ImportedMesh = ImportedMesh(positions: seq<Vec3>, normals: seq<Vec3>, uvs: seq<Vec2>, faces: seq<seq<nat>>)

  predicate WellFormedMesh(m: ImportedMesh) {
    |m.normals| == |m.positions| && |m.uvs| == |m.positions|
  }

  datatype MeshData = MeshData(vertices: seq<real>, indices: seq<nat>)

  /** The 8 floats of vertex `i`: position, normal, UV. */
  function VertexFloats(m: ImportedMesh, i: nat): seq<real>
    requires WellFormedMesh(m) && i < |m.positions|
  {
    [m.positions[i].x, m.positions[i].y, m.positions[i].z,
     m.normals[i].x, m.normals[i].y, m.normals[i].z,
     m.uvs[i].x, m.uvs[i].y]
  }

  /** All faces' indices concatenated in face order. */
  function Flatten(faces: seq<seq<nat>>): seq<nat> {
    if |faces| == 0 then [] else Flatten(faces[..|faces| - 1]) + faces[|faces| - 1]
  }

  /** Interleave the vertex attributes: 8 floats per vertex, in order. */
  method Interleave(m: ImportedMesh) returns (vs: seq<real>)
    requires WellFormedMesh(m)
    ensures |vs| == 8 * |m.positions|
    ensures forall i :: 0 <= i < |m.positions| ==> vs[8 * i..8 * i + 8] == VertexFloats(m, i)
  {
    vs := [];
    var i := 0;
    while i < |m.positions|
      invariant 0 <= i <= |m.positions|
      invariant |vs| == 8 * i
      invariant forall k :: 0 <= k < i ==> vs[8 * k..8 * k + 8] == VertexFloats(m, k)
    {
      var old_vs := vs;
      vs := vs + VertexFloats(m, i);
      forall k | 0 <= k < i
        ensures vs[8 * k..8 * k + 8] == VertexFloats(m, k)
      {
        assert vs[8 * k..8 * k + 8] == old_vs[8 * k..8 * k + 8];
      }
      assert vs[8 * i..8 * i + 8] == VertexFloats(m, i);
      i := i + 1;
    }
  }

  /** Gather the face indices, face by face. */
  method GatherIndices(faces: seq<seq<nat>>) returns (idx: seq<nat>)
    ensures idx == Flatten(faces)
  {
    idx := [];
    var f := 0;
    while f < |faces|
      invariant 0 <= f <= |faces|
      invariant idx == Flatten(faces[..f])
    {
      var j := 0;
      while j < |faces[f]|
        invariant 0 <= j <= |faces[f]|
        invariant idx == Flatten(faces[..f]) + faces[f][..j]
      {
        idx := idx + [faces[f][j]];
        j := j + 1;
      }
      assert faces[..f + 1][..f] == faces[..f];
      assert faces[f][..j] == faces[f];
      f := f + 1;
    }
    assert faces[..f] == faces;
  }

  /** `loadMesh`. `imported` is what the importer made of the chunk (`None`
      when it failed, with `importError` its message). */
  method LoadMesh(chunk: seq<byte>, imported: Option<seq<ImportedMesh>>, importError: string)
    returns (r: Result<MeshData, string>)
    requires imported.Some? && |imported.value| == 1 ==> WellFormedMesh(imported.value[0])
    ensures |chunk| == 0 ==> r == Err(FileMissing)
    ensures |chunk| > 0 && imported.None? ==> r == Err(importError)
    ensures |chunk| > 0 && imported.Some? && |imported.value| > 1 ==> r == Err("File contains more than 1 mesh")
    ensures |chunk| > 0 && imported.Some? && |imported.value| == 0 ==> r == Err("File contains no meshes")
    ensures |chunk| > 0 && imported.Some? && |imported.value| == 1 ==>
              var m := imported.value[0];
              r.Ok? && |r.value.vertices| == 8 * |m.positions| &&
              (forall i :: 0 <= i < |m.positions| ==> r.value.vertices[8 * i..8 * i + 8] == VertexFloats(m, i)) &&
              r.value.indices == Flatten(m.faces)
  {
    if |chunk| == 0 { return Err(FileMissing); }
    if imported.None? { return Err(importError); }
    if |imported.value| > 1 { return Err("File contains more than 1 mesh"); }
    if |imported.value| == 0 { return Err("File contains no meshes"); }
    var m := imported.value[0];
    var vs := Interleave(m);
    var idx := GatherIndices(m.faces);
    r := Ok(MeshData(vs, idx));
  }

  /** The indices of a mesh are as many as all faces' index counts together. */
  lemma {:induction false} FlattenLength(faces: seq<seq<nat>>)
    ensures |Flatten(faces)| == SumLengths(faces)
  {
    if |faces| > 0 {
      FlattenLength(faces[..|faces| - 1]);
    }
  }

  function SumLengths(faces: seq<seq<nat>>): nat {
    if |faces| == 0 then 0 else SumLengths(faces[..|faces| - 1]) + |faces[|faces| - 1]|
  }

  // ---------------------------------------------------------------------
  // Textures.
  // ---------------------------------------------------------------------

  /** The texture formats the loaders choose from; `Unset` is the load
      result's default value, left when no case matches. */
  datatype TextureFormat = R8 | RG8 | RGB8 | RGBA8 | R32F | RG32F | RGBA32F | Unset

  /** What the image decoder reports: size and channel count of the file. */
  datatype Decoded = Decoded(width: int, height: int, bpp: int)

  datatype TextureResult = TextureResult(width: int, height: int, bpp: int, format: TextureFormat)

  /** The 8-bit format for a channel count. */
  function LdrFormat(bpp: int): (f: TextureFormat)
    ensures f != Unset <==> 1 <= bpp <= 4
    ensures f in {R8, RG8, RGB8, RGBA8, Unset}
  {
    match bpp
    case 1 => R8
    case 2 => RG8
    case 3 => RGB8
    case 4 => RGBA8
    case _ => Unset
  }

  /** The float format for a channel count; 3 channels are not supported
      (the source logs a fatal error) and leave the format unset. */
  function HdrFormat(bpp: int): (f: TextureFormat)
    ensures f != Unset <==> bpp == 1 || bpp == 2 || bpp == 4
    ensures f in {R32F, RG32F, RGBA32F, Unset}
  {
    match bpp
    case 1 => R32F
    case 2 => RG32F
    case 4 => RGBA32F
    case _ => Unset
  }

  /** The component count of each format: the map from channel count to
      format is inverted by it, for both loaders. */
  function Channels(f: TextureFormat): nat {
    match f
    case R8 => 1 case RG8 => 2 case RGB8 => 3 case RGBA8 => 4
    case R32F => 1 case RG32F => 2 case RGBA32F => 4
    case Unset => 0
  }

  lemma FormatKeepsChannels(bpp: int)
    ensures LdrFormat(bpp) != Unset ==> Channels(LdrFormat(bpp)) == bpp
    ensures HdrFormat(bpp) != Unset ==> Channels(HdrFormat(bpp)) == bpp
  {
  }

  /** `loadTexture` / `loadHdrTexture`: the missing-file error, the decoder's
      failure message, or the decoded size with the format for its channel
      count. */
  function LoadTexture(chunk: seq<byte>, decoded: Option<Decoded>, failure: string, hdr: bool): (r: Result<TextureResult, string>)
    ensures |chunk| == 0 ==> r == Err(FileMissing)
    ensures |chunk| > 0 && decoded.None? ==> r == Err(failure)
    ensures |chunk| > 0 && decoded.Some? ==>
              r.Ok? && r.value.width == decoded.value.width && r.value.height == decoded.value.height &&
              r.value.bpp == decoded.value.bpp &&
              r.value.format == if hdr then HdrFormat(decoded.value.bpp) else LdrFormat(decoded.value.bpp)
  {
    if |chunk| == 0 then Err(FileMissing)
    else match decoded
      case None => Err(failure)
      case Some(d) => Ok(TextureResult(d.width, d.height, d.bpp, if hdr then HdrFormat(d.bpp) else LdrFormat(d.bpp)))
  }

  /** An empty chunk fails before any decoding, in every loader with the
      one message "File doesn't exist" (`ShaderFileMissing` for the shader
      loader, `FileMissing` for the others), whatever the decoder would say;
      the mesh loader's contract states the same for it. */
  lemma EmptyChunkFails(decoded: Option<Decoded>, failure: string, hdr: bool)
    ensures LoadShader([]) == Err(ShaderFileMissing)
    ensures LoadBinary([]) == Err(FileMissing)
    ensures LoadTexture([], decoded, failure, hdr) == Err(FileMissing)
  {
  }
}

=== FILE: LoaderPool.dfy ===
/** The loader pool's work queue (runtime `io::LoaderPool`), without its
    locks and condition variables.

    The queue is split in two by `highEnd`: a prefix of high-priority items,
    newest first, and the rest, where normal items are pushed at the front of
    the non-high part and low items at the back. */
module LoaderPool {
  import opened Wrappers

  datatype Priority = LOW | NORMAL | HIGH

  /** A loadable object: identity and whether it still needs loading. */
  datatype Loadable = Loadable(id: nat, needsLoading: bool)

  /** A queued item. The priority it was enqueued with is kept beside it so
      that the queue's shape can be stated; the pool itself stores only the
      loadable. */
  datatype Item = Item(loadable: Loadable, priority: Priority)

  /** The queue, the end of its high-priority prefix, the terminated flag and
      what each loader thread is working on (null when idle). */
  datatype Pool = Pool(queue: seq<Item>, highEnd: nat, terminated: bool, current: seq<Option<Loadable>>)

  /** The queue shape: `highEnd` lies within the queue and marks exactly the
      high-priority prefix, and no loadable is queued twice. */
  predicate Valid(p: Pool) {
    p.highEnd <= |p.queue| &&
    (forall i :: 0 <= i < |p.queue| ==> (i < p.highEnd <==> p.queue[i].priority == HIGH)) &&
    (forall i, j :: 0 <= i < j < |p.queue| ==> p.queue[i].loadable.id != p.queue[j].loadable.id)
  }

  /** True if some queue item holds the loadable. */
  predicate Queued(p: Pool, id: nat) {
    exists i :: 0 <= i < |p.queue| && p.queue[i].loadable.id == id
  }

  /** True if some loader is working on the loadable. */
  predicate Held(p: Pool, id: nat) {
    exists k :: 0 <= k < |p.current| && p.current[k].Some? && p.current[k].value.id == id
  }

  /** `isLoading`: the loadable is queued or some loader is working on it;
      both are identity comparisons. */
  function IsLoading(p: Pool, l: Loadable): (r: bool)
    ensures r <==> Queued(p, l.id) || Held(p, l.id)
  {
    (exists i :: 0 <= i < |p.queue| && p.queue[i].loadable.id == l.id) ||
    (exists k :: 0 <= k < |p.current| && p.current[k].Some? && p.current[k].value.id == l.id)
  }

  /** `enqueue`: nothing happens for a loadable that is already being loaded
      or does not need loading; otherwise low goes to the back, normal to
      index `highEnd`, and high to the front with `highEnd` stepped. */
  function Enqueue(p: Pool, l: Loadable, prio: Priority): (p': Pool)
    requires p.highEnd <= |p.queue|
    ensures IsLoading(p, l) || !l.needsLoading ==> p' == p
    ensures !IsLoading(p, l) && l.needsLoading ==>
              p'.terminated == p.terminated && p'.current == p.current &&
              match prio
              case LOW => p'.queue == p.queue + [Item(l, LOW)] && p'.highEnd == p.highEnd
              case NORMAL =>
                p'.queue == p.queue[..p.highEnd] + [Item(l, NORMAL)] + p.queue[p.highEnd..] && p'.highEnd == p.highEnd
              case HIGH => p'.queue == [Item(l, HIGH)] + p.queue && p'.highEnd == p.highEnd + 1
  {
    if IsLoading(p, l) || !l.needsLoading then p
    else match prio
      case LOW => p.(queue := p.queue + [Item(l, LOW)])
      case NORMAL =>
        p.(queue := p.queue[..p.highEnd] + [Item(l, NORMAL)] + p.queue[p.highEnd..])
      case HIGH => p.(queue := [Item(l, HIGH)] + p.queue, highEnd := p.highEnd + 1)
  }

  /** A loadable that a loader is working on is not queued again, whatever
      the priority and whatever its own loading flag says. */
  lemma HeldNotEnqueued(p: Pool, l: Loadable, prio: Priority, k: nat)
    requires p.highEnd <= |p.queue|
    requires k < |p.current| && p.current[k].Some? && p.current[k].value.id == l.id
    ensures Enqueue(p, l, prio) == p
  {
    assert Held(p, l.id);
  }

  /** Enqueueing changes the pool exactly when the loadable needs loading
      and is neither queued nor held, and then the queue grows by that one
      item. */
  lemma EnqueueAddsOne(p: Pool, l: Loadable, prio: Priority)
    requires p.highEnd <= |p.queue|
    ensures Enqueue(p, l, prio) != p <==> l.needsLoading && !Queued(p, l.id) && !Held(p, l.id)
    ensures Enqueue(p, l, prio) != p ==>
              |Enqueue(p, l, prio).queue| == |p.queue| + 1 &&
              multiset(Enqueue(p, l, prio).queue) == multiset(p.queue) + multiset{Item(l, prio)}
  {
    var p' := Enqueue(p, l, prio);
    if l.needsLoading && !Queued(p, l.id) && !Held(p, l.id) {
      assert |p'.queue| == |p.queue| + 1;
      if prio == NORMAL {
        assert p.queue == p.queue[..p.highEnd] + p.queue[p.highEnd..];
      }
    }
  }

  /** `getNextLoadable`, once woken (the pool is terminated or the queue is
      non-empty): a terminated pool yields null; otherwise the front item is
      removed and returned, and `highEnd` is stepped down if positive. */
  function GetNextLoadable(p: Pool): (r: (Pool, Option<Loadable>))
    requires p.terminated || |p.queue| > 0
    ensures p.terminated ==> r == (p, None)
    ensures !p.terminated ==>
              r.1 == Some(p.queue[0].loadable) && r.0.queue == p.queue[1..] &&
              r.0.highEnd == (if p.highEnd > 0 then p.highEnd - 1 else 0) &&
              r.0.current == p.current && !r.0.terminated
  {
    if p.terminated then (p, None)
    else (p.(queue := p.queue[1..], highEnd := if p.highEnd > 0 then p.highEnd - 1 else 0), Some(p.queue[0].loadable))
  }

  /** Enqueueing keeps the queue's shape, so the queue never holds a loadable
      twice and `highEnd` marks exactly the high items. */
  lemma EnqueuePreservesValid(p: Pool, l: Loadable, prio: Priority)
    requires Valid(p)
    ensures Valid(Enqueue(p, l, prio))
  {
    if !IsLoading(p, l) && l.needsLoading {
      assert !Queued(p, l.id);
      match prio
      case LOW =>
      case NORMAL => InsertNormalValid(p, l);
      case HIGH => InsertHighValid(p, l);
    }
  }

  /** Inserting a loadable that is not queued at `highEnd` as a normal item
      keeps the queue's shape. */
  lemma InsertNormalValid(p: Pool, l: Loadable)
    requires Valid(p) && !Queued(p, l.id)
    ensures Valid(p.(queue := p.queue[..p.highEnd] + [Item(l, NORMAL)] + p.queue[p.highEnd..]))
  {
    var q := p.queue[..p.highEnd] + [Item(l, NORMAL)] + p.queue[p.highEnd..];
    forall i | 0 <= i < |q|
      ensures i < p.highEnd <==> q[i].priority == HIGH
    {
      if i < p.highEnd { assert q[i] == p.queue[i]; }
      else if i > p.highEnd { assert q[i] == p.queue[i - 1]; }
    }
    forall i, j | 0 <= i < j < |q|
      ensures q[i].loadable.id != q[j].loadable.id
    {
      var i' := if i <= p.highEnd then i else i - 1;
      var j' := if j <= p.highEnd then j else j - 1;
      if i == p.highEnd {
        assert q[j] == p.queue[j'];
      } else if j == p.highEnd {
        assert q[i] == p.queue[i'];
      } else {
        assert q[i] == p.queue[i'] && q[j] == p.queue[j'];
      }
    }
  }

  /** Pushing a loadable that is not queued at the front as a high item,
      with `highEnd` stepped, keeps the queue's shape. */
  lemma InsertHighValid(p: Pool, l: Loadable)
    requires Valid(p) && !Queued(p, l.id)
    ensures Valid(p.(queue := [Item(l, HIGH)] + p.queue, highEnd := p.highEnd + 1))
  {
    var q := [Item(l, HIGH)] + p.queue;
    forall i, j | 0 <= i < j < |q|
      ensures q[i].loadable.id != q[j].loadable.id
    {
      if i > 0 { assert q[i] == p.queue[i - 1]; }
      assert q[j] == p.queue[j - 1];
    }
  }

  /** Taking the next loadable keeps the queue's shape. */
  lemma GetNextPreservesValid(p: Pool)
    requires Valid(p)
    requires p.terminated || |p.queue| > 0
    ensures Valid(GetNextLoadable(p).0)
  {
    var p' := GetNextLoadable(p).0;
    if !p.terminated {
      forall i | 0 <= i < |p'.queue|
        ensures i < p'.highEnd <==> p'.queue[i].priority == HIGH
      {
        assert p'.queue[i] == p.queue[i + 1];
      }
      forall i, j | 0 <= i < j < |p'.queue|
        ensures p'.queue[i].loadable.id != p'.queue[j].loadable.id
      {
        assert p'.queue[i] == p.queue[i + 1] && p'.queue[j] == p.queue[j + 1];
      }
    }
  }

  /** Among items of the same priority, high and normal are served newest
      first: the item just enqueued is served before every item of the same
      priority already waiting. Low items are served oldest first: the item
      just enqueued is served after every item already waiting. */
  lemma EnqueueOrder(p: Pool, l: Loadable, prio: Priority)
    requires Valid(p)
    requires !IsLoading(p, l) && l.needsLoading
    ensures var p' := Enqueue(p, l, prio);
            var at := if prio == LOW then |p.queue| else if prio == NORMAL then p.highEnd else 0;
            at < |p'.queue| && p'.queue[at] == Item(l, prio) &&
            (forall i :: 0 <= i < |p.queue| && p.queue[i].priority == prio ==>
               (prio == LOW ==> p'.queue[i] == p.queue[i]) &&
               (prio != LOW ==> at < i + 1 && p'.queue[i + 1] == p.queue[i]))
  {
  }
}

=== FILE: MaterialAsset.dfy ===
/** A material instance (runtime `asset::MaterialAsset`): a material type,
    the float buffer holding its property values (`Size` vec4s) and one
    texture per sampler slot. Pointers to other assets are their serialized
    handles, `None` for null; whether an asset is valid (loaded) is the set
    `valid` of such handles, and the asset manager's lookup is the set
    `known` of handles it resolves. */
module MaterialAsset {
  import opened Wrappers

  /** The parts of a material type a material reads: its handle, its buffer
      size in vec4s and its sampler count. */
  datatype TypeInfo = TypeInfo(handle: nat, size: nat, numSamplers: nat)

  datatype Material = Material(mtype: Option<TypeInfo>, data: seq<real>, samplers: seq<Option<nat>>)

  /** A material is usable when its type is set and valid and every sampler
      slot holds a valid texture. */
  predicate Usable(m: Material, valid: set<nat>) {
    m.mtype.Some? && m.mtype.value.handle in valid &&
    forall i :: 0 <= i < |m.samplers| ==> m.samplers[i].Some? && m.samplers[i].value in valid
  }

  /** `isValid`: false for a missing or invalid type, then false at the
      first null or invalid sampler, true otherwise. */
  method IsValid(m: Material, valid: set<nat>) returns (r: bool)
    ensures r <==> Usable(m, valid)
    ensures !r <==> m.mtype.None? || m.mtype.value.handle !in valid ||
                    exists i :: 0 <= i < |m.samplers| && (m.samplers[i].None? || m.samplers[i].value !in valid)
  {
    if m.mtype.None? || m.mtype.value.handle !in valid {
      return false;
    }
    var i := 0;
    while i < |m.samplers|
      invariant 0 <= i <= |m.samplers|
      invariant forall j :: 0 <= j < i ==> m.samplers[j].Some? && m.samplers[j].value in valid
    {
      if m.samplers[i].None? || m.samplers[i].value !in valid {
        return false;
      }
      i := i + 1;
    }
    return true;
  }

  /** `needsLoading`: exactly when the material is not valid. */
  method NeedsLoading(m: Material, valid: set<nat>) returns (r: bool)
    ensures r <==> !Usable(m, valid)
  {
    var ok := IsValid(m, valid);
    r := !ok;
  }

  /** A zeroed buffer of `n` floats. */
  function Zeros(n: nat): (s: seq<real>)
    ensures |s| == n && forall i :: 0 <= i < n ==> s[i] == 0.0
  {
    seq(n, i => 0.0)
  }

  /** `setType`: the type is set and the sampler slots are cleared; when the
      buffer can be reallocated (`allocOk`) it becomes `Size * 4` zeros and
      there is one empty sampler slot per sampler of the type, otherwise the
      old buffer stays and the slots stay empty. */
  function SetType(m: Material, t: TypeInfo, allocOk: bool): (m': Material)
    ensures m'.mtype == Some(t)
    ensures allocOk ==> |m'.data| == t.size * 4 && forall i :: 0 <= i < |m'.data| ==> m'.data[i] == 0.0
    ensures allocOk ==> |m'.samplers| == t.numSamplers && forall i :: 0 <= i < |m'.samplers| ==> m'.samplers[i].None?
    ensures !allocOk ==> m'.data == m.data && m'.samplers == []
  {
    if allocOk then Material(Some(t), Zeros(t.size * 4), seq(t.numSamplers, i => None))
    else Material(Some(t), m.data, [])
  }

  /** A freshly typed material is not valid until its sampler slots are
      filled, unless the type has no samplers. */
  lemma SetTypeNeedsTextures(m: Material, t: TypeInfo, valid: set<nat>)
    ensures Usable(SetType(m, t, true), valid) <==> t.handle in valid && t.numSamplers == 0
  {
    var m' := SetType(m, t, true);
    if t.numSamplers > 0 {
      assert m'.samplers[0].None?;
    }
  }

  /** The stored form of a material: the type handle, the buffer values and
      one entry per sampler slot (`None` for null). */
  datatype Stored = Stored(typeHandle: nat, data: seq<real>, samplers: seq<Option<nat>>)

  datatype LoadError = AllocFailed | WrongDataSize

  /** The sampler slots a stored list resolves to: a null entry stays null,
      and so does a handle the asset manager does not know. */
  function ResolveSamplers(stored: seq<Option<nat>>, known: set<nat>): (r: seq<Option<nat>>)
    ensures |r| == |stored|
    ensures forall i :: 0 <= i < |r| ==> r[i] == if stored[i].Some? && stored[i].value in known then stored[i] else None
  {
    seq(|stored|, i requires 0 <= i < |stored| =>
      if stored[i].Some? && stored[i].value in known then stored[i] else None)
  }

  /** `deserialize`. Without a stored type nothing changes and loading
      succeeds. Otherwise the type is looked up (the source dereferences the
      result, so the handle must resolve) and a zeroed buffer of `Size * 4`
      floats is allocated; the load fails if allocation fails or the stored
      data does not have exactly that length. Otherwise the data is copied
      and the resolved sampler entries are appended to the slots already
      there. */
  function Deserialize(m: Material, stored: Option<Stored>, types: map<nat, TypeInfo>, known: set<nat>, allocOk: bool)
    : (r: (Material, Result<(), LoadError>))
    requires stored.Some? ==> stored.value.typeHandle in types
    ensures stored.None? ==> r == (m, Ok(()))
    ensures stored.Some? ==> r.0.mtype == Some(types[stored.value.typeHandle])
    ensures stored.Some? && !allocOk ==> r.1 == Err(AllocFailed)
    ensures stored.Some? && allocOk ==>
              var t := types[stored.value.typeHandle];
              (r.1.Ok? <==> |stored.value.data| == t.size * 4) &&
              (r.1.Err? ==> r.1.error == WrongDataSize && r.0.data == Zeros(t.size * 4) && r.0.samplers == m.samplers) &&
              (r.1.Ok? ==> r.0.data == stored.value.data &&
                           r.0.samplers == m.samplers + ResolveSamplers(stored.value.samplers, known))
  {
    match stored
    case None => (m, Ok(()))
    case Some(s) =>
      var t := types[s.typeHandle];
      if !allocOk then (m.(mtype := Some(t), data := []), Err(AllocFailed))
      else if |s.data| != t.size * 4 then (m.(mtype := Some(t), data := Zeros(t.size * 4)), Err(WrongDataSize))
      else (Material(Some(t), s.data, m.samplers + ResolveSamplers(s.samplers, known)), Ok(()))
  }

  /** Loading a stored material into a material with no sampler slots
      restores its data and every sampler handle the asset manager knows, in
      order. */
  lemma DeserializeRestores(m: Material, s: Stored, types: map<nat, TypeInfo>, known: set<nat>)
    requires s.typeHandle in types && |s.data| == types[s.typeHandle].size * 4
    requires m.samplers == []
    requires forall i :: 0 <= i < |s.samplers| && s.samplers[i].Some? ==> s.samplers[i].value in known
    ensures var r := Deserialize(m, Some(s), types, known, true);
            r.1.Ok? && r.0.data == s.data && r.0.samplers == s.samplers
  {
    var r := Deserialize(m, Some(s), types, known, true);
    assert r.0.samplers == ResolveSamplers(s.samplers, known);
  }

  /** `serialize`: nothing is stored without a type; otherwise the type
      handle, the first `Size * 4` floats of the buffer and every sampler
      slot (`None` for null). */
  function Serialize(m: Material): (r: Option<Stored>)
    requires m.mtype.Some? ==> |m.data| >= m.mtype.value.size * 4
    ensures r.None? <==> m.mtype.None?
    ensures r.Some? ==> r.value.typeHandle == m.mtype.value.handle && r.value.samplers == m.samplers
    ensures r.Some? ==> |r.value.data| == m.mtype.value.size * 4 &&
                        forall i :: 0 <= i < |r.value.data| ==> r.value.data[i] == m.data[i]
  {
    match m.mtype
    case None => None
    case Some(t) => Some(Stored(t.handle, m.data[..t.size * 4], m.samplers))
  }

  /** Storing a typed material and loading it into a material without
      sampler slots gives back the same material, provided the type resolves
      to itself, the buffer has exactly the type's size and the asset manager
      knows every sampler. */
  lemma SerializeRoundTrip(m: Material, blank: Material, types: map<nat, TypeInfo>, known: set<nat>)
    requires m.mtype.Some? && m.mtype.value.handle in types && types[m.mtype.value.handle] == m.mtype.value
    requires |m.data| == m.mtype.value.size * 4
    requires blank.samplers == []
    requires forall i :: 0 <= i < |m.samplers| && m.samplers[i].Some? ==> m.samplers[i].value in known
    ensures Deserialize(blank, Serialize(m), types, known, true) == (m, Ok(()))
  {
    var s := Serialize(m).value;
    assert s.data == m.data;
    DeserializeRestores(blank, s, types, known);
  }

  /** `load`: the loader-pool requests a material makes, in order: its type
      (whatever it is), then every sampler texture that is set but not yet
      valid. */
  function LoadRequests(m: Material, valid: set<nat>): (r: seq<Option<nat>>)
    ensures |r| >= 1 && r[0] == (if m.mtype.Some? then Some(m.mtype.value.handle) else None)
  {
    [if m.mtype.Some? then Some(m.mtype.value.handle) else None] + PendingTextures(m.samplers, valid)
  }

  /** The set sampler slots whose texture is not valid, in slot order. */
  function PendingTextures(samplers: seq<Option<nat>>, valid: set<nat>): (r: seq<Option<nat>>)
    ensures |r| <= |samplers|
    ensures forall i :: 0 <= i < |r| ==> r[i].Some? && r[i].value !in valid
  {
    if samplers == [] then []
    else
      var rest := PendingTextures(samplers[1..], valid);
      if samplers[0].Some? && samplers[0].value !in valid then [samplers[0]] + rest else rest
  }

  /** Every set but invalid sampler texture is requested, and only those. */
  lemma {:induction false} PendingTexturesComplete(samplers: seq<Option<nat>>, valid: set<nat>, h: nat)
    ensures Some(h) in PendingTextures(samplers, valid) <==> Some(h) in samplers && h !in valid
  {
    if samplers != [] {
      PendingTexturesComplete(samplers[1..], valid, h);
      assert samplers == [samplers[0]] + samplers[1..];
    }
  }

  /** A usable material requests only its type. */
  lemma UsableLoadsOnlyType(m: Material, valid: set<nat>)
    requires Usable(m, valid)
    ensures LoadRequests(m, valid) == [Some(m.mtype.value.handle)]
  {
    var p := PendingTextures(m.samplers, valid);
    if p != [] {
      PendingTexturesComplete(m.samplers, valid, p[0].value);
    }
  }

  /** One texture binding: the type's uniform for the slot and the slot's
      texture handle, `None` standing for the invalid texture handle. */
  datatype Binding = Binding(uniform: nat, texture: Option<nat>)

  /** `getSamplerData`: one binding per sampler of the type, in slot order;
      an empty slot binds the invalid texture handle. The source indexes the
      slots by the type's sampler count, so there must be that many, and
      asks each texture for its handle. */
  method GetSamplerData(m: Material, uniforms: seq<nat>, textureOf: map<nat, nat>) returns (r: seq<Binding>)
    requires m.mtype.Some?
    requires |m.samplers| >= m.mtype.value.numSamplers && |uniforms| >= m.mtype.value.numSamplers
    requires forall i :: 0 <= i < |m.samplers| && m.samplers[i].Some? ==> m.samplers[i].value in textureOf
    ensures |r| == m.mtype.value.numSamplers
    ensures forall i :: 0 <= i < |r| ==> r[i].uniform == uniforms[i]
    ensures forall i :: 0 <= i < |r| ==> (r[i].texture.None? <==> m.samplers[i].None?)
    ensures forall i :: 0 <= i < |r| && m.samplers[i].Some? ==> r[i].texture == Some(textureOf[m.samplers[i].value])
  {
    r := [];
    var i := 0;
    while i < m.mtype.value.numSamplers
      invariant 0 <= i <= m.mtype.value.numSamplers && |r| == i
      invariant forall j :: 0 <= j < i ==> r[j].uniform == uniforms[j]
      invariant forall j :: 0 <= j < i ==>
                  r[j].texture == if m.samplers[j].None? then None else Some(textureOf[m.samplers[j].value])
    {
      if m.samplers[i].None? {
        r := r + [Binding(uniforms[i], None)];
      } else {
        r := r + [Binding(uniforms[i], Some(textureOf[m.samplers[i].value]))];
      }
      i := i + 1;
    }
  }

  /** A valid material binds a texture to every sampler. */
  lemma ValidBindsAll(m: Material, valid: set<nat>, r: seq<Binding>)
    requires Usable(m, valid)
    requires |r| <= |m.samplers|
    requires forall i :: 0 <= i < |r| ==> (r[i].texture.None? <==> m.samplers[i].None?)
    ensures forall i :: 0 <= i < |r| ==> r[i].texture.Some?
  {
  }
}

=== FILE: MaterialLayout.dfy ===
/** Packing of a material type's properties into its float buffer
    (runtime `MaterialTypeAsset::recalculate` and editor
    `EditorMaterialType::recalculate`).

    The buffer is read by shaders as an array of vec4, so the packing keeps
    every vec4 and vec3 at the start of a vec4, pads each vec3 with a float
    when one is left, then places the vec2s and finally the remaining floats:

      vec4 | vec3 float | vec2 vec2 | vec2 float float | float float float float

    `PackedOffset` states the resulting offsets in closed form;
    `PackedInside`, `PackedAligned` and `PackedDisjoint` prove that they stay
    inside the buffer, never overlap and never straddle a vec4; the methods
    follow the source's loops and are proved to produce them. */
module MaterialLayout {
  import opened MaterialProperty

  /** Properties of type `t` among the first `n`. */
  function CountTo(ps: seq<Property>, n: nat, t: PropertyType): (c: nat)
    requires n <= |ps|
    ensures c <= n
    decreases n
  {
    if n == 0 then 0 else CountTo(ps, n - 1, t) + (if ps[n - 1].ptype == t then 1 else 0)
  }

  /** Properties of type `t`. */
  function Count(ps: seq<Property>, t: PropertyType): nat {
    CountTo(ps, |ps|, t)
  }

  /** Counting over a longer prefix counts at least as many, and strictly
      more once an occurrence is passed. */
  lemma {:induction false} CountMono(ps: seq<Property>, i: nat, j: nat, t: PropertyType)
    requires i <= j <= |ps|
    ensures CountTo(ps, i, t) <= CountTo(ps, j, t)
    ensures i < j && ps[i].ptype == t ==> CountTo(ps, i, t) < CountTo(ps, j, t)
    decreases j
  {
    if i < j {
      CountMono(ps, i, j - 1, t);
    }
  }

  /** The position of property `k` among the properties of its own type. */
  function Rank(ps: seq<Property>, k: nat): nat
    requires k < |ps|
  {
    CountTo(ps, k, ps[k].ptype)
  }

  lemma RankBound(ps: seq<Property>, k: nat)
    requires k < |ps|
    ensures Rank(ps, k) < Count(ps, ps[k].ptype)
  {
    CountMono(ps, k, |ps|, ps[k].ptype);
  }

  /** Two properties of the same type have different ranks. */
  lemma RankInjective(ps: seq<Property>, i: nat, j: nat)
    requires i < |ps| && j < |ps| && i != j && ps[i].ptype == ps[j].ptype
    ensures Rank(ps, i) != Rank(ps, j)
  {
    if i < j { CountMono(ps, i, j, ps[i].ptype); } else { CountMono(ps, j, i, ps[j].ptype); }
  }

  /** Floats not used to pad a vec3. */
  function Leftover(ps: seq<Property>): nat {
    var nf := Count(ps, FLOAT);
    var n3 := Count(ps, VEC3);
    if nf > n3 then nf - n3 else 0
  }

  /** Elements in the vec4 block, the padded vec3 block and the vec2 block. */
  function VectorBlock(ps: seq<Property>): nat {
    4 * Count(ps, VEC4) + 4 * Count(ps, VEC3) + 2 * Count(ps, VEC2)
  }

  /** The element count after packing: the blocks plus the leftover floats. */
  function PackedCount(ps: seq<Property>): nat {
    VectorBlock(ps) + Leftover(ps)
  }

  /** The vec3 a padding float is popped by: floats are popped from the back
      of the float list, so the last float pads the first vec3. */
  function PadIndex(ps: seq<Property>, k: nat): nat
    requires k < |ps| && ps[k].ptype == FLOAT
  {
    RankBound(ps, k);
    Count(ps, FLOAT) - 1 - Rank(ps, k)
  }

  /** Where packing puts numeric property `k`. */
  function PackedOffset(ps: seq<Property>, k: nat): nat
    requires k < |ps| && IsNumeric(ps[k].ptype)
  {
    var r := Rank(ps, k);
    var n4 := Count(ps, VEC4);
    match ps[k].ptype
    case VEC4 => 4 * r
    case VEC3 => 4 * n4 + 4 * r
    case VEC2 => 4 * n4 + 4 * Count(ps, VEC3) + 2 * r
    case FLOAT =>
      if r < Leftover(ps) then VectorBlock(ps) + r
      else 4 * n4 + 4 * PadIndex(ps, k) + 3
    case _ => 0
  }

  /** vec4 and vec3 start a vec4; a vec2 fills one half of a vec4. */
  predicate Aligned(t: PropertyType, offset: nat) {
    (t == VEC4 || t == VEC3 ==> offset % 4 == 0) && (t == VEC2 ==> offset % 4 == 0 || offset % 4 == 2)
  }

  /** A vec2 slot `4 * a + 2 * r` starts an even element and ends within
      its vec4. */
  lemma {:induction false} Vec2SlotAligned(a: nat, r: nat)
    ensures (4 * a + 2 * r) % 4 == 0 || (4 * a + 2 * r) % 4 == 2
    decreases r
  {
    if r >= 2 {
      Vec2SlotAligned(a + 1, r - 2);
    }
  }

  /** Each numeric property lies inside the packed buffer. */
  lemma PackedInside(ps: seq<Property>, i: nat)
    requires i < |ps| && IsNumeric(ps[i].ptype)
    ensures PackedOffset(ps, i) + ElementCount(ps[i].ptype) <= PackedCount(ps)
  {
    RankBound(ps, i);
  }

  /** Each numeric property lies within one vec4: vec4 and vec3 start a
      vec4, a vec2 one of its halves. */
  lemma PackedAligned(ps: seq<Property>, i: nat)
    requires i < |ps| && IsNumeric(ps[i].ptype)
    ensures Aligned(ps[i].ptype, PackedOffset(ps, i))
    ensures PackedOffset(ps, i) % 4 + ElementCount(ps[i].ptype) <= 4
  {
    var r := Rank(ps, i);
    var n4 := Count(ps, VEC4);
    var n3 := Count(ps, VEC3);
    match ps[i].ptype
    case VEC4 =>
      assert PackedOffset(ps, i) == 4 * r;
    case VEC3 =>
      assert PackedOffset(ps, i) == 4 * (n4 + r);
    case VEC2 =>
      assert PackedOffset(ps, i) == 4 * (n4 + n3) + 2 * r;
      Vec2SlotAligned(n4 + n3, r);
    case FLOAT =>
  }

  /** No two numeric properties share an element of the packed buffer. */
  lemma PackedDisjoint(ps: seq<Property>, i: nat, j: nat)
    requires i < |ps| && j < |ps| && i != j && IsNumeric(ps[i].ptype) && IsNumeric(ps[j].ptype)
    ensures PackedOffset(ps, i) + ElementCount(ps[i].ptype) <= PackedOffset(ps, j) ||
            PackedOffset(ps, j) + ElementCount(ps[j].ptype) <= PackedOffset(ps, i)
  {
    RankBound(ps, i);
    RankBound(ps, j);
    if ps[i].ptype == ps[j].ptype {
      RankInjective(ps, i, j);
    }
  }

  /** A list of property indices in which entry `r` is the float of rank `r`. */
  predicate FloatStack(ps: seq<Property>, fs: seq<nat>, m: nat) {
    |fs| == m &&
    forall r :: 0 <= r < m ==> fs[r] < |ps| && ps[fs[r]].ptype == FLOAT && Rank(ps, fs[r]) == r
  }

  /** First loop, float part: collect the floats in declaration order. */
  method CollectFloats(props: seq<Property>) returns (floats: seq<nat>)
    ensures FloatStack(props, floats, Count(props, FLOAT))
  {
    floats := [];
    var i := 0;
    while i < |props|
      invariant 0 <= i <= |props|
      invariant FloatStack(props, floats, CountTo(props, i, FLOAT))
    {
      if props[i].ptype == FLOAT {
        floats := floats + [i];
      }
      i := i + 1;
    }
  }

  /** First loop, vec4 part: the vec4s are placed one after another from
      element 0; nothing else moves. */
  method PlaceVec4(props: seq<Property>) returns (ps: seq<Property>, ec: nat)
    ensures |ps| == |props|
    ensures forall k {:trigger ps[k]} :: 0 <= k < |ps| ==>
              ps[k] == if props[k].ptype == VEC4 then SetOffset(props[k], 4 * Rank(props, k)) else props[k]
    ensures ec == 4 * Count(props, VEC4)
  {
    ps, ec := props, 0;
    var i := 0;
    while i < |props|
      invariant 0 <= i <= |props| && |ps| == |props|
      invariant forall k {:trigger ps[k]} :: 0 <= k < |ps| ==>
                  ps[k] == if k < i && props[k].ptype == VEC4 then SetOffset(props[k], 4 * Rank(props, k)) else props[k]
      invariant ec == 4 * CountTo(props, i, VEC4)
    {
      if props[i].ptype == VEC4 {
        ps := ps[i := SetOffset(ps[i], ec)];
        ec := ec + ElementCount(VEC4);
      }
      i := i + 1;
    }
  }

  /** The properties after the second loop has passed the first `i`
      properties with `m` floats left in the list: the vec3s among them are
      placed, the floats of rank `m` and above pad a vec3, and everything
      else is as before the loop. */
  function Vec3Stage(props: seq<Property>, ps0: seq<Property>, ec0: nat, i: nat, m: nat): (ps: seq<Property>)
    requires |ps0| == |props|
    ensures |ps| == |props|
  {
    seq(|props|, k requires 0 <= k < |props| =>
      if props[k].ptype == VEC3 && k < i then SetOffset(ps0[k], ec0 + 4 * Rank(props, k))
      else if props[k].ptype == FLOAT && Rank(props, k) >= m then SetOffset(ps0[k], ec0 + 4 * PadIndex(props, k) + 3)
      else ps0[k])
  }

  /** Passing a property that is not a vec3 changes nothing. */
  lemma Vec3StageSkip(props: seq<Property>, ps0: seq<Property>, ec0: nat, i: nat, m: nat)
    requires |ps0| == |props| && i < |props| && props[i].ptype != VEC3
    ensures Vec3Stage(props, ps0, ec0, i + 1, m) == Vec3Stage(props, ps0, ec0, i, m)
  {
    var a, b := Vec3Stage(props, ps0, ec0, i + 1, m), Vec3Stage(props, ps0, ec0, i, m);
    forall k | 0 <= k < |props|
      ensures a[k] == b[k]
    {
    }
  }

  /** Passing a vec3 places it at the vec4 of its rank. */
  lemma Vec3StagePlace(props: seq<Property>, ps0: seq<Property>, ec0: nat, i: nat, m: nat)
    requires |ps0| == |props| && i < |props| && props[i].ptype == VEC3
    ensures var b := Vec3Stage(props, ps0, ec0, i, m);
            Vec3Stage(props, ps0, ec0, i + 1, m) == b[i := SetOffset(b[i], ec0 + 4 * Rank(props, i))]
  {
    var a, b := Vec3Stage(props, ps0, ec0, i + 1, m), Vec3Stage(props, ps0, ec0, i, m);
    var b' := b[i := SetOffset(b[i], ec0 + 4 * Rank(props, i))];
    forall k | 0 <= k < |props|
      ensures a[k] == b'[k]
    {
    }
  }

  /** Popping the float of rank `m - 1` moves that float alone, to its
      padding offset. */
  lemma Vec3StagePad(props: seq<Property>, ps0: seq<Property>, ec0: nat, i: nat, m: nat, f: nat)
    requires |ps0| == |props| && f < |props| && props[f].ptype == FLOAT && Rank(props, f) + 1 == m
    ensures var b := Vec3Stage(props, ps0, ec0, i, m);
            Vec3Stage(props, ps0, ec0, i, m - 1) == b[f := SetOffset(b[f], ec0 + 4 * PadIndex(props, f) + 3)]
  {
    var a, b := Vec3Stage(props, ps0, ec0, i, m - 1), Vec3Stage(props, ps0, ec0, i, m);
    var b' := b[f := SetOffset(b[f], ec0 + 4 * PadIndex(props, f) + 3)];
    forall k | 0 <= k < |props|
      ensures a[k] == b'[k]
    {
      if k != f && props[k].ptype == FLOAT {
        RankInjective(props, k, f);
      }
    }
  }

  /** Before the second loop nothing is placed: no float ranks beyond the
      float count. */
  lemma Vec3StageStart(props: seq<Property>, ps0: seq<Property>, ec0: nat)
    requires |ps0| == |props|
    ensures Vec3Stage(props, ps0, ec0, 0, Count(props, FLOAT)) == ps0
  {
    var a := Vec3Stage(props, ps0, ec0, 0, Count(props, FLOAT));
    forall k | 0 <= k < |props|
      ensures a[k] == ps0[k]
    {
      if props[k].ptype == FLOAT {
        RankBound(props, k);
      }
    }
  }

  /** After the second loop every vec3 is placed and the floats ranked from
      the leftover count on pad a vec3. */
  lemma Vec3StageEnd(props: seq<Property>, ps0: seq<Property>, ec0: nat, ps: seq<Property>)
    requires |ps0| == |props| && ps == Vec3Stage(props, ps0, ec0, |props|, Leftover(props))
    ensures forall k {:trigger ps[k]} :: 0 <= k < |ps| ==>
              ps[k] == if props[k].ptype == VEC3 then SetOffset(ps0[k], ec0 + 4 * Rank(props, k))
                       else if props[k].ptype == FLOAT && Rank(props, k) >= Leftover(props)
                       then SetOffset(ps0[k], ec0 + 4 * PadIndex(props, k) + 3)
                       else ps0[k]
  {
  }

  /** Vec3s passed among the first `i` properties, and the floats left in
      the list after them, out of `nf`. */
  function FloatsLeft(props: seq<Property>, i: nat, nf: nat): nat
    requires i <= |props|
  {
    var n3 := CountTo(props, i, VEC3);
    if n3 < nf then nf - n3 else 0
  }

  /** The float popped after the vec3 at `i` is the one whose padding
      slot is that vec3's. */
  lemma PadLandsAfterVec3(props: seq<Property>, floats0: seq<nat>, i: nat, m: nat)
    requires i < |props| && props[i].ptype == VEC3
    requires FloatStack(props, floats0, Count(props, FLOAT))
    requires m == FloatsLeft(props, i, |floats0|) && m > 0
    ensures floats0[m - 1] < |props| && props[floats0[m - 1]].ptype == FLOAT && Rank(props, floats0[m - 1]) + 1 == m
    ensures PadIndex(props, floats0[m - 1]) == Rank(props, i)
    ensures m - 1 == FloatsLeft(props, i + 1, |floats0|)
  {
    assert CountTo(props, i + 1, VEC3) == Rank(props, i) + 1;
  }

  /** One pass of the second loop's body over property `i`: a vec3 takes
      the next vec4 and, if a float is left, its fourth element goes to the
      float at the back of the list; the element is counted either way. */
  method Vec3Iteration(props: seq<Property>, ps0: seq<Property>, ec0: nat, floats0: seq<nat>, i: nat,
                       ps: seq<Property>, ec: nat, m: nat)
    returns (ps': seq<Property>, ec': nat, m': nat)
    requires |ps0| == |props| && i < |props|
    requires FloatStack(props, floats0, Count(props, FLOAT))
    requires m == FloatsLeft(props, i, |floats0|) && ec == ec0 + 4 * CountTo(props, i, VEC3)
    requires ps == Vec3Stage(props, ps0, ec0, i, m)
    ensures m' == FloatsLeft(props, i + 1, |floats0|) && ec' == ec0 + 4 * CountTo(props, i + 1, VEC3)
    ensures ps' == Vec3Stage(props, ps0, ec0, i + 1, m')
  {
    ps', ec', m' := ps, ec, m;
    if props[i].ptype == VEC3 {
      assert CountTo(props, i + 1, VEC3) == Rank(props, i) + 1;
      Vec3StagePlace(props, ps0, ec0, i, m);
      ps' := ps'[i := SetOffset(ps'[i], ec')];
      ec' := ec' + ElementCount(VEC3);
      if m' > 0 {
        var f := floats0[m' - 1];
        PadLandsAfterVec3(props, floats0, i, m);
        Vec3StagePad(props, ps0, ec0, i + 1, m', f);
        m' := m' - 1;
        ps' := ps'[f := SetOffset(ps'[f], ec')];
      }
      ec' := ec' + 1;
    } else {
      Vec3StageSkip(props, ps0, ec0, i, m);
    }
  }

  /** Second loop: from element `ec0` on, each vec3 takes a vec4, and its
      fourth element goes to the float at the back of the list if one is
      left (the element is counted either way). Nothing else moves; the
      floats not popped remain in the list. */
  method PlaceVec3(props: seq<Property>, ps0: seq<Property>, ec0: nat, floats0: seq<nat>)
    returns (ps: seq<Property>, ec: nat, floats: seq<nat>)
    requires |ps0| == |props|
    requires FloatStack(props, floats0, Count(props, FLOAT))
    ensures |ps| == |props|
    ensures forall k {:trigger ps[k]} :: 0 <= k < |ps| ==>
              ps[k] == if props[k].ptype == VEC3 then SetOffset(ps0[k], ec0 + 4 * Rank(props, k))
                       else if props[k].ptype == FLOAT && Rank(props, k) >= Leftover(props)
                       then SetOffset(ps0[k], ec0 + 4 * PadIndex(props, k) + 3)
                       else ps0[k]
    ensures ec == ec0 + 4 * Count(props, VEC3)
    ensures FloatStack(props, floats, Leftover(props))
  {
    ps, ec := ps0, ec0;
    Vec3StageStart(props, ps0, ec0);
    // The float list is popped from the back only, so it is kept as its
    // first `m` entries.
    var m := |floats0|;
    var i := 0;
    while i < |props|
      invariant 0 <= i <= |props|
      invariant m == FloatsLeft(props, i, |floats0|) && ec == ec0 + 4 * CountTo(props, i, VEC3)
      invariant ps == Vec3Stage(props, ps0, ec0, i, m)
    {
      ps, ec, m := Vec3Iteration(props, ps0, ec0, floats0, i, ps, ec, m);
      i := i + 1;
    }
    floats := floats0[..m];
    Vec3StageEnd(props, ps0, ec0, ps);
  }

  /** Third loop: from element `ec0` on, the vec2s one after another. */
  method PlaceVec2(props: seq<Property>, ps0: seq<Property>, ec0: nat)
    returns (ps: seq<Property>, ec: nat)
    requires |ps0| == |props|
    ensures |ps| == |props|
    ensures forall k {:trigger ps[k]} :: 0 <= k < |ps| ==>
              ps[k] == if props[k].ptype == VEC2 then SetOffset(ps0[k], ec0 + 2 * Rank(props, k)) else ps0[k]
    ensures ec == ec0 + 2 * Count(props, VEC2)
  {
    ps, ec := ps0, ec0;
    var i := 0;
    while i < |props|
      invariant 0 <= i <= |props| && |ps| == |props|
      invariant forall k {:trigger ps[k]} :: 0 <= k < |ps| ==>
                  ps[k] == if k < i && props[k].ptype == VEC2 then SetOffset(ps0[k], ec0 + 2 * Rank(props, k)) else ps0[k]
      invariant ec == ec0 + 2 * CountTo(props, i, VEC2)
    {
      if props[i].ptype == VEC2 {
        ps := ps[i := SetOffset(ps[i], ec)];
        ec := ec + ElementCount(VEC2);
      }
      i := i + 1;
    }
  }

  /** Runtime fourth loop: from element `ec0` on, the floats still in the
      list, in order. */
  method PlaceFloats(props: seq<Property>, ps0: seq<Property>, ec0: nat, floats: seq<nat>, m: nat)
    returns (ps: seq<Property>, ec: nat)
    requires |ps0| == |props|
    requires FloatStack(props, floats, m)
    ensures |ps| == |props|
    ensures forall k {:trigger ps[k]} :: 0 <= k < |ps| ==>
              ps[k] == if props[k].ptype == FLOAT && Rank(props, k) < m
                       then SetOffset(ps0[k], ec0 + Rank(props, k)) else ps0[k]
    ensures ec == ec0 + m
  {
    ps, ec := ps0, ec0;
    var r := 0;
    while r < |floats|
      invariant 0 <= r <= |floats| && |ps| == |props|
      invariant ec == ec0 + r
      invariant forall k {:trigger ps[k]} :: 0 <= k < |ps| ==>
                  ps[k] == if props[k].ptype == FLOAT && Rank(props, k) < r
                           then SetOffset(ps0[k], ec0 + Rank(props, k)) else ps0[k]
    {
      var f := floats[r];
      ps := ps[f := SetOffset(ps[f], ec)];
      forall k | 0 <= k < |props| && props[k].ptype == FLOAT && k != f
        ensures Rank(props, k) != Rank(props, f)
      {
        RankInjective(props, k, f);
      }
      ec := ec + ElementCount(FLOAT);
      r := r + 1;
    }
  }

  /** Vec4 slots needed for `elements` floats: the element count rounded up
      to a multiple of four, divided by four. */
  function Vec4Slots(elements: nat): (n: nat)
    ensures 4 * n >= elements && 4 * n < elements + 4
  {
    if elements % 4 != 0 then (elements - elements % 4) / 4 + 1 else elements / 4
  }

  /** The outcome of packing: numeric properties at their packed offset (as
      a 16-bit value), all else untouched. */
  predicate PackedAll(props: seq<Property>, ps: seq<Property>) {
    |ps| == |props| &&
    forall k {:trigger ps[k]} :: 0 <= k < |ps| ==>
      ps[k] == if IsNumeric(props[k].ptype) then SetOffset(props[k], PackedOffset(props, k)) else props[k]
  }

  /** The outcome of the first three loops: every vec4, vec3 and vec2 and
      every float that pads a vec3 at its packed offset, all else
      untouched. */
  predicate VectorsPlaced(props: seq<Property>, ps: seq<Property>) {
    |ps| == |props| &&
    forall k {:trigger ps[k]} :: 0 <= k < |ps| ==>
      ps[k] == if IsNumeric(props[k].ptype) && !(props[k].ptype == FLOAT && Rank(props, k) < Leftover(props))
               then SetOffset(props[k], PackedOffset(props, k)) else props[k]
  }

  /** The first three loops together place the vectors and the padding
      floats. */
  lemma VectorPhases(props: seq<Property>, ps1: seq<Property>, ps2: seq<Property>, ps3: seq<Property>)
    requires |ps1| == |props| && |ps2| == |props| && |ps3| == |props|
    requires forall k {:trigger ps1[k]} :: 0 <= k < |ps1| ==>
               ps1[k] == if props[k].ptype == VEC4 then SetOffset(props[k], 4 * Rank(props, k)) else props[k]
    requires forall k {:trigger ps2[k]} :: 0 <= k < |ps2| ==>
               ps2[k] == if props[k].ptype == VEC3 then SetOffset(ps1[k], 4 * Count(props, VEC4) + 4 * Rank(props, k))
                         else if props[k].ptype == FLOAT && Rank(props, k) >= Leftover(props)
                         then SetOffset(ps1[k], 4 * Count(props, VEC4) + 4 * PadIndex(props, k) + 3)
                         else ps1[k]
    requires forall k {:trigger ps3[k]} :: 0 <= k < |ps3| ==>
               ps3[k] == if props[k].ptype == VEC2
                         then SetOffset(ps2[k], 4 * Count(props, VEC4) + 4 * Count(props, VEC3) + 2 * Rank(props, k))
                         else ps2[k]
    ensures VectorsPlaced(props, ps3)
  {
    forall k | 0 <= k < |ps3|
      ensures ps3[k] == if IsNumeric(props[k].ptype) && !(props[k].ptype == FLOAT && Rank(props, k) < Leftover(props))
                        then SetOffset(props[k], PackedOffset(props, k)) else props[k]
    {
      match props[k].ptype
      case VEC4 =>
        assert ps3[k] == ps2[k] == ps1[k];
      case VEC3 =>
        assert ps3[k] == ps2[k];
      case VEC2 =>
      case FLOAT =>
        assert ps3[k] == ps2[k];
      case _ =>
        assert ps3[k] == ps2[k] == ps1[k] == props[k];
    }
  }

  /** The first three loops: the vec4s, then the vec3s with their padding
      floats, then the vec2s; the element count reaches the end of the
      vector block and the floats left over stay in the list. */
  method PlaceVectors(props: seq<Property>) returns (ps: seq<Property>, ec: nat, floats: seq<nat>)
    ensures VectorsPlaced(props, ps)
    ensures ec == VectorBlock(props)
    ensures FloatStack(props, floats, Leftover(props))
  {
    var floats0 := CollectFloats(props);
    var ps1, ec1 := PlaceVec4(props);
    var ps2, ec2;
    ps2, ec2, floats := PlaceVec3(props, ps1, ec1, floats0);
    ps, ec := PlaceVec2(props, ps2, ec2);
    VectorPhases(props, ps1, ps2, ps);
  }

  /** The leftover floats after the vector block complete the packing. */
  lemma FloatsPack(props: seq<Property>, ps3: seq<Property>, ps4: seq<Property>)
    requires VectorsPlaced(props, ps3) && |ps4| == |props|
    requires forall k {:trigger ps4[k]} :: 0 <= k < |ps4| ==>
               ps4[k] == if props[k].ptype == FLOAT && Rank(props, k) < Leftover(props)
                         then SetOffset(ps3[k], VectorBlock(props) + Rank(props, k)) else ps3[k]
    ensures PackedAll(props, ps4)
  {
    forall k | 0 <= k < |ps4|
      ensures ps4[k] == if IsNumeric(props[k].ptype) then SetOffset(props[k], PackedOffset(props, k)) else props[k]
    {
      assert ps3[k] == if IsNumeric(props[k].ptype) && !(props[k].ptype == FLOAT && Rank(props, k) < Leftover(props))
                       then SetOffset(props[k], PackedOffset(props, k)) else props[k];
    }
  }

  /** Runtime `recalculate`: every numeric property gets its packed offset
      (16-bit), every other property is left as it was, the element count
      is the packed count and the vec4 count covers it. */
  method Recalculate(props: seq<Property>) returns (ps: seq<Property>, elementCount: nat, v4Count: nat)
    ensures PackedAll(props, ps)
    ensures elementCount == PackedCount(props)
    ensures 4 * v4Count >= elementCount && 4 * v4Count < elementCount + 4
  {
    var ps3, ec3, floats := PlaceVectors(props);
    ps, elementCount := PlaceFloats(props, ps3, ec3, floats, Leftover(props));
    FloatsPack(props, ps3, ps);
    v4Count := Vec4Slots(elementCount);
  }

  /** `getSizeInBytes`: four bytes per element. */
  function SizeInBytes(elementCount: nat): (n: nat)
    ensures n / 4 == elementCount && n % 4 == 0
  {
    elementCount * 4
  }

  /** Recalculated offsets form the packed layout as long as the element
      count fits in 16 bits: numeric properties inside the buffer, aligned
      and pairwise disjoint. */
  lemma RecalculatedLayout(props: seq<Property>, ps: seq<Property>, i: nat, j: nat)
    requires PackedAll(props, ps)
    requires PackedCount(props) <= OffsetBound
    requires i < |ps| && j < |ps| && IsNumeric(ps[i].ptype) && IsNumeric(ps[j].ptype)
    ensures ps[i].offset + ElementCount(ps[i].ptype) <= PackedCount(props)
    ensures Aligned(ps[i].ptype, ps[i].offset)
    ensures i != j ==>
              ps[i].offset + ElementCount(ps[i].ptype) <= ps[j].offset ||
              ps[j].offset + ElementCount(ps[j].ptype) <= ps[i].offset
  {
    PackedInside(props, i);
    PackedInside(props, j);
    PackedAligned(props, i);
    assert ps[i].offset == PackedOffset(props, i);
    assert ps[j].offset == PackedOffset(props, j);
    if i != j {
      PackedDisjoint(props, i, j);
    }
  }

  /** Samplers among the properties. */
  function SamplerCount(ps: seq<Property>): nat {
    Count(ps, TEXTURE_2D) + Count(ps, TEXTURE_CUBE)
  }

  /** Editor first-loop sampler count. */
  method CountSamplers(props: seq<Property>) returns (n: nat)
    ensures n == SamplerCount(props)
  {
    n := 0;
    var i := 0;
    while i < |props|
      invariant 0 <= i <= |props|
      invariant n == CountTo(props, i, TEXTURE_2D) + CountTo(props, i, TEXTURE_CUBE)
    {
      if IsSampler(props[i].ptype) {
        n := n + 1;
      }
      i := i + 1;
    }
  }

  /** Elements of the first `n` properties. */
  function SumTo(ps: seq<Property>, n: nat): nat
    requires n <= |ps|
    decreases n
  {
    if n == 0 then 0 else SumTo(ps, n - 1) + ElementCount(ps[n - 1].ptype)
  }

  /** The editor's final loop as written: it walks every property, not just
      the leftover floats, so each property is moved to the end of the vector
      block plus the elements of all properties before it, counted in the
      16-bit element counter. */
  method EditorFinalLoopAsWritten(props: seq<Property>, ps0: seq<Property>, elements0: nat)
    returns (ps: seq<Property>, elements: nat)
    requires |ps0| == |props|
    ensures |ps| == |props|
    ensures forall k {:trigger ps[k]} :: 0 <= k < |ps| ==> ps[k] == SetOffset(ps0[k], elements0 + SumTo(props, k))
    ensures elements == Wrap16(elements0 + SumTo(props, |props|))
  {
    ps := ps0;
    elements := Wrap16(elements0);
    ghost var total := elements0;
    var i := 0;
    while i < |props|
      invariant 0 <= i <= |props| && |ps| == |props|
      invariant total == elements0 + SumTo(props, i) && elements == Wrap16(total)
      invariant forall k {:trigger ps[k]} :: 0 <= k < |ps| ==>
                  ps[k] == if k < i then SetOffset(ps0[k], elements0 + SumTo(props, k)) else ps0[k]
    {
      var n := ElementCount(props[i].ptype);
      SetOffsetWrap(ps0[i], total);
      Wrap16Add(total, n);
      ps := ps[i := SetOffset(ps[i], elements)];
      elements := Wrap16(elements + n);
      total := total + n;
      i := i + 1;
    }
  }

  /** Editor `recalculate` as written: the first three loops as in the
      runtime, then the final loop over every property. The returned size is
      in vec4 slots of the 16-bit element counter. */
  method EditorRecalculateAsWritten(props: seq<Property>) returns (ps: seq<Property>, size: nat, numSamplers: nat)
    ensures |ps| == |props|
    ensures forall k {:trigger ps[k]} :: 0 <= k < |ps| ==>
              ps[k].name == props[k].name && ps[k].ptype == props[k].ptype &&
              ps[k].offset == Wrap16(VectorBlock(props) + SumTo(props, k))
    ensures size == Vec4Slots(Wrap16(VectorBlock(props) + SumTo(props, |props|)))
    ensures numSamplers == SamplerCount(props)
  {
    numSamplers := CountSamplers(props);
    var ps3, ec3, _ := PlaceVectors(props);
    PlacedKeepsIdentity(props, ps3);
    var elements;
    ps, elements := EditorFinalLoopAsWritten(props, ps3, ec3);
    FinalOffsets(props, ps3, ps, ec3);
    size := Vec4Slots(elements);
  }

  /** Placing only moves offsets: every property keeps its name and type. */
  lemma PlacedKeepsIdentity(props: seq<Property>, ps3: seq<Property>)
    requires VectorsPlaced(props, ps3)
    ensures forall k {:trigger ps3[k]} :: 0 <= k < |ps3| ==> ps3[k].name == props[k].name && ps3[k].ptype == props[k].ptype
  {
    forall k | 0 <= k < |ps3|
      ensures ps3[k].name == props[k].name && ps3[k].ptype == props[k].ptype
    {
      if IsNumeric(props[k].ptype) && !(props[k].ptype == FLOAT && Rank(props, k) < Leftover(props)) {
        assert ps3[k] == SetOffset(props[k], PackedOffset(props, k));
      } else {
        assert ps3[k] == props[k];
      }
    }
  }

  /** After the final loop every property keeps its name and type and sits
      at the running sum. */
  lemma FinalOffsets(props: seq<Property>, ps3: seq<Property>, ps: seq<Property>, ec3: nat)
    requires |ps3| == |props| && |ps| == |props|
    requires forall k {:trigger ps3[k]} :: 0 <= k < |ps3| ==> ps3[k].name == props[k].name && ps3[k].ptype == props[k].ptype
    requires forall k {:trigger ps[k]} :: 0 <= k < |ps| ==> ps[k] == SetOffset(ps3[k], ec3 + SumTo(props, k))
    ensures forall k {:trigger ps[k]} :: 0 <= k < |ps| ==>
              ps[k].name == props[k].name && ps[k].ptype == props[k].ptype &&
              ps[k].offset == Wrap16(ec3 + SumTo(props, k))
  {
  }

  /** A float declared before a vec4. */
  const FloatThenVec4 := [Property("f", FLOAT, 0), Property("v", VEC4, 0)]

  /** The as-written final loop breaks the layout: for a float declared
      before a vec4, the float is moved to element 4 and the vec4 to element
      5, which is not the start of a vec4, and the buffer takes 3 vec4 slots
      where the packing puts the vec4 at 0, the float at 4 and needs 2. */
  lemma EditorFinalLoopMisaligns()
    ensures var ps := FloatThenVec4;
            VectorBlock(ps) + SumTo(ps, 0) == 4 &&
            VectorBlock(ps) + SumTo(ps, 1) == 5 &&
            !Aligned(VEC4, VectorBlock(ps) + SumTo(ps, 1)) &&
            Vec4Slots(VectorBlock(ps) + SumTo(ps, 2)) == 3 &&
            PackedOffset(ps, 1) == 0 && PackedOffset(ps, 0) == 4 && Vec4Slots(PackedCount(ps)) == 2
  {
    var ps := FloatThenVec4;
    assert CountTo(ps, 1, VEC4) == 0 && CountTo(ps, 1, FLOAT) == 1;
    assert CountTo(ps, 1, VEC3) == 0 && CountTo(ps, 1, VEC2) == 0;
    assert Count(ps, VEC4) == 1 && Count(ps, VEC3) == 0 && Count(ps, VEC2) == 0 && Count(ps, FLOAT) == 1;
    assert Rank(ps, 0) == 0 && Rank(ps, 1) == 0;
  }

  /** Editor `recalculate` with its final loop over the leftover floats, as
      the runtime does: the runtime's offsets, the size in vec4 slots of the
      16-bit element counter, and the number of samplers. */
  method EditorRecalculate(props: seq<Property>) returns (ps: seq<Property>, size: nat, numSamplers: nat)
    ensures PackedAll(props, ps)
    ensures size == Vec4Slots(Wrap16(PackedCount(props)))
    ensures numSamplers == SamplerCount(props)
  {
    numSamplers := CountSamplers(props);
    var elements, v4Count;
    ps, elements, v4Count := Recalculate(props);
    size := Vec4Slots(Wrap16(elements));
  }

  /** `addProperty`: the property joins the end of the list. */
  function AddProperty(props: seq<Property>, p: Property): (r: seq<Property>)
    ensures |r| == |props| + 1 && r[|props|] == p
    ensures forall k :: 0 <= k < |props| ==> r[k] == props[k]
  {
    props + [p]
  }

  /** Adding a property counts it among its type and leaves the ranks, and
      so the packed offsets of the types it does not join, unchanged. */
  lemma AddPropertyCounts(props: seq<Property>, p: Property, t: PropertyType)
    ensures Count(AddProperty(props, p), t) == Count(props, t) + (if p.ptype == t then 1 else 0)
    ensures forall k :: 0 <= k < |props| ==> Rank(AddProperty(props, p), k) == Rank(props, k)
  {
    var r := AddProperty(props, p);
    CountPrefix(props, r, |props|, t);
    forall k | 0 <= k < |props|
      ensures Rank(r, k) == Rank(props, k)
    {
      CountPrefix(props, r, k, props[k].ptype);
    }
  }

  /** Counting only looks at the first `n` properties. */
  lemma {:induction false} CountPrefix(ps: seq<Property>, qs: seq<Property>, n: nat, t: PropertyType)
    requires n <= |ps| && n <= |qs|
    requires forall k :: 0 <= k < n ==> ps[k] == qs[k]
    ensures CountTo(ps, n, t) == CountTo(qs, n, t)
    decreases n
  {
    if n > 0 {
      CountPrefix(ps, qs, n - 1, t);
    }
  }
}

=== FILE: MaterialProperty.dfy ===
/** Material properties (editor `asset::Property` and the runtime
    `asset::prop::Property`): a named, typed slice of a material's float
    buffer, starting at a 16-bit offset. */
module MaterialProperty {

  /** Property types. The runtime enumeration holds the two sampler types
      beside the numeric ones; the editor keeps samplers in a separate
      enumeration. One type covers both here. */
  datatype PropertyType = NONE | TEXTURE_2D | TEXTURE_CUBE | FLOAT | VEC2 | VEC3 | VEC4

  predicate IsSampler(t: PropertyType) {
    t == TEXTURE_2D || t == TEXTURE_CUBE
  }

  predicate IsNumeric(t: PropertyType) {
    t == FLOAT || t == VEC2 || t == VEC3 || t == VEC4
  }

  /** The offset field is a 16-bit unsigned integer. */
  const OffsetBound: nat := 0x1_0000

  /** Truncation to 16 bits, as a store into a `uint16_t` does. */
  function Wrap16(x: nat): (r: nat)
    ensures r < OffsetBound
    ensures x < OffsetBound ==> r == x
    decreases x
  {
    if x < OffsetBound then x else Wrap16(x - OffsetBound)
  }

  /** Truncation is the remainder modulo 2^16. */
  lemma {:induction false} Wrap16IsMod(x: nat)
    ensures Wrap16(x) == x % OffsetBound
    decreases x
  {
    if x >= OffsetBound {
      Wrap16IsMod(x - OffsetBound);
    }
  }

  /** Adding to a 16-bit counter: truncating before or after agrees. */
  lemma {:induction false} Wrap16Add(x: nat, c: nat)
    ensures Wrap16(Wrap16(x) + c) == Wrap16(x + c)
    decreases x
  {
    if x >= OffsetBound {
      Wrap16Add(x - OffsetBound, c);
    }
  }

  /** `getElementCountForType`: the floats a property of the type occupies;
      samplers and `NONE` occupy none. */
  function ElementCount(t: PropertyType): (n: nat)
    ensures IsNumeric(t) <==> n > 0
    ensures n <= 4
  {
    match t
    case FLOAT => 1
    case VEC2 => 2
    case VEC3 => 3
    case VEC4 => 4
    case _ => 0
  }

  /** `getNameForType` on property types: the GLSL name of a numeric type,
      "None" for `NONE`, and the empty string for anything else. */
  function TypeName(t: PropertyType): (s: string)
    ensures s == "" <==> IsSampler(t)
  {
    match t
    case FLOAT => "float"
    case VEC2 => "vec2"
    case VEC3 => "vec3"
    case VEC4 => "vec4"
    case NONE => "None"
    case _ => ""
  }

  /** `getNameForType` on sampler types; any other type has the empty name. */
  function SamplerName(t: PropertyType): (s: string)
    ensures s != "" <==> IsSampler(t)
  {
    match t
    case TEXTURE_2D => "Texture 2D"
    case TEXTURE_CUBE => "Texture Cube"
    case _ => ""
  }

  /** Distinct types have distinct names (numeric types and `NONE` by
      `TypeName`, samplers by `SamplerName`), so a name identifies its type. */
  lemma NamesIdentifyTypes(a: PropertyType, b: PropertyType)
    requires a != b
    ensures !IsSampler(a) && !IsSampler(b) ==> TypeName(a) != TypeName(b)
    ensures IsSampler(a) && IsSampler(b) ==> SamplerName(a) != SamplerName(b)
  {
  }

  datatype Property = Property(name: string, ptype: PropertyType, offset: nat)

  /** `setOffset`: the offset is stored as a 16-bit value. */
  function SetOffset(p: Property, offset: nat): (p': Property)
    ensures p'.offset < OffsetBound
    ensures offset < OffsetBound ==> p'.offset == offset
    ensures p'.name == p.name && p'.ptype == p.ptype
  {
    p.(offset := Wrap16(offset))
  }

  /** Setting an offset or its 16-bit truncation has the same effect. */
  lemma SetOffsetWrap(p: Property, offset: nat)
    ensures SetOffset(p, Wrap16(offset)) == SetOffset(p, offset)
  {
  }

  /** `setName`: only the name changes. */
  function SetName(p: Property, name: string): (p': Property)
    ensures p'.name == name && p'.ptype == p.ptype && p'.offset == p.offset
  {
    p.(name := name)
  }

  /** `getValue`: the buffer from the property's offset on. */
  function GetValue(p: Property, data: seq<real>): (v: seq<real>)
    requires p.offset <= |data|
    ensures |v| == |data| - p.offset
    ensures forall k :: 0 <= k < |v| ==> v[k] == data[p.offset + k]
  {
    data[p.offset..]
  }

  /** `setValue`: copy exactly the type's element count of floats from
      `value` to the buffer at the offset; nothing else changes. */
  function SetValue(p: Property, data: seq<real>, value: seq<real>): (d: seq<real>)
    requires p.offset + ElementCount(p.ptype) <= |data|
    requires ElementCount(p.ptype) <= |value|
    ensures |d| == |data|
    ensures forall k :: 0 <= k < |d| && !(p.offset <= k < p.offset + ElementCount(p.ptype)) ==> d[k] == data[k]
    ensures forall k :: 0 <= k < ElementCount(p.ptype) ==> d[p.offset + k] == value[k]
  {
    var n := ElementCount(p.ptype);
    data[..p.offset] + value[..n] + data[p.offset + n..]
  }

  /** Reading back after a write yields the written floats. */
  lemma SetThenGet(p: Property, data: seq<real>, value: seq<real>)
    requires p.offset + ElementCount(p.ptype) <= |data|
    requires ElementCount(p.ptype) <= |value|
    ensures GetValue(p, SetValue(p, data, value))[..ElementCount(p.ptype)] == value[..ElementCount(p.ptype)]
  {
  }

  /** Writes through two properties whose slots do not overlap do not
      disturb each other. */
  lemma DisjointWritesCommute(p: Property, q: Property, data: seq<real>, u: seq<real>, v: seq<real>)
    requires p.offset + ElementCount(p.ptype) <= |data| && ElementCount(p.ptype) <= |u|
    requires q.offset + ElementCount(q.ptype) <= |data| && ElementCount(q.ptype) <= |v|
    requires p.offset + ElementCount(p.ptype) <= q.offset || q.offset + ElementCount(q.ptype) <= p.offset
    ensures GetValue(p, SetValue(q, SetValue(p, data, u), v))[..ElementCount(p.ptype)] == u[..ElementCount(p.ptype)]
  {
    var d1 := SetValue(p, data, u);
    var d2 := SetValue(q, d1, v);
    var n := ElementCount(p.ptype);
    forall k | 0 <= k < n
      ensures d2[p.offset + k] == u[k]
    {
      assert d2[p.offset + k] == d1[p.offset + k];
    }
  }
}

=== FILE: NodeEval.dfy ===
/** Node evaluation (`Node::evaluate` with `Node::evaluateDependencies`):
    a node first evaluates every upstream node that is not yet marked
    evaluated, in input-pin order, then does its own work and marks
    itself. The graph is given as each node's inputs: the node the
    connected output belongs to, or no connection. */
module NodeEval {
  import opened Wrappers

  datatype Input = Unconnected(optional: bool) | From(node: nat)

  /** Each node's inputs, in pin order. */
  type Deps = map<nat, seq<Input>>

  /** The graph is acyclic, witnessed by a rank that every connection
      decreases; every connected node is part of the graph. */
  predicate Ranked(deps: Deps, rank: map<nat, nat>) {
    forall n :: n in deps ==>
      && n in rank
      && forall i :: 0 <= i < |deps[n]| && deps[n][i].From? ==>
           deps[n][i].node in deps && deps[n][i].node in rank && rank[deps[n][i].node] < rank[n]
  }

  /** The nodes `n` depends on, itself included. */
  function Reach(deps: Deps, rank: map<nat, nat>, n: nat): (r: set<nat>)
    requires Ranked(deps, rank) && n in deps
    ensures n in r
    ensures forall x :: x in r ==> x in deps && x in rank && rank[x] <= rank[n]
    decreases rank[n], 1, 0
  {
    {n} + ReachFrom(deps, rank, n, 0)
  }

  /** The nodes the inputs of `n` from position `j` on depend on. */
  function ReachFrom(deps: Deps, rank: map<nat, nat>, n: nat, j: nat): (r: set<nat>)
    requires Ranked(deps, rank) && n in deps && j <= |deps[n]|
    ensures forall x :: x in r ==> x in deps && x in rank && rank[x] < rank[n]
    decreases rank[n], 0, |deps[n]| - j
  {
    if j == |deps[n]| then {}
    else match deps[n][j]
      case Unconnected(_) => ReachFrom(deps, rank, n, j + 1)
      case From(m) => Reach(deps, rank, m) + ReachFrom(deps, rank, n, j + 1)
  }

  /** The outcome of an evaluation: the nodes evaluated, in order; the
      evaluated set afterwards; the (node, pin) pairs for which the
      "Input pin without connected output pin" error is logged. */
  datatype Run = Run(order: seq<nat>, done: set<nat>, errors: seq<(nat, nat)>)

  /** `evaluate`: dependencies first, then the node itself is marked. */
  function Evaluate(deps: Deps, rank: map<nat, nat>, n: nat, done: set<nat>): (r: Run)
    requires Ranked(deps, rank) && n in deps
    ensures n in r.done && done <= r.done
    ensures |r.order| > 0 && r.order[|r.order| - 1] == n
    ensures forall e :: e in r.errors ==> e.0 in deps && e.1 < |deps[e.0]| && deps[e.0][e.1] == Unconnected(false)
    decreases rank[n], 1, 0
  {
    var d := EvaluateDependencies(deps, rank, n, 0, done);
    Run(d.order + [n], d.done + {n}, d.errors)
  }

  /** `evaluateDependencies` from input `j` on: an unconnected input is
      skipped (with an error when it is not optional); a connected one is
      evaluated only if its node is not yet evaluated. */
  function EvaluateDependencies(deps: Deps, rank: map<nat, nat>, n: nat, j: nat, done: set<nat>): (r: Run)
    requires Ranked(deps, rank) && n in deps && j <= |deps[n]|
    ensures done <= r.done
    ensures forall e :: e in r.errors ==> e.0 in deps && e.1 < |deps[e.0]| && deps[e.0][e.1] == Unconnected(false)
    decreases rank[n], 0, |deps[n]| - j
  {
    if j == |deps[n]| then Run([], done, [])
    else match deps[n][j]
      case Unconnected(optional) =>
        var rest := EvaluateDependencies(deps, rank, n, j + 1, done);
        if optional then rest else rest.(errors := [(n, j)] + rest.errors)
      case From(m) =>
        if m in done then EvaluateDependencies(deps, rank, n, j + 1, done)
        else
          var first := Evaluate(deps, rank, m, done);
          var rest := EvaluateDependencies(deps, rank, n, j + 1, first.done);
          Run(first.order + rest.order, rest.done, first.errors + rest.errors)
  }

  /** An evaluated set is closed when every evaluated node's dependencies
      are evaluated too; the empty set after `resetEvaluateFlag` is. */
  predicate Closed(deps: Deps, rank: map<nat, nat>, done: set<nat>)
    requires Ranked(deps, rank)
  {
    forall m :: m in done ==> m in deps && Reach(deps, rank, m) <= done
  }

  predicate NoDup(s: seq<nat>) {
    forall i, j :: 0 <= i < j < |s| ==> s[i] != s[j]
  }

  lemma NoDupAppend(a: seq<nat>, b: seq<nat>)
    requires NoDup(a) && NoDup(b)
    requires forall x :: x in a ==> x !in b
    ensures NoDup(a + b)
  {
    forall i, j | 0 <= i < j < |a + b|
      ensures (a + b)[i] != (a + b)[j]
    {
      if i < |a| && j >= |a| {
        assert (a + b)[i] in a && (a + b)[j] == b[j - |a|];
      }
    }
  }

  /** A node's dependencies are closed under dependency. */
  lemma {:induction false} ReachTrans(deps: Deps, rank: map<nat, nat>, n: nat, x: nat)
    requires Ranked(deps, rank) && n in deps && x in Reach(deps, rank, n)
    ensures Reach(deps, rank, x) <= Reach(deps, rank, n)
    decreases rank[n], 1, 0
  {
    if x != n {
      ReachFromTrans(deps, rank, n, 0, x);
    }
  }

  lemma {:induction false} ReachFromTrans(deps: Deps, rank: map<nat, nat>, n: nat, j: nat, x: nat)
    requires Ranked(deps, rank) && n in deps && j <= |deps[n]| && x in ReachFrom(deps, rank, n, j)
    ensures Reach(deps, rank, x) <= ReachFrom(deps, rank, n, j)
    decreases rank[n], 0, |deps[n]| - j
  {
    if j < |deps[n]| {
      match deps[n][j]
      case Unconnected(_) =>
        ReachFromTrans(deps, rank, n, j + 1, x);
      case From(m) =>
        if x in Reach(deps, rank, m) {
          ReachTrans(deps, rank, m, x);
        } else {
          ReachFromTrans(deps, rank, n, j + 1, x);
        }
    }
  }

  lemma ClosedUnion(deps: Deps, rank: map<nat, nat>, done: set<nat>, m: nat)
    requires Ranked(deps, rank) && m in deps && Closed(deps, rank, done)
    ensures Closed(deps, rank, done + Reach(deps, rank, m))
  {
    forall x | x in Reach(deps, rank, m)
      ensures Reach(deps, rank, x) <= Reach(deps, rank, m)
    {
      ReachTrans(deps, rank, m, x);
    }
  }

  /** Evaluating a node that is not yet evaluated, from a closed evaluated
      set, evaluates exactly its dependencies that were not evaluated,
      each once, and leaves a closed set. */
  lemma {:induction false} EvaluateExact(deps: Deps, rank: map<nat, nat>, n: nat, done: set<nat>)
    requires Ranked(deps, rank) && n in deps && n !in done && Closed(deps, rank, done)
    ensures Evaluate(deps, rank, n, done).done == done + Reach(deps, rank, n)
    ensures forall x :: x in Evaluate(deps, rank, n, done).order <==> x in Reach(deps, rank, n) && x !in done
    ensures NoDup(Evaluate(deps, rank, n, done).order)
    decreases rank[n], 1, 0
  {
    var d := EvaluateDependencies(deps, rank, n, 0, done);
    DependenciesExact(deps, rank, n, 0, done);
    NoDupAppend(d.order, [n]);
  }

  lemma {:induction false} DependenciesExact(deps: Deps, rank: map<nat, nat>, n: nat, j: nat, done: set<nat>)
    requires Ranked(deps, rank) && n in deps && j <= |deps[n]| && Closed(deps, rank, done)
    ensures EvaluateDependencies(deps, rank, n, j, done).done == done + ReachFrom(deps, rank, n, j)
    ensures forall x :: x in EvaluateDependencies(deps, rank, n, j, done).order <==> x in ReachFrom(deps, rank, n, j) && x !in done
    ensures NoDup(EvaluateDependencies(deps, rank, n, j, done).order)
    decreases rank[n], 0, |deps[n]| - j
  {
    if j < |deps[n]| {
      match deps[n][j]
      case Unconnected(_) =>
        DependenciesExact(deps, rank, n, j + 1, done);
      case From(m) =>
        if m in done {
          DependenciesExact(deps, rank, n, j + 1, done);
        } else {
          var first := Evaluate(deps, rank, m, done);
          EvaluateExact(deps, rank, m, done);
          ClosedUnion(deps, rank, done, m);
          DependenciesExact(deps, rank, n, j + 1, first.done);
          var rest := EvaluateDependencies(deps, rank, n, j + 1, first.done);
          NoDupAppend(first.order, rest.order);
        }
    }
  }

  /** After the graph-wide reset, evaluating the last node evaluates every
      node it depends on exactly once, and nothing else. */
  lemma EvaluateAfterReset(deps: Deps, rank: map<nat, nat>, last: nat)
    requires Ranked(deps, rank) && last in deps
    ensures var r := Evaluate(deps, rank, last, {});
            && NoDup(r.order)
            && (forall x :: x in r.order <==> x in Reach(deps, rank, last))
            && r.done == Reach(deps, rank, last)
  {
    EvaluateExact(deps, rank, last, {});
  }

  // ---- Evaluation as written, on any graph -----------------------------

  /** Every connection leads to a node of the graph. */
  predicate Wired(deps: Deps) {
    forall n, i :: n in deps && 0 <= i < |deps[n]| && deps[n][i].From? ==> deps[n][i].node in deps
  }

  /** `evaluate` of a derived node as written: its dependencies are
      evaluated first and the node is marked only afterwards, with nothing
      that stops a cycle. The fuel bounds the depth of the recursion;
      `None` is a run that has not finished within it. */
  function EvaluateAsWritten(deps: Deps, n: nat, done: set<nat>, fuel: nat): (r: Option<Run>)
    requires Wired(deps) && n in deps
    ensures r.Some? ==> n in r.value.done && done <= r.value.done
    ensures r.Some? ==> |r.value.order| > 0 && r.value.order[|r.value.order| - 1] == n
    decreases fuel, 0, 0
  {
    if fuel == 0 then None
    else
      match DependenciesAsWritten(deps, n, 0, done, fuel - 1)
      case None => None
      case Some(d) => Some(Run(d.order + [n], d.done + {n}, d.errors))
  }

  /** `evaluateDependencies` from input `j` on, with the same fuel bound. */
  function DependenciesAsWritten(deps: Deps, n: nat, j: nat, done: set<nat>, fuel: nat): (r: Option<Run>)
    requires Wired(deps) && n in deps && j <= |deps[n]|
    ensures r.Some? ==> done <= r.value.done
    decreases fuel, 1, |deps[n]| - j
  {
    if j == |deps[n]| then Some(Run([], done, []))
    else match deps[n][j]
      case Unconnected(optional) =>
        (match DependenciesAsWritten(deps, n, j + 1, done, fuel)
         case None => None
         case Some(rest) => Some(if optional then rest else rest.(errors := [(n, j)] + rest.errors)))
      case From(m) =>
        if m in done then DependenciesAsWritten(deps, n, j + 1, done, fuel)
        else
          match EvaluateAsWritten(deps, m, done, fuel)
          case None => None
          case Some(first) =>
            match DependenciesAsWritten(deps, n, j + 1, first.done, fuel)
            case None => None
            case Some(rest) => Some(Run(first.order + rest.order, rest.done, first.errors + rest.errors))
  }

  /** On a ranked graph the run as written finishes once the fuel exceeds
      the node's rank, and it is the ranked evaluation. */
  lemma {:induction false} AsWrittenAgreesWhenRanked(deps: Deps, rank: map<nat, nat>, n: nat, done: set<nat>, fuel: nat)
    requires Ranked(deps, rank) && n in deps && fuel > rank[n]
    ensures Wired(deps) && EvaluateAsWritten(deps, n, done, fuel) == Some(Evaluate(deps, rank, n, done))
    decreases rank[n], 1, 0
  {
    DependenciesAgreeWhenRanked(deps, rank, n, 0, done, fuel - 1);
  }

  lemma {:induction false} DependenciesAgreeWhenRanked(deps: Deps, rank: map<nat, nat>, n: nat, j: nat, done: set<nat>, fuel: nat)
    requires Ranked(deps, rank) && n in deps && j <= |deps[n]| && fuel >= rank[n]
    ensures Wired(deps) &&
            DependenciesAsWritten(deps, n, j, done, fuel) == Some(EvaluateDependencies(deps, rank, n, j, done))
    decreases rank[n], 0, |deps[n]| - j
  {
    if j < |deps[n]| {
      match deps[n][j]
      case Unconnected(_) =>
        DependenciesAgreeWhenRanked(deps, rank, n, j + 1, done, fuel);
      case From(m) =>
        if m in done {
          DependenciesAgreeWhenRanked(deps, rank, n, j + 1, done, fuel);
        } else {
          AsWrittenAgreesWhenRanked(deps, rank, m, done, fuel);
          DependenciesAgreeWhenRanked(deps, rank, n, j + 1, Evaluate(deps, rank, m, done).done, fuel);
        }
    }
  }

  /** Two nodes, each taking its one input from the other's output. */
  function TwoCycle(): Deps {
    map[0 := [From(1)], 1 := [From(0)]]
  }

  /** No rank orders a graph with a cycle. */
  lemma CycleUnranked(rank: map<nat, nat>)
    ensures !Ranked(TwoCycle(), rank)
  {
    assert TwoCycle()[0][0] == From(1) && TwoCycle()[1][0] == From(0);
  }

  /** On the cycle the run as written never finishes: each node starts
      evaluating the other before either is marked, whatever the fuel. */
  lemma {:induction false} CycleNeverFinishes(fuel: nat)
    ensures Wired(TwoCycle())
    ensures EvaluateAsWritten(TwoCycle(), 0, {}, fuel).None?
    ensures EvaluateAsWritten(TwoCycle(), 1, {}, fuel).None?
  {
    var deps := TwoCycle();
    assert deps[0] == [From(1)] && deps[1] == [From(0)];
    if fuel > 0 {
      CycleNeverFinishes(fuel - 1);
    }
  }
}

=== FILE: NodeGraph.dfy ===
/** The editor's node graph (`node::Graph` with `node::Node`): nodes carry
    input and output pins, and a link joins one output pin to one input
    pin. Node ids and fresh link ids come from one counter; link ids of
    destroyed links are recycled through a stack of free ids. */
module NodeGraph {
  import opened Wrappers
  import ConvertNode

  /** The name `getNameForType(PropertyType::NONE)` gives: pins of this
      type cannot be connected. */
  const NoneType: string := "None"

  datatype InPin = InPin(id: int, ptype: string, optional: bool)

  datatype OutPin = OutPin(id: int, ptype: string)

  datatype Node = Node(id: int, inputs: seq<InPin>, outputs: seq<OutPin>, evaluated: bool)

  /** A link object. A destroyed link keeps its id in the link table but
      is joined to no pins. */
  datatype Link = Link(input: Option<int>, output: Option<int>)

  const Destroyed: Link := Link(None, None)

  predicate Valid(l: Link) {
    l.input.Some? && l.output.Some?
  }

  /** The graph: nodes in insertion order, the link table by id, the free
      stack (its top is the last element), the id counter and the id of
      the last node, if set. */
  datatype Graph = Graph(nodes: seq<Node>, links: map<int, Link>, free: seq<int>, nextId: int, lastNode: Option<int>)

  /** A fresh graph: no nodes, no links, the counter at 0. */
  function New(): (g: Graph)
    ensures g.nodes == [] && g.links == map[] && g.free == [] && g.nextId == 0 && g.lastNode.None?
  {
    Graph([], map[], [], 0, None)
  }

  // ---- Lookups -------------------------------------------------------

  /** The first output pin with the id. `FirstIn` is the same search over
      input pins: the two pin kinds are distinct types, so the search is
      written once for each. */
  function FirstOut(ps: seq<OutPin>, id: int): (r: Option<OutPin>)
    ensures r.Some? ==> r.value.id == id && r.value in ps
    ensures r.None? <==> forall j :: 0 <= j < |ps| ==> ps[j].id != id
  {
    if ps == [] then None
    else if ps[0].id == id then Some(ps[0])
    else FirstOut(ps[1..], id)
  }

  /** The first input pin with the id; the mirror of `FirstOut`. */
  function FirstIn(ps: seq<InPin>, id: int): (r: Option<InPin>)
    ensures r.Some? ==> r.value.id == id && r.value in ps
    ensures r.None? <==> forall j :: 0 <= j < |ps| ==> ps[j].id != id
  {
    if ps == [] then None
    else if ps[0].id == id then Some(ps[0])
    else FirstIn(ps[1..], id)
  }

  /** `findOutputPin`: the first output pin with the id, nodes in order. */
  function FindOut(ns: seq<Node>, id: int): (r: Option<OutPin>)
    ensures r.Some? ==> r.value.id == id && exists i :: 0 <= i < |ns| && r.value in ns[i].outputs
    ensures r.None? <==> forall i, j :: 0 <= i < |ns| && 0 <= j < |ns[i].outputs| ==> ns[i].outputs[j].id != id
  {
    if ns == [] then None
    else match FirstOut(ns[0].outputs, id)
      case Some(p) => Some(p)
      case None =>
        var r := FindOut(ns[1..], id);
        assert forall i :: 1 <= i < |ns| ==> ns[i] == ns[1..][i - 1];
        r
  }

  /** `findInputPin`: the first input pin with the id, nodes in order. */
  function FindIn(ns: seq<Node>, id: int): (r: Option<InPin>)
    ensures r.Some? ==> r.value.id == id && exists i :: 0 <= i < |ns| && r.value in ns[i].inputs
    ensures r.None? <==> forall i, j :: 0 <= i < |ns| && 0 <= j < |ns[i].inputs| ==> ns[i].inputs[j].id != id
  {
    if ns == [] then None
    else match FirstIn(ns[0].inputs, id)
      case Some(p) => Some(p)
      case None =>
        var r := FindIn(ns[1..], id);
        assert forall i :: 1 <= i < |ns| ==> ns[i] == ns[1..][i - 1];
        r
  }

  /** `findNode`: the position of the first node with the id. */
  function FindNode(ns: seq<Node>, id: int): (r: Option<nat>)
    ensures r.Some? ==> r.value < |ns| && ns[r.value].id == id && forall i :: 0 <= i < r.value ==> ns[i].id != id
    ensures r.None? <==> forall i :: 0 <= i < |ns| ==> ns[i].id != id
  {
    if ns == [] then None
    else if ns[0].id == id then Some(0)
    else match FindNode(ns[1..], id)
      case Some(i) => Some(i + 1)
      case None => None
  }

  // ---- Connections ---------------------------------------------------

  /** The (output pin, input pin) pair a valid link joins. */
  function Pair(l: Link): (int, int)
    requires Valid(l)
  {
    (l.output.value, l.input.value)
  }

  /** Every connection the link table holds, as (output, input) pairs. */
  function Connections(links: map<int, Link>): set<(int, int)> {
    set k | k in links && Valid(links[k]) :: Pair(links[k])
  }

  /** The graph's bookkeeping invariant: link ids came from the counter,
      the free stack holds distinct ids of destroyed links, and no input
      pin has two valid links. */
  predicate Good(g: Graph) {
    && 0 <= g.nextId
    && (forall k :: k in g.links ==> 0 <= k < g.nextId)
    && (forall i :: 0 <= i < |g.free| ==> g.free[i] in g.links && !Valid(g.links[g.free[i]]))
    && (forall i, j :: 0 <= i < j < |g.free| ==> g.free[i] != g.free[j])
    && (forall a, b ::
          a in g.links && b in g.links && Valid(g.links[a]) && Valid(g.links[b]) && g.links[a].input == g.links[b].input
          ==> a == b)
  }

  /** The conditions under which `connect` makes a link: both pins exist,
      both nodes' connect hooks accept, the types agree and are not
      "None". */
  predicate Accepted(ns: seq<Node>, outId: int, inId: int, inAccepts: bool, outAccepts: bool) {
    match (FindOut(ns, outId), FindIn(ns, inId))
    case (Some(o), Some(i)) =>
      inAccepts && outAccepts && i.ptype == o.ptype && i.ptype != NoneType && o.ptype != NoneType
    case _ => false
  }

  /** The links of an input pin destroyed (`InputPin::disconnect`). */
  function Detach(links: map<int, Link>, inId: int): map<int, Link> {
    map k | k in links :: if Valid(links[k]) && links[k].input == Some(inId) then Destroyed else links[k]
  }

  /** `connect`: the nodes' connect hooks are node-specific and their
      verdicts are parameters. A rejected request changes nothing. An
      accepted one destroys the input's current link, then reuses the
      top free link id or, with no free id, takes a fresh one from the
      counter. */
  function Connect(g: Graph, outId: int, inId: int, inAccepts: bool, outAccepts: bool): (g': Graph)
    ensures !Accepted(g.nodes, outId, inId, inAccepts, outAccepts) ==> g' == g
    ensures g'.nodes == g.nodes && g'.lastNode == g.lastNode
    ensures Accepted(g.nodes, outId, inId, inAccepts, outAccepts) && |g.free| > 0 ==>
              && g'.free == g.free[..|g.free| - 1] && g'.nextId == g.nextId
              && g'.links.Keys == g.links.Keys + {g.free[|g.free| - 1]}
              && g'.links[g.free[|g.free| - 1]] == Link(Some(inId), Some(outId))
    ensures Accepted(g.nodes, outId, inId, inAccepts, outAccepts) && g.free == [] ==>
              && g'.free == [] && g'.nextId == g.nextId + 1
              && g'.links.Keys == g.links.Keys + {g.nextId}
              && g'.links[g.nextId] == Link(Some(inId), Some(outId))
  {
    if !Accepted(g.nodes, outId, inId, inAccepts, outAccepts) then g
    else
      var links := Detach(g.links, inId);
      var made := Link(Some(inId), Some(outId));
      if |g.free| > 0 then
        g.(links := links[g.free[|g.free| - 1] := made], free := g.free[..|g.free| - 1])
      else
        g.(links := links[g.nextId := made], nextId := g.nextId + 1)
  }

  /** What the two connect hooks did: the nodes as the hooks left them (a
      hook may retype pins, as the conversion node does) and whether both
      accepted. */
  datatype HookOutcome = HookOutcome(nodes: seq<Node>, accepts: bool)

  /** A pin of the connection was retyped by the hooks: looked up by id,
      it differs before and after them. A hook changes a pin only through
      `setType`, and only to another type. */
  predicate Retyped(before: seq<Node>, after: seq<Node>, c: (int, int)) {
    FindOut(before, c.0) != FindOut(after, c.0) || FindIn(before, c.1) != FindIn(after, c.1)
  }

  /** The connections no retyped pin takes part in. */
  function Surviving(c: set<(int, int)>, before: seq<Node>, after: seq<Node>): set<(int, int)> {
    set p | p in c && !Retyped(before, after, p)
  }

  /** Every link of a pin the hooks retyped destroyed: a pin's `setType`
      disconnects it. */
  function DetachRetyped(links: map<int, Link>, before: seq<Node>, after: seq<Node>): (r: map<int, Link>)
    ensures r.Keys == links.Keys
    ensures forall k :: k in links && Valid(links[k]) && Retyped(before, after, Pair(links[k])) ==> r[k] == Destroyed
    ensures forall k :: k in links && !(Valid(links[k]) && Retyped(before, after, Pair(links[k]))) ==> r[k] == links[k]
  {
    map k | k in links :: if Valid(links[k]) && Retyped(before, after, Pair(links[k])) then Destroyed else links[k]
  }

  /** The retyped pins' connections are exactly the ones that go. */
  lemma DetachRetypedConnections(links: map<int, Link>, before: seq<Node>, after: seq<Node>)
    ensures Connections(DetachRetyped(links, before, after)) == Surviving(Connections(links), before, after)
  {
    var r := DetachRetyped(links, before, after);
    forall p | p in Connections(r)
      ensures p in Surviving(Connections(links), before, after)
    {
      var k :| k in r && Valid(r[k]) && Pair(r[k]) == p;
      assert r[k] == links[k];
    }
    forall p | p in Surviving(Connections(links), before, after)
      ensures p in Connections(r)
    {
      var k :| k in links && Valid(links[k]) && Pair(links[k]) == p;
      assert r[k] == links[k];
    }
  }

  /** Destroying links keeps the bookkeeping invariant. */
  lemma DetachRetypedKeepsGood(g: Graph, after: seq<Node>)
    requires Good(g)
    ensures Good(g.(links := DetachRetyped(g.links, g.nodes, after)))
  {
    var r := DetachRetyped(g.links, g.nodes, after);
    forall a | a in r && Valid(r[a])
      ensures r[a] == g.links[a]
    {
    }
  }

  /** `connect` with the hooks' side effects. The pins are looked up before
      the hooks run; whatever the hooks do to the nodes stays, accepted or
      not, and so does the loss of every link of a pin they retyped. The
      type checks then read the pins as the hooks left them. */
  function ConnectHooked(g: Graph, outId: int, inId: int, hooks: HookOutcome): (g': Graph)
    ensures FindOut(g.nodes, outId).None? || FindIn(g.nodes, inId).None? ==> g' == g
    ensures FindOut(g.nodes, outId).Some? && FindIn(g.nodes, inId).Some? ==> g'.nodes == hooks.nodes
    ensures g'.lastNode == g.lastNode
    ensures FindOut(g.nodes, outId).Some? && FindIn(g.nodes, inId).Some? && !Accepted(hooks.nodes, outId, inId, hooks.accepts, true) ==>
              && g'.free == g.free && g'.nextId == g.nextId && g'.links.Keys == g.links.Keys
              && (forall k :: k in g.links && Valid(g.links[k]) && Retyped(g.nodes, hooks.nodes, Pair(g.links[k])) ==> !Valid(g'.links[k]))
              && (forall k :: k in g.links && !(Valid(g.links[k]) && Retyped(g.nodes, hooks.nodes, Pair(g.links[k]))) ==> g'.links[k] == g.links[k])
  {
    if FindOut(g.nodes, outId).None? || FindIn(g.nodes, inId).None? then g
    else Connect(g.(nodes := hooks.nodes, links := DetachRetyped(g.links, g.nodes, hooks.nodes)), outId, inId, hooks.accepts, true)
  }

  /** With both pins present, the connections afterwards are the ones no
      retyped pin took part in; when the hooks accept and leave the two
      pins with one type other than "None", whatever their types before,
      the input's old connection is replaced by the new one. */
  lemma ConnectHookedConnections(g: Graph, outId: int, inId: int, hooks: HookOutcome)
    requires Good(g)
    requires FindOut(g.nodes, outId).Some? && FindIn(g.nodes, inId).Some?
    ensures var kept := Surviving(Connections(g.links), g.nodes, hooks.nodes);
            && (Accepted(hooks.nodes, outId, inId, hooks.accepts, true) ==>
                  Connections(ConnectHooked(g, outId, inId, hooks).links) == Keep(kept, {inId}) + {(outId, inId)})
            && (!Accepted(hooks.nodes, outId, inId, hooks.accepts, true) ==>
                  Connections(ConnectHooked(g, outId, inId, hooks).links) == kept)
  {
    var g1 := g.(nodes := hooks.nodes, links := DetachRetyped(g.links, g.nodes, hooks.nodes));
    DetachRetypedKeepsGood(g, hooks.nodes);
    DetachRetypedConnections(g.links, g.nodes, hooks.nodes);
    if Accepted(hooks.nodes, outId, inId, hooks.accepts, true) {
      ConnectConnections(g1, outId, inId, hooks.accepts, true);
    }
  }

  /** Hooks that leave the nodes alone make `connect` the core one with
      their verdict. */
  lemma ConnectHookedWithoutSideEffects(g: Graph, outId: int, inId: int, accepts: bool)
    ensures ConnectHooked(g, outId, inId, HookOutcome(g.nodes, accepts)) == Connect(g, outId, inId, accepts, true)
  {
    assert DetachRetyped(g.links, g.nodes, g.nodes) == g.links;
  }

  /** A graph of two nodes: a float output pin 1 and an input pin 3 of
      type `t`. */
  function RetypeGraph(t: string): Graph {
    Graph([Node(0, [], [OutPin(1, "float")], false), Node(2, [InPin(3, t, false)], [], false)], map[], [], 4, None)
  }

  /** The two pins of that graph are found by id. */
  lemma RetypeGraphPins(t: string)
    ensures FindOut(RetypeGraph(t).nodes, 1) == Some(OutPin(1, "float"))
    ensures FindIn(RetypeGraph(t).nodes, 3) == Some(InPin(3, t, false))
  {
    var ns := RetypeGraph(t).nodes;
    assert ns[1..] == [ns[1]];
    assert FindIn(ns, 3) == FindIn(ns[1..], 3);
  }

  /** A float output connected to the input of a fresh convert node, whose
      pin type is "None": on the pins as they were the request is refused,
      but the convert node's hook adopts "float" first, so the connection
      is made. */
  lemma RetypingHookConnects()
    ensures Connect(RetypeGraph(ConvertNode.New().from), 1, 3, true, true) == RetypeGraph(ConvertNode.New().from)
    ensures var hook := ConvertNode.OnConnectToInput(ConvertNode.New(), "float");
            var g' := ConnectHooked(RetypeGraph(ConvertNode.New().from), 1, 3, HookOutcome(RetypeGraph(hook.1.from).nodes, hook.0));
            Connections(g'.links) == {(1, 3)}
  {
    var hook := ConvertNode.OnConnectToInput(ConvertNode.New(), "float");
    RetypeGraphPins(NoneType);
    RetypeGraphPins("float");
    FirstHookedLink(RetypeGraph(NoneType), 1, 3, HookOutcome(RetypeGraph(hook.1.from).nodes, hook.0));
  }

  /** In a graph without links, a request the hooks accept and leave
      well-typed makes the only connection. */
  lemma FirstHookedLink(g: Graph, outId: int, inId: int, hooks: HookOutcome)
    requires g.links == map[] && g.free == [] && 0 <= g.nextId
    requires FindOut(g.nodes, outId).Some? && FindIn(g.nodes, inId).Some?
    requires Accepted(hooks.nodes, outId, inId, hooks.accepts, true)
    ensures Connections(ConnectHooked(g, outId, inId, hooks).links) == {(outId, inId)}
  {
    ConnectHookedConnections(g, outId, inId, hooks);
    assert Connections(g.links) == {};
    assert Surviving({}, g.nodes, hooks.nodes) == {};
    assert Keep({}, {inId}) == {};
  }

  /** `connect` with its hooks keeps the bookkeeping invariant. */
  lemma ConnectHookedKeepsGood(g: Graph, outId: int, inId: int, hooks: HookOutcome)
    requires Good(g)
    ensures Good(ConnectHooked(g, outId, inId, hooks))
  {
    DetachRetypedKeepsGood(g, hooks.nodes);
    ConnectKeepsGood(g.(nodes := hooks.nodes, links := DetachRetyped(g.links, g.nodes, hooks.nodes)), outId, inId, hooks.accepts, true);
  }

  /** Two float nodes: node 0 with input pin 1 and output pin 2, node 3
      with input pin 4 and output pin 5; link 6 feeds node 3 from node 0. */
  function ChainGraph(): Graph {
    Graph([Node(0, [InPin(1, "float", false)], [OutPin(2, "float")], false),
           Node(3, [InPin(4, "float", false)], [OutPin(5, "float")], false)],
          map[6 := Link(Some(4), Some(2))], [], 7, None)
  }

  /** The pins of that graph the cycle uses are found by id. */
  lemma ChainGraphPins()
    ensures FindOut(ChainGraph().nodes, 5) == Some(OutPin(5, "float"))
    ensures FindIn(ChainGraph().nodes, 1) == Some(InPin(1, "float", false))
  {
    var ns := ChainGraph().nodes;
    assert ns[1..] == [ns[1]];
    assert FindOut(ns, 5) == FindOut(ns[1..], 5);
  }

  /** `connect` has no cycle check: feeding node 0 from node 3, which node
      0 already feeds, is accepted, and both connections stand. */
  lemma ConnectClosesCycle()
    ensures Connections(Connect(ChainGraph(), 5, 1, true, true).links) == {(2, 4), (5, 1)}
  {
    var g := ChainGraph();
    ChainGraphPins();
    assert Good(g);
    ConnectConnections(g, 5, 1, true, true);
    assert Valid(g.links[6]) && Pair(g.links[6]) == (2, 4);
    assert Connections(g.links) == {(2, 4)};
    assert Keep({(2, 4)}, {1}) == {(2, 4)};
  }

  /** The connections whose input is not in `ins`. */
  function Keep(c: set<(int, int)>, ins: set<int>): set<(int, int)> {
    set p | p in c && p.1 !in ins
  }

  /** The id `connect` gives the new link. */
  function LinkSlot(g: Graph): int {
    if |g.free| > 0 then g.free[|g.free| - 1] else g.nextId
  }

  /** An accepted connection replaces whatever the input pin was joined to
      and touches no other input's connection. */
  lemma ConnectConnections(g: Graph, outId: int, inId: int, inAccepts: bool, outAccepts: bool)
    requires Good(g)
    requires Accepted(g.nodes, outId, inId, inAccepts, outAccepts)
    ensures Connections(Connect(g, outId, inId, inAccepts, outAccepts).links) ==
              Keep(Connections(g.links), {inId}) + {(outId, inId)}
  {
    var g' := Connect(g, outId, inId, inAccepts, outAccepts);
    var t := LinkSlot(g);
    var d := Detach(g.links, inId);
    assert g'.links == d[t := Link(Some(inId), Some(outId))];
    assert t in g.links ==> !Valid(g.links[t]);
    forall o, i | (o, i) in Connections(g'.links)
      ensures (o, i) in Keep(Connections(g.links), {inId}) + {(outId, inId)}
    {
      var k :| k in g'.links && Valid(g'.links[k]) && Pair(g'.links[k]) == (o, i);
      if k != t {
        assert k in g.links && g'.links[k] == d[k];
        assert g.links[k] == d[k];
      }
    }
    forall o, i | (o, i) in Keep(Connections(g.links), {inId}) + {(outId, inId)}
      ensures (o, i) in Connections(g'.links)
    {
      if o == outId && i == inId {
        assert t in g'.links && Pair(g'.links[t]) == (o, i);
      } else {
        var k :| k in g.links && Valid(g.links[k]) && Pair(g.links[k]) == (o, i);
        assert k != t;
        assert g'.links[k] == g.links[k];
      }
    }
  }

  /** `connect` keeps the bookkeeping invariant. */
  lemma ConnectKeepsGood(g: Graph, outId: int, inId: int, inAccepts: bool, outAccepts: bool)
    requires Good(g)
    ensures Good(Connect(g, outId, inId, inAccepts, outAccepts))
  {
    if Accepted(g.nodes, outId, inId, inAccepts, outAccepts) {
      var g' := Connect(g, outId, inId, inAccepts, outAccepts);
      var t := LinkSlot(g);
      var d := Detach(g.links, inId);
      assert g'.links == d[t := Link(Some(inId), Some(outId))];
      forall a, b | a in g'.links && b in g'.links && Valid(g'.links[a]) && Valid(g'.links[b])
                    && g'.links[a].input == g'.links[b].input
        ensures a == b
      {
        if a != t {
          assert g'.links[a] == d[a];
        }
        if b != t {
          assert g'.links[b] == d[b];
        }
      }
      forall i | 0 <= i < |g'.free|
        ensures g'.free[i] in g'.links && !Valid(g'.links[g'.free[i]])
      {
        assert g'.free[i] == g.free[i] != t;
      }
      forall k | k in g'.links
        ensures 0 <= k < g'.nextId
      {
        if k != t {
          assert k in g.links;
        }
      }
    }
  }

  // ---- Disconnecting -------------------------------------------------

  /** `disconnectLink` as written: an unknown id is ignored, a valid link
      is destroyed, and the id of an already destroyed link is pushed on
      the free stack, even when it is on the stack already. */
  function DisconnectLink(g: Graph, id: int): (g': Graph)
    ensures id !in g.links ==> g' == g
    ensures id in g.links && Valid(g.links[id]) ==>
              g'.free == g.free && g'.links == g.links[id := Destroyed]
    ensures id in g.links && !Valid(g.links[id]) ==>
              g'.links == g.links && g'.free == g.free + [id]
    ensures g'.nodes == g.nodes && g'.nextId == g.nextId
  {
    if id !in g.links then g
    else if Valid(g.links[id]) then g.(links := g.links[id := Destroyed])
    else g.(free := g.free + [id])
  }

  /** A graph with one destroyed link, id 4, and a node with one output
      pin (1) and two input pins (2 and 3) of one type. */
  function TwoInputs(): Graph {
    Graph([Node(0, [InPin(2, "float", false), InPin(3, "float", false)], [OutPin(1, "float")], false)],
          map[4 := Destroyed], [], 5, None)
  }

  /** Reporting a destroyed link twice puts its id on the stack twice. */
  lemma DisconnectTwiceDuplicates()
    ensures Good(TwoInputs())
    ensures DisconnectLink(DisconnectLink(TwoInputs(), 4), 4).free == [4, 4]
    ensures !Good(DisconnectLink(DisconnectLink(TwoInputs(), 4), 4))
  {
    var g2 := DisconnectLink(DisconnectLink(TwoInputs(), 4), 4);
    assert g2.free[0] == g2.free[1];
  }

  /** With the id on the stack twice, the next two connections share one
      link object, so the second silently replaces the first. */
  lemma DisconnectTwiceLosesConnection()
    ensures var g3 := Connect(DisconnectLink(DisconnectLink(TwoInputs(), 4), 4), 1, 2, true, true);
            && (1, 2) in Connections(g3.links)
            && var g4 := Connect(g3, 1, 3, true, true);
            && (1, 3) in Connections(g4.links) && (1, 2) !in Connections(g4.links)
  {
    var g3 := Connect(DisconnectLink(DisconnectLink(TwoInputs(), 4), 4), 1, 2, true, true);
    FirstConnectTakesLink();
    assert Pair(g3.links[4]) == (1, 2);
    assert Accepted(g3.nodes, 1, 3, true, true);
    var g4 := Connect(g3, 1, 3, true, true);
    assert g4.links == map[4 := Link(Some(3), Some(1))];
    assert Pair(g4.links[4]) == (1, 3);
    assert Connections(g4.links) == {(1, 3)};
  }

  /** The first connection after the double report takes link 4 and leaves
      4 on the stack. */
  lemma FirstConnectTakesLink()
    ensures var g3 := Connect(DisconnectLink(DisconnectLink(TwoInputs(), 4), 4), 1, 2, true, true);
            && g3.links == map[4 := Link(Some(2), Some(1))]
            && g3.free == [4]
            && g3.nodes == TwoInputs().nodes
  {
    var g2 := DisconnectLink(DisconnectLink(TwoInputs(), 4), 4);
    assert g2.free == [4, 4];
    assert Accepted(g2.nodes, 1, 2, true, true);
  }

  /** `disconnectLink` with the free stack kept duplicate-free: an id that
      is already free is not pushed again. */
  function DisconnectLinkOnce(g: Graph, id: int): (g': Graph)
    ensures id !in g.links ==> g' == g
    ensures id in g.links && Valid(g.links[id]) ==>
              g'.free == g.free && g'.links == g.links[id := Destroyed]
    ensures id in g.links && !Valid(g.links[id]) ==>
              g'.links == g.links && (id in g.free ==> g'.free == g.free) && (id !in g.free ==> g'.free == g.free + [id])
    ensures g'.nodes == g.nodes && g'.nextId == g.nextId
  {
    if id !in g.links then g
    else if Valid(g.links[id]) then g.(links := g.links[id := Destroyed])
    else if id in g.free then g
    else g.(free := g.free + [id])
  }

  /** The corrected `disconnectLink` keeps the bookkeeping invariant, and
      destroying a link removes exactly its connection when the input had
      only that link. */
  lemma DisconnectLinkOnceKeepsGood(g: Graph, id: int)
    requires Good(g)
    ensures Good(DisconnectLinkOnce(g, id))
    ensures id in g.links && Valid(g.links[id]) ==>
              Connections(DisconnectLinkOnce(g, id).links) == Connections(g.links) - {Pair(g.links[id])}
  {
    var g' := DisconnectLinkOnce(g, id);
    if id in g.links && Valid(g.links[id]) {
      var p := Pair(g.links[id]);
      forall q | q in Connections(g'.links)
        ensures q in Connections(g.links) - {p}
      {
        var k :| k in g'.links && Valid(g'.links[k]) && Pair(g'.links[k]) == q;
        assert k != id && g'.links[k] == g.links[k];
      }
      forall q | q in Connections(g.links) - {p}
        ensures q in Connections(g'.links)
      {
        var k :| k in g.links && Valid(g.links[k]) && Pair(g.links[k]) == q;
        assert k != id && g'.links[k] == g.links[k];
      }
    }
  }

  // ---- Nodes ---------------------------------------------------------

  /** `addNode`: the node is appended and takes the next id. */
  function AddNode(g: Graph, n: Node): (g': Graph)
    ensures g'.nodes == g.nodes + [n.(id := g.nextId)] && g'.nextId == g.nextId + 1
    ensures g'.links == g.links && g'.free == g.free && g'.lastNode == g.lastNode
  {
    g.(nodes := g.nodes + [n.(id := g.nextId)], nextId := g.nextId + 1)
  }

  /** Node ids came from the counter. */
  predicate NodeIdsBelow(g: Graph) {
    forall i :: 0 <= i < |g.nodes| ==> g.nodes[i].id < g.nextId
  }

  /** The ids of a node's input and output pins. */
  function InIds(n: Node): set<int> {
    set p | p in n.inputs :: p.id
  }

  function OutIds(n: Node): set<int> {
    set p | p in n.outputs :: p.id
  }

  predicate Touches(l: Link, n: Node)
    requires Valid(l)
  {
    l.input.value in InIds(n) || l.output.value in OutIds(n)
  }

  /** Every link of the node's pins destroyed (`disconnect` on each pin). */
  function DetachNode(links: map<int, Link>, n: Node): map<int, Link> {
    map k | k in links :: if Valid(links[k]) && Touches(links[k], n) then Destroyed else links[k]
  }

  /** `deleteNode`: an unknown id changes nothing. Otherwise every link of
      the node's pins is destroyed and the first node with the id is
      erased; no other node and no other link changes. */
  function DeleteNode(g: Graph, id: int): (g': Graph)
    ensures FindNode(g.nodes, id).None? ==> g' == g
    ensures FindNode(g.nodes, id).Some? ==>
              var i := FindNode(g.nodes, id).value;
              && |g'.nodes| == |g.nodes| - 1
              && g'.nodes[..i] == g.nodes[..i] && g'.nodes[i..] == g.nodes[i + 1..]
              && multiset(g'.nodes) == multiset(g.nodes) - multiset{g.nodes[i]}
              && g'.links.Keys == g.links.Keys
              && (forall k :: k in g'.links && Valid(g'.links[k]) ==> !Touches(g'.links[k], g.nodes[i]))
              && (forall k :: k in g.links && Valid(g.links[k]) && !Touches(g.links[k], g.nodes[i]) ==> g'.links[k] == g.links[k])
    ensures g'.free == g.free && g'.nextId == g.nextId && g'.lastNode == g.lastNode
  {
    match FindNode(g.nodes, id)
    case None => g
    case Some(i) =>
      assert g.nodes == g.nodes[..i] + [g.nodes[i]] + g.nodes[i + 1..];
      g.(links := DetachNode(g.links, g.nodes[i]), nodes := g.nodes[..i] + g.nodes[i + 1..])
  }

  /** `deleteNode` keeps the bookkeeping invariant: it only destroys links. */
  lemma DeleteNodeKeepsGood(g: Graph, id: int)
    requires Good(g)
    ensures Good(DeleteNode(g, id))
  {
    var g' := DeleteNode(g, id);
    match FindNode(g.nodes, id)
    case None =>
    case Some(i) =>
      forall a | a in g'.links && Valid(g'.links[a])
        ensures g'.links[a] == g.links[a]
      {
      }
  }

  /** Deleting the node that was just added gives back the old node list. */
  lemma AddThenDelete(g: Graph, n: Node)
    requires NodeIdsBelow(g)
    ensures DeleteNode(AddNode(g, n), g.nextId).nodes == g.nodes
    ensures NodeIdsBelow(AddNode(g, n))
  {
    var g' := AddNode(g, n);
    assert FindNode(g'.nodes, g.nextId) == Some(|g.nodes|);
  }

  /** `resetEvaluateFlag`: every node's evaluated flag is cleared. */
  function ResetEvaluateFlag(g: Graph): (g': Graph)
    ensures |g'.nodes| == |g.nodes|
    ensures forall i :: 0 <= i < |g.nodes| ==> !g'.nodes[i].evaluated && g'.nodes[i].(evaluated := true) == g.nodes[i].(evaluated := true)
    ensures g'.links == g.links && g'.free == g.free && g'.nextId == g.nextId && g'.lastNode == g.lastNode
  {
    g.(nodes := seq(|g.nodes|, i requires 0 <= i < |g.nodes| => g.nodes[i].(evaluated := false)))
  }

  /** After a reset no node counts as evaluated, every node is still found
      by its id, and resetting again changes nothing. */
  lemma ResetLaws(g: Graph, id: int)
    ensures forall i :: 0 <= i < |g.nodes| ==> !ResetEvaluateFlag(g).nodes[i].evaluated
    ensures FindNode(ResetEvaluateFlag(g).nodes, id) == FindNode(g.nodes, id)
    ensures ResetEvaluateFlag(ResetEvaluateFlag(g)) == ResetEvaluateFlag(g)
  {
    SameIdsSameFind(g.nodes, ResetEvaluateFlag(g).nodes, id);
  }

  lemma {:induction false} SameIdsSameFind(a: seq<Node>, b: seq<Node>, id: int)
    requires |a| == |b| && forall i :: 0 <= i < |a| ==> a[i].id == b[i].id
    ensures FindNode(a, id) == FindNode(b, id)
    decreases |a|
  {
    if a != [] {
      SameIdsSameFind(a[1..], b[1..], id);
    }
  }

  // ---- Node data -----------------------------------------------------

  /** What `serializeData` writes for a node: its id and its pins' ids,
      inputs then outputs, each in pin order. */
  datatype NodeData = NodeData(id: int, inputIds: seq<int>, outputIds: seq<int>)

  function SerializeNodeData(n: Node): (d: NodeData)
    ensures d.id == n.id
    ensures |d.inputIds| == |n.inputs| && forall i :: 0 <= i < |n.inputs| ==> d.inputIds[i] == n.inputs[i].id
    ensures |d.outputIds| == |n.outputs| && forall i :: 0 <= i < |n.outputs| ==> d.outputIds[i] == n.outputs[i].id
  {
    NodeData(n.id, seq(|n.inputs|, i requires 0 <= i < |n.inputs| => n.inputs[i].id),
             seq(|n.outputs|, i requires 0 <= i < |n.outputs| => n.outputs[i].id))
  }

  /** The input pins with the leading ids replaced by position.
      `SetOutIds` is the same assignment over output pins, written once for
      each pin type. */
  function SetInIds(ps: seq<InPin>, ids: seq<int>): (r: seq<InPin>)
    requires |ids| <= |ps|
    ensures |r| == |ps|
    ensures forall i :: 0 <= i < |ps| ==> r[i] == if i < |ids| then ps[i].(id := ids[i]) else ps[i]
  {
    if ids == [] then ps else [ps[0].(id := ids[0])] + SetInIds(ps[1..], ids[1..])
  }

  /** The output pins with the leading ids replaced; the mirror of `SetInIds`. */
  function SetOutIds(ps: seq<OutPin>, ids: seq<int>): (r: seq<OutPin>)
    requires |ids| <= |ps|
    ensures |r| == |ps|
    ensures forall i :: 0 <= i < |ps| ==> r[i] == if i < |ids| then ps[i].(id := ids[i]) else ps[i]
  {
    if ids == [] then ps else [ps[0].(id := ids[0])] + SetOutIds(ps[1..], ids[1..])
  }

  /** `deserializeData`: the id is read back and the pin ids are assigned
      by position. The source indexes the pin lists without a bound check,
      so the stored lists must not be longer than the node's pin lists. */
  function DeserializeNodeData(n: Node, d: NodeData): (n': Node)
    requires |d.inputIds| <= |n.inputs| && |d.outputIds| <= |n.outputs|
    ensures n'.id == d.id && n'.evaluated == n.evaluated
    ensures |n'.inputs| == |n.inputs| && |n'.outputs| == |n.outputs|
  {
    n.(id := d.id, inputs := SetInIds(n.inputs, d.inputIds), outputs := SetOutIds(n.outputs, d.outputIds))
  }

  /** Two nodes of the same kind: the same pins apart from their ids. */
  predicate SameShape(m: Node, n: Node) {
    && |m.inputs| == |n.inputs| && |m.outputs| == |n.outputs|
    && (forall i :: 0 <= i < |m.inputs| ==> m.inputs[i].(id := 0) == n.inputs[i].(id := 0))
    && (forall i :: 0 <= i < |m.outputs| ==> m.outputs[i].(id := 0) == n.outputs[i].(id := 0))
  }

  /** Loading a node's saved data into a freshly made node of the same
      kind restores its id and every pin id. */
  lemma NodeDataRoundTrip(n: Node, m: Node)
    requires SameShape(m, n)
    ensures DeserializeNodeData(m, SerializeNodeData(n)) == n.(evaluated := m.evaluated)
  {
    var r := DeserializeNodeData(m, SerializeNodeData(n));
    assert forall i :: 0 <= i < |n.inputs| ==> r.inputs[i] == m.inputs[i].(id := n.inputs[i].id) == n.inputs[i];
    assert forall i :: 0 <= i < |n.outputs| ==> r.outputs[i] == m.outputs[i].(id := n.outputs[i].id) == n.outputs[i];
  }

  // ---- Stored form ---------------------------------------------------

  /** The stored graph: the counter, the last node's id, the nodes and
      the valid links as (Out, In) pin id pairs. */
  datatype StoredGraph = StoredGraph(nextId: int, lastNode: Option<int>, nodes: seq<Node>, links: seq<(int, int)>)

  /** The ids of the valid links, in `order`, the link table's iteration
      order. */
  function ValidKeys(links: map<int, Link>, order: seq<int>): (ks: seq<int>)
    ensures forall i :: 0 <= i < |ks| ==> ks[i] in order && ks[i] in links && Valid(links[ks[i]])
    ensures forall k :: k in order && k in links && Valid(links[k]) ==> k in ks
    ensures (forall i, j :: 0 <= i < j < |order| ==> order[i] != order[j]) ==>
              forall i, j :: 0 <= i < j < |ks| ==> ks[i] != ks[j]
  {
    if order == [] then []
    else
      var rest := ValidKeys(links, order[1..]);
      assert forall i :: 0 <= i < |rest| ==> rest[i] in order[1..];
      if order[0] in links && Valid(links[order[0]]) then [order[0]] + rest else rest
  }

  /** The (Out, In) pairs of the valid links, in iteration order. */
  function LinkPairs(links: map<int, Link>, order: seq<int>): (r: seq<(int, int)>)
    ensures |r| == |ValidKeys(links, order)|
    ensures forall i :: 0 <= i < |r| ==> r[i] == Pair(links[ValidKeys(links, order)[i]])
  {
    var ks := ValidKeys(links, order);
    seq(|ks|, i requires 0 <= i < |ks| => Pair(links[ks[i]]))
  }

  /** `serialize`: `order` is the link table's iteration order, which
      visits every entry once; destroyed links are skipped. */
  function Serialize(g: Graph, order: seq<int>): (s: StoredGraph)
    requires forall k :: k in g.links <==> k in order
    ensures s.nextId == g.nextId && s.lastNode == g.lastNode && s.nodes == g.nodes
    ensures forall p :: p in s.links <==> p in Connections(g.links)
  {
    var r := LinkPairs(g.links, order);
    var ks := ValidKeys(g.links, order);
    assert forall p :: p in r ==> p in Connections(g.links) by {
      forall p | p in r
        ensures p in Connections(g.links)
      {
        var i :| 0 <= i < |r| && r[i] == p;
        var k := ks[i];
        assert k in g.links && Valid(g.links[k]) && p == Pair(g.links[k]);
      }
    }
    assert forall p :: p in Connections(g.links) ==> p in r by {
      forall p | p in Connections(g.links)
        ensures p in r
      {
        var k :| k in g.links && Valid(g.links[k]) && Pair(g.links[k]) == p;
        var i :| 0 <= i < |ks| && ks[i] == k;
        assert r[i] == p;
      }
    }
    StoredGraph(g.nextId, g.lastNode, g.nodes, r)
  }

  /** Connect every stored pair in order, with hooks that accept. */
  function ConnectAll(g: Graph, ps: seq<(int, int)>): (g': Graph)
    ensures g'.nodes == g.nodes && g'.lastNode == g.lastNode
    decreases |ps|
  {
    if ps == [] then g else ConnectAll(Connect(g, ps[0].0, ps[0].1, true, true), ps[1..])
  }

  /** `deserialize`: the stored nodes are appended, every stored link is
      connected, the counter is overwritten, and a non-null last node is
      looked up by id (not found leaves none). The nodes' own connect
      hooks are taken to accept. */
  function Deserialize(g: Graph, s: StoredGraph): (g': Graph)
    ensures g'.nodes == g.nodes + s.nodes && g'.nextId == s.nextId
    ensures s.lastNode.None? ==> g'.lastNode == g.lastNode
    ensures s.lastNode.Some? ==> (g'.lastNode == s.lastNode <==> FindNode(g'.nodes, s.lastNode.value).Some?)
  {
    var g1 := ConnectAll(g.(nodes := g.nodes + s.nodes), s.links);
    var last := match s.lastNode
      case None => g1.lastNode
      case Some(id) => if FindNode(g1.nodes, id).Some? then Some(id) else None;
    g1.(nextId := s.nextId, lastNode := last)
  }

  /** Distinct inputs, one pair each. */
  predicate DistinctInputs(ps: seq<(int, int)>) {
    forall i, j :: 0 <= i < j < |ps| ==> ps[i].1 != ps[j].1
  }

  /** The pairs of a list, as a set. */
  function Elems(ps: seq<(int, int)>): set<(int, int)> {
    set p | p in ps
  }

  /** The input pins a list of pairs names. */
  function InputsOf(ps: seq<(int, int)>): set<int> {
    set p | p in ps :: p.1
  }

  /** Connecting a list of accepted pairs with distinct inputs yields those
      pairs plus the old connections of every other input. */
  lemma {:induction false} ConnectAllConnections(g: Graph, ps: seq<(int, int)>)
    requires Good(g) && DistinctInputs(ps)
    requires forall i :: 0 <= i < |ps| ==> Accepted(g.nodes, ps[i].0, ps[i].1, true, true)
    ensures Connections(ConnectAll(g, ps).links) == Elems(ps) + Keep(Connections(g.links), InputsOf(ps))
    decreases |ps|
  {
    if ps != [] {
      var p := ps[0];
      var rest := ps[1..];
      var g1 := Connect(g, p.0, p.1, true, true);
      ConnectConnections(g, p.0, p.1, true, true);
      ConnectKeepsGood(g, p.0, p.1, true, true);
      RestAccepted(g.nodes, ps);
      ConnectAllConnections(g1, rest);
      KeepStep(Connections(g.links), ps);
    }
  }

  /** The tail of a list of accepted pairs with distinct inputs is one too. */
  lemma RestAccepted(ns: seq<Node>, ps: seq<(int, int)>)
    requires ps != [] && DistinctInputs(ps)
    requires forall i :: 0 <= i < |ps| ==> Accepted(ns, ps[i].0, ps[i].1, true, true)
    ensures DistinctInputs(ps[1..]) && ps[0].1 !in InputsOf(ps[1..])
    ensures forall i :: 0 <= i < |ps[1..]| ==> Accepted(ns, ps[1..][i].0, ps[1..][i].1, true, true)
  {
    assert forall i :: 0 <= i < |ps[1..]| ==> ps[1..][i] == ps[i + 1];
  }

  /** Connecting a list of pairs keeps the bookkeeping invariant. */
  lemma {:induction false} ConnectAllKeepsGood(g: Graph, ps: seq<(int, int)>)
    requires Good(g)
    ensures Good(ConnectAll(g, ps))
    decreases |ps|
  {
    if ps != [] {
      ConnectKeepsGood(g, ps[0].0, ps[0].1, true, true);
      ConnectAllKeepsGood(Connect(g, ps[0].0, ps[0].1, true, true), ps[1..]);
    }
  }

  /** The set algebra of one step of `ConnectAll`. */
  lemma KeepStep(c: set<(int, int)>, ps: seq<(int, int)>)
    requires ps != [] && ps[0].1 !in InputsOf(ps[1..])
    ensures Elems(ps[1..]) + Keep(Keep(c, {ps[0].1}) + {ps[0]}, InputsOf(ps[1..])) == Elems(ps) + Keep(c, InputsOf(ps))
  {
    assert ps == [ps[0]] + ps[1..];
    assert InputsOf(ps) == {ps[0].1} + InputsOf(ps[1..]);
    assert Elems(ps) == {ps[0]} + Elems(ps[1..]);
  }

  /** Inputs of a stored link list are distinct when the table had at most
      one valid link per input and the order visits each id once. */
  lemma LinkPairsDistinct(g: Graph, order: seq<int>)
    requires Good(g)
    requires forall i, j :: 0 <= i < j < |order| ==> order[i] != order[j]
    ensures DistinctInputs(LinkPairs(g.links, order))
  {
    var ks := ValidKeys(g.links, order);
    var r := LinkPairs(g.links, order);
    forall i, j | 0 <= i < j < |r|
      ensures r[i].1 != r[j].1
    {
      assert ks[i] != ks[j];
    }
  }

  /** Every valid link joins existing pins of equal, non-"None" types. */
  predicate WellTyped(g: Graph) {
    forall k :: k in g.links && Valid(g.links[k]) ==>
      Accepted(g.nodes, g.links[k].output.value, g.links[k].input.value, true, true)
  }

  /** Loading a saved graph into a fresh one restores its nodes, its
      counter, its last node and exactly its connections. */
  lemma SerializeRoundTrip(g: Graph, order: seq<int>)
    requires Good(g) && WellTyped(g)
    requires forall k :: k in g.links <==> k in order
    requires forall i, j :: 0 <= i < j < |order| ==> order[i] != order[j]
    requires g.lastNode.Some? ==> FindNode(g.nodes, g.lastNode.value).Some?
    ensures var g' := Deserialize(New(), Serialize(g, order));
            && g'.nodes == g.nodes && g'.nextId == g.nextId && g'.lastNode == g.lastNode
            && Connections(g'.links) == Connections(g.links)
  {
    var s := Serialize(g, order);
    var g0 := New().(nodes := [] + s.nodes);
    assert g0.nodes == g.nodes;
    LinkPairsDistinct(g, order);
    forall i | 0 <= i < |s.links|
      ensures Accepted(g0.nodes, s.links[i].0, s.links[i].1, true, true)
    {
      var k := ValidKeys(g.links, order)[i];
      assert s.links[i] == Pair(g.links[k]);
    }
    ConnectAllConnections(g0, s.links);
    assert Connections(g0.links) == {};
  }
}

=== FILE: Numerals.dfy ===
/** Decimal text of unsigned numbers, as `std::to_string` and stream
    insertion write it; used for generated header text and object names. */
module Numerals {

  function Digit(d: nat): (c: char)
    requires d < 10
    ensures '0' <= c <= '9' && c as int - '0' as int == d
  {
    (d + '0' as int) as char
  }

  /** Decimal text of an unsigned number, as a stream insertion or
      `std::to_string` writes it: no sign, no leading zeros. */
  function Decimal(n: nat): (s: string)
    ensures 0 < |s|
    ensures forall i :: 0 <= i < |s| ==> '0' <= s[i] <= '9'
    ensures |s| > 1 ==> s[0] != '0'
    decreases n
  {
    if n < 10 then [Digit(n)] else Decimal(n / 10) + [Digit(n % 10)]
  }

  /** Reads decimal digits back into a number. */
  function ParseDecimal(s: string): nat
    requires forall i :: 0 <= i < |s| ==> '0' <= s[i] <= '9'
    decreases |s|
  {
    if |s| == 0 then 0
    else 10 * ParseDecimal(s[..|s| - 1]) + (s[|s| - 1] as int - '0' as int)
  }

  /** The decimal text names its number. */
  lemma {:induction false} DecimalRoundTrip(n: nat)
    ensures ParseDecimal(Decimal(n)) == n
    decreases n
  {
    if n >= 10 {
      DecimalRoundTrip(n / 10);
      var s := Decimal(n);
      assert s[..|s| - 1] == Decimal(n / 10);
    }
  }

  /** Distinct numbers have distinct decimal texts. */
  lemma DecimalInjective(m: nat, n: nat)
    requires m != n
    ensures Decimal(m) != Decimal(n)
  {
    DecimalRoundTrip(m);
    DecimalRoundTrip(n);
  }
}

=== FILE: PhysicsProperties.dfy ===
/** The physics settings of an actor (runtime
    `physics::PhysicsProperties`): attached geometry as opaque ids with a
    changed flag, the dynamic and gravity switches, and the mass (a `float`,
    modelled as a real). */
module PhysicsProperties {

  datatype Props = Props(geometry: seq<nat>, changed: bool, dynamic: bool, gravity: bool, mass: real)

  /** `addGeometry`: append and flag the change. */
  function AddGeometry(p: Props, g: nat): (p': Props)
    ensures p'.geometry == p.geometry + [g] && p'.changed
    ensures p'.dynamic == p.dynamic && p'.gravity == p.gravity && p'.mass == p.mass
  {
    p.(geometry := p.geometry + [g], changed := true)
  }

  /** The list without any occurrence of `g`, in order (`std::remove`). */
  function Without(s: seq<nat>, g: nat): (r: seq<nat>)
    ensures g !in r
    ensures forall x :: x in r <==> x in s && x != g
    ensures |r| <= |s|
  {
    if s == [] then []
    else if s[0] == g then Without(s[1..], g)
    else [s[0]] + Without(s[1..], g)
  }

  /** Removing a geometry that was not attached, from the end of a list
      just grown by it, gives back the old list. */
  lemma {:induction false} WithoutAppended(s: seq<nat>, g: nat)
    requires g !in s
    ensures Without(s + [g], g) == s
  {
    if s != [] {
      assert (s + [g])[1..] == s[1..] + [g];
      WithoutAppended(s[1..], g);
      assert s == [s[0]] + s[1..];
    } else {
      assert [g][1..] == [];
    }
  }

  /** `removeGeometry`: every occurrence is erased and the change flagged. */
  function RemoveGeometry(p: Props, g: nat): (p': Props)
    ensures p'.geometry == Without(p.geometry, g) && p'.changed
    ensures p'.dynamic == p.dynamic && p'.gravity == p.gravity && p'.mass == p.mass
  {
    p.(geometry := Without(p.geometry, g), changed := true)
  }

  /** Adding a new geometry and removing it restores the list. */
  lemma AddThenRemoveGeometry(p: Props, g: nat)
    requires g !in p.geometry
    ensures RemoveGeometry(AddGeometry(p, g), g).geometry == p.geometry
  {
    WithoutAppended(p.geometry, g);
  }

  /** `resetGeometryChangedFlag`: clears what `hasGeometryChanged` reports. */
  function ResetChanged(p: Props): (p': Props)
    ensures !p'.changed && p'.geometry == p.geometry
    ensures p'.dynamic == p.dynamic && p'.gravity == p.gravity && p'.mass == p.mass
  {
    p.(changed := false)
  }

  /** `makeStatic`/`makeDynamic`: only the dynamic switch changes. */
  function SetDynamic(p: Props, d: bool): (p': Props)
    ensures p'.dynamic == d && p'.geometry == p.geometry && p'.changed == p.changed
    ensures p'.gravity == p.gravity && p'.mass == p.mass
  {
    p.(dynamic := d)
  }

  /** `enableGravity`/`disableGravity`: only the gravity switch changes. */
  function SetGravity(p: Props, g: bool): (p': Props)
    ensures p'.gravity == g && p'.geometry == p.geometry && p'.changed == p.changed
    ensures p'.dynamic == p.dynamic && p'.mass == p.mass
  {
    p.(gravity := g)
  }

  /** `setMass`: only the mass changes. */
  function SetMass(p: Props, m: real): (p': Props)
    ensures p'.mass == m && p'.geometry == p.geometry && p'.changed == p.changed
    ensures p'.dynamic == p.dynamic && p'.gravity == p.gravity
  {
    p.(mass := m)
  }

  /** The setters touch disjoint fields, so they commute. */
  lemma SettersCommute(p: Props, d: bool, g: bool, m: real)
    ensures SetDynamic(SetGravity(SetMass(p, m), g), d) == SetMass(SetGravity(SetDynamic(p, d), g), m)
  {
  }

  /** `operator=`: the switches and mass are copied, the change flagged, and
      clones of the other's geometry (ids `clones`) are appended to this
      list, which is not cleared first. */
  function Assign(p: Props, other: Props, clones: seq<nat>): (p': Props)
    requires |clones| == |other.geometry|
    ensures p'.geometry == p.geometry + clones && |p'.geometry| == |p.geometry| + |other.geometry|
    ensures p'.changed
    ensures p'.dynamic == other.dynamic && p'.gravity == other.gravity && p'.mass == other.mass
  {
    Props(p.geometry + clones, true, other.dynamic, other.gravity, other.mass)
  }

  /** Because assignment appends, assigning the same properties twice
      doubles the geometry instead of leaving one copy. */
  lemma AssignTwiceAccumulates(p: Props, other: Props, c1: seq<nat>, c2: seq<nat>)
    requires |c1| == |other.geometry| == |c2| && |other.geometry| > 0
    ensures |Assign(Assign(p, other, c1), other, c2).geometry| == |p.geometry| + 2 * |other.geometry|
  {
  }
}

=== FILE: RefCounts.dfy ===
/** Asset reference counts (`acquire` and `release` on an asset): a count
    per asset id. The counter itself is not part of the shown source; it is
    modelled as an unbounded integer that `acquire` steps up and `release`
    steps down. */
module RefCounts {
  import opened Wrappers

  type Counts = map<nat, int>

  /** The count of an asset; an asset never counted has 0. */
  function Count(rc: Counts, a: nat): int {
    if a in rc then rc[a] else 0
  }

  function Acquire(rc: Counts, a: nat): (rc': Counts)
    ensures Count(rc', a) == Count(rc, a) + 1
    ensures forall b :: b != a ==> Count(rc', b) == Count(rc, b)
  {
    rc[a := Count(rc, a) + 1]
  }

  function Release(rc: Counts, a: nat): (rc': Counts)
    ensures Count(rc', a) == Count(rc, a) - 1
    ensures forall b :: b != a ==> Count(rc', b) == Count(rc, b)
  {
    rc[a := Count(rc, a) - 1]
  }

  /** The references an optional pointer holds on asset `a`: 1 if it points
      at it, 0 otherwise. */
  function Held(p: Option<nat>, a: nat): (n: nat)
    ensures n == 1 <==> p == Some(a)
    ensures n <= 1
  {
    if p == Some(a) then 1 else 0
  }

  /** Release what `from` holds, then acquire what `to` holds: the shared
      step of every setter that moves a reference. */
  function Transfer(rc: Counts, from: Option<nat>, to: Option<nat>): (rc': Counts)
    ensures forall a :: Count(rc', a) == Count(rc, a) - Held(from, a) + Held(to, a)
  {
    var rc1 := if from.Some? then Release(rc, from.value) else rc;
    if to.Some? then Acquire(rc1, to.value) else rc1
  }

  /** Re-pointing at the same asset leaves every count as it was. */
  lemma TransferSame(rc: Counts, p: Option<nat>)
    ensures forall a :: Count(Transfer(rc, p, p), a) == Count(rc, a)
  {
  }

  /** Two transfers compose into one from the first source to the last
      target. */
  lemma TransferCompose(rc: Counts, p: Option<nat>, q: Option<nat>, r: Option<nat>)
    ensures forall a :: Count(Transfer(Transfer(rc, p, q), q, r), a) == Count(Transfer(rc, p, r), a)
  {
  }
}

=== FILE: Reflector.dfy ===
/** The type reflector (runtime `reflection::Reflector`): a map from type ids
    to the instancer that creates objects of that type, plus a display name
    recorded the first time a type is linked. */
module Reflector {

  /** The runtime types exposed at start-up. Their numeric values are not
      part of this model; only their identity matters. */
  datatype RuntimeType =
    | MESH | MATERIAL | TEXTURE | SCENE | MAT_TYPE | PIPELINE | AUDIO
    | AUDIO_SOURCE | TRANSFORM | ENTITY | RENDERABLE | BOX_CLDR
    | DYNAMIC_ACTOR | STATIC_ACTOR | OP_CAMERA | OP_ENTITY | OP_SCREEN
    | OP_RENDER | OP_TARGET | TAG_SELECTOR

  /** A reflected type id: one of the runtime types, or another id (the
      editor registers its own types beside the runtime ones). */
  datatype TypeId = Runtime(rt: RuntimeType) | Other(n: nat)

  /** An instancer, identified by the class it instantiates. */
  datatype Instancer = Instancer(klass: string)

  datatype Reflector = Reflector(instancers: map<TypeId, Instancer>, names: map<TypeId, string>)

  const Empty := Reflector(map[], map[])

  /** Every type with an instancer has a name, and vice versa. */
  predicate Consistent(r: Reflector) {
    r.instancers.Keys == r.names.Keys
  }

  /** `linkInstancer`: a known type gets its instancer replaced and keeps its
      old name; a new type gets both the instancer and the given name. */
  function LinkInstancer(r: Reflector, t: TypeId, inst: Instancer, name: string): (r': Reflector)
    ensures r'.instancers == r.instancers[t := inst]
    ensures t in r.instancers ==> r'.names == r.names
    ensures t !in r.instancers ==> r'.names == r.names[t := name]
  {
    if t in r.instancers then r.(instancers := r.instancers[t := inst])
    else Reflector(r.instancers[t := inst], r.names[t := name])
  }

  /** `resolveInstancer`: defined only for registered types. */
  function ResolveInstancer(r: Reflector, t: TypeId): (i: Instancer)
    requires t in r.instancers
  {
    r.instancers[t]
  }

  /** `reflectName`: defined only for types that have a name. */
  function ReflectName(r: Reflector, t: TypeId): (n: string)
    requires t in r.names
  {
    r.names[t]
  }

  /** Linking keeps instancers and names in step. */
  lemma LinkPreservesConsistent(r: Reflector, t: TypeId, inst: Instancer, name: string)
    requires Consistent(r)
    ensures Consistent(LinkInstancer(r, t, inst, name))
  {
  }

  /** Linking a new type: resolve returns the instancer and the name is the
      one given. */
  lemma LinkNewThenResolve(r: Reflector, t: TypeId, inst: Instancer, name: string)
    requires Consistent(r) && t !in r.instancers
    ensures var r' := LinkInstancer(r, t, inst, name);
            t in r'.names && ResolveInstancer(r', t) == inst && ReflectName(r', t) == name
  {
  }

  /** Linking an already registered type: resolve returns the new instancer,
      but the name stays the one recorded first. */
  lemma LinkExistingKeepsName(r: Reflector, t: TypeId, inst: Instancer, name: string)
    requires Consistent(r) && t in r.instancers
    ensures var r' := LinkInstancer(r, t, inst, name);
            t in r'.names && ResolveInstancer(r', t) == inst && ReflectName(r', t) == ReflectName(r, t)
  {
  }

  /** Linking type `t` never changes what any other type resolves to or is named. */
  lemma LinkIsLocal(r: Reflector, t: TypeId, inst: Instancer, name: string, u: TypeId)
    requires u != t
    ensures var r' := LinkInstancer(r, t, inst, name);
            (u in r'.instancers <==> u in r.instancers) &&
            (u in r.instancers ==> r'.instancers[u] == r.instancers[u]) &&
            (u in r'.names <==> u in r.names) &&
            (u in r.names ==> r'.names[u] == r.names[u])
  {
  }

  /** The runtime types `init` exposes, in order, each with the name of the
      class it instantiates (the stringised class name is both the class of
      the instancer and the recorded name). */
  const RuntimeExposures: seq<(RuntimeType, string)> := [
    (MESH, "asset::MeshAsset"),
    (MATERIAL, "asset::MaterialAsset"),
    (TEXTURE, "asset::TextureAsset"),
    (SCENE, "scene::Scene"),
    (MAT_TYPE, "asset::MaterialTypeAsset"),
    (PIPELINE, "rendering::Pipeline"),
    (AUDIO, "asset::AudioAsset"),
    (AUDIO_SOURCE, "audio::AudioSource"),
    (TRANSFORM, "scene::Transform"),
    (ENTITY, "scene::Entity"),
    (RENDERABLE, "rendering::Renderable"),
    (BOX_CLDR, "physics::BoxCollider"),
    (DYNAMIC_ACTOR, "physics::DynamicActor"),
    (STATIC_ACTOR, "physics::StaticActor"),
    (OP_CAMERA, "rendering::CameraProvideOperation"),
    (OP_ENTITY, "rendering::EntityProvideOperation"),
    (OP_SCREEN, "rendering::OutputToScreenOperation"),
    (OP_RENDER, "rendering::RenderOperation"),
    (OP_TARGET, "rendering::TargetProvideOperation"),
    (TAG_SELECTOR, "scene::TagSelector")
  ]

  /** Link each exposure in turn. */
  function ExposeAll(r: Reflector, xs: seq<(RuntimeType, string)>): (r': Reflector)
    ensures forall k :: 0 <= k < |xs| ==> Runtime(xs[k].0) in r'.instancers
    ensures forall t :: t in r.instancers ==> t in r'.instancers
    decreases |xs|
  {
    if |xs| == 0 then r
    else ExposeAll(LinkInstancer(r, Runtime(xs[0].0), Instancer(xs[0].1), xs[0].1), xs[1..])
  }

  /** The position of a runtime type in the exposure list. */
  function ExposureIndex(rt: RuntimeType): nat {
    match rt
    case MESH => 0
    case MATERIAL => 1
    case TEXTURE => 2
    case SCENE => 3
    case MAT_TYPE => 4
    case PIPELINE => 5
    case AUDIO => 6
    case AUDIO_SOURCE => 7
    case TRANSFORM => 8
    case ENTITY => 9
    case RENDERABLE => 10
    case BOX_CLDR => 11
    case DYNAMIC_ACTOR => 12
    case STATIC_ACTOR => 13
    case OP_CAMERA => 14
    case OP_ENTITY => 15
    case OP_SCREEN => 16
    case OP_RENDER => 17
    case OP_TARGET => 18
    case TAG_SELECTOR => 19
  }

  /** Every runtime type is exposed, at its position. */
  lemma ExposureIndexCorrect()
    ensures forall rt: RuntimeType :: ExposureIndex(rt) < |RuntimeExposures| && RuntimeExposures[ExposureIndex(rt)].0 == rt
  {
  }

  /** `init`: expose every runtime type. */
  function Init(r: Reflector): (r': Reflector)
    ensures forall rt: RuntimeType :: Runtime(rt) in r'.instancers
  {
    ExposeAllRuntimeTypes(r);
    ExposeAll(r, RuntimeExposures)
  }

  /** Exposing the runtime list registers every runtime type. */
  lemma ExposeAllRuntimeTypes(r: Reflector)
    ensures forall rt: RuntimeType :: Runtime(rt) in ExposeAll(r, RuntimeExposures).instancers
  {
    var r' := ExposeAll(r, RuntimeExposures);
    forall rt: RuntimeType
      ensures Runtime(rt) in r'.instancers
    {
      ExposureIndexCorrect();
      var k := ExposureIndex(rt);
      assert RuntimeExposures[k].0 == rt;
    }
  }

  /** On a fresh reflector, `init` registers each runtime type with the
      instancer of its class and that class's name. */
  lemma InitRegistersClasses(k: nat)
    requires k < |RuntimeExposures|
    ensures var r := Init(Empty);
            var (rt, klass) := RuntimeExposures[k];
            Runtime(rt) in r.names &&
            ResolveInstancer(r, Runtime(rt)) == Instancer(klass) && ReflectName(r, Runtime(rt)) == klass
  {
    ExposeFreshTypes(Empty, RuntimeExposures, k);
  }

  /** Exposing a list of distinct, not yet registered types registers each
      with its own class and name. */
  lemma {:induction false} ExposeFreshTypes(r: Reflector, xs: seq<(RuntimeType, string)>, k: nat)
    requires Consistent(r)
    requires k < |xs|
    requires forall i, j :: 0 <= i < j < |xs| ==> xs[i].0 != xs[j].0
    requires forall i :: 0 <= i < |xs| ==> Runtime(xs[i].0) !in r.instancers
    ensures var r' := ExposeAll(r, xs);
            Runtime(xs[k].0) in r'.instancers && Runtime(xs[k].0) in r'.names &&
            r'.instancers[Runtime(xs[k].0)] == Instancer(xs[k].1) && r'.names[Runtime(xs[k].0)] == xs[k].1
    decreases |xs|
  {
    var r1 := LinkInstancer(r, Runtime(xs[0].0), Instancer(xs[0].1), xs[0].1);
    if k == 0 {
      ExposeKeepsUntouched(r1, xs[1..], Runtime(xs[0].0));
    } else {
      assert forall i :: 0 <= i < |xs[1..]| ==> xs[1..][i] == xs[i + 1];
      ExposeFreshTypes(r1, xs[1..], k - 1);
    }
  }

  /** Exposing a list never touches a type outside it. */
  lemma {:induction false} ExposeKeepsUntouched(r: Reflector, xs: seq<(RuntimeType, string)>, t: TypeId)
    requires t in r.instancers && t in r.names
    requires forall i :: 0 <= i < |xs| ==> Runtime(xs[i].0) != t
    ensures var r' := ExposeAll(r, xs);
            t in r'.instancers && t in r'.names &&
            r'.instancers[t] == r.instancers[t] && r'.names[t] == r.names[t]
    decreases |xs|
  {
    if |xs| > 0 {
      var r1 := LinkInstancer(r, Runtime(xs[0].0), Instancer(xs[0].1), xs[0].1);
      ExposeKeepsUntouched(r1, xs[1..], t);
    }
  }
}

=== FILE: RenderableData.dfy ===
/** A renderable component's data (runtime `rendering::RenderableData`):
    the mesh and material it draws, each holding a reference. */
module RenderableData {
  import opened Wrappers
  import opened RefCounts

  datatype Renderable = Renderable(mesh: Option<nat>, material: Option<nat>)

  /** `isValid`: both are set and both assets are valid (loaded). */
  predicate IsValid(r: Renderable, valid: set<nat>) {
    r.mesh.Some? && r.material.Some? && r.mesh.value in valid && r.material.value in valid
  }

  /** `setMesh`: release the old mesh and acquire the new one; the source
      acquires the new mesh unconditionally, so it must not be null. */
  function SetMesh(r: Renderable, rc: Counts, mesh: nat): (out: (Renderable, Counts))
    ensures out.0.mesh == Some(mesh) && out.0.material == r.material
    ensures forall a :: Count(out.1, a) == Count(rc, a) - Held(r.mesh, a) + Held(Some(mesh), a)
  {
    (r.(mesh := Some(mesh)), Transfer(rc, r.mesh, Some(mesh)))
  }

  /** `setMaterial`: the same transfer for the material. */
  function SetMaterial(r: Renderable, rc: Counts, material: nat): (out: (Renderable, Counts))
    ensures out.0.material == Some(material) && out.0.mesh == r.mesh
    ensures forall a :: Count(out.1, a) == Count(rc, a) - Held(r.material, a) + Held(Some(material), a)
  {
    (r.(material := Some(material)), Transfer(rc, r.material, Some(material)))
  }

  /** Setting the held mesh or material again changes no count. */
  lemma ResetSameUnchanged(r: Renderable, rc: Counts)
    ensures r.mesh.Some? ==> forall a :: Count(SetMesh(r, rc, r.mesh.value).1, a) == Count(rc, a)
    ensures r.material.Some? ==> forall a :: Count(SetMaterial(r, rc, r.material.value).1, a) == Count(rc, a)
  {
  }

  /** `hash`: defined only for a valid renderable; it combines the two
      asset handles. The combining function is a parameter. */
  function Hash(r: Renderable, valid: set<nat>, combine: (nat, nat) -> nat): (h: nat)
    requires IsValid(r, valid)
    ensures h == combine(r.mesh.value, r.material.value)
  {
    combine(r.mesh.value, r.material.value)
  }

  /** `operator=`: the other's material, then its mesh, each through its
      setter; both must be set because the setters acquire unconditionally. */
  function Assign(r: Renderable, rc: Counts, other: Renderable): (out: (Renderable, Counts))
    requires other.mesh.Some? && other.material.Some?
    ensures out.0 == other
    ensures forall a :: Count(out.1, a) == Count(rc, a) - Held(r.mesh, a) - Held(r.material, a)
                                                        + Held(other.mesh, a) + Held(other.material, a)
  {
    var (r1, rc1) := SetMaterial(r, rc, other.material.value);
    SetMesh(r1, rc1, other.mesh.value)
  }

  /** The destructor: release whatever mesh and material are held. */
  function Destroy(r: Renderable, rc: Counts): (rc': Counts)
    ensures forall a :: Count(rc', a) == Count(rc, a) - Held(r.mesh, a) - Held(r.material, a)
  {
    var rc1 := if r.mesh.Some? then Release(rc, r.mesh.value) else rc;
    if r.material.Some? then Release(rc1, r.material.value) else rc1
  }

  /** A renderable built from nothing, assigned and destroyed leaves every
      count where it started. */
  lemma BuildThenDestroyBalanced(rc: Counts, mesh: nat, material: nat)
    ensures var (r1, rc1) := SetMesh(Renderable(None, None), rc, mesh);
            var (r2, rc2) := SetMaterial(r1, rc1, material);
            forall a :: Count(Destroy(r2, rc2), a) == Count(rc, a)
  {
  }
}

=== FILE: Scene.dfy ===
/** A scene's game object list (runtime `scene::Scene`): objects are kept in
    insertion order and identified by name. */
module Scene {
  import opened Numerals
  import GO = GameObject

  /** Some object in the list has the name. */
  predicate HasName(objs: seq<GO.GameObject>, name: string) {
    exists i :: 0 <= i < |objs| && objs[i].name == name
  }

  /** No two objects share a name. */
  predicate UniqueNames(objs: seq<GO.GameObject>) {
    forall i, j :: 0 <= i < j < |objs| ==> objs[i].name != objs[j].name
  }

  /** `addObject`: refused (false, list unchanged) when an object with the
      same name exists, otherwise appended. */
  function AddObject(objs: seq<GO.GameObject>, o: GO.GameObject): (r: (seq<GO.GameObject>, bool))
    ensures r.1 <==> !HasName(objs, o.name)
    ensures r.1 ==> r.0 == objs + [o]
    ensures !r.1 ==> r.0 == objs
  {
    if HasName(objs, o.name) then (objs, false) else (objs + [o], true)
  }

  /** Adding keeps names unique. */
  lemma AddObjectKeepsUnique(objs: seq<GO.GameObject>, o: GO.GameObject)
    requires UniqueNames(objs)
    ensures UniqueNames(AddObject(objs, o).0)
  {
    var r := AddObject(objs, o);
    if r.1 {
      forall i, j | 0 <= i < j < |r.0|
        ensures r.0[i].name != r.0[j].name
      {
        if j == |objs| {
          assert r.0[i] == objs[i];
        }
      }
    }
  }

  /** The first position holding an object with the name. */
  function FindName(objs: seq<GO.GameObject>, name: string): (i: nat)
    requires HasName(objs, name)
    ensures i < |objs| && objs[i].name == name
    ensures forall j :: 0 <= j < i ==> objs[j].name != name
  {
    if objs[0].name == name then 0
    else
      assert HasName(objs[1..], name) by {
        var k :| 0 <= k < |objs| && objs[k].name == name;
        assert objs[1..][k - 1].name == name;
      }
      FindName(objs[1..], name) + 1
  }

  /** `removeObject` (and `destroyGameObject`): an object with the name
      must exist; the first one is erased. */
  function RemoveObject(objs: seq<GO.GameObject>, name: string): (r: seq<GO.GameObject>)
    requires HasName(objs, name)
    ensures |r| == |objs| - 1
    ensures var i := FindName(objs, name); r == objs[..i] + objs[i + 1..]
  {
    var i := FindName(objs, name);
    objs[..i] + objs[i + 1..]
  }

  /** Position `k` of the shortened list holds the object that was at `k`
      before the erased position and at `k + 1` after it. */
  lemma RemoveObjectShifts(objs: seq<GO.GameObject>, name: string)
    requires HasName(objs, name)
    ensures var i := FindName(objs, name); var r := RemoveObject(objs, name);
            forall k :: 0 <= k < |r| ==> r[k] == objs[if k < i then k else k + 1]
  {
  }

  /** In a list with unique names, removing a name removes exactly that
      object: the name is gone, names stay unique and every other object
      stays. */
  lemma RemoveObjectExact(objs: seq<GO.GameObject>, name: string)
    requires UniqueNames(objs) && HasName(objs, name)
    ensures !HasName(RemoveObject(objs, name), name)
    ensures UniqueNames(RemoveObject(objs, name))
    ensures forall o :: o in objs && o.name != name ==> o in RemoveObject(objs, name)
  {
    var i := FindName(objs, name);
    var r := RemoveObject(objs, name);
    RemoveObjectShifts(objs, name);
    forall k | 0 <= k < |r|
      ensures r[k].name != name
    {
      var k' := if k < i then k else k + 1;
      assert r[k] == objs[k'] && k' != i;
    }
    forall o | o in objs && o.name != name
      ensures o in r
    {
      var k :| 0 <= k < |objs| && objs[k] == o;
      if k < i {
        assert r[k] == o;
      } else {
        assert r[k - 1] == o;
      }
    }
    forall a, b | 0 <= a < b < |r|
      ensures r[a].name != r[b].name
    {
      var a' := if a < i then a else a + 1;
      var b' := if b < i then b else b + 1;
      assert r[a] == objs[a'] && r[b] == objs[b'];
    }
  }

  /** The objects not marked for deletion, in their order. */
  function Sweep(objs: seq<GO.GameObject>): (r: seq<GO.GameObject>)
    ensures |r| <= |objs|
    ensures forall i :: 0 <= i < |r| ==> !r[i].marked
    ensures forall o :: o in r <==> o in objs && !o.marked
  {
    if objs == [] then []
    else if objs[0].marked then Sweep(objs[1..])
    else [objs[0]] + Sweep(objs[1..])
  }

  /** The sweep works element by element, so the survivors keep their
      relative order: sweeping a concatenation concatenates the sweeps. */
  lemma {:induction false} SweepAppend(a: seq<GO.GameObject>, b: seq<GO.GameObject>)
    ensures Sweep(a + b) == Sweep(a) + Sweep(b)
    decreases |a|
  {
    if a != [] {
      assert (a + b)[0] == a[0] && (a + b)[1..] == a[1..] + b;
      SweepAppend(a[1..], b);
      if !a[0].marked {
        assert [a[0]] + (Sweep(a[1..]) + Sweep(b)) == ([a[0]] + Sweep(a[1..])) + Sweep(b);
      }
    } else {
      assert a + b == b;
    }
  }

  /** `update`'s first step keeps names unique. */
  lemma {:induction false} SweepKeepsUnique(objs: seq<GO.GameObject>)
    requires UniqueNames(objs)
    ensures UniqueNames(Sweep(objs))
    decreases |objs|
  {
    if objs != [] {
      var rest := objs[1..];
      assert UniqueNames(rest) by {
        forall i, j | 0 <= i < j < |rest| ensures rest[i].name != rest[j].name {
          assert rest[i] == objs[i + 1] && rest[j] == objs[j + 1];
        }
      }
      SweepKeepsUnique(rest);
      if !objs[0].marked {
        var r := Sweep(objs);
        assert r[1..] == Sweep(rest);
        forall j | 0 < j < |r| ensures r[0].name != r[j].name {
          assert r[j] in Sweep(rest);
          var k :| 0 <= k < |rest| && rest[k] == r[j];
          assert objs[k + 1] == r[j];
        }
        forall i, j | 0 <= i < j < |r| ensures r[i].name != r[j].name {
          if i > 0 {
            assert r[i] == Sweep(rest)[i - 1] && r[j] == Sweep(rest)[j - 1];
          }
        }
      }
    }
  }

  /** The name `createGameObject` gives its n-th object. */
  function CreatedName(n: nat): (s: string)
    ensures |s| >= 14 && s[..12] == "New object (" && s[|s| - 1] == ')'
  {
    "New object (" + Decimal(n) + ")"
  }

  /** Different counters give different names. */
  lemma CreatedNameInjective(m: nat, n: nat)
    requires m != n
    ensures CreatedName(m) != CreatedName(n)
  {
    DecimalInjective(m, n);
    var a := CreatedName(m);
    var b := CreatedName(n);
    assert a[12..|a| - 1] == Decimal(m);
    assert b[12..|b| - 1] == Decimal(n);
  }

  /** `createGameObject`: a new object named after the (process-wide)
      counter, which steps by one; it is added unless that name is taken. */
  function CreateGameObject(objs: seq<GO.GameObject>, nextId: nat): (r: (seq<GO.GameObject>, nat))
    ensures r.1 == nextId + 1
    ensures !HasName(objs, CreatedName(nextId)) ==> r.0 == objs + [GO.New(CreatedName(nextId))]
    ensures HasName(objs, CreatedName(nextId)) ==> r.0 == objs
  {
    (AddObject(objs, GO.New(CreatedName(nextId))).0, nextId + 1)
  }

  /** No object carries a name the counter has yet to hand out. */
  ghost predicate CounterAhead(objs: seq<GO.GameObject>, nextId: nat) {
    forall n: nat {:trigger CreatedName(n)} :: n >= nextId ==> !HasName(objs, CreatedName(n))
  }

  /** While the counter is ahead of every name in the scene, creating an
      object always adds exactly one, and the counter stays ahead. */
  lemma CreateAlwaysAdds(objs: seq<GO.GameObject>, nextId: nat)
    requires CounterAhead(objs, nextId)
    ensures var r := CreateGameObject(objs, nextId);
            |r.0| == |objs| + 1 && CounterAhead(r.0, r.1)
  {
    var r := CreateGameObject(objs, nextId);
    assert !HasName(objs, CreatedName(nextId));
    forall n: nat | n >= nextId + 1
      ensures !HasName(r.0, CreatedName(n))
    {
      assert !HasName(objs, CreatedName(n));
      CreatedNameInjective(n, nextId);
      forall k | 0 <= k < |r.0|
        ensures r.0[k].name != CreatedName(n)
      {
        if k < |objs| {
          assert r.0[k] == objs[k];
        }
      }
    }
  }
}

=== FILE: ScriptEventMap.dfy ===
/** A scene's script event map (runtime `scripting::ScriptEventMap`): the
    scripted events a scene calls, in the order they were mapped. Events
    are identified by id; their full name is what the stored form keeps. */
module ScriptEventMap {
  import opened Wrappers

  datatype EventType = UPDATE | SCENE_LOADED

  datatype Event = Event(id: nat, etype: EventType, name: string)

  /** One entry of the stored form: the type code and the full name. */
  datatype StoredEvent = StoredEvent(etype: EventType, name: string)

  /** `add`: append. */
  function Add(es: seq<Event>, e: Event): (r: seq<Event>)
    ensures |r| == |es| + 1 && r[..|es|] == es && r[|es|] == e
  {
    es + [e]
  }

  /** The position of the first occurrence of `e`. */
  function First(es: seq<Event>, e: Event): (i: nat)
    requires e in es
    ensures i < |es| && es[i] == e && e !in es[..i]
  {
    if es[0] == e then 0
    else
      var j := First(es[1..], e);
      assert es[..j + 1] == [es[0]] + es[1..][..j];
      j + 1
  }

  /** `remove`: the event must be mapped; its first occurrence is erased. */
  function Remove(es: seq<Event>, e: Event): (r: seq<Event>)
    requires e in es
    ensures |r| == |es| - 1
    ensures multiset(r) == multiset(es) - multiset{e}
    ensures exists i :: 0 <= i < |es| && es[i] == e && e !in es[..i] && r == es[..i] + es[i + 1..]
  {
    var i := First(es, e);
    assert es == es[..i] + [e] + es[i + 1..];
    assert es[i] == e && e !in es[..i];
    es[..i] + es[i + 1..]
  }

  /** Mapping an event that was not mapped and removing it again gives
      back the old map. */
  lemma AddThenRemove(es: seq<Event>, e: Event)
    requires e !in es
    ensures Remove(Add(es, e), e) == es
  {
    var s := es + [e];
    assert s[..|es|] == es;
    assert First(s, e) == |es|;
  }

  /** `getEvents(type)`: the events of one type, in map order. */
  function OfType(es: seq<Event>, t: EventType): (r: seq<Event>)
    ensures |r| <= |es|
    ensures forall i :: 0 <= i < |r| ==> r[i].etype == t
  {
    if es == [] then []
    else if es[0].etype == t then [es[0]] + OfType(es[1..], t)
    else OfType(es[1..], t)
  }

  /** The events of a type are exactly the mapped events of that type. */
  lemma {:induction false} OfTypeMembers(es: seq<Event>, t: EventType)
    ensures forall e :: e in OfType(es, t) <==> e in es && e.etype == t
    decreases |es|
  {
    if es != [] {
      OfTypeMembers(es[1..], t);
      assert es == [es[0]] + es[1..];
    }
  }

  /** Filtering works element by element: the events of a type keep their
      relative order. */
  lemma {:induction false} OfTypeAppend(a: seq<Event>, b: seq<Event>, t: EventType)
    ensures OfType(a + b, t) == OfType(a, t) + OfType(b, t)
    decreases |a|
  {
    if a == [] {
      assert a + b == b;
    } else {
      assert (a + b)[0] == a[0] && (a + b)[1..] == a[1..] + b;
      OfTypeAppend(a[1..], b, t);
      if a[0].etype == t {
        assert [a[0]] + (OfType(a[1..], t) + OfType(b, t)) == ([a[0]] + OfType(a[1..], t)) + OfType(b, t);
      }
    }
  }

  /** Every mapped event is called by exactly one of the two dispatchers,
      as often as it is mapped. */
  lemma {:induction false} Partition(es: seq<Event>)
    ensures multiset(es) == multiset(OfType(es, UPDATE)) + multiset(OfType(es, SCENE_LOADED))
    decreases |es|
  {
    if es != [] {
      Partition(es[1..]);
      assert es == [es[0]] + es[1..];
    }
  }

  /** `callUpdateEvents` and `callSceneLoaded`: the events of the type are
      called one after the other; the result is the sequence of calls. */
  method CallEvents(es: seq<Event>, t: EventType) returns (calls: seq<Event>)
    ensures multiset(calls) <= multiset(es)
    ensures forall e :: e in calls <==> e in es && e.etype == t
    ensures OfType(es, t) == calls
  {
    var targets := OfType(es, t);
    calls := [];
    var i := 0;
    while i < |targets|
      invariant 0 <= i <= |targets|
      invariant calls == targets[..i]
    {
      calls := calls + [targets[i]];
      i := i + 1;
    }
    assert targets[..i] == targets;
    OfTypeMembers(es, t);
    Partition(es);
  }

  /** `serialize`: type and full name of each event, in map order. */
  function Serialize(es: seq<Event>): (r: seq<StoredEvent>)
    ensures |r| == |es|
    ensures forall i :: 0 <= i < |es| ==> r[i].name == es[i].name && r[i].etype == es[i].etype
  {
    if es == [] then [] else [StoredEvent(es[0].etype, es[0].name)] + Serialize(es[1..])
  }

  /** The events a list of stored entries resolves to, in order; names the
      script manager does not know are dropped. The stored type is read but
      not used: the type comes from the resolved event. */
  function Resolve(entries: seq<StoredEvent>, known: map<string, Event>): (r: seq<Event>)
    ensures |r| <= |entries|
    ensures forall e :: e in r ==> exists i :: 0 <= i < |entries| && entries[i].name in known && known[entries[i].name] == e
  {
    if entries == [] then []
    else
      var rest := Resolve(entries[1..], known);
      assert forall e :: e in rest ==> exists i :: 0 <= i < |entries| && entries[i].name in known && known[entries[i].name] == e by {
        forall e | e in rest
          ensures exists i :: 0 <= i < |entries| && entries[i].name in known && known[entries[i].name] == e
        {
          var j :| 0 <= j < |entries[1..]| && entries[1..][j].name in known && known[entries[1..][j].name] == e;
          assert entries[j + 1] == entries[1..][j];
        }
      }
      if entries[0].name in known then [known[entries[0].name]] + rest else rest
  }

  /** `deserialize`: without the map node nothing is read and the result is
      false; otherwise every resolvable stored event is added (an absent
      event list adds nothing). */
  function Deserialize(es: seq<Event>, stored: Option<seq<StoredEvent>>, known: map<string, Event>): (r: (seq<Event>, bool))
    ensures stored.None? ==> r == (es, false)
    ensures stored.Some? ==> r.1 && |es| <= |r.0| <= |es| + |stored.value| && r.0[..|es|] == es
  {
    match stored
    case None => (es, false)
    case Some(entries) =>
      var r := es + Resolve(entries, known);
      assert r[..|es|] == es;
      (r, true)
  }

  /** Every event the script manager resolves by its own name survives a
      save and load unchanged and in order. */
  lemma {:induction false} ResolveSerialized(es: seq<Event>, known: map<string, Event>)
    requires forall e :: e in es ==> e.name in known && known[e.name] == e
    ensures Resolve(Serialize(es), known) == es
    decreases |es|
  {
    if es != [] {
      assert Serialize(es)[1..] == Serialize(es[1..]);
      assert forall e :: e in es[1..] ==> e in es;
      ResolveSerialized(es[1..], known);
      assert es == [es[0]] + es[1..];
    }
  }

  /** Loading what was saved into an empty map restores the map. */
  lemma SerializeRoundTrip(es: seq<Event>, known: map<string, Event>)
    requires forall e :: e in es ==> e.name in known && known[e.name] == e
    ensures Deserialize([], Some(Serialize(es)), known) == (es, true)
  {
    ResolveSerialized(es, known);
    assert [] + es == es;
  }
}

=== FILE: ScriptSystem.dfy ===
/** A scripted system (runtime `scripting::ScriptSystem`): an instance of a
    script class, its resolved hook methods, its public fields, the entity
    selector it runs over and the script-side entity array handed to its
    update hook. Script classes, instances and object values are opaque
    ids; the script manager is the `classes` registry parameter. */
module ScriptSystem {
  import opened Wrappers

  /** The methods `load` looks up on the class. */
  datatype Hook = Init | Shutdown | Update | TriggerEnter | TriggerLeave | CollisionStart | CollisionEnd

  /** The type the script manager gives a public field: `float`, `bool`
      and `int` by their value type, engine classes by the class locator,
      and `Null` for anything else. */
  datatype FieldType = Null | Float | Boolean | Integer | Mesh | Material | Audio | AudioSource | Prefab | Geometry

  /** The field types `serialize` and `deserialize` have a case for; a
      field of any other type is saved as null and never loaded. */
  predicate Handled(t: FieldType) {
    t in {Float, Boolean, Mesh, Material, Audio, AudioSource}
  }

  /** A public field with its type and value. The value is an opaque id:
      the number held by a `float` or `bool` field, or the object an
      object field refers to, `None` for a null reference. */
  datatype Field = Field(name: string, ftype: FieldType, value: Option<nat>)

  /** A script class as the script manager knows it: the hooks it defines
      and the public fields a new instance has, with their initial values. */
  datatype ScriptClass = ScriptClass(id: nat, hooks: set<Hook>, fields: seq<Field>)

  datatype Selector = Selector(name: string, entities: seq<nat>)

  datatype System = System(name: string, klass: Option<nat>, instance: Option<nat>, hooks: set<Hook>,
                           fields: seq<Field>, selector: Option<Selector>, entities: Option<seq<Option<nat>>>)

  /** The constructor: nothing loaded, no selector, no array. */
  function New(): (s: System)
    ensures s.klass.None? && s.instance.None? && s.hooks == {} && s.fields == [] && s.selector.None? && s.entities.None?
  {
    System("", None, None, {}, [], None, None)
  }

  /** One call into the script: the hook and the event object passed on
      (`None` for `init` and `shutdown`, which take no argument). */
  datatype HookCall = HookCall(hook: Hook, arg: Option<nat>)

  /** `init`, `shutdown`, `triggerEnter`, `triggerLeave`, `collisionStart`
      and `collisionEnd`: the hook is called, with the event unchanged, when
      the class defines it; the result is the calls made. */
  function Dispatch(s: System, h: Hook, arg: Option<nat>): (calls: seq<HookCall>)
    ensures |calls| <= 1 && (forall c :: c in calls ==> c.hook == h && c.arg == arg)
    ensures calls != [] <==> h in s.hooks
  {
    if h in s.hooks then [HookCall(h, arg)] else []
  }

  /** `load`: when the registry has no class of that name the class
      pointer is cleared and nothing else changes (the previous instance,
      hooks, fields and name stay); otherwise a new instance is made, the
      hooks and fields are those of the class and the name is taken. */
  function Load(s: System, name: string, classes: map<string, ScriptClass>, instance: nat): (s': System)
    ensures name !in classes ==> s' == s.(klass := None)
    ensures name in classes ==> s'.klass == Some(classes[name].id) && s'.instance == Some(instance)
    ensures name in classes ==> s'.hooks == classes[name].hooks && s'.fields == classes[name].fields && s'.name == name
    ensures s'.selector == s.selector && s'.entities == s.entities
  {
    if name !in classes then s.(klass := None)
    else
      var c := classes[name];
      s.(klass := Some(c.id), instance := Some(instance), hooks := c.hooks, fields := c.fields, name := name)
  }

  /** After a load the system calls exactly the hooks its class defines; a
      fresh system whose class cannot be found calls none. */
  lemma LoadThenDispatch(name: string, classes: map<string, ScriptClass>, instance: nat, h: Hook, arg: Option<nat>)
    ensures name in classes ==> (Dispatch(Load(New(), name, classes, instance), h, arg) == [HookCall(h, arg)] <==> h in classes[name].hooks)
    ensures name in classes ==> (Dispatch(Load(New(), name, classes, instance), h, arg) == [] <==> h !in classes[name].hooks)
    ensures name !in classes ==> Dispatch(Load(New(), name, classes, instance), h, arg) == []
  {
  }

  /** A failed load does not forget an earlier successful one: the old
      instance and hooks stay and only the class pointer is cleared. */
  lemma FailedLoadKeepsInstance(name: string, other: string, classes: map<string, ScriptClass>, instance: nat, h: Hook)
    requires name in classes && other !in classes && h in classes[name].hooks
    ensures var s := Load(Load(New(), name, classes, instance), other, classes, instance + 1);
            s.klass.None? && s.instance == Some(instance) && Dispatch(s, h, None) == [HookCall(h, None)] && s.name == name
  {
  }

  /** Some field has the name. */
  predicate HasField(fields: seq<Field>, name: string) {
    exists i :: 0 <= i < |fields| && fields[i].name == name
  }

  /** `getField`: the first field with the name; the field must exist (the
      source dereferences the search result unchecked). */
  function FieldIndex(fields: seq<Field>, name: string): (i: nat)
    requires HasField(fields, name)
    ensures i < |fields| && fields[i].name == name
    ensures forall j :: 0 <= j < i ==> fields[j].name != name
  {
    if fields[0].name == name then 0
    else
      assert HasField(fields[1..], name) by {
        var k :| 0 <= k < |fields| && fields[k].name == name;
        assert fields[1..][k - 1].name == name;
      }
      FieldIndex(fields[1..], name) + 1
  }

  /** No two fields share a name. */
  predicate UniqueFieldNames(fields: seq<Field>) {
    forall i, j :: 0 <= i < j < |fields| ==> fields[i].name != fields[j].name
  }

  /** With unique names, `getField` finds the one field of that name. */
  lemma FieldIndexUnique(fields: seq<Field>, k: nat)
    requires UniqueFieldNames(fields) && k < |fields|
    ensures HasField(fields, fields[k].name) && FieldIndex(fields, fields[k].name) == k
  {
    assert fields[k].name == fields[k].name;
  }

  /** The two field lists have the same names in the same places. */
  predicate SameNames(a: seq<Field>, b: seq<Field>) {
    |a| == |b| && forall i :: 0 <= i < |a| ==> a[i].name == b[i].name
  }

  /** One stored field: a name and a value, `None` for a stored null. */
  datatype Entry = Entry(name: string, value: Option<nat>)

  /** The two field lists have the same names and types in the same places. */
  predicate SameShape(a: seq<Field>, b: seq<Field>) {
    SameNames(a, b) && forall i :: 0 <= i < |a| ==> a[i].ftype == b[i].ftype
  }

  /** One step of the field loop in `deserialize`: an unknown name and a
      null value are skipped, and so is a value for a field whose type the
      switch has no case for; otherwise the first field of that name takes
      the value. */
  function ApplyEntry(fields: seq<Field>, e: Entry): (r: seq<Field>)
    ensures SameShape(fields, r)
    ensures !HasField(fields, e.name) || e.value.None? ==> r == fields
    ensures HasField(fields, e.name) && !Handled(fields[FieldIndex(fields, e.name)].ftype) ==> r == fields
    ensures HasField(fields, e.name) && e.value.Some? && Handled(fields[FieldIndex(fields, e.name)].ftype) ==>
              var i := FieldIndex(fields, e.name);
              r[i].value == e.value && forall j :: 0 <= j < |r| && j != i ==> r[j] == fields[j]
  {
    if !HasField(fields, e.name) || e.value.None? then fields
    else
      var i := FieldIndex(fields, e.name);
      if Handled(fields[i].ftype) then fields[i := fields[i].(value := e.value)] else fields
  }

  /** The whole field loop, in stored order: names and types never change,
      and a field whose type has no case keeps its value whatever is stored. */
  function ApplyEntries(fields: seq<Field>, entries: seq<Entry>): (r: seq<Field>)
    ensures SameShape(fields, r)
    ensures forall i :: 0 <= i < |fields| && !Handled(fields[i].ftype) ==> r[i] == fields[i]
    decreases |entries|
  {
    if entries == [] then fields
    else ApplyEntry(ApplyEntries(fields, entries[..|entries| - 1]), entries[|entries| - 1])
  }

  /** The stored form of a system. */
  datatype Stored = Stored(name: Option<string>, selector: Option<string>, fields: seq<Entry>)

  /** The value `serialize` writes for a field: its value when the switch
      has a case for its type, null otherwise. */
  function StoredValue(f: Field): (v: Option<nat>)
    ensures v.Some? <==> Handled(f.ftype) && f.value.Some?
    ensures v.Some? ==> v == f.value
  {
    if Handled(f.ftype) then f.value else None
  }

  /** The fields as stored: one entry per field, in order, with the field's
      name and the value written for it. */
  function Entries(fields: seq<Field>): (r: seq<Entry>)
    ensures |r| == |fields|
    ensures forall i :: 0 <= i < |fields| ==> r[i].name == fields[i].name
    ensures forall i :: 0 <= i < |fields| && Handled(fields[i].ftype) ==> r[i].value == fields[i].value
    ensures forall i :: 0 <= i < |fields| && !Handled(fields[i].ftype) ==> r[i].value.None?
  {
    if fields == [] then [] else [Entry(fields[0].name, StoredValue(fields[0]))] + Entries(fields[1..])
  }

  /** `serialize`: refused (`None`) when no class is loaded; otherwise the
      name, the selector's name or null, and an entry for every field
      (null for a field whose type has no case). */
  function Serialize(s: System): (r: Option<Stored>)
    ensures r.None? <==> s.klass.None?
    ensures r.Some? ==> r.value.name == Some(s.name) && r.value.fields == Entries(s.fields)
    ensures r.Some? ==> (r.value.selector.Some? <==> s.selector.Some?)
  {
    if s.klass.None? then None
    else Some(Stored(Some(s.name), if s.selector.Some? then Some(s.selector.value.name) else None, Entries(s.fields)))
  }

  /** `deserialize`: false without a name; the class is loaded and without
      an instance the result is false; a non-null stored selector is looked
      up in the scene (an unknown name gives no selector); then the stored
      fields are applied. */
  function Deserialize(s: System, stored: Stored, classes: map<string, ScriptClass>, instance: nat,
                       selectors: map<string, Selector>): (r: (System, bool))
    ensures stored.name.None? ==> r == (s, false)
    ensures stored.name.Some? ==> r.0.klass == Load(s, stored.name.value, classes, instance).klass
    ensures r.1 <==> stored.name.Some? && (stored.name.value in classes || s.instance.Some?)
    ensures r.1 ==> SameShape(Load(s, stored.name.value, classes, instance).fields, r.0.fields)
    ensures r.1 ==> var loaded := Load(s, stored.name.value, classes, instance).fields;
              forall i :: 0 <= i < |loaded| && !Handled(loaded[i].ftype) ==> r.0.fields[i] == loaded[i]
    ensures r.1 && stored.selector.Some? ==>
              r.0.selector == (if stored.selector.value in selectors then Some(selectors[stored.selector.value]) else None)
    ensures r.1 && stored.selector.None? ==> r.0.selector == s.selector
  {
    match stored.name
    case None => (s, false)
    case Some(name) =>
      var s1 := Load(s, name, classes, instance);
      if s1.instance.None? then (s1, false)
      else
        var s2 := match stored.selector
          case None => s1
          case Some(n) => s1.(selector := if n in selectors then Some(selectors[n]) else None);
        (s2.(fields := ApplyEntries(s2.fields, stored.fields)), true)
  }

  /** A field list as it reads back after a save and a load over the
      class defaults: the saved field where a value was written (a handled
      type and not null), the class default everywhere else. */
  function Reloaded(saved: seq<Field>, defaults: seq<Field>): (r: seq<Field>)
    requires |saved| == |defaults|
    ensures |r| == |saved|
  {
    seq(|saved|, i requires 0 <= i < |saved| => if StoredValue(saved[i]).Some? then saved[i] else defaults[i])
  }

  /** One step of the field loop on a list that already holds the reloaded
      fields before position `j` and the class defaults from `j` on: the
      entry for field `j` fills that position, with the saved field when a
      value was written for it and with the default otherwise. */
  lemma ApplyStep(defaults: seq<Field>, fields: seq<Field>, j: nat)
    requires SameShape(defaults, fields) && UniqueFieldNames(defaults)
    requires j < |fields|
    ensures var done := Reloaded(fields, defaults);
            ApplyEntry(done[..j] + defaults[j..], Entries(fields)[j]) == done[..j + 1] + defaults[j + 1..]
  {
    var done := Reloaded(fields, defaults);
    var prev := done[..j] + defaults[j..];
    var e := Entries(fields)[j];
    assert UniqueFieldNames(prev) by {
      forall a, b | 0 <= a < b < |prev| ensures prev[a].name != prev[b].name {
        assert prev[a].name == defaults[a].name && prev[b].name == defaults[b].name;
      }
    }
    FieldIndexUnique(prev, j);
    assert prev[j] == defaults[j];
    SpliceStep(done, defaults, j);
    if StoredValue(fields[j]).Some? {
      assert defaults[j].(value := e.value) == fields[j];
    }
  }

  /** Moving the boundary of a splice one place to the right replaces one
      element. */
  lemma SpliceStep<T>(a: seq<T>, b: seq<T>, j: nat)
    requires |a| == |b| && j < |a|
    ensures (a[..j] + b[j..])[j := a[j]] == a[..j + 1] + b[j + 1..]
    ensures (a[..j] + b[j..])[j] == b[j]
  {
    assert a[..j + 1] == a[..j] + [a[j]];
    assert b[j..] == [b[j]] + b[j + 1..];
  }

  /** Applying the entries of the first `k` fields to the class defaults
      gives the reloaded fields there and leaves the defaults after. */
  lemma {:induction false} ApplyPrefix(defaults: seq<Field>, fields: seq<Field>, k: nat)
    requires SameShape(defaults, fields) && UniqueFieldNames(defaults)
    requires k <= |fields|
    ensures ApplyEntries(defaults, Entries(fields)[..k]) == Reloaded(fields, defaults)[..k] + defaults[k..]
    decreases k
  {
    if k == 0 {
      assert Entries(fields)[..0] == [];
      assert defaults[0..] == defaults;
    } else {
      var es := Entries(fields)[..k];
      assert es[..k - 1] == Entries(fields)[..k - 1];
      assert es[k - 1] == Entries(fields)[k - 1];
      ApplyPrefix(defaults, fields, k - 1);
      ApplyStep(defaults, fields, k - 1);
    }
  }

  /** Saving a loaded system and loading the result into a fresh system
      restores its name, hooks and selector, provided the class still has
      the same fields (same names and types, unique names) and the scene
      still has the selector. A field of a handled type with a non-null
      value comes back; every other field (a null, or an `int`, prefab,
      geometry or untyped field, which is saved as null) comes back as the
      class default. So every field comes back exactly when all fields are
      handled and the class default is null wherever the saved value is. */
  lemma SerializeRoundTrip(s: System, classes: map<string, ScriptClass>, instance: nat, selectors: map<string, Selector>)
    requires s.klass.Some? && s.name in classes
    requires var c := classes[s.name]; SameShape(c.fields, s.fields) && UniqueFieldNames(c.fields)
    requires s.selector.Some? ==> s.selector.value.name in selectors && selectors[s.selector.value.name] == s.selector.value
    ensures var r := Deserialize(New(), Serialize(s).value, classes, instance, selectors);
            r.1 && r.0.name == s.name && r.0.hooks == classes[s.name].hooks && r.0.selector == s.selector
    ensures var r := Deserialize(New(), Serialize(s).value, classes, instance, selectors);
            var c := classes[s.name];
            |r.0.fields| == |s.fields| &&
            (forall i :: 0 <= i < |s.fields| && Handled(s.fields[i].ftype) && s.fields[i].value.Some? ==> r.0.fields[i] == s.fields[i]) &&
            (forall i :: 0 <= i < |s.fields| && (!Handled(s.fields[i].ftype) || s.fields[i].value.None?) ==> r.0.fields[i] == c.fields[i])
    ensures (forall i :: 0 <= i < |s.fields| ==> Handled(s.fields[i].ftype) && (s.fields[i].value.None? ==> classes[s.name].fields[i].value.None?)) ==>
              Deserialize(New(), Serialize(s).value, classes, instance, selectors).0.fields == s.fields
  {
    RoundTripReloads(s, classes, instance, selectors);
    ReloadedKeepsWritten(s.fields, classes[s.name].fields);
  }

  /** A saved `int` field comes back as the class default: `serialize`
      writes null for it. */
  lemma IntegerFieldResets()
    ensures var c := ScriptClass(1, {}, [Field("speed", Integer, Some(0))]);
            var s := System("Mover", Some(1), Some(5), {}, [Field("speed", Integer, Some(7))], None, None);
            Deserialize(New(), Serialize(s).value, map["Mover" := c], 6, map[]).0.fields == [Field("speed", Integer, Some(0))]
  {
    var c := ScriptClass(1, {}, [Field("speed", Integer, Some(0))]);
    var s := System("Mover", Some(1), Some(5), {}, [Field("speed", Integer, Some(7))], None, None);
    SerializeRoundTrip(s, map["Mover" := c], 6, map[]);
  }

  /** A reloaded list holds the saved field wherever a value was written
      and the default elsewhere; it is the saved list itself when every
      field is handled and the default is null wherever the saved value
      is. */
  lemma ReloadedKeepsWritten(saved: seq<Field>, defaults: seq<Field>)
    requires SameShape(defaults, saved)
    ensures var r := Reloaded(saved, defaults);
            |r| == |saved| &&
            (forall i :: 0 <= i < |saved| && Handled(saved[i].ftype) && saved[i].value.Some? ==> r[i] == saved[i]) &&
            (forall i :: 0 <= i < |saved| && (!Handled(saved[i].ftype) || saved[i].value.None?) ==> r[i] == defaults[i])
    ensures (forall i :: 0 <= i < |saved| ==> Handled(saved[i].ftype) && (saved[i].value.None? ==> defaults[i].value.None?)) ==>
              Reloaded(saved, defaults) == saved
  {
    var r := Reloaded(saved, defaults);
    if forall i :: 0 <= i < |saved| ==> Handled(saved[i].ftype) && (saved[i].value.None? ==> defaults[i].value.None?) {
      forall i | 0 <= i < |saved|
        ensures r[i] == saved[i]
      {
        if saved[i].value.None? {
          assert defaults[i] == Field(saved[i].name, saved[i].ftype, None);
        }
      }
    }
  }

  /** The round trip in terms of `Reloaded`. */
  lemma RoundTripReloads(s: System, classes: map<string, ScriptClass>, instance: nat, selectors: map<string, Selector>)
    requires s.klass.Some? && s.name in classes
    requires var c := classes[s.name]; SameShape(c.fields, s.fields) && UniqueFieldNames(c.fields)
    requires s.selector.Some? ==> s.selector.value.name in selectors && selectors[s.selector.value.name] == s.selector.value
    ensures var r := Deserialize(New(), Serialize(s).value, classes, instance, selectors);
            r.1 && r.0.name == s.name && r.0.hooks == classes[s.name].hooks && r.0.selector == s.selector &&
            r.0.fields == Reloaded(s.fields, classes[s.name].fields)
  {
    var c := classes[s.name];
    var st := Serialize(s).value;
    assert st.name == Some(s.name) && st.fields == Entries(s.fields);
    var s1 := Load(New(), s.name, classes, instance);
    assert s1.instance.Some? && s1.fields == c.fields;
    ApplyPrefix(c.fields, s.fields, |s.fields|);
    assert Entries(s.fields)[..|s.fields|] == Entries(s.fields);
    var done := Reloaded(s.fields, c.fields);
    assert done[..|s.fields|] + c.fields[|s.fields|..] == done;
    assert ApplyEntries(c.fields, st.fields) == done;
  }

  /** The length `updateEntitiesArray` wants: the selector's size, 0
      without a selector. */
  function WantedLength(s: System): (n: nat)
    ensures s.selector.Some? ==> n == |s.selector.value.entities|
    ensures s.selector.None? ==> n == 0
  {
    if s.selector.Some? then |s.selector.value.entities| else 0
  }

  /** The script-side references to a selector's entities, in order. */
  function Refs(es: seq<nat>): (r: seq<Option<nat>>)
    ensures |r| == |es|
    ensures forall i :: 0 <= i < |es| ==> r[i] == Some(es[i])
  {
    if es == [] then [] else [Some(es[0])] + Refs(es[1..])
  }

  /** What the array holds after an update: the selector's entities, or
      nothing without a selector. */
  function Expected(s: System): (r: seq<Option<nat>>)
    ensures |r| == WantedLength(s)
  {
    if s.selector.Some? then Refs(s.selector.value.entities) else []
  }

  /** `updateEntitiesArray`: a new (all-null) array is made when there is
      none or its length is wrong; then, with a selector, every slot is set
      to the matching entity. `reallocated` reports whether a new array was
      made. */
  method UpdateEntitiesArray(s: System) returns (s': System, reallocated: bool)
    ensures reallocated <==> s.entities.None? || |s.entities.value| != WantedLength(s)
    ensures s'.entities == Some(Expected(s))
    ensures s' == s.(entities := s'.entities)
  {
    var length := WantedLength(s);
    var arr: seq<Option<nat>>;
    if s.entities.None? || |s.entities.value| != length {
      arr := seq(length, _ => None);
      reallocated := true;
    } else {
      arr := s.entities.value;
      reallocated := false;
    }
    if s.selector.None? {
      assert arr == [];
      s' := s.(entities := Some(arr));
      return;
    }
    var es := s.selector.value.entities;
    var i := 0;
    while i < length
      invariant 0 <= i <= length && |arr| == length
      invariant forall k :: 0 <= k < i ==> arr[k] == Some(es[k])
    {
      arr := arr[i := Some(es[i])];
      i := i + 1;
    }
    assert arr == Refs(es);
    s' := s.(entities := Some(arr));
  }

  /** A second refresh with the same selector reuses the array the first
      one left and leaves it as it was. Entity wrappers are modelled by the
      entities' ids: the source's locator allocates fresh wrapper objects on
      every refresh, so "as it was" means the same entities in the same
      order, not the same objects. */
  method RefreshTwice(s: System) returns (s': System, again: bool)
    ensures !again
    ensures s'.entities == Some(Expected(s)) && s' == s.(entities := s'.entities)
  {
    var s1, r1 := UpdateEntitiesArray(s);
    s', again := UpdateEntitiesArray(s1);
  }

  /** What `update` hands the script: the frame delta and the array. */
  datatype UpdateCall = UpdateCall(delta: real, entities: seq<Option<nat>>)

  /** `update`: only when the class defines the hook, the entity array is
      refreshed and the hook is called with the delta and the array. */
  method UpdateSystem(s: System, delta: real) returns (s': System, calls: seq<UpdateCall>)
    ensures Update !in s.hooks ==> s' == s && calls == []
    ensures Update in s.hooks ==> calls == [UpdateCall(delta, Expected(s))] && s' == s.(entities := Some(Expected(s)))
  {
    if Update !in s.hooks {
      return s, [];
    }
    var reallocated;
    s', reallocated := UpdateEntitiesArray(s);
    calls := [UpdateCall(delta, s'.entities.value)];
  }
}

=== FILE: Serializer.dfy ===
/** The serializer's object table (runtime `io::Serializer`).

    Every live serializable object sits in the slot whose index is its handle.
    Slots of removed objects become null and are reused by later additions; a
    flag records, conservatively, that some slot may be null so that the scan
    for a free slot can be skipped when none can exist. */
module Serializer {
  import opened Wrappers

  /** A serializable handle. `Invalid` is the reserved "no handle" value; its
      numeric encoding is not part of this model. */
  datatype Handle = Invalid | Valid(index: nat)

  /** A serializable object: an identity (its address) and the handle it carries. */
  datatype Object = Object(id: nat, handle: Handle)

  /** The object table: `None` is a null slot. */
  datatype Table = Table(slots: seq<Option<Object>>, hasNull: bool)

  /** A freshly constructed serializer: no slots, flag clear. */
  const Empty := Table([], false)

  /** The flag is never a false negative: if a slot is null, the flag is set. */
  predicate NullFlagSound(t: Table) {
    (exists i :: 0 <= i < |t.slots| && t.slots[i].None?) ==> t.hasNull
  }

  /** Every stored object carries the handle of the slot it sits in. */
  predicate HandlesAgree(t: Table) {
    forall i :: 0 <= i < |t.slots| && t.slots[i].Some? ==> t.slots[i].value.handle == Valid(i)
  }

  predicate WellFormed(t: Table) {
    NullFlagSound(t) && HandlesAgree(t)
  }

  /** True if `i` is the lowest null slot. */
  predicate LowestNull(slots: seq<Option<Object>>, i: nat) {
    i < |slots| && slots[i].None? && forall j :: 0 <= j < i ==> slots[j].Some?
  }

  /** `nextAvailableHandle`: with the flag clear, append a null slot and return
      its index; otherwise return the lowest null slot, and if the flag was a
      false positive, clear it and append. The returned slot is always null. */
  method NextAvailableHandle(t: Table) returns (t': Table, h: nat)
    ensures h < |t'.slots| && t'.slots[h].None?
    ensures !t.hasNull ==> t'.slots == t.slots + [None] && h == |t.slots| && t'.hasNull == t.hasNull
    ensures t.hasNull && (exists i :: 0 <= i < |t.slots| && t.slots[i].None?) ==>
              t' == t && LowestNull(t.slots, h)
    ensures t.hasNull && (forall i :: 0 <= i < |t.slots| ==> t.slots[i].Some?) ==>
              t'.slots == t.slots + [None] && h == |t.slots| && !t'.hasNull
  {
    if !t.hasNull {
      t' := t.(slots := t.slots + [None]);
      h := |t.slots|;
      return;
    }
    var i := 0;
    while i < |t.slots|
      invariant 0 <= i <= |t.slots|
      invariant forall j :: 0 <= j < i ==> t.slots[j].Some?
    {
      if t.slots[i].None? {
        t', h := t, i;
        return;
      }
      i := i + 1;
    }
    t' := Table(t.slots + [None], false);
    h := |t.slots|;
  }

  /** `add`: the object must not carry a handle yet. It receives the next
      available handle and is stored in that slot. */
  method Add(t: Table, o: Object) returns (t': Table, o': Object)
    requires WellFormed(t)
    requires o.handle == Invalid
    ensures WellFormed(t')
    ensures o'.id == o.id && o'.handle.Valid?
    ensures o'.handle.index < |t'.slots| && t'.slots[o'.handle.index] == Some(o')
    ensures o'.handle.index >= |t.slots| || t.slots[o'.handle.index].None?
    ensures |t'.slots| >= |t.slots|
    ensures forall i :: 0 <= i < |t.slots| && i != o'.handle.index ==> t'.slots[i] == t.slots[i]
  {
    var t1, h := NextAvailableHandle(t);
    o' := o.(handle := Valid(h));
    t' := t1.(slots := t1.slots[h := Some(o')]);
    if exists i :: 0 <= i < |t'.slots| && t'.slots[i].None? {
      var i :| 0 <= i < |t'.slots| && t'.slots[i].None?;
      assert i < |t.slots| && t.slots[i].None?;
    }
  }

  /** `remove` as intended: `h` must name an existing slot. The slot becomes
      null and the flag is set; every other slot is unchanged. The flag in the result reports
      the source's warning for a slot that was already null. */
  function Remove(t: Table, h: nat): (r: (Table, bool))
    requires h < |t.slots|
    ensures |r.0.slots| == |t.slots| && r.0.slots[h].None? && r.0.hasNull
    ensures forall i :: 0 <= i < |t.slots| && i != h ==> r.0.slots[i] == t.slots[i]
    ensures r.1 <==> t.slots[h].None?
    ensures HandlesAgree(t) ==> WellFormed(r.0)
  {
    (Table(t.slots[h := None], true), t.slots[h].None?)
  }

  /** `get` as intended: the object in slot `h` (possibly null). */
  function Get(t: Table, h: nat): (r: Option<Object>)
    requires h < |t.slots|
    ensures HandlesAgree(t) && r.Some? ==> r.value.handle == Valid(h)
  {
    t.slots[h]
  }

  /** The guard of `get` as written: it admits a handle only when the table is
      no longer than the handle, i.e. exactly the handles with no slot. */
  predicate GetGuardAsWritten(t: Table, h: nat) {
    |t.slots| <= h
  }

  /** The guard of `remove` as written: it admits a handle equal to the table
      length, one past the last slot. */
  predicate RemoveGuardAsWritten(t: Table, h: nat) {
    |t.slots| >= h
  }

  /** The `get` guard as written is the negation of the intended precondition:
      it rejects every existing slot and admits only out-of-range handles. */
  lemma GetGuardInverted(t: Table, h: nat)
    ensures GetGuardAsWritten(t, h) <==> !(h < |t.slots|)
  {
  }

  /** The `remove` guard as written is off by one: on the empty table it
      admits handle 0, which names no slot. */
  lemma RemoveGuardOffByOne()
    ensures RemoveGuardAsWritten(Empty, 0) && !(0 < |Empty.slots|)
  {
  }

  /** `parseType`'s slot logic: a handle past the end grows the table to `h+1`
      with null padding and sets the flag; otherwise the slot must be null.
      The object is then stored at its handle. */
  function ParseType(t: Table, o: Object): (t': Table)
    requires o.handle.Valid?
    requires o.handle.index >= |t.slots| || t.slots[o.handle.index].None?
    ensures |t'.slots| == if o.handle.index < |t.slots| then |t.slots| else o.handle.index + 1
    ensures t'.slots[o.handle.index] == Some(o)
    ensures forall i :: 0 <= i < |t.slots| && i != o.handle.index ==> t'.slots[i] == t.slots[i]
    ensures forall i :: |t.slots| <= i < |t'.slots| && i != o.handle.index ==> t'.slots[i].None?
    ensures o.handle.index >= |t.slots| ==> t'.hasNull
    ensures o.handle.index < |t.slots| ==> t'.hasNull == t.hasNull
  {
    var h := o.handle.index;
    if h + 1 > |t.slots| then
      var grown := t.slots + seq(h + 1 - |t.slots|, _ => None);
      Table(grown[h := Some(o)], true)
    else
      t.(slots := t.slots[h := Some(o)])
  }

  /** `parseType` keeps the table valid. */
  lemma ParseTypePreserves(t: Table, o: Object)
    requires WellFormed(t)
    requires o.handle.Valid?
    requires o.handle.index >= |t.slots| || t.slots[o.handle.index].None?
    ensures WellFormed(ParseType(t, o))
  {
    var t' := ParseType(t, o);
    var h := o.handle.index;
    if h < |t.slots| {
      if exists i :: 0 <= i < |t'.slots| && t'.slots[i].None? {
        var i :| 0 <= i < |t'.slots| && t'.slots[i].None?;
        assert i != h && t.slots[i].None?;
      }
    }
  }

  /** The cache-hit path of `getOrRead`: a populated slot is returned without
      reading; `None` means the object has to be read from disk. */
  function CachedLookup(t: Table, h: nat): (r: Option<Object>)
    ensures r.Some? <==> h < |t.slots| && t.slots[h].Some?
    ensures r.Some? ==> r == Get(t, h)
  {
    if h < |t.slots| && t.slots[h].Some? then t.slots[h] else None
  }

  /** Adding an object and then looking up its handle finds that object. */
  method AddThenGet(t: Table, o: Object) returns (found: Option<Object>)
    requires WellFormed(t)
    requires o.handle == Invalid
    ensures found.Some? && found.value.id == o.id
  {
    var t', o' := Add(t, o);
    found := CachedLookup(t', o'.handle.index);
  }

  /** After `parseType` stores an object, `get` of its handle returns it and
      `get` of every other existing handle returns what it did before. */
  lemma GetAfterParseType(t: Table, o: Object, k: nat)
    requires o.handle.Valid?
    requires o.handle.index >= |t.slots| || t.slots[o.handle.index].None?
    requires k < |t.slots|
    ensures Get(ParseType(t, o), o.handle.index) == Some(o)
    ensures k != o.handle.index ==> Get(ParseType(t, o), k) == Get(t, k)
  {
  }

  /** After `remove(h)`, `get(h)` returns null and `get` of every other
      handle returns what it did before. */
  lemma GetAfterRemove(t: Table, h: nat, k: nat)
    requires h < |t.slots| && k < |t.slots|
    ensures Get(Remove(t, h).0, h).None?
    ensures k != h ==> Get(Remove(t, h).0, k) == Get(t, k)
  {
  }

  /** After `add`, `get` of the new handle returns the added object, now
      carrying that handle, and `get` of every other existing handle
      returns what it did before. */
  method GetAfterAdd(t: Table, o: Object, k: nat) returns (added: Option<Object>, other: Option<Object>)
    requires WellFormed(t)
    requires o.handle == Invalid
    requires k < |t.slots|
    ensures added.Some? && added.value.id == o.id && added.value.handle.Valid?
    ensures other == Get(t, k) || (t.slots[k].None? && added.value.handle == Valid(k))
  {
    var t', o' := Add(t, o);
    added := Get(t', o'.handle.index);
    other := Get(t', k);
  }

  /** Removing a handle makes the next lookup miss the cache. */
  lemma RemoveThenMiss(t: Table, h: nat)
    requires h < |t.slots|
    ensures CachedLookup(Remove(t, h).0, h).None?
  {
  }

  /** After a removal the next handed-out handle is the lowest null slot,
      which is at most the removed one: freed slots are reused. */
  method RemoveThenReuse(t: Table, h: nat) returns (h': nat)
    requires WellFormed(t)
    requires h < |t.slots|
    ensures h' <= h
  {
    var t1 := Remove(t, h).0;
    assert t1.slots[h].None?;
    var t2;
    t2, h' := NextAvailableHandle(t1);
  }
}

=== FILE: TagSelector.dfy ===
/** A tag selector (runtime `scene::TagSelector`): a tag set and the
    entities of its scene that carry any of those tags, in scene order. */
module TagSelector {
  import opened Wrappers
  import E = Entity

  datatype Selector = Selector(tags: E.Tags, entities: seq<E.Entity>)

  /** `addTag`: the same bit semantics as the entity's `addTag`. */
  function AddTag(s: Selector, t: E.Tags): (s': Selector)
    ensures s'.tags == E.WithTags(s.tags, t) && s'.entities == s.entities
  {
    s.(tags := E.WithTags(s.tags, t))
  }

  /** `removeTag`: the same bit semantics as the entity's `removeTag`. */
  function RemoveTag(s: Selector, t: E.Tags): (s': Selector)
    ensures s'.tags == E.WithoutTags(s.tags, t) && s'.entities == s.entities
  {
    s.(tags := E.WithoutTags(s.tags, t))
  }

  /** `hasTag`: any bit in common. */
  predicate HasTag(s: Selector, t: E.Tags) {
    E.Overlaps(s.tags, t)
  }

  /** The selector's tag operations agree with the entity's on the same tag
      set. */
  lemma SameTagSemantics(s: Selector, e: E.Entity, t: E.Tags)
    requires s.tags == e.tags
    ensures AddTag(s, t).tags == E.AddTag(e, t).tags
    ensures RemoveTag(s, t).tags == E.RemoveTag(e, t).tags
    ensures HasTag(s, t) == E.HasTag(e, t)
  {
  }

  /** `isSelected`: the entity shares a tag with the selector. */
  predicate IsSelected(s: Selector, e: E.Entity) {
    E.Overlaps(e.tags, s.tags)
  }

  /** A selector without tags selects nothing. */
  lemma NoTagsSelectNothing(s: Selector, e: E.Entity)
    requires s.tags == 0
    ensures !IsSelected(s, e)
  {
    assert e.tags & 0 == 0;
  }

  /** `onEntityAdded`: the entity is appended exactly when selected. */
  function OnEntityAdded(s: Selector, e: E.Entity): (s': Selector)
    ensures IsSelected(s, e) ==> s'.entities == s.entities + [e]
    ensures !IsSelected(s, e) ==> s'.entities == s.entities
    ensures s'.tags == s.tags
  {
    if IsSelected(s, e) then s.(entities := s.entities + [e]) else s
  }

  /** `size`: the number of selected entities. */
  function Size(s: Selector): (n: nat)
    ensures n == |s.entities|
  {
    |s.entities|
  }

  /** The entities of `es` that carry one of `tags`, in order. */
  function Selected(tags: E.Tags, es: seq<E.Entity>): (r: seq<E.Entity>)
    ensures |r| <= |es|
    ensures forall e :: e in r <==> e in es && E.Overlaps(e.tags, tags)
  {
    if es == [] then []
    else
      var rest := Selected(tags, es[..|es| - 1]);
      var last := es[|es| - 1];
      assert es == es[..|es| - 1] + [last];
      if E.Overlaps(last.tags, tags) then rest + [last] else rest
  }

  /** `regenerate`: the list is cleared and, when the selector has a scene,
      every scene entity is offered in scene order. */
  method Regenerate(s: Selector, scene: Option<seq<E.Entity>>) returns (s': Selector)
    ensures s'.tags == s.tags
    ensures scene.None? ==> s'.entities == []
    ensures scene.Some? ==> s'.entities == Selected(s.tags, scene.value)
    ensures forall e :: e in s'.entities <==> scene.Some? && e in scene.value && IsSelected(s, e)
  {
    s' := s.(entities := []);
    if scene.Some? {
      var es := scene.value;
      var i := 0;
      while i < |es|
        invariant 0 <= i <= |es|
        invariant s'.tags == s.tags
        invariant s'.entities == Selected(s.tags, es[..i])
      {
        assert es[..i + 1][..i] == es[..i];
        s' := OnEntityAdded(s', es[i]);
        i := i + 1;
      }
      assert es[..i] == es;
    }
  }
}

=== FILE: TextureSource.dfy ===
/** A texture source (runtime `asset::TextureSource`): a file decoded into
    pixels, with its size, channel count, an HDR flag and a load error. */
module TextureSource {
  import opened Wrappers
  import Loader

  datatype LoadError = NONE | BAD_FILE | BAD_FORMAT

  /** The decoder's result: width, height and channel count. */
  datatype Image = Image(width: nat, height: nat, bpp: nat)

  datatype Source = Source(width: nat, height: nat, bpp: nat, hdr: bool, loaded: bool, error: LoadError)

  /** The constructor: a missing file is a `BAD_FILE` error; nothing is
      decoded yet. */
  function Create(fileExists: bool): (s: Source)
    ensures s.error == BAD_FILE <==> !fileExists
    ensures s.error != BAD_FORMAT && !s.hdr && !s.loaded
  {
    Source(0, 0, 0, false, false, if fileExists then NONE else BAD_FILE)
  }

  /** `load` (8-bit) and `loadHdr` (float, which also sets the HDR flag):
      `decoded` is the decoder's result, `None` when it failed, in which case
      the error becomes `BAD_FORMAT` and the size stays as it was. */
  function Load(s: Source, decoded: Option<Image>, hdr: bool): (s': Source)
    ensures s'.hdr == (s.hdr || hdr)
    ensures s'.loaded <==> decoded.Some?
    ensures decoded.None? ==> s'.error == BAD_FORMAT && s'.width == s.width && s'.height == s.height && s'.bpp == s.bpp
    ensures decoded.Some? ==>
              (s'.error == s.error && s'.width == decoded.value.width &&
               s'.height == decoded.value.height && s'.bpp == decoded.value.bpp)
  {
    var s1 := if hdr then s.(hdr := true) else s;
    match decoded
    case None => s1.(loaded := false, error := BAD_FORMAT)
    case Some(img) => s1.(width := img.width, height := img.height, bpp := img.bpp, loaded := true)
  }

  /** `getSize`: the pixel data size in bytes; float pixels take 4 bytes per
      channel. */
  function GetSize(s: Source): (n: nat)
    ensures s.hdr ==> n == 4 * (s.width * s.height * s.bpp)
    ensures !s.hdr ==> n == s.width * s.height * s.bpp
  {
    s.width * s.height * s.bpp * (if s.hdr then 4 else 1)
  }

  /** `getFormat`: defined only for 1 to 4 channels (any other count runs
      off the end of the function). With HDR, 3 channels log a fatal error
      and fall through to the 4-channel float format. */
  function GetFormat(s: Source): (f: Loader.TextureFormat)
    requires 1 <= s.bpp <= 4
    ensures s.hdr && s.bpp != 3 ==> f == Loader.HdrFormat(s.bpp)
    ensures s.hdr && s.bpp == 3 ==> f == Loader.RGBA32F
    ensures !s.hdr ==> f == Loader.LdrFormat(s.bpp)
  {
    if s.hdr then
      match s.bpp
      case 1 => Loader.R32F
      case 2 => Loader.RG32F
      case _ => Loader.RGBA32F
    else
      match s.bpp
      case 1 => Loader.R8
      case 2 => Loader.RG8
      case 3 => Loader.RGB8
      case _ => Loader.RGBA8
  }

  /** The texture source and the loader agree on the format of every image
      both accept, and they disagree only on 3-channel HDR images, where the
      loader leaves the format unset. */
  lemma FormatAgreesWithLoader(s: Source)
    requires 1 <= s.bpp <= 4
    ensures s.hdr ==> (GetFormat(s) == Loader.HdrFormat(s.bpp) <==> s.bpp != 3)
    ensures !s.hdr ==> GetFormat(s) == Loader.LdrFormat(s.bpp)
    ensures Loader.Channels(GetFormat(s)) == if s.hdr && s.bpp == 3 then 4 else s.bpp
  {
  }

  /** A source decoded from an existing file reports no error and its size
      is the decoder's size times the bytes per channel. */
  lemma LoadedSize(img: Image, hdr: bool)
    ensures var s := Load(Create(true), Some(img), hdr);
            s.error == NONE && GetSize(s) == img.width * img.height * img.bpp * (if hdr then 4 else 1)
  {
  }
}

=== FILE: Vfs.dfy ===
/** The editor's virtual file system (editor `vfs::VFS` and
    `vfs::Directory`): a tree of named directories holding named files that
    point at serializable handles. Objects live in an arena of ids; a
    directory lists its sub-directories and files by id in insertion order
    and each object records its parent. Deleting an object is not
    modelled: a removed directory or file stays in the arena, detached. */
module Vfs {
  import opened Wrappers

  datatype Dir = Dir(name: string, parent: Option<nat>, dirs: seq<nat>, files: seq<nat>)

  datatype File = File(name: string, handle: nat, parent: Option<nat>)

  datatype Vfs = Vfs(dirs: map<nat, Dir>, files: map<nat, File>, root: nat)

  /** The VFS constructor: a lone root directory named "/". */
  function New(rootId: nat): (v: Vfs)
    ensures v.root in v.dirs && v.dirs[v.root].parent.None? && v.dirs[v.root].name == "/"
    ensures v.dirs[v.root].dirs == [] && v.dirs[v.root].files == []
  {
    Vfs(map[rootId := Dir("/", None, [], [])], map[], rootId)
  }

  /** Every child the directory lists exists (the source dereferences them
      all when it searches). */
  predicate DirLinked(v: Vfs, d: nat) {
    d in v.dirs && (forall c :: c in v.dirs[d].dirs ==> c in v.dirs) && (forall f :: f in v.dirs[d].files ==> f in v.files)
  }

  /** Every listed child of every directory exists, and so does the root. */
  predicate Linked(v: Vfs) {
    v.root in v.dirs && forall d :: d in v.dirs ==> DirLinked(v, d)
  }

  /** The `Directory` constructor with a parent: the new directory is
      registered at the end of the parent's list. */
  function NewDirectory(v: Vfs, id: nat, name: string, parent: Option<nat>): (v': Vfs)
    requires id !in v.dirs && (parent.Some? ==> parent.value in v.dirs)
    ensures id in v'.dirs && v'.dirs[id] == Dir(name, parent, [], []) && v'.files == v.files && v'.root == v.root
    ensures parent.Some? ==> parent.value in v'.dirs && v'.dirs[parent.value].dirs == v.dirs[parent.value].dirs + [id]
    ensures forall d :: d in v.dirs && Some(d) != parent ==> d in v'.dirs && v'.dirs[d] == v.dirs[d]
  {
    var v1 := v.(dirs := v.dirs[id := Dir(name, parent, [], [])]);
    match parent
    case None => v1
    case Some(p) => v1.(dirs := v1.dirs[p := v.dirs[p].(dirs := v.dirs[p].dirs + [id])])
  }

  /** `createDirectory`: a new child, with no check for a sibling of the
      same name. */
  function CreateDirectory(v: Vfs, d: nat, id: nat, name: string): (v': Vfs)
    requires d in v.dirs && id !in v.dirs
    ensures d in v'.dirs && id in v'.dirs
    ensures v'.dirs[d].dirs == v.dirs[d].dirs + [id] && v'.dirs[id] == Dir(name, Some(d), [], [])
  {
    NewDirectory(v, id, name, Some(d))
  }

  /** The names of a directory's files, in its order. */
  function FileNames(v: Vfs, d: nat): (r: seq<string>)
    requires DirLinked(v, d)
    ensures |r| == |v.dirs[d].files|
    ensures forall i :: 0 <= i < |r| ==> r[i] == v.files[v.dirs[d].files[i]].name
  {
    var fs := v.dirs[d].files;
    seq(|fs|, i requires 0 <= i < |fs| => v.files[fs[i]].name)
  }

  /** The names of a directory's sub-directories, in its order. */
  function DirNames(v: Vfs, d: nat): (r: seq<string>)
    requires DirLinked(v, d)
    ensures |r| == |v.dirs[d].dirs|
    ensures forall i :: 0 <= i < |r| ==> r[i] == v.dirs[v.dirs[d].dirs[i]].name
  {
    var ds := v.dirs[d].dirs;
    seq(|ds|, i requires 0 <= i < |ds| => v.dirs[ds[i]].name)
  }

  /** The first position holding `n`, if any. */
  function First(names: seq<string>, n: string): (r: Option<nat>)
    ensures r.None? <==> n !in names
    ensures r.Some? ==> r.value < |names| && names[r.value] == n && n !in names[..r.value]
  {
    if names == [] then None
    else if names[0] == n then Some(0)
    else
      match First(names[1..], n)
      case None => None
      case Some(i) =>
        assert names[..i + 1] == [names[0]] + names[1..][..i];
        Some(i + 1)
  }

  /** `hasFile`: some file of the directory has the name. */
  predicate HasFile(v: Vfs, d: nat, n: string)
    requires DirLinked(v, d)
  {
    exists i :: 0 <= i < |v.dirs[d].files| && v.files[v.dirs[d].files[i]].name == n
  }

  /** `getFile`: the first file with the name, `None` for null. */
  function GetFile(v: Vfs, d: nat, n: string): (r: Option<nat>)
    requires DirLinked(v, d)
    ensures r.Some? ==> r.value in v.dirs[d].files && r.value in v.files && v.files[r.value].name == n
  {
    match First(FileNames(v, d), n)
    case None => None
    case Some(i) => Some(v.dirs[d].files[i])
  }

  /** `hasFile` and `getFile` agree: a file is found exactly when one has
      the name, and the one found comes before every other of that name. */
  lemma HasFileIffGetFile(v: Vfs, d: nat, n: string)
    requires DirLinked(v, d)
    ensures HasFile(v, d, n) <==> GetFile(v, d, n).Some?
    ensures GetFile(v, d, n).Some? ==>
              exists i :: 0 <= i < |v.dirs[d].files| && v.dirs[d].files[i] == GetFile(v, d, n).value &&
                          forall j :: 0 <= j < i ==> v.files[v.dirs[d].files[j]].name != n
  {
    var names := FileNames(v, d);
    if HasFile(v, d, n) {
      var i :| 0 <= i < |v.dirs[d].files| && v.files[v.dirs[d].files[i]].name == n;
      assert names[i] == n;
    }
    match First(names, n)
    case None =>
    case Some(i) =>
      forall j | 0 <= j < i ensures v.files[v.dirs[d].files[j]].name != n {
        assert names[..i][j] == names[j];
      }
  }

  /** `hasDirectory`: some sub-directory has the name. */
  predicate HasDirectory(v: Vfs, d: nat, n: string)
    requires DirLinked(v, d)
  {
    exists i :: 0 <= i < |v.dirs[d].dirs| && v.dirs[v.dirs[d].dirs[i]].name == n
  }

  /** `getDirectory`: the first sub-directory with the name. */
  function GetDirectory(v: Vfs, d: nat, n: string): (r: Option<nat>)
    requires DirLinked(v, d)
    ensures r.Some? ==> r.value in v.dirs[d].dirs && r.value in v.dirs && v.dirs[r.value].name == n
  {
    match First(DirNames(v, d), n)
    case None => None
    case Some(i) => Some(v.dirs[d].dirs[i])
  }

  /** `hasDirectory` and `getDirectory` agree, and the one found is the
      first of that name. */
  lemma HasDirectoryIffGetDirectory(v: Vfs, d: nat, n: string)
    requires DirLinked(v, d)
    ensures HasDirectory(v, d, n) <==> GetDirectory(v, d, n).Some?
    ensures GetDirectory(v, d, n).Some? ==>
              exists i :: 0 <= i < |v.dirs[d].dirs| && v.dirs[d].dirs[i] == GetDirectory(v, d, n).value &&
                          forall j :: 0 <= j < i ==> v.dirs[v.dirs[d].dirs[j]].name != n
  {
    var names := DirNames(v, d);
    if HasDirectory(v, d, n) {
      var i :| 0 <= i < |v.dirs[d].dirs| && v.dirs[v.dirs[d].dirs[i]].name == n;
      assert names[i] == n;
    }
    match First(names, n)
    case None =>
    case Some(i) =>
      forall j | 0 <= j < i ensures v.dirs[v.dirs[d].dirs[j]].name != n {
        assert names[..i][j] == names[j];
      }
  }

  /** A directory just created under a parent with no sibling of that name
      is what a lookup of the name finds. */
  lemma CreateThenGet(v: Vfs, d: nat, id: nat, name: string)
    requires DirLinked(v, d) && id !in v.dirs && !HasDirectory(v, d, name)
    ensures DirLinked(CreateDirectory(v, d, id, name), d)
    ensures GetDirectory(CreateDirectory(v, d, id, name), d, name) == Some(id)
  {
    var v' := CreateDirectory(v, d, id, name);
    var ds := v.dirs[d].dirs;
    forall c | c in v'.dirs[d].dirs ensures c in v'.dirs {
    }
    var names := DirNames(v', d);
    forall i | 0 <= i < |ds| ensures names[i] != name {
      assert ds[i] in v.dirs && ds[i] != id;
      assert v'.dirs[ds[i]].name == v.dirs[ds[i]].name;
    }
    assert names[|ds|] == name;
    assert name !in names[..|ds|];
    HasDirectoryIffGetDirectory(v', d, name);
  }

  /** `getPath`: "/" for a directory without a parent, otherwise the
      parent's path, "/" and the name, so children of the root come out as
      "//name". `None` when the fuel runs out or an id dangles. */
  function GetPath(v: Vfs, d: nat, fuel: nat): (r: Option<string>)
    ensures r.Some? ==> d in v.dirs && |r.value| >= 1 && r.value[0] == '/'
    decreases fuel
  {
    if fuel == 0 || d !in v.dirs then None
    else
      match v.dirs[d].parent
      case None => Some("/")
      case Some(p) =>
        match GetPath(v, p, fuel - 1)
        case None => None
        case Some(s) => Some(s + "/" + v.dirs[d].name)
  }

  /** The path of a child extends its parent's by "/" and its name; a
      child of a parentless root gets the doubled slash. */
  lemma PathOfChild(v: Vfs, c: nat, p: nat, fuel: nat)
    requires c in v.dirs && v.dirs[c].parent == Some(p) && GetPath(v, p, fuel).Some?
    ensures GetPath(v, c, fuel + 1) == Some(GetPath(v, p, fuel).value + "/" + v.dirs[c].name)
    ensures p in v.dirs && v.dirs[p].parent.None? ==> GetPath(v, c, fuel + 1) == Some("//" + v.dirs[c].name)
  {
    assert "/" + "/" + v.dirs[c].name == "//" + v.dirs[c].name;
  }

  /** `searchFile`: depth first, a directory's own files before its
      sub-directories, each in order. The source falls off its end when
      nothing is found; here that is `None`, as it is when the fuel runs
      out. */
  function SearchFile(v: Vfs, d: nat, h: nat, fuel: nat): (r: Option<nat>)
    requires Linked(v) && d in v.dirs
    ensures r.Some? ==> r.value in v.files && v.files[r.value].handle == h
    ensures r.Some? ==> fuel > 0 && InSubtree(v, d, r.value, fuel - 1)
    decreases fuel, 0, 0
  {
    if fuel == 0 then None
    else
      match FirstWithHandle(v, v.dirs[d].files, h)
      case Some(f) => Some(f)
      case None => SearchDirs(v, v.dirs[d].dirs, h, fuel - 1)
  }

  /** The search over a list of sibling directories, in order. */
  function SearchDirs(v: Vfs, ds: seq<nat>, h: nat, fuel: nat): (r: Option<nat>)
    requires Linked(v) && forall c :: c in ds ==> c in v.dirs
    ensures r.Some? ==> r.value in v.files && v.files[r.value].handle == h
    ensures r.Some? ==> fuel > 0 && exists i :: 0 <= i < |ds| && InSubtree(v, ds[i], r.value, fuel - 1)
    decreases fuel, 1, |ds|
  {
    if ds == [] then None
    else
      match SearchFile(v, ds[0], h, fuel)
      case Some(f) => Some(f)
      case None =>
        var r := SearchDirs(v, ds[1..], h, fuel);
        if r.Some? then
          assert exists i :: 0 <= i < |ds| && InSubtree(v, ds[i], r.value, fuel - 1) by {
            var i :| 0 <= i < |ds[1..]| && InSubtree(v, ds[1..][i], r.value, fuel - 1);
            assert ds[i + 1] == ds[1..][i];
          }
          r
        else r
  }

  /** The file is held by `d` or, within `depth` more levels, by one of its
      sub-directories' subtrees. */
  predicate InSubtree(v: Vfs, d: nat, f: nat, depth: nat)
    requires Linked(v) && d in v.dirs
    decreases depth
  {
    f in v.dirs[d].files ||
    (depth > 0 && exists i :: 0 <= i < |v.dirs[d].dirs| && InSubtree(v, v.dirs[d].dirs[i], f, depth - 1))
  }

  /** The search is complete: a file with the handle anywhere in `d`'s
      subtree is found (perhaps another one with the same handle, met
      earlier) once the fuel exceeds its depth. */
  lemma {:induction false} SearchFindsWithinDepth(v: Vfs, d: nat, f: nat, h: nat, depth: nat, fuel: nat)
    requires Linked(v) && d in v.dirs && InSubtree(v, d, f, depth)
    requires f in v.files && v.files[f].handle == h && fuel > depth
    ensures SearchFile(v, d, h, fuel).Some?
    decreases depth, 0, 0
  {
    var fs := v.dirs[d].files;
    if f in fs {
      var i :| 0 <= i < |fs| && fs[i] == f;
      assert v.files[fs[i]].handle == h;
    } else if FirstWithHandle(v, fs, h).None? {
      var ds := v.dirs[d].dirs;
      var i :| 0 <= i < |ds| && InSubtree(v, ds[i], f, depth - 1);
      SearchDirsFinds(v, ds, i, f, h, depth - 1, fuel - 1);
    }
  }

  /** The sibling-list half of the previous lemma. */
  lemma {:induction false} SearchDirsFinds(v: Vfs, ds: seq<nat>, i: nat, f: nat, h: nat, depth: nat, fuel: nat)
    requires Linked(v) && (forall c :: c in ds ==> c in v.dirs)
    requires i < |ds| && InSubtree(v, ds[i], f, depth)
    requires f in v.files && v.files[f].handle == h && fuel > depth
    ensures SearchDirs(v, ds, h, fuel).Some?
    decreases depth, 1, i
  {
    if i == 0 {
      SearchFindsWithinDepth(v, ds[0], f, h, depth, fuel);
    } else if SearchFile(v, ds[0], h, fuel).None? {
      assert ds[1..][i - 1] == ds[i];
      SearchDirsFinds(v, ds[1..], i - 1, f, h, depth, fuel);
    }
  }

  /** The first file of the list with the handle. */
  function FirstWithHandle(v: Vfs, fs: seq<nat>, h: nat): (r: Option<nat>)
    requires forall f :: f in fs ==> f in v.files
    ensures r.None? <==> forall i :: 0 <= i < |fs| ==> v.files[fs[i]].handle != h
    ensures r.Some? ==> r.value in fs && r.value in v.files && v.files[r.value].handle == h
    ensures r.Some? ==> exists i :: 0 <= i < |fs| && fs[i] == r.value && forall j :: 0 <= j < i ==> v.files[fs[j]].handle != h
  {
    if fs == [] then None
    else if v.files[fs[0]].handle == h then Some(fs[0])
    else
      var r := FirstWithHandle(v, fs[1..], h);
      assert forall i :: 1 <= i < |fs| ==> fs[i] == fs[1..][i - 1];
      if r.Some? then
        assert exists i :: 0 <= i < |fs| && fs[i] == r.value && forall j :: 0 <= j < i ==> v.files[fs[j]].handle != h by {
          var k :| 0 <= k < |fs[1..]| && fs[1..][k] == r.value && forall j :: 0 <= j < k ==> v.files[fs[1..][j]].handle != h;
          assert fs[k + 1] == r.value;
          forall j | 0 <= j < k + 1 ensures v.files[fs[j]].handle != h {
            if j > 0 { assert fs[j] == fs[1..][j - 1]; }
          }
        }
        r
      else r
  }

  /** A file held directly by the directory is found ahead of anything in
      its sub-directories: the search yields the first such file. */
  lemma SearchPrefersOwnFiles(v: Vfs, d: nat, h: nat, fuel: nat, i: nat)
    requires Linked(v) && d in v.dirs && fuel > 0
    requires i < |v.dirs[d].files| && v.files[v.dirs[d].files[i]].handle == h
    ensures SearchFile(v, d, h, fuel) == FirstWithHandle(v, v.dirs[d].files, h)
    ensures SearchFile(v, d, h, fuel).Some?
  {
  }

  /** A file in a sub-directory is found when no earlier candidate exists:
      with no file of that handle directly in `d`, the search goes on into
      the sub-directories in order. */
  lemma SearchDescends(v: Vfs, d: nat, h: nat, fuel: nat)
    requires Linked(v) && d in v.dirs && fuel > 0
    requires forall i :: 0 <= i < |v.dirs[d].files| ==> v.files[v.dirs[d].files[i]].handle != h
    ensures SearchFile(v, d, h, fuel) == SearchDirs(v, v.dirs[d].dirs, h, fuel - 1)
  {
  }

  /** The directory the path components lead to from `d`, each looked up
      with `getDirectory`; `None` at the first missing one. */
  function Walk(v: Vfs, d: nat, parts: seq<string>): (r: Option<nat>)
    requires Linked(v) && d in v.dirs
    ensures r.Some? ==> r.value in v.dirs
    decreases |parts|
  {
    if parts == [] then Some(d)
    else
      match GetDirectory(v, d, parts[0])
      case None => None
      case Some(c) => Walk(v, c, parts[1..])
  }

  /** Walking a joined path is walking the first part, then the rest from
      where that ended. */
  lemma {:induction false} WalkAppend(v: Vfs, d: nat, a: seq<string>, b: seq<string>)
    requires Linked(v) && d in v.dirs
    ensures Walk(v, d, a + b) == (match Walk(v, d, a) case None => None case Some(m) => Walk(v, m, b))
    decreases |a|
  {
    if a == [] {
      assert a + b == b;
    } else {
      assert (a + b)[0] == a[0] && (a + b)[1..] == a[1..] + b;
      match GetDirectory(v, d, a[0])
      case None =>
      case Some(c) => WalkAppend(v, c, a[1..], b);
    }
  }

  /** `VFS::getDirectory(path)`: from the root, one component at a time. The
      path arrives already split into its components. */
  method GetDirectoryByPath(v: Vfs, parts: seq<string>) returns (r: Option<nat>)
    requires Linked(v)
    ensures r == Walk(v, v.root, parts)
    ensures parts == [] ==> r == Some(v.root)
  {
    var cd := v.root;
    var i := 0;
    while i < |parts|
      invariant 0 <= i <= |parts| && cd in v.dirs
      invariant Walk(v, v.root, parts) == Walk(v, cd, parts[i..])
    {
      assert parts[i..][0] == parts[i] && parts[i..][1..] == parts[i + 1..];
      var next := GetDirectory(v, cd, parts[i]);
      if next.None? {
        return None;
      }
      cd := next.value;
      i := i + 1;
    }
    assert parts[i..] == [];
    r := Some(cd);
  }

  /** `VFS::getFile(path)`: the parent path is walked, then the file name
      looked up there. */
  method GetFileByPath(v: Vfs, dirParts: seq<string>, fileName: string) returns (r: Option<nat>)
    requires Linked(v)
    ensures Walk(v, v.root, dirParts).None? ==> r.None?
    ensures Walk(v, v.root, dirParts).Some? ==> r == GetFile(v, Walk(v, v.root, dirParts).value, fileName)
    ensures r.Some? ==> r.value in v.files && v.files[r.value].name == fileName
  {
    var d := GetDirectoryByPath(v, dirParts);
    if d.None? {
      return None;
    }
    r := GetFile(v, d.value, fileName);
  }

  /** `rename(file, n)`: refused when the file's directory already has a
      file named `n` (its own current name included); otherwise only that
      file's name changes. */
  function RenameFile(v: Vfs, f: nat, n: string): (v': Vfs)
    requires f in v.files && v.files[f].parent.Some? && DirLinked(v, v.files[f].parent.value)
    ensures HasFile(v, v.files[f].parent.value, n) ==> v' == v
    ensures !HasFile(v, v.files[f].parent.value, n) ==> v' == v.(files := v.files[f := v.files[f].(name := n)])
  {
    if HasFile(v, v.files[f].parent.value, n) then v
    else v.(files := v.files[f := v.files[f].(name := n)])
  }

  /** `rename(dir, n)`: the same rule among sibling directories. */
  function RenameDirectory(v: Vfs, d: nat, n: string): (v': Vfs)
    requires d in v.dirs && v.dirs[d].parent.Some? && DirLinked(v, v.dirs[d].parent.value)
    ensures HasDirectory(v, v.dirs[d].parent.value, n) ==> v' == v
    ensures !HasDirectory(v, v.dirs[d].parent.value, n) ==> v'.dirs == v.dirs[d := v.dirs[d].(name := n)]
    ensures v'.files == v.files && v'.root == v.root
  {
    if HasDirectory(v, v.dirs[d].parent.value, n) then v
    else v.(dirs := v.dirs[d := v.dirs[d].(name := n)])
  }

  /** No two files of the directory share a name. */
  predicate UniqueFileNames(v: Vfs, d: nat)
    requires DirLinked(v, d)
  {
    forall i, j :: 0 <= i < j < |v.dirs[d].files| ==> v.files[v.dirs[d].files[i]].name != v.files[v.dirs[d].files[j]].name
  }

  /** No two sub-directories of the directory share a name. */
  predicate UniqueDirNames(v: Vfs, d: nat)
    requires DirLinked(v, d)
  {
    forall i, j :: 0 <= i < j < |v.dirs[d].dirs| ==> v.dirs[v.dirs[d].dirs[i]].name != v.dirs[v.dirs[d].dirs[j]].name
  }

  /** Each element occurs at most once. */
  ghost predicate NoDup(s: seq<nat>) {
    forall x :: multiset(s)[x] <= 1
  }

  /** Every directory lists exactly the files and sub-directories whose
      parent it is, each once. */
  ghost predicate Owned(v: Vfs) {
    FilesOwned(v) && DirsOwned(v) && NoDups(v)
  }

  /** Each directory lists exactly the files whose parent it is. */
  ghost predicate FilesOwned(v: Vfs) {
    forall p, f :: p in v.dirs && f in v.files ==> (f in v.dirs[p].files <==> v.files[f].parent == Some(p))
  }

  /** Each directory lists exactly the sub-directories whose parent it is. */
  ghost predicate DirsOwned(v: Vfs) {
    forall p, c :: p in v.dirs && c in v.dirs ==> (c in v.dirs[p].dirs <==> v.dirs[c].parent == Some(p))
  }

  /** No directory lists a child twice. */
  ghost predicate NoDups(v: Vfs) {
    forall p :: p in v.dirs ==> NoDup(v.dirs[p].files) && NoDup(v.dirs[p].dirs)
  }

  /** Directory ownership depends only on the directory lists and parent
      pointers. */
  lemma DirsOwnedFrame(v: Vfs, w: Vfs)
    requires DirsOwned(v) && w.dirs.Keys == v.dirs.Keys
    requires forall q :: q in v.dirs ==> w.dirs[q].dirs == v.dirs[q].dirs && w.dirs[q].parent == v.dirs[q].parent
    ensures DirsOwned(w)
  {
    forall q, c | q in w.dirs && c in w.dirs
      ensures c in w.dirs[q].dirs <==> w.dirs[c].parent == Some(q)
    {
      assert q in v.dirs && c in v.dirs;
    }
  }

  /** File ownership depends only on the file lists and parent pointers. */
  lemma FilesOwnedFrame(v: Vfs, w: Vfs)
    requires FilesOwned(v) && w.dirs.Keys == v.dirs.Keys && w.files.Keys == v.files.Keys
    requires forall q :: q in v.dirs ==> w.dirs[q].files == v.dirs[q].files
    requires forall g :: g in v.files ==> w.files[g].parent == v.files[g].parent
    ensures FilesOwned(w)
  {
    forall q, g | q in w.dirs && g in w.files
      ensures g in w.dirs[q].files <==> w.files[g].parent == Some(q)
    {
      assert q in v.dirs && g in v.files;
    }
  }

  /** Renaming a file keeps file names unique in every directory. */
  lemma RenameFileKeepsUnique(v: Vfs, f: nat, n: string, q: nat)
    requires Owned(v) && f in v.files && v.files[f].parent.Some? && DirLinked(v, v.files[f].parent.value)
    requires DirLinked(v, q) && UniqueFileNames(v, q)
    ensures DirLinked(RenameFile(v, f, n), q) && UniqueFileNames(RenameFile(v, f, n), q)
  {
    var p := v.files[f].parent.value;
    var v' := RenameFile(v, f, n);
    var fs := v.dirs[q].files;
    if !HasFile(v, p, n) {
      forall i, j | 0 <= i < j < |fs| ensures v'.files[fs[i]].name != v'.files[fs[j]].name {
        if fs[i] == f {
          assert q == p;
          assert v.files[fs[j]].name != n;
        } else if fs[j] == f {
          assert q == p;
          assert v.files[fs[i]].name != n;
        }
      }
    }
  }

  /** The same for directories: renaming a directory keeps the
      sub-directory names of every directory unique. */
  lemma RenameDirectoryKeepsUnique(v: Vfs, d: nat, n: string, q: nat)
    requires Owned(v) && d in v.dirs && v.dirs[d].parent.Some? && DirLinked(v, v.dirs[d].parent.value)
    requires DirLinked(v, q) && UniqueDirNames(v, q)
    ensures DirLinked(RenameDirectory(v, d, n), q) && UniqueDirNames(RenameDirectory(v, d, n), q)
  {
    var p := v.dirs[d].parent.value;
    var v' := RenameDirectory(v, d, n);
    var ds := v.dirs[q].dirs;
    if !HasDirectory(v, p, n) {
      assert v'.dirs[q].dirs == ds;
      forall i, j | 0 <= i < j < |ds| ensures v'.dirs[ds[i]].name != v'.dirs[ds[j]].name {
        if ds[i] == d {
          assert q == p;
          assert v.dirs[ds[j]].name != n;
        } else if ds[j] == d {
          assert q == p;
          assert v.dirs[ds[i]].name != n;
        }
      }
    }
  }

  /** Erase the first occurrence of `x`. */
  function Erase(s: seq<nat>, x: nat): (r: seq<nat>)
    requires x in s
    ensures multiset(r) == multiset(s) - multiset{x}
    ensures |r| == |s| - 1
  {
    if s[0] == x then
      assert s == [x] + s[1..];
      s[1..]
    else
      assert s == [s[0]] + s[1..];
      [s[0]] + Erase(s[1..], x)
  }

  /** Erasing one element keeps every other. */
  lemma EraseKeepsOthers(s: seq<nat>, x: nat, y: nat)
    requires x in s && y in s && y != x
    ensures y in Erase(s, x)
  {
    assert y in multiset(s);
    assert multiset(Erase(s, x))[y] == multiset(s)[y];
  }

  /** Erasing from a list without duplicates removes exactly that element. */
  lemma EraseNoDup(s: seq<nat>, x: nat)
    requires x in s && NoDup(s)
    ensures NoDup(Erase(s, x))
    ensures forall y :: y in Erase(s, x) <==> y in s && y != x
  {
    var r := Erase(s, x);
    forall y ensures y in r <==> y in s && y != x {
      assert y in r <==> y in multiset(r);
      assert y in s <==> y in multiset(s);
      assert multiset(s)[x] == 1;
    }
  }

  /** Appending an element not yet listed keeps the list free of
      duplicates. */
  lemma AppendNoDup(s: seq<nat>, x: nat)
    requires NoDup(s) && x !in s
    ensures NoDup(s + [x])
  {
    assert multiset(s + [x]) == multiset(s) + multiset{x};
    assert x !in multiset(s);
  }

  /** The file is listed by the parent it records. */
  predicate FileAttached(v: Vfs, f: nat) {
    f in v.files && v.files[f].parent.Some? && v.files[f].parent.value in v.dirs &&
    f in v.dirs[v.files[f].parent.value].files
  }

  /** The directory is listed by the parent it records. */
  predicate DirAttached(v: Vfs, d: nat) {
    d in v.dirs && v.dirs[d].parent.Some? && v.dirs[d].parent.value in v.dirs &&
    d in v.dirs[v.dirs[d].parent.value].dirs
  }

  /** `remove(file)`: erased from its parent's list and its parent pointer
      nulled. The file must be in its parent's list (erasing the end
      iterator is undefined). */
  function RemoveFile(v: Vfs, f: nat): (v': Vfs)
    requires FileAttached(v, f)
    ensures var p := v.files[f].parent.value;
            v'.dirs == v.dirs[p := v.dirs[p].(files := Erase(v.dirs[p].files, f))] &&
            v'.files == v.files[f := v.files[f].(parent := None)] && v'.root == v.root
    ensures v'.dirs.Keys == v.dirs.Keys && v'.files.Keys == v.files.Keys
  {
    var p := v.files[f].parent.value;
    Vfs(v.dirs[p := v.dirs[p].(files := Erase(v.dirs[p].files, f))], v.files[f := v.files[f].(parent := None)], v.root)
  }

  /** `remove(dir)`: erased from its parent's list and its parent pointer
      nulled; nothing else changes. */
  function RemoveDirectory(v: Vfs, d: nat): (v': Vfs)
    requires DirAttached(v, d)
    ensures var p := v.dirs[d].parent.value;
            v'.dirs.Keys == v.dirs.Keys && v'.dirs[p].dirs == Erase(v.dirs[p].dirs, d) && v'.dirs[d].parent.None?
    ensures forall q :: q in v.dirs ==> v'.dirs[q].name == v.dirs[q].name && v'.dirs[q].files == v.dirs[q].files
    ensures forall q :: q in v.dirs && q != v.dirs[d].parent.value ==> v'.dirs[q].dirs == v.dirs[q].dirs
    ensures forall q :: q in v.dirs && q != d ==> v'.dirs[q].parent == v.dirs[q].parent
    ensures v'.files == v.files && v'.root == v.root
  {
    var p := v.dirs[d].parent.value;
    var dirs1 := v.dirs[p := v.dirs[p].(dirs := Erase(v.dirs[p].dirs, d))];
    Vfs(dirs1[d := dirs1[d].(parent := None)], v.files, v.root)
  }

  /** Removing a file keeps every directory's ownership exact, and the file
      is then listed nowhere. */
  lemma RemoveFileKeepsOwned(v: Vfs, f: nat)
    requires Owned(v) && FileAttached(v, f)
    ensures Owned(RemoveFile(v, f))
    ensures forall q :: q in RemoveFile(v, f).dirs ==> f !in RemoveFile(v, f).dirs[q].files
  {
    var p := v.files[f].parent.value;
    EraseNoDup(v.dirs[p].files, f);
    var v' := RemoveFile(v, f);
    RemoveFileKeepsFilesOwned(v, f);
    DirsOwnedFrame(v, v');
    forall q | q in v'.dirs ensures NoDup(v'.dirs[q].files) && NoDup(v'.dirs[q].dirs) {
      assert q in v.dirs;
    }
  }

  /** The file-list part of the previous lemma. */
  lemma RemoveFileKeepsFilesOwned(v: Vfs, f: nat)
    requires FilesOwned(v) && NoDups(v) && FileAttached(v, f)
    ensures FilesOwned(RemoveFile(v, f))
  {
    var p := v.files[f].parent.value;
    EraseNoDup(v.dirs[p].files, f);
    var v' := RemoveFile(v, f);
    forall q, g | q in v'.dirs && g in v'.files
      ensures g in v'.dirs[q].files <==> v'.files[g].parent == Some(q)
    {
      assert q in v.dirs && g in v.files;
      if q == p && g != f {
        assert g in v'.dirs[q].files <==> g in v.dirs[q].files;
      }
    }
  }

  /** Removing a directory keeps every directory's ownership exact. */
  lemma RemoveDirectoryKeepsOwned(v: Vfs, d: nat)
    requires Owned(v) && DirAttached(v, d)
    ensures Owned(RemoveDirectory(v, d))
  {
    var p := v.dirs[d].parent.value;
    EraseNoDup(v.dirs[p].dirs, d);
    var v' := RemoveDirectory(v, d);
    RemoveDirectoryKeepsDirsOwned(v, d);
    FilesOwnedFrame(v, v');
    forall q | q in v'.dirs ensures NoDup(v'.dirs[q].files) && NoDup(v'.dirs[q].dirs) {
      assert q in v.dirs;
    }
  }

  /** The directory-list part of the previous lemma. */
  lemma RemoveDirectoryKeepsDirsOwned(v: Vfs, d: nat)
    requires DirsOwned(v) && NoDups(v) && DirAttached(v, d)
    ensures DirsOwned(RemoveDirectory(v, d))
  {
    var p := v.dirs[d].parent.value;
    EraseNoDup(v.dirs[p].dirs, d);
    var v' := RemoveDirectory(v, d);
    forall q, c | q in v'.dirs && c in v'.dirs
      ensures c in v'.dirs[q].dirs <==> v'.dirs[c].parent == Some(q)
    {
      assert q in v.dirs && c in v.dirs;
    }
  }

  /** Removing one file leaves every other attached file attached. */
  lemma RemoveFileKeepsAttached(v: Vfs, g: nat, f: nat)
    requires FileAttached(v, g) && FileAttached(v, f) && g != f
    ensures FileAttached(RemoveFile(v, g), f)
  {
    var p := v.files[f].parent.value;
    if p == v.files[g].parent.value {
      EraseKeepsOthers(v.dirs[p].files, g, f);
    }
  }

  /** Removing one directory leaves every other attached directory
      attached. */
  lemma RemoveDirectoryKeepsAttached(v: Vfs, g: nat, d: nat)
    requires DirAttached(v, g) && DirAttached(v, d) && g != d
    ensures DirAttached(RemoveDirectory(v, g), d)
  {
    var p := v.dirs[d].parent.value;
    var v' := RemoveDirectory(v, g);
    assert v'.dirs[d].parent == Some(p);
    if p == v.dirs[g].parent.value {
      EraseKeepsOthers(v.dirs[p].dirs, g, d);
    } else {
      assert v'.dirs[p].dirs == v.dirs[p].dirs;
    }
  }

  /** Append a file to a directory's list and make that directory its
      parent. */
  function AttachFile(v: Vfs, target: nat, f: nat): (v': Vfs)
    requires target in v.dirs && f in v.files
    ensures v'.dirs.Keys == v.dirs.Keys && v'.files.Keys == v.files.Keys
    ensures v'.dirs[target].files == v.dirs[target].files + [f] && v'.files[f].parent == Some(target)
  {
    v.(dirs := v.dirs[target := v.dirs[target].(files := v.dirs[target].files + [f])],
       files := v.files[f := v.files[f].(parent := Some(target))])
  }

  /** Attaching a file that has no parent keeps ownership exact. */
  lemma AttachFileKeepsOwned(v: Vfs, target: nat, f: nat)
    requires Owned(v) && target in v.dirs && f in v.files && v.files[f].parent.None?
    ensures Owned(AttachFile(v, target, f))
  {
    assert f !in v.dirs[target].files;
    AppendNoDup(v.dirs[target].files, f);
    var v' := AttachFile(v, target, f);
    DirsOwnedFrame(v, v');
    forall q, g | q in v'.dirs && g in v'.files
      ensures g in v'.dirs[q].files <==> v'.files[g].parent == Some(q)
    {
      assert q in v.dirs && g in v.files;
    }
    forall q | q in v'.dirs ensures NoDup(v'.dirs[q].files) && NoDup(v'.dirs[q].dirs) {
      assert q in v.dirs;
    }
  }

  /** Append a directory to a directory's list and make that directory its
      parent. */
  function AttachDirectory(v: Vfs, target: nat, d: nat): (v': Vfs)
    requires target in v.dirs && d in v.dirs
    ensures v'.dirs.Keys == v.dirs.Keys && v'.files == v.files
    ensures v'.dirs[target].dirs == v.dirs[target].dirs + [d] && v'.dirs[d].parent == Some(target)
  {
    var dirs1 := v.dirs[target := v.dirs[target].(dirs := v.dirs[target].dirs + [d])];
    v.(dirs := dirs1[d := dirs1[d].(parent := Some(target))])
  }

  /** Attaching a directory that has no parent keeps ownership exact. */
  lemma AttachDirectoryKeepsOwned(v: Vfs, target: nat, d: nat)
    requires Owned(v) && target in v.dirs && d in v.dirs && v.dirs[d].parent.None?
    ensures Owned(AttachDirectory(v, target, d))
  {
    assert d !in v.dirs[target].dirs;
    AppendNoDup(v.dirs[target].dirs, d);
    var v' := AttachDirectory(v, target, d);
    FilesOwnedFrame(v, v');
    AttachDirectoryKeepsDirsOwned(v, target, d);
    forall q | q in v'.dirs ensures NoDup(v'.dirs[q].files) && NoDup(v'.dirs[q].dirs) {
      assert q in v.dirs;
    }
  }

  /** The directory-list part of the previous lemma. */
  lemma AttachDirectoryKeepsDirsOwned(v: Vfs, target: nat, d: nat)
    requires DirsOwned(v) && target in v.dirs && d in v.dirs && v.dirs[d].parent.None?
    ensures DirsOwned(AttachDirectory(v, target, d))
  {
    assert d !in v.dirs[target].dirs;
    var v' := AttachDirectory(v, target, d);
    forall q, c | q in v'.dirs && c in v'.dirs
      ensures c in v'.dirs[q].dirs <==> v'.dirs[c].parent == Some(q)
    {
      assert q in v.dirs && c in v.dirs;
    }
  }

  /** The same-named file `move` replaces in the target, if any, must be
      listed by the parent it records, as `remove` needs. It may be the
      moved file itself. */
  predicate FileMovable(v: Vfs, target: nat, f: nat) {
    f in v.files && DirLinked(v, target) &&
    (HasFile(v, target, v.files[f].name) ==>
       FileAttached(v, GetFile(v, target, v.files[f].name).value))
  }

  /** `move` finds the moved file itself under its name in the target. */
  predicate SelfMoveFile(v: Vfs, target: nat, f: nat)
    requires f in v.files && DirLinked(v, target)
  {
    GetFile(v, target, v.files[f].name) == Some(f)
  }

  /** The first step of `move(target, file)`: a file of the same name in
      the target is removed. When that file is the moved one, it is the
      moved file that is removed. */
  function ReplaceFile(v: Vfs, target: nat, f: nat): (v': Vfs)
    requires FileMovable(v, target, f)
    ensures v'.dirs.Keys == v.dirs.Keys && v'.files.Keys == v.files.Keys
    ensures SelfMoveFile(v, target, f) ==> FileAttached(v, f) && v' == RemoveFile(v, f)
    ensures !SelfMoveFile(v, target, f) ==>
              v'.files[f] == v.files[f] && (FileAttached(v, f) ==> FileAttached(v', f))
    ensures Owned(v) ==> Owned(v')
  {
    if HasFile(v, target, v.files[f].name) then
      var g := GetFile(v, target, v.files[f].name).value;
      assert FileAttached(v, f) && g != f ==> FileAttached(RemoveFile(v, g), f) by {
        if FileAttached(v, f) && g != f {
          RemoveFileKeepsAttached(v, g, f);
        }
      }
      assert Owned(v) ==> Owned(RemoveFile(v, g)) by {
        if Owned(v) {
          RemoveFileKeepsOwned(v, g);
        }
      }
      RemoveFile(v, g)
    else v
  }

  /** `move(target, file)` as written: after the replacement the file is
      appended to the target's list; it is neither erased from its old
      directory's list nor re-parented. When the replaced file was the
      moved one, it has just been removed and freed, and what is appended
      is a file with no parent. */
  function MoveFile(v: Vfs, target: nat, f: nat): (v': Vfs)
    requires FileMovable(v, target, f)
    ensures target in v'.dirs && |v'.dirs[target].files| > 0 && v'.dirs[target].files[|v'.dirs[target].files| - 1] == f
    ensures f in v'.files
    ensures !SelfMoveFile(v, target, f) ==> v'.files[f].parent == v.files[f].parent
    ensures SelfMoveFile(v, target, f) ==> v'.files[f].parent.None?
  {
    var v1 := ReplaceFile(v, target, f);
    v1.(dirs := v1.dirs[target := v1.dirs[target].(files := v1.dirs[target].files + [f])])
  }

  /** Moving a file out of one directory into another leaves it listed in
      both, with its old parent: the tree no longer owns it exactly. */
  lemma MoveFileLeavesOldListing(v: Vfs, target: nat, f: nat)
    requires Owned(v) && FileAttached(v, f) && FileMovable(v, target, f)
    requires v.files[f].parent.value != target
    ensures var v' := MoveFile(v, target, f); var p := v.files[f].parent.value;
            p in v'.dirs && f in v'.dirs[p].files && f in v'.dirs[target].files && !Owned(v')
  {
    var p := v.files[f].parent.value;
    assert f !in v.dirs[target].files;
    var v1 := ReplaceFile(v, target, f);
    assert FileAttached(v1, f);
    var v' := MoveFile(v, target, f);
    assert v'.dirs[p] == v1.dirs[p];
    assert v'.files[f].parent == Some(p);
    assert f in v'.dirs[target].files;
    assert !(f in v'.dirs[target].files <==> v'.files[f].parent == Some(target));
  }

  /** Moving a file into the directory that already lists it removes the
      file first, then appends it again: the target lists a file that has
      no parent (the source has deleted it), and ownership is broken. */
  lemma MoveFileIntoOwnDirectoryDangles(v: Vfs, target: nat, f: nat)
    requires Owned(v) && FileMovable(v, target, f) && SelfMoveFile(v, target, f)
    ensures var v' := MoveFile(v, target, f);
            f in v'.dirs[target].files && v'.files[f].parent.None? && !Owned(v')
  {
    var v' := MoveFile(v, target, f);
    assert f in v'.dirs[target].files;
    assert !(f in v'.dirs[target].files <==> v'.files[f].parent == Some(target));
  }

  /** `move(target, file)` corrected twice: a file already listed under
      its name by the target stays where it is, and any other file leaves
      its old directory's list and takes the target as parent, as in
      `move(target, dir)`. */
  function MoveFileDetached(v: Vfs, target: nat, f: nat): (v': Vfs)
    requires FileMovable(v, target, f) && FileAttached(v, f)
    ensures target in v'.dirs && f in v'.files && f in v'.dirs[target].files
    ensures SelfMoveFile(v, target, f) ==> v' == v
    ensures !SelfMoveFile(v, target, f) ==>
              v'.files[f].parent == Some(target) &&
              |v'.dirs[target].files| > 0 && v'.dirs[target].files[|v'.dirs[target].files| - 1] == f
  {
    if SelfMoveFile(v, target, f) then v
    else
      var v1 := ReplaceFile(v, target, f);
      AttachFile(RemoveFile(v1, f), target, f)
  }

  /** The corrected move keeps the ownership invariant, so the file has the
      target as parent and is listed by the target alone. */
  lemma MoveFileDetachedKeepsOwned(v: Vfs, target: nat, f: nat)
    requires FileMovable(v, target, f) && FileAttached(v, f) && Owned(v)
    ensures Owned(MoveFileDetached(v, target, f))
    ensures MoveFileDetached(v, target, f).files[f].parent == Some(target)
    ensures forall q :: q in MoveFileDetached(v, target, f).dirs && q != target ==> f !in MoveFileDetached(v, target, f).dirs[q].files
  {
    var v' := MoveFileDetached(v, target, f);
    if SelfMoveFile(v, target, f) {
      assert v' == v;
    } else {
      assert v' == AttachFile(RemoveFile(ReplaceFile(v, target, f), f), target, f);
      MoveFileAwayKeepsOwned(v, target, f);
    }
    OwnedListing(v', target, f);
  }

  /** In an owned tree a file listed by a directory has it as parent and
      is listed by no other. */
  lemma OwnedListing(v: Vfs, target: nat, f: nat)
    requires Owned(v) && target in v.dirs && f in v.dirs[target].files && f in v.files
    ensures v.files[f].parent == Some(target)
    ensures forall q :: q in v.dirs && q != target ==> f !in v.dirs[q].files
  {
  }

  /** The case of the previous lemma where the file changes directory. */
  lemma MoveFileAwayKeepsOwned(v: Vfs, target: nat, f: nat)
    requires FileMovable(v, target, f) && FileAttached(v, f) && Owned(v) && !SelfMoveFile(v, target, f)
    ensures var v' := AttachFile(RemoveFile(ReplaceFile(v, target, f), f), target, f);
            Owned(v') && v'.files[f].parent == Some(target)
  {
    var v1 := ReplaceFile(v, target, f);
    RemoveFileKeepsOwned(v1, f);
    AttachFileKeepsOwned(RemoveFile(v1, f), target, f);
  }

  /** The same-named directory `move` replaces in the target, if any, must
      be listed by the parent it records. It may be the moved directory
      itself. */
  predicate DirMovable(v: Vfs, target: nat, d: nat) {
    d in v.dirs && DirLinked(v, target) &&
    (HasDirectory(v, target, v.dirs[d].name) ==>
       DirAttached(v, GetDirectory(v, target, v.dirs[d].name).value))
  }

  /** `move` finds the moved directory itself under its name in the
      target. */
  predicate SelfMoveDir(v: Vfs, target: nat, d: nat)
    requires d in v.dirs && DirLinked(v, target)
  {
    GetDirectory(v, target, v.dirs[d].name) == Some(d)
  }

  /** The first step of `move(target, dir)`: a directory of the same name in
      the target is removed. When that directory is the moved one, it is
      the moved directory that is removed. */
  function ReplaceDirectory(v: Vfs, target: nat, d: nat): (v': Vfs)
    requires DirMovable(v, target, d)
    ensures v'.dirs.Keys == v.dirs.Keys && v'.dirs[d].name == v.dirs[d].name
    ensures SelfMoveDir(v, target, d) ==> DirAttached(v, d) && v' == RemoveDirectory(v, d)
    ensures !SelfMoveDir(v, target, d) ==>
              v'.dirs[d].parent == v.dirs[d].parent && (DirAttached(v, d) ==> DirAttached(v', d))
    ensures Owned(v) ==> Owned(v')
  {
    if HasDirectory(v, target, v.dirs[d].name) then
      var g := GetDirectory(v, target, v.dirs[d].name).value;
      assert DirAttached(v, d) && g != d ==> DirAttached(RemoveDirectory(v, g), d) by {
        if DirAttached(v, d) && g != d {
          RemoveDirectoryKeepsAttached(v, g, d);
        }
      }
      assert Owned(v) ==> Owned(RemoveDirectory(v, g)) by {
        if Owned(v) {
          RemoveDirectoryKeepsOwned(v, g);
        }
      }
      RemoveDirectory(v, g)
    else v
  }

  /** `d` is `g` or lies under it within `depth` levels: `~Directory`
      deletes the whole subtree with `g`. */
  predicate DirUnder(v: Vfs, g: nat, d: nat, depth: nat)
    decreases depth
  {
    g == d ||
    (depth > 0 && g in v.dirs && exists i :: 0 <= i < |v.dirs[g].dirs| && DirUnder(v, v.dirs[g].dirs[i], d, depth - 1))
  }

  /** Removing the same-named directory of the target deletes the moved
      directory: it is that directory or lies in its subtree. A path with
      no directory twice has fewer steps than there are directories, so
      that many levels reach every descendant. */
  predicate MoveDeletesDir(v: Vfs, target: nat, d: nat)
    requires d in v.dirs && DirLinked(v, target)
  {
    HasDirectory(v, target, v.dirs[d].name) &&
    DirUnder(v, GetDirectory(v, target, v.dirs[d].name).value, d, |v.dirs|)
  }

  /** The self-move is the first case of a move that deletes its directory. */
  lemma SelfMoveDeletes(v: Vfs, target: nat, d: nat)
    requires d in v.dirs && DirLinked(v, target) && SelfMoveDir(v, target, d)
    ensures MoveDeletesDir(v, target, d)
  {
    HasDirectoryIffGetDirectory(v, target, v.dirs[d].name);
  }

  /** Moving a directory into the target whose same-named directory is its
      parent deletes it: in R/x/x, moving the inner x into R. */
  lemma MoveUnderNamesakeDeletes(v: Vfs, target: nat, d: nat)
    requires d in v.dirs && DirLinked(v, target) && HasDirectory(v, target, v.dirs[d].name)
    requires var g := GetDirectory(v, target, v.dirs[d].name).value; g in v.dirs && d in v.dirs[g].dirs
    ensures MoveDeletesDir(v, target, d)
  {
    var g := GetDirectory(v, target, v.dirs[d].name).value;
    var i :| 0 <= i < |v.dirs[g].dirs| && v.dirs[g].dirs[i] == d;
    assert DirUnder(v, v.dirs[g].dirs[i], d, |v.dirs| - 1);
  }

  /** `move(target, dir)` as written: after the replacement the directory
      is erased from its old parent's list, re-parented and appended to the
      target's list. When the replaced directory was the moved one or an
      ancestor of it, the moved directory has been deleted with it and
      reading its parent is undefined: `None`. */
  function MoveDirectory(v: Vfs, target: nat, d: nat): (r: Option<Vfs>)
    requires DirMovable(v, target, d) && DirAttached(v, d)
    ensures r.None? <==> MoveDeletesDir(v, target, d)
    ensures SelfMoveDir(v, target, d) ==> r.None?
    ensures r.Some? ==> target in r.value.dirs && d in r.value.dirs && r.value.dirs[d].parent == Some(target)
    ensures r.Some? ==> |r.value.dirs[target].dirs| > 0 && r.value.dirs[target].dirs[|r.value.dirs[target].dirs| - 1] == d
  {
    if SelfMoveDir(v, target, d) then SelfMoveDeletes(v, target, d); None
    else if MoveDeletesDir(v, target, d) then None
    else
      var v1 := ReplaceDirectory(v, target, d);
      Some(AttachDirectory(RemoveDirectory(v1, d), target, d))
  }

  /** `move(target, dir)` corrected: a move that would delete the
      directory leaves everything where it is. */
  function MoveDirectoryChecked(v: Vfs, target: nat, d: nat): (v': Vfs)
    requires DirMovable(v, target, d) && DirAttached(v, d)
    ensures target in v'.dirs && d in v'.dirs
    ensures SelfMoveDir(v, target, d) ==> d in v'.dirs[target].dirs
    ensures MoveDeletesDir(v, target, d) ==> v' == v
    ensures !MoveDeletesDir(v, target, d) ==> Some(v') == MoveDirectory(v, target, d) && d in v'.dirs[target].dirs
  {
    if MoveDeletesDir(v, target, d) then v else MoveDirectory(v, target, d).value
  }

  /** The corrected directory move keeps the ownership invariant; the
      directory ends with the target as parent unless the move was refused
      because the target's same-named directory is a proper ancestor of it. */
  lemma MoveDirectoryKeepsOwned(v: Vfs, target: nat, d: nat)
    requires DirMovable(v, target, d) && DirAttached(v, d) && Owned(v)
    ensures Owned(MoveDirectoryChecked(v, target, d))
    ensures SelfMoveDir(v, target, d) || !MoveDeletesDir(v, target, d) ==>
              MoveDirectoryChecked(v, target, d).dirs[d].parent == Some(target)
  {
    if SelfMoveDir(v, target, d) {
      SelfMoveDeletes(v, target, d);
      assert d in v.dirs[target].dirs;
    } else if !MoveDeletesDir(v, target, d) {
      var v1 := ReplaceDirectory(v, target, d);
      RemoveDirectoryKeepsOwned(v1, d);
      AttachDirectoryKeepsOwned(RemoveDirectory(v1, d), target, d);
    }
  }
}

=== FILE: Wrappers.dfy ===
/** Failure-carrying values used across the model: an optional value in place
    of a nullable pointer, and a result that is either a value or an error. */
module Wrappers {

  /** A value that may be absent; `None` stands for a null pointer. */
  datatype Option<+T> = None | Some(value: T) {
    /** The carried value, or `default` when there is none. */
    function UnwrapOr(default: T): (r: T)
      ensures Some? ==> r == value
      ensures None? ==> r == default
    {
      if Some? then value else default
    }
  }

  /** Either a value or an error of type `E`. */
  datatype Result<+T, +E> = Ok(value: T) | Err(error: E)
}
